=== FILE: README.md ===
# A Dafny model of the engse508-hana MapReduce jobs

The repository is a set of Hadoop-streaming jobs written in Python. Each job
has a mapper that turns input lines into `key<TAB>value` lines and a reducer
that reads them back after the shuffle has sorted them by key. This project
models the record shaping of the mappers and the accumulation of the reducers
as pure Dafny functions, and proves what they promise.

Almost every reducer runs the same loop. It keeps a current key and its
buffered values, appends while the key stays equal, flushes the group when the
key changes, and flushes once more at end of input. Lines it cannot read are
skipped and leave the open group alone. That loop is modelled once, in module
`Runs`:

- `GroupRuns` cuts the parsed records into maximal runs of equal keys.
- `Reduce` writes one flush per run.
- `ScanLines` is the loop itself, proved equal to `Reduce`.

Lemmas state that the runs are non-empty, that neighbouring runs differ in
key, and that the runs concatenate back to the input. When equal keys are
adjacent (the shuffle's guarantee, taken as a precondition), each run holds
every value of its key, so the output is exactly the flush of each key's
values. Each job then supplies its line parser and its flush:

- `IpCount` (lab1): the first token of a log line, and count sums per address.
- `Temperature` (lab3, 3.2): the year of a date, and the maximum per year.
- `Sales` (lab3, 3.3): `quantity * price` under a region key and a product key; sums are split into category and name.
- `AccessLog` (lab3, 3.4): the keys emitted for the captured groups of a Common Log Format line.
- `CustomerOrders` (lab3, 3.5): source tagging, then a reduce-side join of each customer with its orders.
- `StockTicks` (lab3, 3.6): the composite `symbol_date` key. Each run is sorted by time (a stable sort) and summarised as open, high, low, close and volume.
- `Ngrams` (lab3, 3.8 mapper and 3.7 reducer): text cleaning and trigram generation; counts are kept when they reach `MinFrequency` (5).
- `Tfidf` (lab3, 3.8): document frequencies, re-emitted with every buffered (document, tf) pair of the word.
- `WordCount` (lab3, part 1): word cleaning, then a dictionary tally written in ascending word order. This reducer does not depend on the input order.
- `Maintenance` (lab2): severity classification, entry parsing and the nine tagged analyses. The reducer chooses its accumulator from the analysis tag.
- `Ecommerce` (lab4, 4.2): total, count and average per key.
- `EtlMapper` and `EtlReducer` (lab4, 4.1), the multi-source ETL job:
  - the mapper normalises phones and e-mails, scores customer data quality and filters customers, purchases and products;
  - the reducer is a one-pass hash join with last-write-wins customer and product tables and append-only purchase buckets;
  - at the end it performs a left-outer join and writes statistics whose divisors are guarded by `max(n, 1)`.
- `IotMapper`, `IotReducer` and `IotAlerts` (lab4, 4.3), the IoT sensor job:
  - the mapper detects range anomalies and emits keys by prefix;
  - the reducer dispatches on the key prefix to summary statistics, a capped anomaly preview, battery alerts or a device health score clamped to [0, 100];
  - the alert rules and the severity sort of the analysis script.

`Text`, `Lines`, `Numbers`, `Dicts` and `Wrappers` hold the parts of Python
the jobs rely on:

- `str.strip`, `split`, `lower` and `int()`/`float()` on a field;
- sums, maxima, minima, means and sorting of a group's values;
- insertion-ordered dictionaries;
- optional results for a line that does not parse.

`clean_email` tests only `email.split('@')[1]` for a '.': the text between
the first '@' and any second one, not everything after the first '@'.

## Model

| member | source | states |
|---|---|---|
| IpCount.AddressOf | lab1/count_unique_IPs_domains/mapper.py:9-21 | None exactly for a blank or whitespace-only line; otherwise a non-empty token without spaces that is the whole stripped line or the part before its first space |
| IpCount.MapLines | lab1/count_unique_IPs_domains/mapper.py:6-24 | every pair the mapper writes has count 1 and a non-empty, space-free address |
| IpCount.MapOneLine | lab1/count_unique_IPs_domains/mapper.py:9-24 | a blank line adds nothing to the output; any other line adds exactly one `(address, 1)` at the end |
| IpCount.ParseCount | lab1/count_unique_IPs_domains/reducer.py:12-16 | a line is read exactly when it has a tab and the text after it is an integer; the key and count are those two parts |
| IpCount.CountLineRoundTrip | lab1/count_unique_IPs_domains/reducer.py:15-16 | a line `ip<TAB>n` as the mapper formats it reads back as `(ip, n)` |
| IpCount.MalformedLineSkipped | lab1/count_unique_IPs_domains/reducer.py:27-30 | a line without a tab or with a non-integer count changes nothing in the output |
| IpCount.Totals | lab1/count_unique_IPs_domains/reducer.py:18-38 | with equal addresses adjacent, `(ip, n)` is written iff ip is a non-empty address of the input and n is the sum of all its counts |
| Temperature.MapLine | lab3/3.2_temperature_data_analysis/mapper.py:6-11 | a line is mapped exactly when it has exactly two tab fields; the key is the date up to its first '-' (no '-' in it) and the temperature text passes through unchanged |
| Temperature.YearOfIsoDate | lab3/3.2_temperature_data_analysis/mapper.py:8 | for a date `yyyy-...` with a dash-free year the key is exactly that year |
| Temperature.ParseTemperature | lab3/3.2_temperature_data_analysis/reducer.py:9-11 | a line is read exactly when it has two tab fields and the second is an integer, and then it is that (year, temperature) |
| Temperature.Maxima | lab3/3.2_temperature_data_analysis/reducer.py:13-24 | with equal years adjacent, `(year, m)` is written iff the year is a non-empty year of the input and m is its maximum; m is one of its temperatures and bounds all of them |
| Temperature.FlushPermutation | lab3/3.2_temperature_data_analysis/reducer.py:14 | permuting the temperatures of a run does not change what it writes |
| Temperature.MalformedLineSkipped | lab3/3.2_temperature_data_analysis/reducer.py:20-21 | a line that is not two tab fields or has a non-integer temperature changes nothing in the output |
| Sales.MapRow | lab3/3.3_sales_data_processing_with_multiple_outputs/mapper.py:13-25 | a row emits two pairs exactly when it has five fields and integer quantity and price, else none; the pairs are `region_<region>` then `product_<product>`, both carrying quantity times price |
| Sales.HeaderIgnored | lab3/3.3_sales_data_processing_with_multiple_outputs/mapper.py:6-11 | the first line contributes nothing, whatever it holds |
| Sales.KeySplits | lab3/3.3_sales_data_processing_with_multiple_outputs/reducer.py:17 | a `region_`/`product_` key splits at its first '_' back into category and name, whatever the name holds |
| Sales.ParseSale | lab3/3.3_sales_data_processing_with_multiple_outputs/reducer.py:9-11 | a line is read exactly when it has two tab fields and an integer value, and then it is that (key, value) |
| Sales.Totals | lab3/3.3_sales_data_processing_with_multiple_outputs/reducer.py:13-26 | with equal keys adjacent, `(category, name, n)` is written iff `category_name` is a key of the input, category has no '_', and n is the sum of that key's values |
| Sales.FlushHas | lab3/3.3_sales_data_processing_with_multiple_outputs/reducer.py:16-18 | a run writes `(category, name, n)` iff its key is `category_name` with no '_' in category and n is the run's sum |
| Sales.FlushPermutation | lab3/3.3_sales_data_processing_with_multiple_outputs/reducer.py:14 | permuting the values of a run does not change what it writes |
| Sales.MalformedLineSkipped | lab3/3.3_sales_data_processing_with_multiple_outputs/reducer.py:21-22 | a line that is not two tab fields or has a non-integer value changes nothing in the output |
| AccessLog.HourOf | lab3/3.4_log_file_analysis_with_pattern_matching/mapper.py:19 | the hour exists exactly when the timestamp has a ':' and it holds no ':' |
| AccessLog.HourOfTimestamp | lab3/3.4_log_file_analysis_with_pattern_matching/mapper.py:19 | for `date:hour:rest` with colon-free date and hour, the hour is exactly that field |
| AccessLog.MapLine | lab3/3.4_log_file_analysis_with_pattern_matching/mapper.py:13-28 | a matched line with integer status and size and a ':' in its timestamp emits page, status, hour and address keys in that order, plus an error key iff the status is at least 400; any other line emits nothing |
| AccessLog.StatusKeyRoundTrip | lab3/3.4_log_file_analysis_with_pattern_matching/mapper.py:23 | the status key spells the code so that it reads back as the same integer |
| CustomerOrders.MapRow | lab3/3.5_Join_Operations-Customer_Orders_Analysis/mapper.py:12-22 | a customer-file row (the name tested for "customer" first, case-insensitively) is emitted iff it has four fields and is not the header, as `id, customer, name, tier, country`; an order-file row likewise as `customer_id, order, order_id, amount, date` |
| CustomerOrders.ParseJoinLine | lab3/3.5_Join_Operations-Customer_Orders_Analysis/reducer.py:10-13 | a line is read exactly when it has at least two tab fields; its key and record are those fields again |
| CustomerOrders.LastCustomerIsLast | lab3/3.5_Join_Operations-Customer_Orders_Analysis/reducer.py:30-31 | a run's customer details are those of its last customer record, and there are none iff the run holds no customer record |
| CustomerOrders.CustomerBeforeOrAfterOrders | lab3/3.5_Join_Operations-Customer_Orders_Analysis/reducer.py:15-33 | a customer's joined line is the same whether its customer record comes before or after its orders |
| CustomerOrders.FlushHas | lab3/3.5_Join_Operations-Customer_Orders_Analysis/reducer.py:17-23 | a run writes a joined line iff its id is non-empty and it has customer details; the line's count, total and average are those of the run's orders, the average 0 when there are none |
| CustomerOrders.Joins | lab3/3.5_Join_Operations-Customer_Orders_Analysis/reducer.py:8-45 | with equal ids adjacent, a joined line is written iff its id is non-empty, its details are that id's last customer record, and its figures are those of all that id's orders |
| CustomerOrders.MalformedLineSkipped | lab3/3.5_Join_Operations-Customer_Orders_Analysis/reducer.py:35-36 | a line with fewer than two tab fields changes nothing in the output |
| StockTicks.MapRow | lab3/3.6_Secondary_Sorting_with_Composite_Keys/mapper.py:7-14 | a row is emitted iff it has five fields and is not the header, as `symbol_date, time, price, volume` |
| StockTicks.CompositeKeySplits | lab3/3.6_Secondary_Sorting_with_Composite_Keys/reducer.py:12 | a composite key of an underscore-free symbol and date splits back into exactly those two parts |
| StockTicks.KeyOfTwoParts | lab3/3.6_Secondary_Sorting_with_Composite_Keys/reducer.py:12 | a key that splits into two parts is those parts joined by '_', and neither holds '_' |
| StockTicks.ParseTick | lab3/3.6_Secondary_Sorting_with_Composite_Keys/reducer.py:25-30 | a line is read exactly when it has at least four tab fields; its key is the first and its tick the next three |
| StockTicks.InsertTick | lab3/3.6_Secondary_Sorting_with_Composite_Keys/reducer.py:13 | inserting into a time-sorted list keeps it sorted, one longer, and puts the tick in front of every tick not earlier than it |
| StockTicks.InsertTickPermutation | lab3/3.6_Secondary_Sorting_with_Composite_Keys/reducer.py:13 | inserting adds exactly the one tick and loses none |
| StockTicks.SortTicks | lab3/3.6_Secondary_Sorting_with_Composite_Keys/reducer.py:13 | the sorted ticks are ordered by time and as many as the run's ticks |
| StockTicks.SortTicksPermutation | lab3/3.6_Secondary_Sorting_with_Composite_Keys/reducer.py:13 | the sorted ticks are a permutation of the run's ticks |
| StockTicks.FirstEarliestSpec | lab3/3.6_Secondary_Sorting_with_Composite_Keys/reducer.py:13 | the first earliest tick has the smallest time and no earlier tick in the input shares that time |
| StockTicks.LastLatestSpec | lab3/3.6_Secondary_Sorting_with_Composite_Keys/reducer.py:13 | the last latest tick has the largest time and no later tick in the input shares that time |
| StockTicks.SortedFirst | lab3/3.6_Secondary_Sorting_with_Composite_Keys/reducer.py:13-17 | because the sort is stable, the first sorted tick is the first of the earliest ticks |
| StockTicks.SortedLast | lab3/3.6_Secondary_Sorting_with_Composite_Keys/reducer.py:13-18 | because the sort is stable, the last sorted tick is the last of the latest ticks |
| StockTicks.SortedAggregates | lab3/3.6_Secondary_Sorting_with_Composite_Keys/reducer.py:15-19 | high, low and total volume are the same before and after the sort |
| StockTicks.FlushBar | lab3/3.6_Secondary_Sorting_with_Composite_Keys/reducer.py:8-21 | a safe run writes one bar: symbol and date from the key, open and close from the first earliest and last latest tick, the extreme prices and the volume sum |
| StockTicks.SingleTick | lab3/3.6_Secondary_Sorting_with_Composite_Keys/reducer.py:12-21 | a run of one convertible tick under a two-part key writes one bar whose open, high, low and close are all that tick's price and whose volume is its volume |
| StockTicks.FlushHas | lab3/3.6_Secondary_Sorting_with_Composite_Keys/reducer.py:8-21 | a run writes a bar iff its key is non-empty and splits into two parts and all its prices and volumes convert; the bar's figures are those of its ticks |
| StockTicks.PriceWithin | lab3/3.6_Secondary_Sorting_with_Composite_Keys/reducer.py:15-16 | every tick's price lies between the run's low and high |
| StockTicks.Bars | lab3/3.6_Secondary_Sorting_with_Composite_Keys/reducer.py:23-43 | with equal keys adjacent, a bar is written iff its underscore-free symbol and date name a key of the input and its figures are that key's open, high, low, close and volume |
| StockTicks.BarWithinRange | lab3/3.6_Secondary_Sorting_with_Composite_Keys/reducer.py:15-18 | every bar written opens and closes between its low and its high |
| StockTicks.MalformedLineSkipped | lab3/3.6_Secondary_Sorting_with_Composite_Keys/reducer.py:39-40 | a line with fewer than four tab fields changes nothing in the output |
| Ngrams.CleanText | lab3/3.8_Machine_Learning_Feature_Extraction/tfidf_mapper2.py:6-10 | the cleaned text holds only ASCII word characters and whitespace and no upper-case letter, and a character occurs in it iff it occurs in the lower-cased text and is an ASCII word character or whitespace |
| Ngrams.CleanTextIdempotent | lab3/3.8_Machine_Learning_Feature_Extraction/tfidf_mapper2.py:6-10 | cleaning twice is cleaning once |
| Ngrams.CleanTextConcat | lab3/3.8_Machine_Learning_Feature_Extraction/tfidf_mapper2.py:6-10 | the cleaning of joined text is the joined cleanings, so every character is kept or dropped in place |
| Ngrams.CleanTextOne | lab3/3.8_Machine_Learning_Feature_Extraction/tfidf_mapper2.py:6-10 | a single character is kept, lower-cased, iff its lower case is an ASCII word character or whitespace |
| Ngrams.CleanTextKeepsClean | lab3/3.8_Machine_Learning_Feature_Extraction/tfidf_mapper2.py:6-10 | lower-case text of word characters and whitespace is kept whole |
| Ngrams.Ngrams | lab3/3.8_Machine_Learning_Feature_Extraction/tfidf_mapper2.py:12-17 | there are `len(words) - n + 1` n-grams, none when that is negative |
| Ngrams.NgramAt | lab3/3.8_Machine_Learning_Feature_Extraction/tfidf_mapper2.py:14-16 | the i-th n-gram is words i to i+n-1 joined by single spaces |
| Ngrams.NgramWords | lab3/3.8_Machine_Learning_Feature_Extraction/tfidf_mapper2.py:14-16 | splitting an n-gram of non-empty, space-free words on whitespace gives back exactly its n words |
| Ngrams.LineNgramsCount | lab3/3.8_Machine_Learning_Feature_Extraction/tfidf_mapper2.py:24-33 | a line's n-grams are the trigrams of its cleaned words, and there are words minus 2 of them, none for fewer than three words or a blank line |
| Ngrams.MapLine | lab3/3.8_Machine_Learning_Feature_Extraction/tfidf_mapper2.py:34-35 | one pair per n-gram of the line, in order, each with count 1 |
| Ngrams.ParseNgramCount | lab3/3.7_Advanced_Text_Processing_with_N-grams/reducer.py:12-14 | a line is read exactly when it has two tab fields and an integer count, and then it is that (n-gram, count) |
| Ngrams.ThresholdExamples | lab3/3.7_Advanced_Text_Processing_with_N-grams/reducer.py:5-20 | a run totalling 4 writes nothing and one totalling 5 is written with its total |
| Ngrams.Frequent | lab3/3.7_Advanced_Text_Processing_with_N-grams/reducer.py:16-27 | with equal n-grams adjacent, `(g, n)` is written iff g is a non-empty n-gram of the input, n is the sum of its counts and n is at least 5 |
| Ngrams.MalformedLineSkipped | lab3/3.7_Advanced_Text_Processing_with_N-grams/reducer.py:23-24 | a line that is not two tab fields or has a non-integer count changes nothing in the output |
| Tfidf.ParseTf | lab3/3.8_Machine_Learning_Feature_Extraction/tfidf_reducer1.py:10-13 | a line is read exactly when it has four tab fields, a decimal tf and an integer count, and then it is that word with that posting |
| Tfidf.FlushHas | lab3/3.8_Machine_Learning_Feature_Extraction/tfidf_reducer1.py:19-22 | a run with a non-empty word writes one line per posting, and a line is written iff it names the word, one of its (document, tf) pairs and the run's count total |
| Tfidf.Postings | lab3/3.8_Machine_Learning_Feature_Extraction/tfidf_reducer1.py:15-32 | with equal words adjacent, `(w, d, tf, n)` is written iff w is a non-empty word of the input, (d, tf) is one of its postings and n is the sum of its counts |
| Tfidf.DocCountPermutation | lab3/3.8_Machine_Learning_Feature_Extraction/tfidf_reducer1.py:17 | the document count of a run does not depend on the order of its postings |
| Tfidf.MalformedLineSkipped | lab3/3.8_Machine_Learning_Feature_Extraction/tfidf_reducer1.py:27-28 | a line that is not four tab fields or whose tf or count does not convert changes nothing in the output |
| Tfidf.ShadowedDocCounterexample | lab3/3.8_Machine_Learning_Feature_Extraction/tfidf_reducer1.py:21-25 | as written, after the first word is flushed the second word's line carries the first word's document d1 |
| Tfidf.ShadowedDocCorrected | lab3/3.8_Machine_Learning_Feature_Extraction/tfidf_reducer1.py:21-25 | with the run seeded by its own document, the same input reports the second word for d2 |
| WordCount.CleanWord | lab3/1.word_count_with_file_processing/mapper.py:5-7 | the cleaned word is no longer than the word and holds only ASCII word characters, none of them upper-case |
| WordCount.CleanWordIdempotent | lab3/1.word_count_with_file_processing/mapper.py:5-7 | cleaning twice is cleaning once |
| WordCount.CleanWordConcat | lab3/1.word_count_with_file_processing/mapper.py:5-7 | the cleaning of a joined word is the joined cleanings, so every character is kept or dropped in place |
| WordCount.CleanWordOne | lab3/1.word_count_with_file_processing/mapper.py:5-7 | a single character is kept, lower-cased, iff its lower case is an ASCII word character |
| WordCount.CleanWordKeepsClean | lab3/1.word_count_with_file_processing/mapper.py:5-7 | a word of lower-case ASCII word characters is its own cleaning |
| WordCount.CleanWordsClean | lab3/1.word_count_with_file_processing/mapper.py:11-16 | every word the mapper emits is non-empty and already clean |
| WordCount.CleanWordsOfClean | lab3/1.word_count_with_file_processing/mapper.py:13-16 | words that are already clean and non-empty are emitted unchanged and in order |
| WordCount.ParseEntry | lab3/1.word_count_with_file_processing/reducer.py:9-12 | a line is unpacked exactly when it has two tab fields, giving the word and the count text's integer value where it has one |
| WordCount.ParseWordCount | lab3/1.word_count_with_file_processing/reducer.py:12-13 | a line is added in exactly when it unpacks and its count is an integer |
| WordCount.TallySums | lab3/1.word_count_with_file_processing/reducer.py:4-13 | the dictionary holds each word once, holds a word iff some well-formed line carries it, and maps it to the sum of its counts |
| WordCount.InsertByWord | lab3/1.word_count_with_file_processing/reducer.py:18 | inserting a new word into a strictly ascending list keeps it ascending and adds exactly that entry |
| WordCount.SortByWord | lab3/1.word_count_with_file_processing/reducer.py:18-19 | the output is strictly ascending by word and holds exactly the dictionary's entries |
| WordCount.Counts | lab3/1.word_count_with_file_processing/reducer.py:6-19 | `(word, n)` is written iff the word occurs on a well-formed line and n is the sum of its counts, whatever the input order |
| WordCount.TallyAsWrittenUnique | lab3/1.word_count_with_file_processing/reducer.py:13 | as written, the dictionary still holds each word once |
| WordCount.AsWrittenAgrees | lab3/1.word_count_with_file_processing/reducer.py:13-16 | as written, every word's count equals the intended one, and every intended word is present; the only extra words are counted 0 |
| WordCount.MalformedCountLine | lab3/1.word_count_with_file_processing/reducer.py:13-16 | for any line with a well-formed word and a count that `int()` rejects, as written the output is the word with 0, while the intended reducer writes nothing |
| WordCount.MalformedCountCounterexample | lab3/1.word_count_with_file_processing/reducer.py:13-16 | on the single line `hello<TAB>abc`, as written the output is `hello 0`, while the intended reducer writes nothing |
| Ecommerce.ParseRevenue | lab4/4.2_E-commerce_Sales_Data_ETL_Pipeline/reducer.py:15-20 | a blank line is skipped; any other line is read exactly when it has a tab and its amount is a number, and then it is that key and amount |
| Ecommerce.BlankLineSkipped | lab4/4.2_E-commerce_Sales_Data_ETL_Pipeline/reducer.py:16-17 | a blank line keeps well-formed input well-formed and changes nothing in the output |
| Ecommerce.Totals | lab4/4.2_E-commerce_Sales_Data_ETL_Pipeline/reducer.py:22-38 | with equal keys adjacent, a summary is written iff its key is a non-empty key of the input, with that key's total, record count and total over count as average |
| Ecommerce.AverageBetweenExtremes | lab4/4.2_E-commerce_Sales_Data_ETL_Pipeline/reducer.py:26-37 | a run writes one summary whose average lies between its smallest and largest amount |
| Ecommerce.FlushPermutation | lab4/4.2_E-commerce_Sales_Data_ETL_Pipeline/reducer.py:23-24 | permuting the amounts of a run does not change its summary |
| Maintenance.Categorize | lab2/maintenance_analysis/mapper.py:74-82 | the category is the first of CRITICAL, WARNING, INFO, ERROR whose keyword occurs in the lower-cased description and severity, and UNKNOWN exactly when none does |
| Maintenance.CategorizeIgnoresCase | lab2/maintenance_analysis/mapper.py:76 | the category does not change when the description and severity are lower-cased first |
| Maintenance.CriticalBeforeError | lab2/maintenance_analysis/mapper.py:19-24 | a description holding both "fatal" and "fail" is CRITICAL, since CRITICAL is tried before ERROR |
| Maintenance.ParseDuration | lab2/maintenance_analysis/mapper.py:52 | a field that is not digits once its dots are removed gives 0; any duration read is non-negative |
| Maintenance.DigitsDuration | lab2/maintenance_analysis/mapper.py:52 | a field of digits is read as its integer value |
| Maintenance.TwoDotsDropped | lab2/maintenance_analysis/mapper.py:52-57 | a field with two dots passes the digit test but `float` rejects it, so the entry is dropped |
| Maintenance.ParsePipe | lab2/maintenance_analysis/mapper.py:44-55 | a pipe record parses iff it has at least six fields and a readable duration; the first five fields are kept in order and technician and description are '' when absent |
| Maintenance.ParseLogEntry | lab2/maintenance_analysis/mapper.py:26-59 | a line starting with '{' gives the decoded JSON entry; any other line is read as a pipe record |
| Maintenance.EmissionFor | lab2/maintenance_analysis/mapper.py:95-123 | an analysis prints nothing exactly for downtime with no positive duration, a load with no technician, or critical downtime of at most 240; counts carry 1 and downtimes hours |
| Maintenance.MapEntry | lab2/maintenance_analysis/mapper.py:84-123 | `map` prints a line iff it is the line of its analysis, and no analysis twice |
| Maintenance.MapLine | lab2/maintenance_analysis/mapper.py:86-88 | `map` prints nothing exactly when the entry does not parse |
| Maintenance.ParseKeyValue | lab2/maintenance_analysis/reducer.py:124-133 | a line is read iff its stripped text has a tab; the key and the last field, rejoined with a tab, give back the line, and the value holds no tab |
| Maintenance.KeyRoundTrip | lab2/maintenance_analysis/reducer.py:20-22 | the key the mapper writes for an emission reads back as its analysis and identifier |
| Maintenance.DowntimeReport | lab2/maintenance_analysis/reducer.py:34-45 | machine downtime reports the group's size as incidents, its sum as total, a maximum that is one of the durations and bounds them all, and an average between the least and the greatest |
| Maintenance.CriticalReport | lab2/maintenance_analysis/reducer.py:109-119 | critical downtime reports the group's size as incidents, its sum as total and a maximum that is one of the durations and bounds them all |
| Maintenance.MachineComponentRoundTrip | lab2/maintenance_analysis/reducer.py:97-107 | a machine id without ':' joined to any component is split back into the same machine and component with the summed count |
| Maintenance.HourRoundTrip | lab2/maintenance_analysis/reducer.py:57-65 | an hour printed by the mapper is read back as the same hour with the summed count |
| Maintenance.FlushPermutation | lab2/maintenance_analysis/reducer.py:18-119 | the report of a group does not depend on the order of its values |
| Maintenance.AnalysisOf | lab2/maintenance_analysis/reducer.py:24-109 | a recognised tag names an analysis whose tag it is, and a tag is unrecognised iff no analysis carries it |
| Maintenance.AnalysisOfTag | lab2/maintenance_analysis/reducer.py:24-109 | every tag the mapper writes is recognised by the reducer's chain as the analysis that wrote it |
| Maintenance.Reports | lab2/maintenance_analysis/reducer.py:121-146 | with equal keys adjacent, a report is written iff it is the report of one of the input's keys over that key's values |
| Maintenance.MalformedLineSkipped | lab2/maintenance_analysis/reducer.py:124-130 | a blank line or one without a tab changes nothing in the output |
| EtlMapper.FileTypeOf | lab4/4.1_multi-source_data_ETL_pipeline/mapper.py:38-47 | the format is csv iff the lower-cased name holds "customer" or ends in .csv; json iff not csv and it holds "purchase" or ends in .json; xml likewise after both |
| EtlMapper.DigitsOf | lab4/4.1_multi-source_data_ETL_pipeline/mapper.py:13 | the extracted text is all ASCII digits and no longer than the input |
| EtlMapper.DigitsOfDigits | lab4/4.1_multi-source_data_ETL_pipeline/mapper.py:13 | text made only of digits is its own digits |
| EtlMapper.NoDigits | lab4/4.1_multi-source_data_ETL_pipeline/mapper.py:13 | text without digits has no digits to extract |
| EtlMapper.DigitsOfConcat | lab4/4.1_multi-source_data_ETL_pipeline/mapper.py:13 | extracting the digits of two joined texts joins their digits |
| EtlMapper.FormatPhoneDigits | lab4/4.1_multi-source_data_ETL_pipeline/mapper.py:15 | a formatted number has the shape (ddd) ddd-dddd and holds exactly its ten digits |
| EtlMapper.CleanPhone | lab4/4.1_multi-source_data_ETL_pipeline/mapper.py:11-18 | ten digits, or eleven led by 1, give the formatted shape holding the last ten digits; any other phone is returned unchanged |
| EtlMapper.CleanPhoneIdempotent | lab4/4.1_multi-source_data_ETL_pipeline/mapper.py:11-18 | cleaning a cleaned phone changes nothing |
| EtlMapper.CleanEmail | lab4/4.1_multi-source_data_ETL_pipeline/mapper.py:20-25 | an address is kept iff its lower-cased stripped form has an '@' and a '.' after the first '@' (before any second one), and it is kept in that form |
| EtlMapper.CleanEmailNormal | lab4/4.1_multi-source_data_ETL_pipeline/mapper.py:22-24 | a kept address has an '@' and is already lower case and stripped |
| EtlMapper.CleanEmailIdempotent | lab4/4.1_multi-source_data_ETL_pipeline/mapper.py:20-25 | cleaning a kept address gives it back |
| EtlMapper.SecondSegmentOnly | lab4/4.1_multi-source_data_ETL_pipeline/mapper.py:23 | only the text between the first and second '@' is searched for a dot, so an address with a second '@' and no dot before it is rejected |
| EtlMapper.CleanEmailSecondSegment | lab4/4.1_multi-source_data_ETL_pipeline/mapper.py:23 | the address a@b@c.d is rejected |
| EtlMapper.QualityScore | lab4/4.1_multi-source_data_ETL_pipeline/mapper.py:70-78 | the score is at most 100, is 100 iff all seven checks pass and is 0 iff none does |
| EtlMapper.AddressOneComma | lab4/4.1_multi-source_data_ETL_pipeline/mapper.py:64-77 | an address built from a city, state and zip code without commas passes the one-comma check |
| EtlMapper.CustomerValues | lab4/4.1_multi-source_data_ETL_pipeline/mapper.py:83 | the line carries eleven values after its key, from the record type and customer id to the score |
| EtlMapper.CustomerLine | lab4/4.1_multi-source_data_ETL_pipeline/mapper.py:82-84 | a customer line is written iff the quality score is at least 60 |
| EtlMapper.Zip | lab4/4.1_multi-source_data_ETL_pipeline/mapper.py:52-53 | every column of a row is one of the header's names |
| EtlMapper.CsvDataLines | lab4/4.1_multi-source_data_ETL_pipeline/mapper.py:178-186 | the lines handed on are stripped input lines, none blank and none starting with "customer_id" |
| EtlMapper.CsvLineNeverEmits | lab4/4.1_multi-source_data_ETL_pipeline/mapper.py:49-53 | a single line holds no newline, so the reader treats it as the header, finds no row and writes nothing |
| EtlMapper.CustomerFileEmitsNothing | lab4/4.1_multi-source_data_ETL_pipeline/mapper.py:178-187 | as written, a customer file read line by line writes no customer line at all |
| EtlMapper.MapRowsHas | lab4/4.1_multi-source_data_ETL_pipeline/mapper.py:49-84 | as intended, a line is written iff it is the line of some data row, read against the header, that scores at least 60 |
| EtlMapper.PurchaseRecords | lab4/4.1_multi-source_data_ETL_pipeline/mapper.py:98-123 | at most one record per item; every record written is valid and carries the purchase's customer id |
| EtlMapper.PurchaseRecordsHas | lab4/4.1_multi-source_data_ETL_pipeline/mapper.py:98-123 | a record is written iff it is the record of some item and passes validation |
| EtlMapper.Margin | lab4/4.1_multi-source_data_ETL_pipeline/mapper.py:152-156 | with positive price and cost the margin is the cost's share below the price in percent (under 100); otherwise it is 0 |
| EtlMapper.ActiveChild | lab4/4.1_multi-source_data_ETL_pipeline/mapper.py:149 | the `is_active` test raises exactly on an element without text, and is true exactly on a text that lower-cases to "true" |
| EtlMapper.BuildProduct | lab4/4.1_multi-source_data_ETL_pipeline/mapper.py:134-150 | a product is built iff its price, cost and weight, where present, have text that reads as a number, its stock as an integer, and an `is_active` element, where present, has text |
| EtlMapper.TextlessActiveEndsDocument | lab4/4.1_multi-source_data_ETL_pipeline/mapper.py:130-167 | a first product with `<is_active/>` ends the document, so neither it nor a valid product after it is written |
| EtlMapper.ProcessProducts | lab4/4.1_multi-source_data_ETL_pipeline/mapper.py:133-164 | at most one record per element, every one with an id, a name and a positive price |
| EtlMapper.ProductsStopAtFailure | lab4/4.1_multi-source_data_ETL_pipeline/mapper.py:130-167 | a product whose conversion raises ends the output: nothing after it is written |
| EtlMapper.ProductsAllConvert | lab4/4.1_multi-source_data_ETL_pipeline/mapper.py:133-164 | when every product converts, a record is written iff it passes validation and is the record of some element |
| EtlReducer.ParseLine | lab4/4.1_multi-source_data_ETL_pipeline/reducer.py:164-174 | a line is read iff its stripped text has at least three tab fields; the tag, key and remaining fields are those fields in order |
| EtlReducer.ParseCustomer | lab4/4.1_multi-source_data_ETL_pipeline/reducer.py:19-34 | a customer record is built iff there are eleven fields and the score field is empty or an integer; its fields are the line's fields in order |
| EtlReducer.ParseProduct | lab4/4.1_multi-source_data_ETL_pipeline/reducer.py:45-64 | a product record is built iff there are fifteen fields and its numeric fields convert; its text fields are the line's fields in order |
| EtlReducer.ParsePurchase | lab4/4.1_multi-source_data_ETL_pipeline/reducer.py:72-89 | a purchase record is built iff there are thirteen fields, an integer quantity and five numeric fields; its fields are the line's fields in order |
| EtlReducer.LowQuality | lab4/4.1_multi-source_data_ETL_pipeline/reducer.py:39-40 | the number of low-score customers never exceeds the number of customers |
| EtlReducer.LoadCustomers | lab4/4.1_multi-source_data_ETL_pipeline/reducer.py:36-40 | after the pass, the customers are the customer entries assigned in order, the processed count is their number and the issue count their number below 60 |
| EtlReducer.LoadProducts | lab4/4.1_multi-source_data_ETL_pipeline/reducer.py:66-67 | after the pass, the products are the product entries assigned in order and the processed count is their number |
| EtlReducer.LoadPurchases | lab4/4.1_multi-source_data_ETL_pipeline/reducer.py:91-92 | after the pass, the purchase buckets are the purchase entries appended in order and the processed count is their number |
| EtlReducer.MapOfKeys | lab4/4.1_multi-source_data_ETL_pipeline/reducer.py:36 | a key is stored iff some entry carries it |
| EtlReducer.MapOfLastWins | lab4/4.1_multi-source_data_ETL_pipeline/reducer.py:36 | the record stored under a key is that of the last entry carrying it |
| EtlReducer.BucketHas | lab4/4.1_multi-source_data_ETL_pipeline/reducer.py:91 | a purchase is in a key's bucket iff some entry pairs it with that key |
| EtlReducer.BucketsLookup | lab4/4.1_multi-source_data_ETL_pipeline/reducer.py:91 | a key's bucket holds its purchases in entry order, and a key without purchases has no bucket |
| EtlReducer.BucketsUnique | lab4/4.1_multi-source_data_ETL_pipeline/reducer.py:11 | the bucket table holds each key once |
| EtlReducer.BucketOfLoad | lab4/4.1_multi-source_data_ETL_pipeline/reducer.py:91-92 | after the pass, purchases are kept by customer id in input order, and a bucket exists only for ids that have purchases |
| EtlReducer.CustomerOfLoad | lab4/4.1_multi-source_data_ETL_pipeline/reducer.py:36 | the last customer entry for an id is the one stored |
| EtlReducer.ProductOfLoad | lab4/4.1_multi-source_data_ETL_pipeline/reducer.py:66 | the last product entry for an id is the one stored |
| EtlReducer.StoredBuckets | lab4/4.1_multi-source_data_ETL_pipeline/reducer.py:99-102 | the purchases the join visits are exactly the purchase entries, regrouped by key |
| EtlReducer.Enrich | lab4/4.1_multi-source_data_ETL_pipeline/reducer.py:106-136 | a record carries its key and the purchase's fields; it is high-value iff the customer is Gold or Platinum, premium iff the product's price exceeds 100; the profit subtracts the product's cost per unit when the product is known; missing customers and products give empty fields |
| EtlReducer.JoinOfLoad | lab4/4.1_multi-source_data_ETL_pipeline/reducer.py:97-139 | one enriched record per stored purchase, as many as purchases processed, and each joins its purchase with the last customer and product stored under the matching keys |
| EtlReducer.AtLeastOne | lab4/4.1_multi-source_data_ETL_pipeline/reducer.py:152-153 | the divisor is at least 1 and at least the count, and equals a count that is already positive |
| EtlReducer.TotalSizeAtLeast | lab4/4.1_multi-source_data_ETL_pipeline/reducer.py:150-153 | with no empty bucket there are at least as many purchases as buckets |
| EtlReducer.UniqueKeysCount | lab4/4.1_multi-source_data_ETL_pipeline/reducer.py:151 | a table with distinct keys has as many keys as entries |
| EtlReducer.BucketTable | lab4/4.1_multi-source_data_ETL_pipeline/reducer.py:150-151 | one bucket per distinct id and one stored purchase per entry |
| EtlReducer.StatisticsOfLoad | lab4/4.1_multi-source_data_ETL_pipeline/reducer.py:141-156 | enriched_records_created equals purchases_processed and the records written; unique customers are the distinct purchasing ids and at most the purchases; issues never exceed customers; with no purchases both ratios are 0, otherwise the average is at least 1 |
| EtlReducer.MapperCustomerRead | lab4/4.1_multi-source_data_ETL_pipeline/reducer.py:19-40 | a customer line written by the mapper is read back as that customer's id, fields and score (at least 60), stored under its id, counted once and never as an issue |
| EtlReducer.CustomerLineFields | lab4/4.1_multi-source_data_ETL_pipeline/reducer.py:168-174 | a written customer line splits back into its tag, its key and its eleven values |
| IotMapper.Thresholds | lab4/4.3_IoT_Sensor_Data_ETL_Pipeline/mapper.py:9-15 | a device type has a range iff it is one of the five known types, and every range is non-empty |
| IotMapper.DetectAnomaly | lab4/4.3_IoT_Sensor_Data_ETL_Pipeline/mapper.py:7-19 | only a known device type is ever anomalous |
| IotMapper.ThresholdTable | lab4/4.3_IoT_Sensor_Data_ETL_Pipeline/mapper.py:9-18 | the five ranges: a value is anomalous iff it lies below the type's minimum or above its maximum |
| IotMapper.RangeEnds | lab4/4.3_IoT_Sensor_Data_ETL_Pipeline/mapper.py:18 | both ends of a known range are normal and every value beyond either end is anomalous |
| IotMapper.NormalBetween | lab4/4.3_IoT_Sensor_Data_ETL_Pipeline/mapper.py:18 | between two normal values every value is normal |
| IotMapper.ParseReading | lab4/4.3_IoT_Sensor_Data_ETL_Pipeline/mapper.py:28-35 | a reading is read iff all six fields are present and value and battery level convert; it carries those fields and numbers |
| IotMapper.MapLine | lab4/4.3_IoT_Sensor_Data_ETL_Pipeline/mapper.py:26-64 | a line writes nothing exactly when its JSON, a field, a number or its time stamp fails, since every lookup comes before the first line written |
| IotMapper.KindsConcat | lab4/4.3_IoT_Sensor_Data_ETL_Pipeline/mapper.py:43-60 | the analyses of two runs of lines written one after the other are the analyses of each in turn |
| IotMapper.KindAnomaly | lab4/4.3_IoT_Sensor_Data_ETL_Pipeline/mapper.py:50 | an anomaly key is routed to the anomaly analysis and to no statistics analysis |
| IotMapper.KindLowBattery | lab4/4.3_IoT_Sensor_Data_ETL_Pipeline/mapper.py:54 | a low-battery key is routed to the battery analysis |
| IotMapper.KindDeviceStats | lab4/4.3_IoT_Sensor_Data_ETL_Pipeline/mapper.py:57 | a device key is routed to the device analysis |
| IotMapper.EmissionKinds | lab4/4.3_IoT_Sensor_Data_ETL_Pipeline/mapper.py:42-60 | a valid reading writes hourly and daily statistics lines, an anomaly line iff its value is out of range, a battery line iff its level is below 20, then a device line and a location line |
| IotReducer.CalculateStatistics | lab4/4.3_IoT_Sensor_Data_ETL_Pipeline/reducer.py:7-27 | no statistics for an empty list; otherwise the count is the length, min and max are values bounding every value, the mean is the sum divided by n, the median is the middle of the sorted values, the variance is the squared distances from the mean divided by n (so non-negative), and the deviation is its square root; mean and median lie between min and max |
| IotReducer.Summary | lab4/4.3_IoT_Sensor_Data_ETL_Pipeline/reducer.py:12-26 | for a non-empty list: the count, the mean as sum over n, the median of the sorted values, the variance dividing by n, its square root, and the extremes, with mean and median between the extremes |
| IotReducer.MedianOfSorted | lab4/4.3_IoT_Sensor_Data_ETL_Pipeline/reducer.py:17-18 | for any ordering of the values, the reported median is the middle element when the count is odd and the average of the two middle elements when it is even |
| IotReducer.MedianBetween | lab4/4.3_IoT_Sensor_Data_ETL_Pipeline/reducer.py:17-18 | the median of the sorted values lies between the least and the greatest of the original ones |
| IotReducer.VarianceNonNegative | lab4/4.3_IoT_Sensor_Data_ETL_Pipeline/reducer.py:14 | the mean squared distance from any point is never negative |
| IotReducer.StatisticsPermutation | lab4/4.3_IoT_Sensor_Data_ETL_Pipeline/reducer.py:7-27 | the statistics depend only on the values, not on their order |
| IotReducer.HealthScore | lab4/4.3_IoT_Sensor_Data_ETL_Pipeline/reducer.py:139-149 | the score always lies in [0, 100], and is 0 when either list is empty |
| IotReducer.HealthFromStatistics | lab4/4.3_IoT_Sensor_Data_ETL_Pipeline/reducer.py:145-149 | the stability term is 100 minus the reported standard deviation, and a raw score inside [0, 100] is kept, one below is 0 and one above is 100 |
| IotReducer.Sensor | lab4/4.3_IoT_Sensor_Data_ETL_Pipeline/reducer.py:127 | the sensor list holds the first part of every two-part metric, in order |
| IotReducer.Battery | lab4/4.3_IoT_Sensor_Data_ETL_Pipeline/reducer.py:128 | the battery list holds the second part of every two-part metric, in order |
| IotReducer.StatisticsRun | lab4/4.3_IoT_Sensor_Data_ETL_Pipeline/reducer.py:68-73 | a statistics run writes one record iff some value converts, and that record summarises exactly the converting values |
| IotReducer.AnomalyRun | lab4/4.3_IoT_Sensor_Data_ETL_Pipeline/reducer.py:96-105 | an anomaly run writes its full count and previews only its first ten payloads, in order |
| IotReducer.BatteryRun | lab4/4.3_IoT_Sensor_Data_ETL_Pipeline/reducer.py:107-116 | a battery run writes every payload with their number as count |
| IotReducer.DeviceRun | lab4/4.3_IoT_Sensor_Data_ETL_Pipeline/reducer.py:118-137 | a device run writes the statistics of the sensor and battery parts of its two-part metrics and a health score in [0, 100] that is 0 unless some metric has two parts |
| IotReducer.UnrecognisedSilent | lab4/4.3_IoT_Sensor_Data_ETL_Pipeline/reducer.py:82-118 | a key with no recognised prefix writes nothing |
| IotReducer.Outputs | lab4/4.3_IoT_Sensor_Data_ETL_Pipeline/reducer.py:40-80 | with equal keys adjacent and every device metric convertible, a record is written iff it is the record of one key's values, and it carries that key |
| IotReducer.DeviceKeysReported | lab4/4.3_IoT_Sensor_Data_ETL_Pipeline/reducer.py:118-137 | when every device metric converts, each device key of the input writes exactly one record |
| IotReducer.FlushKey | lab4/4.3_IoT_Sensor_Data_ETL_Pipeline/reducer.py:89-136 | every record a group writes carries the group's key |
| IotReducer.MalformedLineSkipped | lab4/4.3_IoT_Sensor_Data_ETL_Pipeline/reducer.py:41-46 | a blank line or one without a tab changes nothing in the output |
| IotAlerts.KeyField | lab4/4.3_IoT_Sensor_Data_ETL_Pipeline/analyze_iot_results.py:236-238 | the field is "Unknown" iff the key has too few '_' fields or that field is itself "Unknown"; any other field holds no '_' |
| IotAlerts.Alerts | lab4/4.3_IoT_Sensor_Data_ETL_Pipeline/analyze_iot_results.py:234-269 | a rule makes at most one alert per record |
| IotAlerts.AlertsConcat | lab4/4.3_IoT_Sensor_Data_ETL_Pipeline/analyze_iot_results.py:234-269 | the alerts of two lists of records are the alerts of each in turn |
| IotAlerts.AlertsHas | lab4/4.3_IoT_Sensor_Data_ETL_Pipeline/analyze_iot_results.py:234-269 | a rule makes an alert iff it fires on some record that makes that alert |
| IotAlerts.RuleAlerts | lab4/4.3_IoT_Sensor_Data_ETL_Pipeline/analyze_iot_results.py:233-269 | an anomaly record alerts (HIGH) iff its count exceeds 10, a battery record (MEDIUM) iff its count exceeds 5, a device (HIGH) iff it has a health score below 30, with the type, location or device id read from the key's fields |
| IotAlerts.OfSeverity | lab4/4.3_IoT_Sensor_Data_ETL_Pipeline/analyze_iot_results.py:271 | the alerts of one severity are at most all of them and all have that severity |
| IotAlerts.OfSeverityConcat | lab4/4.3_IoT_Sensor_Data_ETL_Pipeline/analyze_iot_results.py:271 | the alerts of one severity in two lists are those of each in turn |
| IotAlerts.InsertPermutation | lab4/4.3_IoT_Sensor_Data_ETL_Pipeline/analyze_iot_results.py:271 | inserting adds exactly the new alert |
| IotAlerts.SortPermutation | lab4/4.3_IoT_Sensor_Data_ETL_Pipeline/analyze_iot_results.py:271 | the sorted alerts are a permutation of the collected ones |
| IotAlerts.InsertPastLower | lab4/4.3_IoT_Sensor_Data_ETL_Pipeline/analyze_iot_results.py:271 | an alert is inserted after every alert of its rank or higher and before every alert of lower rank |
| IotAlerts.SortBlocks | lab4/4.3_IoT_Sensor_Data_ETL_Pipeline/analyze_iot_results.py:271 | the sort gives the HIGH alerts, then the MEDIUM, then the LOW, each in collected order |
| IotAlerts.SortOrdered | lab4/4.3_IoT_Sensor_Data_ETL_Pipeline/analyze_iot_results.py:271 | the rank never increases along the sorted list |
| IotAlerts.SortStable | lab4/4.3_IoT_Sensor_Data_ETL_Pipeline/analyze_iot_results.py:271 | the sort is stable: the alerts of each severity keep their collected order |
| IotAlerts.GenerateAlerts | lab4/4.3_IoT_Sensor_Data_ETL_Pipeline/analyze_iot_results.py:228-271 | the alerts returned are a permutation of those the three rules collect |
| IotAlerts.GenerateAlertsOrder | lab4/4.3_IoT_Sensor_Data_ETL_Pipeline/analyze_iot_results.py:228-271 | the alerts returned are the anomaly clusters, then the device failures, then the battery maintenance alerts, each in record order |
| IotAlerts.TallyLookup | lab4/4.3_IoT_Sensor_Data_ETL_Pipeline/analyze_iot_results.py:65-68 | a location is in the tally iff some battery record names it, and its entry is the sum of those records' counts |
| IotAlerts.TallyUnique | lab4/4.3_IoT_Sensor_Data_ETL_Pipeline/analyze_iot_results.py:65-68 | the tally holds each location once |
| Runs.GroupRuns | lab2/maintenance_analysis/reducer.py:135-146 | at most one run per record, none exactly for empty input, and the last run carries the last record's key |
| Runs.GroupRunsWellFormed | lab2/maintenance_analysis/reducer.py:135-142 | every run is non-empty, since a new group is seeded with the current value, and neighbouring runs have different keys |
| Runs.FlattenGroupRuns | lab2/maintenance_analysis/reducer.py:135-146 | the runs concatenated give back the parsed records, record for record |
| Runs.GroupRunsKeys | lab2/maintenance_analysis/reducer.py:141 | every run is keyed by a key of the input |
| Runs.GroupRunsUnique | lab2/maintenance_analysis/reducer.py:135-142 | any split into non-empty runs with different neighbouring keys that concatenates to the records is the one the loop makes |
| Runs.GroupedRunsDistinct | lab2/maintenance_analysis/reducer.py:135-142 | when equal keys are adjacent, no key is flushed twice |
| Runs.ValuesOfKey | lab2/maintenance_analysis/reducer.py:135-142 | a key of the input carries at least one value, and every value of a key comes from a record with that key |
| Runs.GroupedRunIsWholeKey | lab2/maintenance_analysis/reducer.py:135-142 | when equal keys are adjacent, a run holds every value of its key, in input order |
| Runs.FlatEmitMember | lab2/maintenance_analysis/reducer.py:138-146 | an output comes from the flush of exactly some run |
| Runs.FlatEmitLength | lab2/maintenance_analysis/reducer.py:138-146 | the number of outputs is the sum of what each run flushes |
| Runs.Parsed | lab2/maintenance_analysis/reducer.py:124-133 | at most one record per line |
| Runs.ParsedConcat | lab2/maintenance_analysis/reducer.py:123-133 | the records of two blocks of lines are the records of each in turn |
| Runs.SkippedLine | lab2/maintenance_analysis/reducer.py:124-130 | a line that does not parse can be removed without changing the output |
| Runs.KeyHasRun | lab2/maintenance_analysis/reducer.py:135-142 | every key of the input opens a run |
| Runs.ReduceGrouped | lab2/maintenance_analysis/reducer.py:121-146 | when equal keys are adjacent, an output is written iff it is the flush of one key's complete values |
| Runs.ScanLines | lab2/maintenance_analysis/reducer.py:121-146 | the line-by-line scan with a current key and value buffer writes exactly the flushes of the runs of the parsed records |
| Lines.Fields | lab2/maintenance_analysis/reducer.py:124-128 | the tab fields of a stripped line are at least one and join back to it |
| Lines.TwoFields | lab3/3.2_temperature_data_analysis/reducer.py:9-11 | unpacking two tab fields succeeds iff the stripped line has exactly one tab, and the two fields joined by it give the line |
| Lines.KeyAndRest | lab4/4.3_IoT_Sensor_Data_ETL_Pipeline/reducer.py:46 | splitting at the first tab succeeds iff the stripped line has a tab; the key has none and key, tab and rest give the line |
| Lines.KeyAndRestRoundTrip | lab4/4.3_IoT_Sensor_Data_ETL_Pipeline/reducer.py:46 | a printed key and value read back as that key and value |
| Lines.TwoFieldsRoundTrip | lab3/3.2_temperature_data_analysis/reducer.py:9 | a printed key and value without tabs read back as that key and value |
| Text.Strip | lab2/maintenance_analysis/reducer.py:124 | the stripped text is the input with its leading and trailing whitespace removed, and neither starts nor ends with whitespace |
| Text.StripIdempotent | lab2/maintenance_analysis/reducer.py:124 | stripping a stripped text changes nothing |
| Text.Split | lab2/maintenance_analysis/reducer.py:128 | the fields are at least one, hold no separator, and joined by it give back the text |
| Text.SplitJoin | lab2/maintenance_analysis/reducer.py:132 | splitting the join of separator-free fields gives the fields back |
| Text.SplitCount | lab2/maintenance_analysis/reducer.py:128-129 | a split gives one field more than the text has separators |
| Text.SplitAtFirst | lab2/maintenance_analysis/reducer.py:100 | splitting at the first separator succeeds iff it occurs; the first part has none and the parts rejoined give the text |
| Text.Words | lab3/1.word_count_with_file_processing/mapper.py:12 | the words of a text are non-empty and hold no whitespace |
| Text.WordsJoin | lab3/1.word_count_with_file_processing/mapper.py:12 | splitting words joined by single spaces gives the words back |
| Text.KeepChars | lab3/1.word_count_with_file_processing/mapper.py:7 | the result is no longer than the input, every character of it passes the test, and a character occurs in it iff it occurs in the input and passes |
| Text.KeepCharsConcat | lab3/1.word_count_with_file_processing/mapper.py:7 | filtering joined text gives the joined filterings: each character is kept or dropped in place |
| Text.KeepCharsOne | lab3/1.word_count_with_file_processing/mapper.py:7 | a single character is kept iff it passes the test |
| Text.KeepCharsAll | lab3/1.word_count_with_file_processing/mapper.py:7 | text whose every character passes is kept whole |
| Text.KeepCharsNone | lab3/1.word_count_with_file_processing/mapper.py:7 | text none of whose characters passes is dropped entirely |
| Text.KeepCharsIdempotent | lab3/1.word_count_with_file_processing/mapper.py:7 | filtering a filtered text changes nothing |
| Text.Lower | lab2/maintenance_analysis/mapper.py:76 | lower-casing keeps the length and lower-cases each character |
| Text.LowerIdempotent | lab2/maintenance_analysis/mapper.py:76 | lower-casing a lower-cased text changes nothing |
| Text.NatToString | lab2/maintenance_analysis/reducer.py:62 | the printed numeral is non-empty digits, without a leading zero, with the number's value |
| Text.ParseIntToString | lab2/maintenance_analysis/reducer.py:62 | reading back a printed integer gives the integer |
| Text.ParseIntIsDecimal | lab2/maintenance_analysis/reducer.py:36 | every text int() accepts, float() accepts with the same value |
| Text.StrLtTransitive | lab3/1.word_count_with_file_processing/reducer.py:19 | the string order is transitive |
| Text.StrLtTotal | lab3/1.word_count_with_file_processing/reducer.py:19 | any two different strings are ordered one way |
| Numbers.SumPermutation | lab2/maintenance_analysis/reducer.py:26 | the sum of integers does not depend on their order |
| Numbers.RSumPermutation | lab2/maintenance_analysis/reducer.py:40 | the sum of numbers does not depend on their order |
| Numbers.RMax | lab2/maintenance_analysis/reducer.py:42 | the maximum is one of the numbers and bounds them all |
| Numbers.RMin | lab4/4.3_IoT_Sensor_Data_ETL_Pipeline/reducer.py:25 | the minimum is one of the numbers and is below them all |
| Numbers.Mean | lab2/maintenance_analysis/reducer.py:41 | the mean of a non-empty list lies between its least and greatest element |
| Numbers.SortReals | lab4/4.3_IoT_Sensor_Data_ETL_Pipeline/reducer.py:17 | the sorted list is ordered and a permutation of the input |
| Numbers.SortedUnique | lab4/4.3_IoT_Sensor_Data_ETL_Pipeline/reducer.py:17 | two ordered permutations of the same list are equal |
| Numbers.ProjectPermutation | lab2/maintenance_analysis/reducer.py:36 | converting every element of two permutations gives two permutations |
| Dicts.LookupPut | lab4/4.3_IoT_Sensor_Data_ETL_Pipeline/analyze_iot_results.py:68 | after an assignment, the key reads the new value and every other key reads as before |
| Dicts.PutUnique | lab4/4.3_IoT_Sensor_Data_ETL_Pipeline/analyze_iot_results.py:68 | an assignment keeps the keys distinct |

## Left out

- Parsers and libraries: the csv module, `json`, ElementTree XML, the Common Log Format regular expression, `datetime` and `standardize_date`. Each is replaced by its result, given as a parameter or as the fields of a line.
- I/O and environment: stdin/stdout/stderr and the latin-1 stream wrapper. The `mapreduce_map_input_file` variable becomes a file-name parameter.
- The Hadoop shuffle: "equal keys are adjacent" is the precondition `Grouped` and is not implemented.
- Floating point: values are Dafny `real`. `round(..., 2)`, `round(..., 1)`, `%.2f`, `str(float)` and JSON formatting are not modelled. The printed text of a number is a parameter where a key or payload contains one.
- `math.sqrt` is a parameter of the IoT statistics and health score; nothing is assumed about it.
- Python number syntax beyond an optional sign, ASCII digits and one optional '.': underscores, exponents, `inf` and `nan`. Case mapping covers ASCII letters only.
- WordCount.CleanWord, Ngrams.CleanText, EtlMapper.DigitsOf and EtlMapper.CleanPhone: the regular-expression classes `\w` and `\d` are ASCII here (letters, digits and '_'; the digits 0-9). Python 3 matches them over Unicode on `str` patterns, so the source keeps non-ASCII letters and decimal digits that the model deletes: `café` is cleaned to `caf` here, where the source keeps `café`. The Unicode character tables are not modelled.
- The statistics' `processing_timestamp`, the alert `message` and `action` texts, and the printed report of the IoT analysis script apart from the battery tally (lines 65-68) and `generate_alerts`.
- Plotting and dashboards, the data generators, `quality_monitor.py` and the 4.2 `analyze_results.py` have no behaviour to state.
- Ecommerce.Totals: a non-blank line without a tab or with a non-numeric amount aborts the 4.2 reducer. The lemma requires `WellFormed` input instead of modelling the abort.
- Sales.Totals: a flushed key without '_' makes the split at flush time raise, which loses the next record or aborts the job. The lemma requires `SplittableKeys`.
- CustomerOrders.Joins: customer details that are not exactly three fields, or a non-integer amount, raise at flush time. The lemma requires every run to be `Flushable`.
- StockTicks.Bars: a key that does not split into exactly a symbol and a date, or a tick whose price or volume does not convert, raises at flush time. The lemma requires every run to be `Flushable`.
- IotReducer.Outputs: a device metric that `float` rejects makes the job abort with an uncaught `ValueError`. When the bad group is flushed at a key change, the loop's `try` catches the error, but `current_key` stays on that group, so every later line raises again and the final flush (reducer.py:79-80, outside the `try`) raises once more. When the bad group is the last one, that final flush raises directly. Either way, what was written before stays and nothing more is written. The lemma requires `DeviceMetricsConvert`.
- Maintenance.Reports: a group whose values `int()`/`float()` reject, an hour identifier that is not an integer, or a machine-component identifier without ':' makes `emit_result` raise and aborts the job. The model's flush writes nothing for such a group, and the lemma characterises the rest.
- EtlMapper.CustomerLine: the record is given with its fields already standardised. Whether `standardize_date` accepts a date is a parameter.
- IotMapper.MapLine: the hour and day of a time stamp come from a parameter standing for `fromisoformat`/`strftime`.

## Findings

| source | as written | input that shows it | evidently intended | confidence | as-written member | corrected member |
|---|---|---|---|---|---|---|
| lab3/3.8_Machine_Learning_Feature_Extraction/tfidf_reducer1.py:21-25 | the flush loop `for doc_id, tf_val in docs_tf` rebinds `doc_id`, so the next word's run is seeded with the previous run's last document | lines `w1 d1 0.5 1` and `w2 d2 0.3 1` (tab-separated) write `w2 d1 0.3 1` | every posting keeps the document it was read with: `w2 d2 0.3 1` | not executed | Tfidf.ShadowedDocCounterexample | Tfidf.ShadowedDocCorrected |
| lab3/1.word_count_with_file_processing/reducer.py:13 | `word_counts[word] += int(count)` reads the `defaultdict` entry before `int(count)` raises, so a line with a bad count still inserts its word with 0 | the single line `hello<TAB>abc` writes `hello 0` | a line reported as invalid leaves no trace in the counts | not executed | WordCount.MalformedCountCounterexample | WordCount.Counts |
| lab4/4.1_multi-source_data_ETL_pipeline/mapper.py:52-53 | `csv.DictReader(StringIO(line))` takes the single line as its header, so `next(reader)` raises `StopIteration` and no customer is ever written | any customer file read line by line | each data line is read against the file's header row and written when it scores at least 60 | not executed | EtlMapper.CustomerFileEmitsNothing | EtlMapper.MapRowsHas |

=== FILE: access_log.dfy ===
/**
 Log file analysis with pattern matching (lab3, 3.4 mapper): each Common Log
 Format line that matches the pattern is counted under five kinds of key —
 the page, the status code, the hour, the client address, and (for a status
 of 400 or more) the failing page.

 The regular expression is not modelled: a line arrives as the six groups it
 captures (address, timestamp, request method, url, status, size), or None
 where it does not match.
 */
module AccessLog {
  import opened Wrappers
  import opened Text

  /** The groups `match.groups()` returns. */
  datatype LogMatch = LogMatch(ip: string, timestamp: string, verb: string, url: string, status: string, size: string)

  /** `timestamp.split(':')[1]`; None where the timestamp has no ':' (IndexError). */
  function HourOf(timestamp: string): (h: Option<string>)
    ensures h.Some? <==> ':' in timestamp
    ensures h.Some? ==> ':' !in h.value
  {
    var parts := Split(timestamp, ':');
    SplitCount(timestamp, ':');
    if |parts| >= 2 then Some(parts[1]) else None
  }

  /** In `10/Oct/2000:13:55:36 -0700` the hour is `13`: the field between the first two colons. */
  lemma HourOfTimestamp(date: string, hour: string, rest: string)
    requires ':' !in date && ':' !in hour
    ensures HourOf(date + ":" + hour + ":" + rest) == Some(hour)
  {
    var tail := hour + [':'] + rest;
    var s := date + [':'] + tail;
    assert date + ":" + hour + ":" + rest == s;
    SplitOf(date, ':', tail);
    SplitOf(hour, ':', rest);
    var parts := Split(s, ':');
    assert parts == [date] + ([hour] + Split(rest, ':'));
    assert |parts| >= 2 && parts[1] == hour;
  }

  /** The keys a line is counted under, each emitted with value 1; nothing where a conversion raises. */
  function MapLine(m: Option<LogMatch>): (keys: seq<string>)
    ensures |keys| == 0 || |keys| == 4 || |keys| == 5
    ensures |keys| > 0 <==>
      m.Some? && ParseInt(m.value.status).Some? && ParseInt(m.value.size).Some? && ':' in m.value.timestamp
    ensures |keys| > 0 ==>
      var g := m.value;
      keys[0] == "page_" + g.url && keys[1] == "status_" + IntToString(ParseInt(g.status).value) &&
      keys[2] == "hour_" + HourOf(g.timestamp).value && keys[3] == "ip_" + g.ip
    ensures |keys| == 5 <==> |keys| > 0 && ParseInt(m.value.status).value >= 400
    ensures |keys| == 5 ==> keys[4] == "error_" + m.value.url
  {
    if m.None? then []
    else
      var g := m.value;
      var status, size, hour := ParseInt(g.status), ParseInt(g.size), HourOf(g.timestamp);
      if status.None? || size.None? || hour.None? then []
      else
        var counted := ["page_" + g.url, "status_" + IntToString(status.value), "hour_" + hour.value, "ip_" + g.ip];
        var keys := if status.value >= 400 then counted + ["error_" + g.url] else counted;
        assert keys[0] == counted[0] && keys[3] == counted[3];
        assert keys[1] == "status_" + IntToString(status.value);
        assert keys[2] == "hour_" + hour.value;
        keys
  }

  /** The status key spells the code as `int` prints it, so `status_200` reads back as 200. */
  lemma StatusKeyRoundTrip(m: LogMatch)
    requires |MapLine(Some(m))| > 0
    ensures ParseInt(MapLine(Some(m))[1][|"status_"|..]) == ParseInt(m.status)
  {
    var status := ParseInt(m.status).value;
    var key := MapLine(Some(m))[1];
    assert key == "status_" + IntToString(status);
    assert key[|"status_"|..] == IntToString(status);
    ParseIntToString(status);
  }
}

=== FILE: customer_orders.dfy ===
/**
 Reduce-side join of customers and orders (lab3, 3.5). The mapper re-keys
 rows of the customer file as `id, "customer", name, tier, country` and rows
 of the order file as `customer_id, "order", order_id, amount, date`; the
 reducer walks each run of equal customer ids, keeps the run's last customer
 record and all of its orders, and writes one joined line per customer that
 has customer details.

 The CSV parser and the environment are not modelled: the mapper receives the
 input file's name and each line's fields.
 */
module CustomerOrders {
  import opened Wrappers
  import opened Text
  import opened Numbers
  import opened Runs
  import opened Lines

  // ---------------------------------------------------------------------------
  // Mapper
  // ---------------------------------------------------------------------------

  /**
   The fields the mapper prints for a row: the file name (lower-cased) picks
   the table, checking for "customer" before "order"; a row is used only when
   it has four fields and is not the header.
   */
  function MapRow(filename: string, row: seq<string>): (out: Option<seq<string>>)
    ensures out.Some? ==> |out.value| == 5 && (out.value[1] == "customer" || out.value[1] == "order")
    ensures out.Some? && out.value[1] == "customer" <==>
      Contains(Lower(filename), "customer") && |row| == 4 && row[0] != "customer_id"
    ensures out.Some? && out.value[1] == "order" <==>
      !Contains(Lower(filename), "customer") && Contains(Lower(filename), "order") &&
      |row| == 4 && row[0] != "order_id"
    ensures out.Some? && out.value[1] == "customer" ==> out.value == [row[0], "customer"] + row[1..]
    ensures out.Some? && out.value[1] == "order" ==> out.value == [row[1], "order", row[0], row[2], row[3]]
  {
    var name := Lower(filename);
    if Contains(name, "customer") then
      if |row| == 4 && row[0] != "customer_id" then Some([row[0], "customer", row[1], row[2], row[3]]) else None
    else if Contains(name, "order") then
      if |row| == 4 && row[0] != "order_id" then Some([row[1], "order", row[0], row[2], row[3]]) else None
    else None
  }

  // ---------------------------------------------------------------------------
  // Reducer
  // ---------------------------------------------------------------------------

  /** One joined output line. */
  datatype Joined = Joined(customer: string, name: string, tier: string, country: string,
                           orderCount: nat, total: int, average: real)

  /**
   `parts = line.strip().split('\t')`; the record is keyed by `parts[0]` and
   carries `parts[1:]` (the record type first). None where `parts[1]` raises.
   */
  function ParseJoinLine(line: string): (r: Option<(string, seq<string>)>)
    ensures r.Some? <==> |Fields(line)| >= 2
    ensures r.Some? ==> [r.value.0] + r.value.1 == Fields(line) && |r.value.1| >= 1
  {
    var parts := Fields(line);
    if |parts| < 2 then None else Some((parts[0], parts[1..]))
  }

  /** `parts[lo:hi]` of the line, given the record's `parts[1:]`. */
  function Slice(v: seq<string>, lo: nat, hi: nat): (s: seq<string>)
    ensures |s| == if |v| <= lo then 0 else if |v| >= hi then (if hi >= lo then hi - lo else 0) else |v| - lo
  {
    if |v| <= lo || hi <= lo then [] else v[lo..if |v| < hi then |v| else hi]
  }

  predicate IsCustomer(v: seq<string>) { |v| > 0 && v[0] == "customer" }

  predicate IsOrder(v: seq<string>) { |v| > 0 && v[0] == "order" }

  /** `customer_info`: `parts[2:5]` of the run's last customer record; None when there is none. */
  function LastCustomer(vs: seq<seq<string>>): Option<seq<string>>
  {
    if |vs| == 0 then None
    else if IsCustomer(vs[|vs| - 1]) then Some(Slice(vs[|vs| - 1], 1, 4))
    else LastCustomer(vs[..|vs| - 1])
  }

  /** `orders`: `parts[2:4]` (order id, amount) of every order record of the run, in order. */
  function Orders(vs: seq<seq<string>>): (os: seq<seq<string>>)
    ensures |os| <= |vs|
  {
    if |vs| == 0 then []
    else Orders(vs[..|vs| - 1]) + (if IsOrder(vs[|vs| - 1]) then [Slice(vs[|vs| - 1], 1, 3)] else [])
  }

  /** `int(order[1])` for each order; 0 where that would raise (excluded by Flushable). */
  function Amounts(os: seq<seq<string>>): (xs: seq<int>)
    ensures |xs| == |os|
  {
    if |os| == 0 then []
    else Amounts(os[..|os| - 1]) + [if |os[|os| - 1]| == 2 then ParseInt(os[|os| - 1][1]).GetOr(0) else 0]
  }

  predicate AmountsParse(os: seq<seq<string>>)
  {
    forall i :: 0 <= i < |os| ==> |os[i]| == 2 && ParseInt(os[i][1]).Some?
  }

  /**
   A run whose flush does not raise: a non-empty customer id with non-empty
   customer details has exactly three of them (`name, tier, country =
   customer_info`) and every order amount is an integer.
   */
  predicate Flushable(r: Run<string, seq<string>>)
  {
    var info := LastCustomer(r.values);
    r.key == "" || info.None? || |info.value| == 0 || (|info.value| == 3 && AmountsParse(Orders(r.values)))
  }

  /** `total / count if count > 0 else 0`. */
  function Average(total: int, count: nat): real
  {
    if count > 0 then total as real / count as real else 0.0
  }

  function Flush(r: Run<string, seq<string>>): seq<Joined>
  {
    var info := LastCustomer(r.values);
    var os := Orders(r.values);
    if r.key == "" || info.None? || |info.value| != 3 || !AmountsParse(os) then []
    else
      var total := Sum(Amounts(os));
      [Joined(r.key, info.value[0], info.value[1], info.value[2], |os|, total, Average(total, |os|))]
  }

  function ReduceLines(lines: seq<string>): seq<Joined>
  {
    Reduce(lines, ParseJoinLine, Flush)
  }

  /**
   The last customer record wins: the details are those of the last record of
   type customer, whatever else follows it.
   */
  lemma {:induction false} LastCustomerIsLast(vs: seq<seq<string>>, info: seq<string>)
    ensures LastCustomer(vs) == Some(info) <==>
      exists i :: 0 <= i < |vs| && IsCustomer(vs[i]) && info == Slice(vs[i], 1, 4) &&
        forall j :: i < j < |vs| ==> !IsCustomer(vs[j])
    ensures LastCustomer(vs).None? <==> forall j :: 0 <= j < |vs| ==> !IsCustomer(vs[j])
    decreases |vs|
  {
    if |vs| > 0 {
      var p := vs[..|vs| - 1];
      LastCustomerIsLast(p, info);
      assert forall j :: 0 <= j < |p| ==> p[j] == vs[j];
      if !IsCustomer(vs[|vs| - 1]) {
        if LastCustomer(vs) == Some(info) {
          var i :| 0 <= i < |p| && IsCustomer(p[i]) && info == Slice(p[i], 1, 4) &&
            forall j :: i < j < |p| ==> !IsCustomer(p[j]);
          assert forall j :: i < j < |vs| ==> !IsCustomer(vs[j]);
        }
      }
    }
  }

  lemma {:induction false} OrdersConcat(a: seq<seq<string>>, b: seq<seq<string>>)
    ensures Orders(a + b) == Orders(a) + Orders(b)
    decreases |b|
  {
    if |b| > 0 {
      assert (a + b)[..|a + b| - 1] == a + b[..|b| - 1];
      OrdersConcat(a, b[..|b| - 1]);
    } else {
      assert a + b == a;
    }
  }

  /** Order records that carry no customer record add nothing to LastCustomer, wherever they stand. */
  lemma {:induction false} LastCustomerOrders(c: seq<string>, os: seq<seq<string>>)
    requires IsCustomer(c)
    requires forall j :: 0 <= j < |os| ==> IsOrder(os[j])
    ensures LastCustomer([c] + os) == Some(Slice(c, 1, 4)) == LastCustomer(os + [c])
  {
    var s := [c] + os;
    LastCustomerIsLast(s, Slice(c, 1, 4));
    assert s[0] == c;
    assert forall j :: 0 < j < |s| ==> s[j] == os[j - 1];
    assert forall j :: 0 < j < |s| ==> !IsCustomer(s[j]);
    assert (os + [c])[..|os|] == os;
  }

  /**
   A customer's joined line does not depend on whether its customer record is
   sorted before or after its orders.
   */
  lemma CustomerBeforeOrAfterOrders(k: string, c: seq<string>, os: seq<seq<string>>)
    requires IsCustomer(c)
    requires forall j :: 0 <= j < |os| ==> IsOrder(os[j])
    ensures Flush(Run(k, [c] + os)) == Flush(Run(k, os + [c]))
  {
    LastCustomerOrders(c, os);
    OrdersConcat([c], os);
    OrdersConcat(os, [c]);
    assert Orders([c]) == [] by {
      assert [c][..0] == [];
    }
    FlushDepends(k, [c] + os, os + [c]);
  }

  /** A run's flush depends only on its last customer record and its orders. */
  lemma FlushDepends(k: string, a: seq<seq<string>>, b: seq<seq<string>>)
    requires LastCustomer(a) == LastCustomer(b) && Orders(a) == Orders(b)
    ensures Flush(Run(k, a)) == Flush(Run(k, b))
  {
  }

  /** What one run writes, stated without the run's internals. */
  lemma FlushHas(k: string, vs: seq<seq<string>>, j: Joined)
    ensures j in Flush(Run(k, vs)) <==>
      var os := Orders(vs);
      k != "" && j.customer == k && LastCustomer(vs) == Some([j.name, j.tier, j.country]) && AmountsParse(os) &&
      j.orderCount == |os| && j.total == Sum(Amounts(os)) && j.average == Average(j.total, |os|)
  {
    var info := LastCustomer(vs);
    if info.Some? && |info.value| == 3 {
      assert info.value == [info.value[0], info.value[1], info.value[2]];
    }
  }

  /**
   With equal customer ids adjacent and every flush safe, a joined line is
   written exactly when its id is non-empty, its details are the id's last
   customer record, and its count, total and average are those of the id's orders.
   */
  lemma Joins(lines: seq<string>, j: Joined)
    requires Grouped(Parsed(lines, ParseJoinLine))
    requires forall k :: k in Keys(Parsed(lines, ParseJoinLine)) ==>
      Flushable(Run(k, ValuesOf(Parsed(lines, ParseJoinLine), k)))
    ensures j in ReduceLines(lines) <==>
      var vs := ValuesOf(Parsed(lines, ParseJoinLine), j.customer);
      var os := Orders(vs);
      j.customer != "" && LastCustomer(vs) == Some([j.name, j.tier, j.country]) &&
      j.orderCount == |os| && j.total == Sum(Amounts(os)) && j.average == Average(j.total, |os|)
  {
    var rs := Parsed(lines, ParseJoinLine);
    var vs := ValuesOf(rs, j.customer);
    ReduceGrouped(rs, Flush, j);
    if j in ReduceLines(lines) {
      var k :| k in Keys(rs) && j in Flush(Run(k, ValuesOf(rs, k)));
      FlushHas(k, ValuesOf(rs, k), j);
    }
    if LastCustomer(vs).Some? {
      LastCustomerIsLast(vs, LastCustomer(vs).value);
      ValuesOfKey(rs, j.customer);
    }
    FlushHas(j.customer, vs, j);
  }

  lemma MalformedLineSkipped(a: seq<string>, line: string, b: seq<string>)
    requires ParseJoinLine(line).None?
    ensures ReduceLines(a + [line] + b) == ReduceLines(a + b)
  {
    SkippedLine(a, line, b, ParseJoinLine, Flush);
  }
}

=== FILE: dicts.dfy ===
/**
 Python dictionaries as the reducers use them: an association list with at
 most one entry per key, in insertion order. Assigning to a key that is
 already present replaces its value in place; assigning to a new key appends
 an entry at the end (the iteration order of a Python 3.7+ `dict`).
 */
module Dicts {
  import opened Wrappers

  type Dict<K, V> = seq<(K, V)>

  /** The keys of a dictionary, in iteration order. */
  function KeysOf<K, V>(d: Dict<K, V>): (ks: seq<K>)
    ensures |ks| == |d|
  {
    if |d| == 0 then [] else [d[0].0] + KeysOf(d[1..])
  }

  /** No key occurs twice. */
  predicate UniqueKeys<K(==), V>(d: Dict<K, V>)
  {
    forall i, j :: 0 <= i < j < |d| ==> d[i].0 != d[j].0
  }

  /** `d.get(k)`: the value stored under k, if any. */
  function Lookup<K(==), V>(d: Dict<K, V>, k: K): Option<V>
  {
    if |d| == 0 then None
    else if d[0].0 == k then Some(d[0].1)
    else Lookup(d[1..], k)
  }

  /** A key is found exactly when some entry carries it, and what is found is that entry's value. */
  lemma {:induction false} LookupSpec<K, V>(d: Dict<K, V>, k: K)
    ensures Lookup(d, k).Some? ==> (k, Lookup(d, k).value) in d
    ensures Lookup(d, k).None? <==> forall i :: 0 <= i < |d| ==> d[i].0 != k
    decreases |d|
  {
    if |d| > 0 && d[0].0 != k {
      LookupSpec(d[1..], k);
      assert forall i :: 0 < i < |d| ==> d[i] == d[1..][i - 1];
    }
  }

  /** `d[k] = v`. */
  function Put<K(==), V>(d: Dict<K, V>, k: K, v: V): (r: Dict<K, V>)
  {
    if |d| == 0 then [(k, v)]
    else if d[0].0 == k then [(k, v)] + d[1..]
    else [d[0]] + Put(d[1..], k, v)
  }

  /** After `d[k] = v`, k maps to v and every other key keeps its value. */
  lemma {:induction false} LookupPut<K, V>(d: Dict<K, V>, k: K, v: V, k': K)
    ensures Lookup(Put(d, k, v), k') == if k' == k then Some(v) else Lookup(d, k')
    decreases |d|
  {
    if |d| > 0 && d[0].0 != k {
      LookupPut(d[1..], k, v, k');
      assert Put(d, k, v)[1..] == Put(d[1..], k, v);
    } else if |d| > 0 {
      assert Put(d, k, v)[1..] == d[1..];
    }
  }

  /** Assignment keeps the iteration order; a new key goes last. */
  lemma {:induction false} KeysOfPut<K, V>(d: Dict<K, V>, k: K, v: V)
    ensures KeysOf(Put(d, k, v)) == if Lookup(d, k).Some? then KeysOf(d) else KeysOf(d) + [k]
    decreases |d|
  {
    if |d| > 0 && d[0].0 != k {
      KeysOfPut(d[1..], k, v);
      assert Put(d, k, v)[1..] == Put(d[1..], k, v);
    } else if |d| > 0 {
      assert Put(d, k, v)[1..] == d[1..];
    }
  }

  /** Assignment never duplicates a key. */
  lemma {:induction false} PutUnique<K, V>(d: Dict<K, V>, k: K, v: V)
    requires UniqueKeys(d)
    ensures UniqueKeys(Put(d, k, v))
    decreases |d|
  {
    if |d| > 0 && d[0].0 != k {
      PutUnique(d[1..], k, v);
      var r := Put(d, k, v);
      var t := Put(d[1..], k, v);
      assert r == [d[0]] + t;
      forall j | 0 <= j < |t| ensures t[j].0 != d[0].0 {
        LookupSpec(t, t[j].0);
        LookupPut(d[1..], k, v, t[j].0);
        LookupSpec(d[1..], d[0].0);
      }
    } else if |d| > 0 {
      var r := Put(d, k, v);
      assert forall j :: 0 < j < |r| ==> r[j] == d[j];
    }
  }

  /** With unique keys, an entry is in the dictionary exactly when Lookup finds its value under its key. */
  lemma LookupEntry<K, V>(d: Dict<K, V>, k: K, v: V)
    requires UniqueKeys(d)
    ensures (k, v) in d <==> Lookup(d, k) == Some(v)
  {
    LookupSpec(d, k);
    if (k, v) in d {
      var i :| 0 <= i < |d| && d[i] == (k, v);
      LookupAt(d, i);
    }
  }

  lemma {:induction false} LookupAt<K, V>(d: Dict<K, V>, i: nat)
    requires UniqueKeys(d) && i < |d|
    ensures Lookup(d, d[i].0) == Some(d[i].1)
    decreases i
  {
    if i > 0 {
      LookupAt(d[1..], i - 1);
      assert d[1..][i - 1] == d[i];
    }
  }
}

=== FILE: ecommerce.dfy ===
/**
 Revenue summaries (lab4, 4.2 reducer): every non-blank input line is
 `key<TAB>amount`; for each run of equal keys the reducer writes the key, the
 total, the number of records and their average.

 The reducer has no error handling: a non-blank line without a tab, or whose
 amount is not a number, aborts the job. The model states this as the
 precondition WellFormed.
 */
module Ecommerce {
  import opened Wrappers
  import opened Text
  import opened Numbers
  import opened Runs
  import opened Lines

  /** One output line: `key, total, count, average` (printed with two decimals). */
  datatype Summary = Summary(key: string, total: real, count: nat, average: real)

  /** `key, value = line.split('\t', 1); value = float(value)` on a stripped, non-blank line. */
  function ParseRevenue(line: string): (r: Option<(string, real)>)
    ensures Strip(line) == "" ==> r.None?
    ensures r.Some? ==> KeyAndRest(line).Some? && r.value.0 == KeyAndRest(line).value.0
    ensures r.Some? ==> ParseDecimal(KeyAndRest(line).value.1) == Some(r.value.1)
    ensures Strip(line) != "" && KeyAndRest(line).Some? && ParseDecimal(KeyAndRest(line).value.1).Some? ==> r.Some?
  {
    if Strip(line) == "" then None
    else
      match KeyAndRest(line)
      case None => None
      case Some((key, value)) =>
        match ParseDecimal(value)
        case None => None
        case Some(v) => Some((key, v))
  }

  /** Input the reducer gets through: every non-blank line has a tab and a numeric amount. */
  predicate WellFormed(lines: seq<string>)
  {
    forall i :: 0 <= i < |lines| ==> Strip(lines[i]) == "" || ParseRevenue(lines[i]).Some?
  }

  /** The summary of a run; the empty key is never written. */
  function Flush(r: Run<string, real>): seq<Summary>
  {
    if r.key == "" then []
    else
      var total := RSum(r.values);
      var count := |r.values|;
      [Summary(r.key, total, count, Mean(r.values))]
  }

  function ReduceLines(lines: seq<string>): seq<Summary>
    requires WellFormed(lines)
  {
    Reduce(lines, ParseRevenue, Flush)
  }

  /** Blank lines are skipped without closing the open run. */
  lemma BlankLineSkipped(a: seq<string>, line: string, b: seq<string>)
    requires WellFormed(a + b) && Strip(line) == ""
    ensures WellFormed(a + [line] + b)
    ensures ReduceLines(a + [line] + b) == ReduceLines(a + b)
  {
    var s := a + [line] + b;
    forall i | 0 <= i < |s| ensures Strip(s[i]) == "" || ParseRevenue(s[i]).Some? {
      if i < |a| {
        assert s[i] == (a + b)[i];
      } else if i > |a| {
        assert s[i] == (a + b)[i - 1];
      }
    }
    SkippedLine(a, line, b, ParseRevenue, Flush);
  }

  /**
   With equal keys adjacent, a summary is written exactly when its key is a
   non-empty key of the input, its total is the sum of that key's amounts,
   its count their number and its average the total over the count.
   */
  lemma Totals(lines: seq<string>, s: Summary)
    requires WellFormed(lines) && Grouped(Parsed(lines, ParseRevenue))
    ensures s in ReduceLines(lines) <==>
      var amounts := ValuesOf(Parsed(lines, ParseRevenue), s.key);
      s.key != "" && |amounts| > 0 &&
      s.total == RSum(amounts) && s.count == |amounts| && s.average == s.total / s.count as real
  {
    var rs := Parsed(lines, ParseRevenue);
    var amounts := ValuesOf(rs, s.key);
    ReduceGrouped(rs, Flush, s);
    ValuesOfKey(rs, s.key);
    FlushHas(s.key, amounts, s);
    if s in ReduceLines(lines) {
      var k :| k in Keys(rs) && s in Flush(Run(k, ValuesOf(rs, k)));
      FlushHas(k, ValuesOf(rs, k), s);
    }
  }

  /** A run writes s exactly when s is the run's summary. */
  lemma FlushHas(k: string, amounts: seq<real>, s: Summary)
    ensures s in Flush(Run(k, amounts)) <==>
      k != "" && s.key == k && s.total == RSum(amounts) && s.count == |amounts| && s.average == Mean(amounts)
  {
  }

  /** The average of a run lies between its smallest and its largest amount. */
  lemma AverageBetweenExtremes(key: string, amounts: seq<real>)
    requires key != "" && |amounts| > 0
    ensures |Flush(Run(key, amounts))| == 1
    ensures RMin(amounts) <= Flush(Run(key, amounts))[0].average <= RMax(amounts)
  {
    assert Flush(Run(key, amounts))[0].average == Mean(amounts);
  }

  /** Permuting the amounts of a run does not change its summary. */
  lemma FlushPermutation(key: string, a: seq<real>, b: seq<real>)
    requires multiset(a) == multiset(b)
    ensures Flush(Run(key, a)) == Flush(Run(key, b))
  {
    RSumPermutation(a, b);
    assert |a| == |multiset(a)| == |multiset(b)| == |b|;
  }
}

=== FILE: etl_mapper.dfy ===
/**
 The record shaping of the multi-source ETL mapper (lab4, 4.1): phone and
 e-mail normalisation, the customer data-quality score, and the filters that
 decide which customer, purchase and product records are written.

 The CSV, JSON and XML parsers and `standardize_date` are not modelled: a
 customer row arrives as the map `csv.DictReader` builds, a purchase as its
 decoded fields, a product as the texts of its child elements, and the date
 standardiser is a parameter.
 */
module EtlMapper {
  import opened Wrappers
  import opened Text
  import opened Numbers

  // ---------------------------------------------------------------------------
  // Input routing
  // ---------------------------------------------------------------------------

  datatype FileType = Csv | Json | Xml | Unknown

  /**
   `get_file_type`: the lower-cased input file name picks the format, testing
   customer/.csv before purchase/.json before product/.xml.
   */
  function FileTypeOf(filename: string): (t: FileType)
    ensures var name := Lower(filename);
      && (t == Csv <==> Contains(name, "customer") || IsSuffix(".csv", name))
      && (t == Json <==> t != Csv && (Contains(name, "purchase") || IsSuffix(".json", name)))
      && (t == Xml <==> t != Csv && t != Json && (Contains(name, "product") || IsSuffix(".xml", name)))
  {
    var name := Lower(filename);
    if Contains(name, "customer") || IsSuffix(".csv", name) then Csv
    else if Contains(name, "purchase") || IsSuffix(".json", name) then Json
    else if Contains(name, "product") || IsSuffix(".xml", name) then Xml
    else Unknown
  }

  predicate IsSuffix(p: string, s: string) { |p| <= |s| && s[|s| - |p|..] == p }

  // ---------------------------------------------------------------------------
  // Phones
  // ---------------------------------------------------------------------------

  /** `re.sub(r'[^\d]', '', s)`: the digits of s, in order. */
  function DigitsOf(s: string): (d: string)
    ensures AllDigits(d) && |d| <= |s|
  {
    KeepChars(s, IsDigit)
  }

  lemma DigitsOfConcat(a: string, b: string)
    ensures DigitsOf(a + b) == DigitsOf(a) + DigitsOf(b)
  {
    KeepCharsConcat(a, b, IsDigit);
  }

  lemma DigitsOfDigits(s: string)
    requires AllDigits(s)
    ensures DigitsOf(s) == s
  {
    KeepCharsAll(s, IsDigit);
  }

  /** `f"({d[:3]}) {d[3:6]}-{d[6:]}"` for ten digits. */
  function FormatPhone(d: string): (r: string)
    requires |d| == 10
  {
    "(" + d[..3] + ") " + d[3..6] + "-" + d[6..]
  }

  /** The shape `(ddd) ddd-dddd`. */
  predicate IsFormatted(r: string)
  {
    && |r| == 14 && r[0] == '(' && r[4] == ')' && r[5] == ' ' && r[9] == '-'
    && AllDigits(r[1..4]) && AllDigits(r[6..9]) && AllDigits(r[10..])
  }

  /** A formatted number has the shape and keeps exactly its ten digits. */
  lemma FormatPhoneDigits(d: string)
    requires |d| == 10 && AllDigits(d)
    ensures IsFormatted(FormatPhone(d)) && DigitsOf(FormatPhone(d)) == d
  {
    var a, b, c := d[..3], d[3..6], d[6..];
    var r := FormatPhone(d);
    assert r == "(" + a + ") " + b + "-" + c;
    assert IsFormatted(r) by {
      assert r[1..4] == a && r[6..9] == b && r[10..] == c;
    }
    FormattedDigits(a, b, c);
    assert d == a + b + c;
  }

  /** The punctuation of the format adds no digits. */
  lemma FormattedDigits(a: string, b: string, c: string)
    requires AllDigits(a) && AllDigits(b) && AllDigits(c)
    ensures DigitsOf("(" + a + ") " + b + "-" + c) == a + b + c
  {
    DigitsOfDigits(a);
    DigitsOfDigits(b);
    DigitsOfDigits(c);
    NoDigits("(");
    NoDigits(") ");
    NoDigits("-");
    var s1 := "(" + a;
    DigitsJoin("(", a, "", a);
    var s2 := s1 + ") ";
    DigitsJoin(s1, ") ", a, "");
    var s3 := s2 + b;
    DigitsJoin(s2, b, a, b);
    var s4 := s3 + "-";
    DigitsJoin(s3, "-", a + b, "");
    DigitsJoin(s4, c, a + b, c);
  }

  /** One step of FormattedDigits: the digits of joined text, from the digits of its parts. */
  lemma DigitsJoin(x: string, y: string, dx: string, dy: string)
    requires DigitsOf(x) == dx && DigitsOf(y) == dy
    ensures DigitsOf(x + y) == dx + dy
  {
    DigitsOfConcat(x, y);
  }

  lemma NoDigits(s: string)
    requires forall k :: 0 <= k < |s| ==> !IsDigit(s[k])
    ensures DigitsOf(s) == ""
  {
    KeepCharsNone(s, IsDigit);
  }

  /** The digits of a phone take the clean form: ten, or eleven with a leading country code 1. */
  predicate Cleanable(d: string)
  {
    |d| == 10 || (|d| == 11 && d[0] == '1')
  }

  /**
   `clean_phone`: ten extracted digits, or eleven led by '1' with the '1'
   dropped, are written as `(ddd) ddd-dddd`; any other input is returned as is.
   */
  function CleanPhone(phone: string): (r: string)
    ensures var d := DigitsOf(phone);
      && (Cleanable(d) ==> IsFormatted(r) && DigitsOf(r) == d[|d| - 10..])
      && (!Cleanable(d) ==> r == phone)
  {
    var d := DigitsOf(phone);
    if |d| == 10 then
      FormatPhoneDigits(d);
      FormatPhone(d)
    else if |d| == 11 && d[0] == '1' then
      FormatPhoneDigits(d[1..]);
      FormatPhone(d[1..])
    else phone
  }

  /** Cleaning a cleaned phone changes nothing. */
  lemma CleanPhoneIdempotent(phone: string)
    ensures CleanPhone(CleanPhone(phone)) == CleanPhone(phone)
  {
    var d := DigitsOf(phone);
    if Cleanable(d) {
      var ten := d[|d| - 10..];
      assert CleanPhone(phone) == FormatPhone(ten);
      FormatPhoneDigits(ten);
    }
  }

  // ---------------------------------------------------------------------------
  // E-mail
  // ---------------------------------------------------------------------------

  /** `'@' in e and '.' in e.split('@')[1]`: the text between the first and any second '@' has a dot. */
  predicate EmailShaped(e: string)
  {
    '@' in e && var parts := Split(e, '@'); |parts| > 1 && '.' in parts[1]
  }

  /** `clean_email`: the lower-cased, stripped address when it is e-mail shaped, otherwise None. */
  function CleanEmail(email: string): (r: Option<string>)
    ensures r.Some? <==> EmailShaped(Strip(Lower(email)))
    ensures r.Some? ==> r.value == Strip(Lower(email))
  {
    var e := Strip(Lower(email));
    if EmailShaped(e) then Some(e) else None
  }

  /** A cleaned address has an '@' and is already lower case and stripped. */
  lemma CleanEmailNormal(email: string)
    requires CleanEmail(email).Some?
    ensures var e := CleanEmail(email).value;
      '@' in e && Lower(e) == e && Strip(e) == e
  {
    var l := Lower(email);
    var e := Strip(l);
    assert '@' in e by {
      assert EmailShaped(e);
      ShapedHasAt(e);
    }
    assert Strip(e) == e by {
      StripIdempotent(l);
    }
    assert Lower(e) == e by {
      LowerIdempotent(email);
      LowerStrip(l);
    }
  }

  /** Stripping a lower-case text leaves it lower case. */
  lemma LowerStrip(l: string)
    requires Lower(l) == l
    ensures Lower(Strip(l)) == Strip(l)
  {
    LowerSlice(l, Span(l, true), Span(l, true) + |Strip(l)|);
  }

  lemma ShapedHasAt(e: string)
    requires EmailShaped(e)
    ensures '@' in e
  {
  }

  /** A slice of a lower-cased text is lower case. */
  lemma LowerSlice(s: string, i: nat, j: nat)
    requires i <= j <= |s|
    requires s == Lower(s)
    ensures Lower(s[i..j]) == s[i..j]
  {
    assert forall k :: i <= k < j ==> s[k] == LowerChar(s[k]);
  }

  /** Cleaning a cleaned address gives it back. */
  lemma CleanEmailIdempotent(email: string)
    requires CleanEmail(email).Some?
    ensures CleanEmail(CleanEmail(email).value) == CleanEmail(email)
  {
    CleanEmailNormal(email);
  }

  /**
   Only the segment between the first and a second '@' is inspected: a dot
   after the second '@' does not count.
   */
  lemma SecondSegmentOnly(a: string, b: string, c: string)
    requires '@' !in a && '@' !in b && '.' !in b
    ensures !EmailShaped(a + "@" + b + "@" + c)
  {
    var e := a + "@" + b + "@" + c;
    assert e == a + ['@'] + (b + ['@'] + c);
    SplitOf(a, '@', b + ['@'] + c);
    SplitOf(b, '@', c);
  }

  /** Concretely, `a@b@c.d` is rejected. */
  lemma CleanEmailSecondSegment()
    ensures CleanEmail("a@b@c.d") == None
  {
    var e := "a@b@c.d";
    assert Strip(Lower(e)) == e by {
      LowerNoUpper(e);
      StripNoSpace(e);
    }
    assert !EmailShaped(e) by {
      var a, b, c := "a", "b", "c.d";
      assert '@' !in a && '@' !in b && '.' !in b;
      assert e == a + "@" + b + "@" + c;
      SecondSegmentOnly(a, b, c);
    }
  }

  // ---------------------------------------------------------------------------
  // Customers
  // ---------------------------------------------------------------------------

  /** A CSV row as `csv.DictReader` builds it: column name to text. */
  type Row = map<string, string>

  /** `row.get(k, '')`. */
  function Get(row: Row, k: string): string
  {
    if k in row then row[k] else ""
  }

  /** The customer record `process_csv_line` builds, before its score. */
  datatype Customer = Customer(
    customerId: string, fullName: string, email: Option<string>, phone: string,
    birthDate: Option<string>, gender: string, address: string,
    registrationDate: Option<string>, tier: string)

  /** The transformations of `process_csv_line`; `date` stands for `standardize_date`. */
  function BuildCustomer(row: Row, date: string -> Option<string>): Customer
  {
    Customer(
      Strip(Get(row, "customer_id")),
      Strip(Get(row, "first_name") + " " + Get(row, "last_name")),
      CleanEmail(Get(row, "email")),
      CleanPhone(Get(row, "phone")),
      date(Get(row, "birth_date")),
      Upper(Get(row, "gender")),
      Get(row, "city") + ", " + Get(row, "state") + " " + Get(row, "zip_code"),
      date(Get(row, "registration_date")),
      Title(Get(row, "customer_tier")))
  }

  /** Python truthiness of an optional text: present and non-empty. */
  predicate Truthy(o: Option<string>) { o.Some? && o.value != "" }

  /** The seven quality checks, with their weights. */
  predicate HasId(c: Customer) { c.customerId != "" }
  predicate HasEmail(c: Customer) { Truthy(c.email) }
  predicate HasPhone(c: Customer) { c.phone != "" }
  predicate HasBirthDate(c: Customer) { Truthy(c.birthDate) }
  predicate HasGender(c: Customer) { c.gender == "M" || c.gender == "F" || c.gender == "O" }
  predicate HasAddress(c: Customer) { Count(c.address, ',') == 1 }
  predicate HasRegistration(c: Customer) { Truthy(c.registrationDate) }

  predicate AllChecks(c: Customer)
  {
    HasId(c) && HasEmail(c) && HasPhone(c) && HasBirthDate(c) && HasGender(c) && HasAddress(c) && HasRegistration(c)
  }

  predicate NoChecks(c: Customer)
  {
    !HasId(c) && !HasEmail(c) && !HasPhone(c) && !HasBirthDate(c) && !HasGender(c) && !HasAddress(c) && !HasRegistration(c)
  }

  function Weight(passed: bool, w: nat): nat { if passed then w else 0 }

  /** The data-quality score: 20 for an id, 20 for an e-mail, 15 each for phone and birth date, 10 each for the rest. */
  function QualityScore(c: Customer): (score: nat)
    ensures score <= 100
    ensures score == 100 <==> AllChecks(c)
    ensures score == 0 <==> NoChecks(c)
  {
    Weight(HasId(c), 20) + Weight(HasEmail(c), 20) + Weight(HasPhone(c), 15) + Weight(HasBirthDate(c), 15) +
    Weight(HasGender(c), 10) + Weight(HasAddress(c), 10) + Weight(HasRegistration(c), 10)
  }

  /** The address line has one comma whenever the city, state and zip code have none. */
  lemma AddressOneComma(row: Row, date: string -> Option<string>)
    requires ',' !in Get(row, "city") && ',' !in Get(row, "state") && ',' !in Get(row, "zip_code")
    ensures HasAddress(BuildCustomer(row, date))
  {
    var city, state, zip := Get(row, "city"), Get(row, "state"), Get(row, "zip_code");
    OneComma(city, state + " " + zip);
    assert ',' !in state + " " + zip;
    assert city + ", " + state + " " + zip == city + ", " + (state + " " + zip);
  }

  lemma OneComma(a: string, b: string)
    requires ',' !in a && ',' !in b
    ensures Count(a + ", " + b, ',') == 1
  {
    var tail := ", " + b;
    assert a + ", " + b == a + tail;
    CountConcat(a, tail, ',');
    CountConcat(", ", b, ',');
    CommaSpaceCount();
  }

  lemma CommaSpaceCount()
    ensures Count(", ", ',') == 1
  {
    assert ", "[1..] == " ";
    assert ',' !in " ";
  }

  /** Without an id and an e-mail, a customer that passes every other check still scores the threshold. */
  lemma NoIdNoEmailStillEmitted(c: Customer)
    requires !HasId(c) && !HasEmail(c)
    requires HasPhone(c) && HasBirthDate(c) && HasGender(c) && HasAddress(c) && HasRegistration(c)
    ensures QualityScore(c) == 60
  {
  }

  /** `str(v)` of an optional text: `None` when absent. */
  function ShowOption(o: Option<string>): string
  {
    match o
    case Some(s) => s
    case None => "None"
  }

  /** The eleven values the customer line carries after its key, in the dictionary's order. */
  function CustomerValues(c: Customer, score: nat): (vs: seq<string>)
    ensures |vs| == 11 && vs[0] == "customer" && vs[1] == c.customerId && vs[10] == IntToString(score)
  {
    ["customer", c.customerId, c.fullName, ShowOption(c.email), c.phone, ShowOption(c.birthDate),
     c.gender, c.address, ShowOption(c.registrationDate), c.tier, IntToString(score)]
  }

  /** The customer line of a customer: written only when the quality score is at least 60. */
  function CustomerLine(c: Customer): (out: Option<string>)
    ensures out.Some? <==> QualityScore(c) >= 60
  {
    var score := QualityScore(c);
    if score >= 60 then Some("CUSTOMER\t" + c.customerId + "\t" + Join(CustomerValues(c, score), '\t'))
    else None
  }

  /** The customer line of a CSV row. */
  function RowLine(row: Row, date: string -> Option<string>): Option<string>
  {
    CustomerLine(BuildCustomer(row, date))
  }

  // ---------------------------------------------------------------------------
  // Customer file: as written and as intended
  // ---------------------------------------------------------------------------

  /** `dict(zip(keys, values))`: a later repeated key overrides an earlier one. */
  function Zip(keys: seq<string>, values: seq<string>): (m: Row)
    ensures forall k :: k in m ==> k in keys
    decreases |keys|
  {
    if |keys| == 0 || |values| == 0 then map[]
    else
      var m := Zip(keys[1..], values[1..]);
      if keys[0] in m then m else m[keys[0] := values[0]]
  }

  /** The CSV row of a text against a header (fields split at ','; quoting is not modelled). */
  function RowOf(header: string, record: string): Row
  {
    Zip(Split(header, ','), Split(record, ','))
  }

  /**
   `next(csv.DictReader(StringIO(line)))` as written: the reader takes the
   text's first record as its header and returns the second record; None
   (StopIteration, caught by the handler) when there is no second record.
   */
  function DictReaderNext(text: string): Option<Row>
  {
    var records := Split(text, '\n');
    if |records| < 2 then None else Some(RowOf(records[0], records[1]))
  }

  /** `process_csv_line` as written. */
  function ProcessCsvLineAsWritten(line: string, date: string -> Option<string>): Option<string>
  {
    match DictReaderNext(line)
    case None => None
    case Some(row) => RowLine(row, date)
  }

  /** The lines of a customer file the main loop hands on: stripped, non-blank, not the header. */
  function CsvDataLines(lines: seq<string>): (data: seq<string>)
    ensures forall i :: 0 <= i < |data| ==> data[i] != "" && !IsPrefix("customer_id", data[i])
    ensures forall i :: 0 <= i < |data| ==> exists j :: 0 <= j < |lines| && data[i] == Strip(lines[j])
  {
    if |lines| == 0 then []
    else
      var rest := CsvDataLines(lines[..|lines| - 1]);
      var s := Strip(lines[|lines| - 1]);
      assert forall i :: 0 <= i < |rest| ==> exists j :: 0 <= j < |lines| && rest[i] == Strip(lines[j]) by {
        forall i | 0 <= i < |rest| ensures exists j :: 0 <= j < |lines| && rest[i] == Strip(lines[j]) {
          var j :| 0 <= j < |lines| - 1 && rest[i] == Strip(lines[..|lines| - 1][j]);
          assert lines[..|lines| - 1][j] == lines[j];
        }
      }
      if s == "" || IsPrefix("customer_id", s) then rest
      else
        assert s == Strip(lines[|lines| - 1]);
        rest + [s]
  }

  /** The customer lines the mapper writes for a customer file, as written. */
  function MapCustomerFileAsWritten(lines: seq<string>, date: string -> Option<string>): seq<string>
  {
    Somes(Project(l => ProcessCsvLineAsWritten(l, date), CsvDataLines(lines)))
  }

  /** The customer lines the mapper was meant to write: each data line read against the file's header. */
  function MapCustomerFile(header: string, lines: seq<string>, date: string -> Option<string>): seq<string>
  {
    MapRows(header, CsvDataLines(lines), date)
  }

  function MapRows(header: string, data: seq<string>, date: string -> Option<string>): seq<string>
  {
    Somes(Project(l => RowLine(RowOf(header, l), date), data))
  }

  /** A single line read by the line loop has no newline, so the reader finds no row in it. */
  lemma CsvLineNeverEmits(line: string, date: string -> Option<string>)
    requires '\n' !in line
    ensures ProcessCsvLineAsWritten(line, date).None?
  {
    SplitCount(line, '\n');
  }

  /** As written, a customer file whose lines hold no newline writes no customer line at all. */
  lemma CustomerFileEmitsNothing(lines: seq<string>, date: string -> Option<string>)
    requires forall i :: 0 <= i < |lines| ==> '\n' !in lines[i]
    ensures MapCustomerFileAsWritten(lines, date) == []
  {
    var data := CsvDataLines(lines);
    DataLinesNoNewline(lines);
    var outs := Project(l => ProcessCsvLineAsWritten(l, date), data);
    forall i | 0 <= i < |outs| ensures outs[i].None? {
      CsvLineNeverEmits(data[i], date);
    }
    SomesNone(outs);
  }

  /** The data lines of lines read one by one hold no newline. */
  lemma DataLinesNoNewline(lines: seq<string>)
    requires forall i :: 0 <= i < |lines| ==> '\n' !in lines[i]
    ensures forall i :: 0 <= i < |CsvDataLines(lines)| ==> '\n' !in CsvDataLines(lines)[i]
  {
    var data := CsvDataLines(lines);
    forall i | 0 <= i < |data| ensures '\n' !in data[i] {
      var j :| 0 <= j < |lines| && data[i] == Strip(lines[j]);
      StripNoNewline(lines[j]);
    }
  }

  lemma StripNoNewline(s: string)
    requires '\n' !in s
    ensures '\n' !in Strip(s)
  {
    var r := Strip(s);
    assert forall k :: 0 <= k < |r| ==> r[k] == s[Span(s, true) + k];
  }

  /** As intended, a line is written exactly when it is the line of a data row scoring at least 60. */
  lemma MapRowsHas(header: string, data: seq<string>, date: string -> Option<string>, out: string)
    ensures out in MapRows(header, data, date) <==>
      exists i :: 0 <= i < |data| && RowLine(RowOf(header, data[i]), date) == Some(out)
  {
    var f := l => RowLine(RowOf(header, l), date);
    assert forall i :: 0 <= i < |data| ==> f(data[i]) == RowLine(RowOf(header, data[i]), date);
    SomesProjectHas(f, data, out);
  }

  /** y is kept from the projection exactly when f maps some element to it. */
  lemma SomesProjectHas<T, U>(f: T -> Option<U>, s: seq<T>, y: U)
    ensures y in Somes(Project(f, s)) <==> exists i :: 0 <= i < |s| && f(s[i]) == Some(y)
  {
    var xs := Project(f, s);
    SomesHas(xs, y);
    if exists i :: 0 <= i < |s| && f(s[i]) == Some(y) {
      var i :| 0 <= i < |s| && f(s[i]) == Some(y);
      assert xs[i] == Some(y);
    }
  }

  // ---------------------------------------------------------------------------
  // Purchases
  // ---------------------------------------------------------------------------

  /** One decoded item of a purchase. */
  datatype Item = Item(productId: string, quantity: int, unitPrice: real, discountPercent: real)

  /** One decoded purchase (`json.loads` of a line). */
  datatype Purchase = Purchase(
    transactionId: string, customerId: string, purchaseDate: string, items: seq<Item>,
    paymentMethod: string, orderStatus: string, shippingCost: real, taxAmount: real)

  /** One purchase line's record. */
  datatype PurchaseRecord = PurchaseRecord(
    transactionId: string, customerId: string, purchaseDate: Option<string>, productId: string,
    quantity: int, unitPrice: real, discountPercent: real, lineTotal: real,
    paymentMethod: string, orderStatus: string, shippingCost: real, taxAmount: real)

  /** `quantity * unit_price * (1 - discount_percent / 100)`. */
  function LineTotal(it: Item): real
  {
    it.quantity as real * it.unitPrice * (1.0 - it.discountPercent / 100.0)
  }

  function ItemRecord(p: Purchase, it: Item, date: string -> Option<string>): PurchaseRecord
  {
    PurchaseRecord(p.transactionId, p.customerId, date(p.purchaseDate), it.productId,
                   it.quantity, it.unitPrice, it.discountPercent, LineTotal(it),
                   p.paymentMethod, p.orderStatus, p.shippingCost, p.taxAmount)
  }

  /** The validation of a purchase line: both ids present, a positive quantity and unit price. */
  predicate ValidRecord(r: PurchaseRecord)
  {
    r.customerId != "" && r.productId != "" && r.quantity > 0 && r.unitPrice > 0.0
  }

  /** `process_json_line`: one record per item that passes validation, in item order. */
  function PurchaseRecords(p: Purchase, date: string -> Option<string>): (rs: seq<PurchaseRecord>)
    ensures |rs| <= |p.items|
    ensures forall i :: 0 <= i < |rs| ==> ValidRecord(rs[i]) && rs[i].customerId == p.customerId
  {
    ItemRecords(p, p.items, date)
  }

  function ItemRecords(p: Purchase, items: seq<Item>, date: string -> Option<string>): (rs: seq<PurchaseRecord>)
    ensures |rs| <= |items|
    ensures forall i :: 0 <= i < |rs| ==> ValidRecord(rs[i]) && rs[i].customerId == p.customerId
  {
    if |items| == 0 then []
    else
      var r := ItemRecord(p, items[|items| - 1], date);
      ItemRecords(p, items[..|items| - 1], date) + if ValidRecord(r) then [r] else []
  }

  /** A record is written exactly when it is the record of a valid item of the purchase. */
  lemma {:induction false} ItemRecordsHas(p: Purchase, items: seq<Item>, date: string -> Option<string>, r: PurchaseRecord)
    ensures r in ItemRecords(p, items, date) <==>
      exists i :: 0 <= i < |items| && r == ItemRecord(p, items[i], date) && ValidRecord(r)
    decreases |items|
  {
    if |items| > 0 {
      var q := items[..|items| - 1];
      ItemRecordsHas(p, q, date, r);
      assert forall i :: 0 <= i < |q| ==> q[i] == items[i];
    }
  }

  lemma PurchaseRecordsHas(p: Purchase, date: string -> Option<string>, r: PurchaseRecord)
    ensures r in PurchaseRecords(p, date) <==>
      exists i :: 0 <= i < |p.items| && r == ItemRecord(p, p.items[i], date) && ValidRecord(r)
  {
    ItemRecordsHas(p, p.items, date, r);
  }

  // ---------------------------------------------------------------------------
  // Products
  // ---------------------------------------------------------------------------

  /**
   One `<product id=...>` element: its id attribute and, for each child
   element, its text, which ElementTree gives as None for an element with no
   text (`<is_active/>`).
   */
  datatype ProductXml = ProductXml(id: string, children: map<string, Option<string>>)

  /** A product record; a text field is None where the child element has no text. */
  datatype Product = Product(
    productId: string, name: Option<string>, description: Option<string>, category: Option<string>, brand: Option<string>,
    price: real, cost: real, marginPercent: real, weightKg: real, dimensions: Option<string>,
    stockQuantity: int, supplierId: Option<string>, createdDate: Option<string>, isActive: bool)

  /** `find(tag).text if find(tag) is not None else ''`. */
  function ChildText(p: ProductXml, tag: string): Option<string>
  {
    if tag in p.children then p.children[tag] else Some("")
  }

  /** `float(text) if present else 0`; None where `float` raises, on a text that is no number or on no text at all. */
  function RealChild(p: ProductXml, tag: string): Option<real>
  {
    if tag !in p.children then Some(0.0)
    else match p.children[tag] case None => None case Some(t) => ParseDecimal(t)
  }

  /** `int(text) if present else 0`; None where `int` raises. */
  function IntChild(p: ProductXml, tag: string): Option<int>
  {
    if tag !in p.children then Some(0)
    else match p.children[tag] case None => None case Some(t) => ParseInt(t)
  }

  /** `find('is_active').text.lower() == 'true' if present else False`; None where an element without text makes `.lower()` raise. */
  function ActiveChild(p: ProductXml): (r: Option<bool>)
    ensures r.None? <==> "is_active" in p.children && p.children["is_active"].None?
    ensures r == Some(true) <==> "is_active" in p.children && p.children["is_active"].Some? && Lower(p.children["is_active"].value) == "true"
  {
    if "is_active" !in p.children then Some(false)
    else match p.children["is_active"] case None => None case Some(t) => Some(Lower(t) == "true")
  }

  /**
   `standardize_date(text) if present else ''`, with the date parser as a
   parameter; on an element without text `'T' in None` raises inside its own
   bare `except`, which returns None.
   */
  function CreatedDate(p: ProductXml, date: string -> Option<string>): Option<string>
  {
    if "created_date" !in p.children then Some("")
    else match p.children["created_date"] case None => None case Some(t) => date(t)
  }

  /** `margin_percent`: computed only when both price and cost are positive. */
  function Margin(price: real, cost: real): (m: real)
    ensures price > 0.0 && cost > 0.0 ==> m < 100.0 && m * price == (price - cost) * 100.0
    ensures !(price > 0.0 && cost > 0.0) ==> m == 0.0
  {
    if price > 0.0 && cost > 0.0 then ((price - cost) / price) * 100.0 else 0.0
  }

  /** The product record of an element; None where a numeric conversion or the `is_active` test raises. */
  function BuildProduct(p: ProductXml, date: string -> Option<string>): (r: Option<Product>)
    ensures r.Some? <==> (RealChild(p, "price").Some? && RealChild(p, "cost").Some? &&
                          RealChild(p, "weight_kg").Some? && IntChild(p, "stock_quantity").Some? &&
                          ActiveChild(p).Some?)
  {
    match (RealChild(p, "price"), RealChild(p, "cost"), RealChild(p, "weight_kg"), IntChild(p, "stock_quantity"), ActiveChild(p))
    case (Some(price), Some(cost), Some(weight), Some(stock), Some(active)) =>
      Some(Product(
        p.id, ChildText(p, "name"), ChildText(p, "description"), ChildText(p, "category"), ChildText(p, "brand"),
        price, cost, Margin(price, cost), weight, ChildText(p, "dimensions"), stock, ChildText(p, "supplier_id"),
        CreatedDate(p, date), active))
    case _ => None
  }

  /** The product validation: an id, a name and a positive price. */
  predicate Keep(r: Product) { r.productId != "" && Truthy(r.name) && r.price > 0.0 }

  /**
   `process_xml_content`: the kept products in document order. One try block
   surrounds the whole loop, so the first product whose conversion raises ends
   the processing of the document.
   */
  function ProcessProducts(ps: seq<ProductXml>, date: string -> Option<string>): (rs: seq<Product>)
    ensures |rs| <= |ps|
    ensures forall i :: 0 <= i < |rs| ==> Keep(rs[i])
  {
    Process(ps, p => BuildProduct(p, date))
  }

  /** The loop of `process_xml_content`, with the conversion of one element as a parameter. */
  function Process(ps: seq<ProductXml>, build: ProductXml -> Option<Product>): (rs: seq<Product>)
    ensures |rs| <= |ps|
    ensures forall i :: 0 <= i < |rs| ==> Keep(rs[i])
  {
    if |ps| == 0 then []
    else
      match build(ps[0])
      case None => []
      case Some(r) => (if Keep(r) then [r] else []) + Process(ps[1..], build)
  }

  /** Nothing after a product whose conversion raises is written. */
  lemma ProductsStopAtFailure(ps: seq<ProductXml>, date: string -> Option<string>, i: nat)
    requires i < |ps| && BuildProduct(ps[i], date).None?
    ensures ProcessProducts(ps, date) == ProcessProducts(ps[..i], date)
  {
    ProcessStopsAt(ps, p => BuildProduct(p, date), i);
  }

  /** An `<is_active/>` element without text makes `.text.lower()` raise, so the product is never built. */
  lemma TextlessActiveRaises(p: ProductXml, date: string -> Option<string>)
    requires "is_active" in p.children && p.children["is_active"] == None
    ensures BuildProduct(p, date) == None
  {
  }

  /**
   A textless `<is_active/>` in the first product ends the document before
   either product is written, although both would pass the validation.
   */
  lemma TextlessActiveEndsDocument(date: string -> Option<string>)
    ensures var p1 := ProductXml("p1", map["name" := Some("A"), "price" := Some("5"), "is_active" := None]);
            var p2 := ProductXml("p2", map["name" := Some("B"), "price" := Some("3")]);
            ProcessProducts([p1, p2], date) == []
  {
    var p1 := ProductXml("p1", map["name" := Some("A"), "price" := Some("5"), "is_active" := None]);
    var p2 := ProductXml("p2", map["name" := Some("B"), "price" := Some("3")]);
    TextlessActiveRaises(p1, date);
    ProductsStopAtFailure([p1, p2], date, 0);
    assert [p1, p2][..0] == [];
  }

  lemma {:induction false} ProcessStopsAt(ps: seq<ProductXml>, build: ProductXml -> Option<Product>, i: nat)
    requires i < |ps| && build(ps[i]).None?
    ensures Process(ps, build) == Process(ps[..i], build)
    decreases i
  {
    if i > 0 {
      var q := ps[..i];
      assert q[0] == ps[0] && q[1..] == ps[1..][..i - 1];
      assert ps[1..][i - 1] == ps[i];
      ProcessStopsAt(ps[1..], build, i - 1);
    } else {
      assert ps[..0] == [];
    }
  }

  /** When every product converts, exactly the kept products are written, in order. */
  lemma ProductsAllConvert(ps: seq<ProductXml>, date: string -> Option<string>, r: Product)
    requires forall i :: 0 <= i < |ps| ==> BuildProduct(ps[i], date).Some?
    ensures r in ProcessProducts(ps, date) <==> Keep(r) && exists i :: 0 <= i < |ps| && BuildProduct(ps[i], date) == Some(r)
  {
    var build := p => BuildProduct(p, date);
    assert forall i :: 0 <= i < |ps| ==> build(ps[i]) == BuildProduct(ps[i], date);
    ProcessAllConvert(ps, build, r);
  }

  lemma {:induction false} ProcessAllConvert(ps: seq<ProductXml>, build: ProductXml -> Option<Product>, r: Product)
    requires forall i :: 0 <= i < |ps| ==> build(ps[i]).Some?
    ensures r in Process(ps, build) <==> Keep(r) && exists i :: 0 <= i < |ps| && build(ps[i]) == Some(r)
    decreases |ps|
  {
    if |ps| > 0 {
      var rest := ps[1..];
      assert forall i :: 0 < i < |ps| ==> rest[i - 1] == ps[i];
      ProcessAllConvert(rest, build, r);
      if Keep(r) && (exists i :: 0 <= i < |ps| && build(ps[i]) == Some(r)) {
        var i :| 0 <= i < |ps| && build(ps[i]) == Some(r);
        if i > 0 {
          assert build(rest[i - 1]) == Some(r);
        }
      }
    }
  }
}

=== FILE: etl_reducer.dfy ===
/**
 The hash-join reducer of the multi-source ETL pipeline (lab4, 4.1). Unlike
 the other reducers it does not work run by run: one pass over all lines
 stores every customer and product by key (a later record replaces an
 earlier one) and appends every purchase to its customer's bucket; at the
 end it joins each stored purchase with its customer and product, missing
 ones giving empty defaults, and writes the processing statistics.

 JSON output formatting and the statistics' time stamp are not modelled.
 */
module EtlReducer {
  import opened Wrappers
  import opened Text
  import opened Lines
  import opened Dicts
  import opened Runs
  import EtlMapper

  // ---------------------------------------------------------------------------
  // Input lines and records
  // ---------------------------------------------------------------------------

  /** A line split into its record tag, its key and the remaining fields. */
  datatype Tagged = Tagged(tag: string, key: string, data: seq<string>)

  /** `parts = line.strip().split('\t')`; lines with fewer than three fields are skipped. */
  function ParseLine(line: string): (r: Option<Tagged>)
    ensures r.Some? <==> |Fields(line)| >= 3
    ensures r.Some? ==> [r.value.tag, r.value.key] + r.value.data == Fields(line)
  {
    var parts := Fields(line);
    if |parts| < 3 then None
    else
      assert parts == [parts[0], parts[1]] + parts[2..];
      Some(Tagged(parts[0], parts[1], parts[2..]))
  }

  /** `int(x) if x else 0`: None where `int` raises. */
  function IntField(x: string): Option<int>
  {
    if x == "" then Some(0) else ParseInt(x)
  }

  /** `float(x) if x else 0`: None where `float` raises. */
  function RealField(x: string): Option<real>
  {
    if x == "" then Some(0.0) else ParseDecimal(x)
  }

  datatype CustomerRec = CustomerRec(
    recordType: string, customerId: string, fullName: string, email: string, phone: string,
    birthDate: string, gender: string, address: string, registrationDate: string, tier: string,
    score: int)

  datatype ProductRec = ProductRec(
    recordType: string, productId: string, name: string, description: string, category: string,
    brand: string, price: real, cost: real, marginPercent: real, weightKg: real, dimensions: string,
    stockQuantity: int, supplierId: string, createdDate: string, isActive: bool)

  datatype PurchaseRec = PurchaseRec(
    recordType: string, transactionId: string, customerId: string, purchaseDate: string,
    productId: string, quantity: int, unitPrice: real, discountPercent: real, lineTotal: real,
    paymentMethod: string, orderStatus: string, shippingCost: real, taxAmount: real)

  /**
   `process_customer`'s dictionary: eleven fields, the last an integer score
   (0 when empty); None where building it raises, so nothing is stored.
   */
  function ParseCustomer(d: seq<string>): (r: Option<CustomerRec>)
    ensures r.Some? <==> |d| >= 11 && IntField(d[10]).Some?
    ensures r.Some? ==> (r.value.customerId == d[1] && r.value.fullName == d[2] && r.value.email == d[3] &&
                         r.value.registrationDate == d[8] && r.value.tier == d[9] &&
                         r.value.score == IntField(d[10]).value)
  {
    if |d| < 11 then None
    else
      match IntField(d[10])
      case None => None
      case Some(score) => Some(CustomerRec(d[0], d[1], d[2], d[3], d[4], d[5], d[6], d[7], d[8], d[9], score))
  }

  /**
   `process_product`'s dictionary: fifteen fields, four decimals, an integer
   stock and an is-active flag that is true exactly for the text "true" in
   any letter case.
   */
  function ParseProduct(d: seq<string>): (r: Option<ProductRec>)
    ensures r.Some? <==> (|d| >= 15 && RealField(d[6]).Some? && RealField(d[7]).Some? &&
                          RealField(d[8]).Some? && RealField(d[9]).Some? && IntField(d[11]).Some?)
    ensures r.Some? ==> (r.value.productId == d[1] && r.value.name == d[2] && r.value.category == d[4] &&
                         r.value.brand == d[5] && r.value.price == RealField(d[6]).value &&
                         r.value.cost == RealField(d[7]).value && (r.value.isActive <==> Lower(d[14]) == "true"))
  {
    if |d| < 15 then None
    else
      match (RealField(d[6]), RealField(d[7]), RealField(d[8]), RealField(d[9]), IntField(d[11]))
      case (Some(price), Some(cost), Some(margin), Some(weight), Some(stock)) =>
        Some(ProductRec(d[0], d[1], d[2], d[3], d[4], d[5], price, cost, margin, weight, d[10], stock,
                        d[12], d[13], if d[14] != "" then Lower(d[14]) == "true" else false))
      case _ => None
  }

  /** `process_purchase`'s dictionary: thirteen fields, an integer quantity and five decimals. */
  function ParsePurchase(d: seq<string>): (r: Option<PurchaseRec>)
    ensures r.Some? <==> (|d| >= 13 && IntField(d[5]).Some? && RealField(d[6]).Some? && RealField(d[7]).Some? &&
                          RealField(d[8]).Some? && RealField(d[11]).Some? && RealField(d[12]).Some?)
    ensures r.Some? ==> (r.value.transactionId == d[1] && r.value.productId == d[4] &&
                         r.value.quantity == IntField(d[5]).value && r.value.lineTotal == RealField(d[8]).value)
  {
    if |d| < 13 then None
    else
      match (IntField(d[5]), RealField(d[6]), RealField(d[7]), RealField(d[8]), RealField(d[11]), RealField(d[12]))
      case (Some(qty), Some(price), Some(discount), Some(total), Some(shipping), Some(tax)) =>
        Some(PurchaseRec(d[0], d[1], d[2], d[3], d[4], qty, price, discount, total, d[9], d[10], shipping, tax))
      case _ => None
  }

  // ---------------------------------------------------------------------------
  // The single pass
  // ---------------------------------------------------------------------------

  datatype Counters = Counters(customersProcessed: nat, productsProcessed: nat, purchasesProcessed: nat,
                               dataQualityIssues: nat)

  /**
   The reducer's tables: customers and products by key, purchase buckets by
   key in first-seen order (a `defaultdict(list)`), and the counters.
   */
  datatype EtlState = EtlState(customers: map<string, CustomerRec>, products: map<string, ProductRec>,
                               purchases: Dict<string, seq<PurchaseRec>>, counters: Counters)

  const Initial := EtlState(map[], map[], [], Counters(0, 0, 0, 0))

  /** `self.purchases[key].append(p)`. */
  function Append(d: Dict<string, seq<PurchaseRec>>, k: string, p: PurchaseRec): Dict<string, seq<PurchaseRec>>
  {
    Put(d, k, Lookup(d, k).GetOr([]) + [p])
  }

  /** One line of the main loop: dispatch on the record tag; anything unparsable leaves the state alone. */
  function Step(s: EtlState, line: string): EtlState
  {
    match ParseLine(line)
    case None => s
    case Some(r) => Dispatch(s, r)
  }

  /** The tag dispatch for a line with at least three fields. */
  function Dispatch(s: EtlState, r: Tagged): EtlState
  {
    if r.tag == "CUSTOMER" then
      match ParseCustomer(r.data)
      case None => s
      case Some(c) =>
        var n := s.counters;
        s.(customers := s.customers[r.key := c],
           counters := n.(customersProcessed := n.customersProcessed + 1,
                          dataQualityIssues := if c.score < 60 then n.dataQualityIssues + 1 else n.dataQualityIssues))
    else if r.tag == "PRODUCT" then
      match ParseProduct(r.data)
      case None => s
      case Some(p) =>
        s.(products := s.products[r.key := p],
           counters := s.counters.(productsProcessed := s.counters.productsProcessed + 1))
    else if r.tag == "PURCHASE" then
      match ParsePurchase(r.data)
      case None => s
      case Some(p) =>
        s.(purchases := Append(s.purchases, r.key, p),
           counters := s.counters.(purchasesProcessed := s.counters.purchasesProcessed + 1))
    else s
  }

  /** The state after reading all lines. */
  function Load(lines: seq<string>): EtlState
  {
    if |lines| == 0 then Initial else Step(Load(lines[..|lines| - 1]), lines[|lines| - 1])
  }

  // ---------------------------------------------------------------------------
  // What each line contributes, stated per line
  // ---------------------------------------------------------------------------

  /** The key and record a line stores as a customer, if it is a well-formed CUSTOMER line. */
  function CustomerEntry(line: string): Option<(string, CustomerRec)>
  {
    match ParseLine(line) case None => None case Some(r) => TaggedCustomer(r)
  }

  function ProductEntry(line: string): Option<(string, ProductRec)>
  {
    match ParseLine(line) case None => None case Some(r) => TaggedProduct(r)
  }

  function PurchaseEntry(line: string): Option<(string, PurchaseRec)>
  {
    match ParseLine(line) case None => None case Some(r) => TaggedPurchase(r)
  }

  function TaggedCustomer(r: Tagged): Option<(string, CustomerRec)>
  {
    if r.tag != "CUSTOMER" then None
    else match ParseCustomer(r.data) case None => None case Some(c) => Some((r.key, c))
  }

  function TaggedProduct(r: Tagged): Option<(string, ProductRec)>
  {
    if r.tag != "PRODUCT" then None
    else match ParseProduct(r.data) case None => None case Some(p) => Some((r.key, p))
  }

  function TaggedPurchase(r: Tagged): Option<(string, PurchaseRec)>
  {
    if r.tag != "PURCHASE" then None
    else match ParsePurchase(r.data) case None => None case Some(p) => Some((r.key, p))
  }

  /** An optional value as a sequence of zero or one elements. */
  function Listed<T>(o: Option<T>): seq<T>
  {
    match o case Some(x) => [x] case None => []
  }

  function CustomerEntries(lines: seq<string>): seq<(string, CustomerRec)>
  {
    if |lines| == 0 then [] else CustomerEntries(lines[..|lines| - 1]) + Listed(CustomerEntry(lines[|lines| - 1]))
  }

  function ProductEntries(lines: seq<string>): seq<(string, ProductRec)>
  {
    if |lines| == 0 then [] else ProductEntries(lines[..|lines| - 1]) + Listed(ProductEntry(lines[|lines| - 1]))
  }

  function PurchaseEntries(lines: seq<string>): seq<(string, PurchaseRec)>
  {
    if |lines| == 0 then [] else PurchaseEntries(lines[..|lines| - 1]) + Listed(PurchaseEntry(lines[|lines| - 1]))
  }

  /** Assigning the entries in order into an empty map. */
  function MapOf<V>(es: seq<(string, V)>): map<string, V>
  {
    if |es| == 0 then map[] else MapOf(es[..|es| - 1])[es[|es| - 1].0 := es[|es| - 1].1]
  }

  /** Appending the entries in order into an empty bucket table. */
  function Buckets(es: seq<(string, PurchaseRec)>): Dict<string, seq<PurchaseRec>>
  {
    if |es| == 0 then [] else Append(Buckets(es[..|es| - 1]), es[|es| - 1].0, es[|es| - 1].1)
  }

  /** The number of customer entries whose score is below 60. */
  function LowQuality(es: seq<(string, CustomerRec)>): (n: nat)
    ensures n <= |es|
  {
    if |es| == 0 then 0
    else LowQuality(es[..|es| - 1]) + (if es[|es| - 1].1.score < 60 then 1 else 0)
  }

  /**
   A line leaves the state unchanged exactly when it is neither a well-formed
   customer, product nor purchase line: too few fields, an unknown tag, a
   missing field or a non-numeric numeric field.
   */
  lemma StepIgnores(s: EtlState, line: string)
    ensures Step(s, line) == s <==>
      CustomerEntry(line).None? && ProductEntry(line).None? && PurchaseEntry(line).None?
  {
  }

  /** The part of a step that touches customers. */
  lemma StepCustomers(s: EtlState, line: string)
    ensures Step(s, line).customers ==
      match CustomerEntry(line) case Some(e) => s.customers[e.0 := e.1] case None => s.customers
    ensures Step(s, line).counters.customersProcessed == s.counters.customersProcessed + |Listed(CustomerEntry(line))|
    ensures Step(s, line).counters.dataQualityIssues ==
      s.counters.dataQualityIssues + LowQuality(Listed(CustomerEntry(line)))
  {
    match ParseLine(line)
    case None =>
    case Some(r) => DispatchCustomers(s, r);
  }

  lemma DispatchCustomers(s: EtlState, r: Tagged)
    ensures Dispatch(s, r).customers ==
      match TaggedCustomer(r) case Some(e) => s.customers[e.0 := e.1] case None => s.customers
    ensures Dispatch(s, r).counters.customersProcessed == s.counters.customersProcessed + |Listed(TaggedCustomer(r))|
    ensures Dispatch(s, r).counters.dataQualityIssues ==
      s.counters.dataQualityIssues + LowQuality(Listed(TaggedCustomer(r)))
  {
    if r.tag == "CUSTOMER" {
      match ParseCustomer(r.data)
      case None =>
      case Some(c) =>
        assert LowQuality([(r.key, c)]) == LowQuality([]) + (if c.score < 60 then 1 else 0) by {
          assert [(r.key, c)][..0] == [];
        }
    }
  }

  lemma StepProducts(s: EtlState, line: string)
    ensures Step(s, line).products ==
      match ProductEntry(line) case Some(e) => s.products[e.0 := e.1] case None => s.products
    ensures Step(s, line).counters.productsProcessed == s.counters.productsProcessed + |Listed(ProductEntry(line))|
  {
    match ParseLine(line)
    case None =>
    case Some(r) => DispatchProducts(s, r);
  }

  lemma DispatchProducts(s: EtlState, r: Tagged)
    ensures Dispatch(s, r).products ==
      match TaggedProduct(r) case Some(e) => s.products[e.0 := e.1] case None => s.products
    ensures Dispatch(s, r).counters.productsProcessed == s.counters.productsProcessed + |Listed(TaggedProduct(r))|
  {
    if r.tag == "PRODUCT" {
      match ParseProduct(r.data)
      case None =>
      case Some(p) =>
    }
  }

  lemma StepPurchases(s: EtlState, line: string)
    ensures Step(s, line).purchases ==
      match PurchaseEntry(line) case Some(e) => Append(s.purchases, e.0, e.1) case None => s.purchases
    ensures Step(s, line).counters.purchasesProcessed == s.counters.purchasesProcessed + |Listed(PurchaseEntry(line))|
  {
    match ParseLine(line)
    case None =>
    case Some(r) => DispatchPurchases(s, r);
  }

  lemma DispatchPurchases(s: EtlState, r: Tagged)
    ensures Dispatch(s, r).purchases ==
      match TaggedPurchase(r) case Some(e) => Append(s.purchases, e.0, e.1) case None => s.purchases
    ensures Dispatch(s, r).counters.purchasesProcessed == s.counters.purchasesProcessed + |Listed(TaggedPurchase(r))|
  {
    if r.tag == "PURCHASE" {
      match ParsePurchase(r.data)
      case None =>
      case Some(p) =>
    }
  }

  lemma {:induction false} LowQualityConcat(a: seq<(string, CustomerRec)>, b: seq<(string, CustomerRec)>)
    requires |b| <= 1
    ensures LowQuality(a + b) == LowQuality(a) + LowQuality(b)
  {
    if |b| == 1 {
      assert (a + b)[..|a|] == a;
      assert b[..0] == [];
    } else {
      assert a + b == a;
    }
  }

  lemma MapOfListed<V>(es: seq<(string, V)>, o: Option<(string, V)>)
    ensures MapOf(es + Listed(o)) == match o case Some(e) => MapOf(es)[e.0 := e.1] case None => MapOf(es)
  {
    if o.Some? {
      assert (es + Listed(o))[..|es|] == es;
    } else {
      assert es + Listed(o) == es;
    }
  }

  lemma BucketsListed(es: seq<(string, PurchaseRec)>, o: Option<(string, PurchaseRec)>)
    ensures Buckets(es + Listed(o)) == match o case Some(e) => Append(Buckets(es), e.0, e.1) case None => Buckets(es)
  {
    if o.Some? {
      assert (es + Listed(o))[..|es|] == es;
    } else {
      assert es + Listed(o) == es;
    }
  }

  /** The customers after the pass are the customer entries assigned in order; later ones win. */
  lemma {:induction false} LoadCustomers(lines: seq<string>)
    ensures Load(lines).customers == MapOf(CustomerEntries(lines))
    ensures Load(lines).counters.customersProcessed == |CustomerEntries(lines)|
    ensures Load(lines).counters.dataQualityIssues == LowQuality(CustomerEntries(lines))
    decreases |lines|
  {
    if |lines| > 0 {
      var p := lines[..|lines| - 1];
      var line := lines[|lines| - 1];
      LoadCustomers(p);
      assert Load(lines) == Step(Load(p), line);
      assert CustomerEntries(lines) == CustomerEntries(p) + Listed(CustomerEntry(line));
      StepCustomers(Load(p), line);
      MapOfListed(CustomerEntries(p), CustomerEntry(line));
      LowQualityConcat(CustomerEntries(p), Listed(CustomerEntry(line)));
    }
  }

  /** The products after the pass are the product entries assigned in order; later ones win. */
  lemma {:induction false} LoadProducts(lines: seq<string>)
    ensures Load(lines).products == MapOf(ProductEntries(lines))
    ensures Load(lines).counters.productsProcessed == |ProductEntries(lines)|
    decreases |lines|
  {
    if |lines| > 0 {
      var p := lines[..|lines| - 1];
      var line := lines[|lines| - 1];
      LoadProducts(p);
      assert Load(lines) == Step(Load(p), line);
      assert ProductEntries(lines) == ProductEntries(p) + Listed(ProductEntry(line));
      StepProducts(Load(p), line);
      MapOfListed(ProductEntries(p), ProductEntry(line));
    }
  }

  /** The purchase buckets after the pass are the purchase entries appended in order. */
  lemma {:induction false} LoadPurchases(lines: seq<string>)
    ensures Load(lines).purchases == Buckets(PurchaseEntries(lines))
    ensures Load(lines).counters.purchasesProcessed == |PurchaseEntries(lines)|
    decreases |lines|
  {
    if |lines| > 0 {
      var p := lines[..|lines| - 1];
      var line := lines[|lines| - 1];
      LoadPurchases(p);
      assert Load(lines) == Step(Load(p), line);
      assert PurchaseEntries(lines) == PurchaseEntries(p) + Listed(PurchaseEntry(line));
      StepPurchases(Load(p), line);
      BucketsListed(PurchaseEntries(p), PurchaseEntry(line));
    }
  }


  // ---------------------------------------------------------------------------
  // Last write wins, buckets in input order
  // ---------------------------------------------------------------------------

  /** A key is stored exactly when some entry carries it. */
  lemma {:induction false} MapOfKeys<V>(es: seq<(string, V)>, k: string)
    ensures k in MapOf(es) <==> exists j :: 0 <= j < |es| && es[j].0 == k
    decreases |es|
  {
    if |es| > 0 {
      var p := es[..|es| - 1];
      MapOfKeys(p, k);
      assert forall j :: 0 <= j < |p| ==> p[j] == es[j];
    }
  }

  /** The value stored under a key is that of the last entry carrying it. */
  lemma {:induction false} MapOfLastWins<V>(es: seq<(string, V)>, i: nat)
    requires i < |es|
    requires forall j :: i < j < |es| ==> es[j].0 != es[i].0
    ensures es[i].0 in MapOf(es) && MapOf(es)[es[i].0] == es[i].1
    decreases |es|
  {
    if i < |es| - 1 {
      var p := es[..|es| - 1];
      assert p[i] == es[i];
      MapOfLastWins(p, i);
    }
  }

  /** A purchase is in k's bucket exactly when an entry pairs it with k. */
  lemma {:induction false} BucketHas(es: seq<(string, PurchaseRec)>, k: string, p: PurchaseRec)
    ensures p in ValuesOf(es, k) <==> (k, p) in es
    decreases |es|
  {
    if |es| > 0 {
      var q := es[..|es| - 1];
      BucketHas(q, k, p);
      assert es == q + [es[|es| - 1]];
    }
  }

  /** The bucket stored under k is k's purchases in entry order; keys without purchases have none. */
  lemma {:induction false} BucketsLookup(es: seq<(string, PurchaseRec)>, k: string)
    ensures Lookup(Buckets(es), k) == if ValuesOf(es, k) == [] then None else Some(ValuesOf(es, k))
    decreases |es|
  {
    if |es| > 0 {
      var q := es[..|es| - 1];
      var e := es[|es| - 1];
      var b := Buckets(q);
      BucketsLookup(q, k);
      BucketsLookup(q, e.0);
      assert Lookup(b, e.0).GetOr([]) == ValuesOf(q, e.0);
      assert Buckets(es) == Put(b, e.0, ValuesOf(q, e.0) + [e.1]);
      LookupPut(b, e.0, ValuesOf(q, e.0) + [e.1], k);
      if e.0 == k {
        assert ValuesOf(es, k) == ValuesOf(q, k) + [e.1];
      } else {
        assert ValuesOf(es, k) == ValuesOf(q, k);
      }
    }
  }

  lemma {:induction false} BucketsUnique(es: seq<(string, PurchaseRec)>)
    ensures UniqueKeys(Buckets(es))
    decreases |es|
  {
    if |es| > 0 {
      var q := es[..|es| - 1];
      var e := es[|es| - 1];
      BucketsUnique(q);
      PutUnique(Buckets(q), e.0, Lookup(Buckets(q), e.0).GetOr([]) + [e.1]);
    }
  }

  /** Purchases are kept by customer id in input order, and a bucket exists only for ids that have purchases. */
  lemma BucketOfLoad(lines: seq<string>, k: string)
    ensures Lookup(Load(lines).purchases, k) ==
      if ValuesOf(PurchaseEntries(lines), k) == [] then None else Some(ValuesOf(PurchaseEntries(lines), k))
    ensures UniqueKeys(Load(lines).purchases)
  {
    LoadPurchases(lines);
    BucketsLookup(PurchaseEntries(lines), k);
    BucketsUnique(PurchaseEntries(lines));
  }

  /**
   A customer id found after the pass carries the record of the last
   well-formed CUSTOMER line with that key (and likewise for products).
   */
  lemma CustomerOfLoad(lines: seq<string>, i: nat)
    requires i < |CustomerEntries(lines)|
    requires forall j :: i < j < |CustomerEntries(lines)| ==> CustomerEntries(lines)[j].0 != CustomerEntries(lines)[i].0
    ensures var e := CustomerEntries(lines)[i];
      e.0 in Load(lines).customers && Load(lines).customers[e.0] == e.1
  {
    LoadCustomers(lines);
    MapOfLastWins(CustomerEntries(lines), i);
  }

  lemma ProductOfLoad(lines: seq<string>, i: nat)
    requires i < |ProductEntries(lines)|
    requires forall j :: i < j < |ProductEntries(lines)| ==> ProductEntries(lines)[j].0 != ProductEntries(lines)[i].0
    ensures var e := ProductEntries(lines)[i];
      e.0 in Load(lines).products && Load(lines).products[e.0] == e.1
  {
    LoadProducts(lines);
    MapOfLastWins(ProductEntries(lines), i);
  }

  // ---------------------------------------------------------------------------
  // Stored purchases
  // ---------------------------------------------------------------------------

  /** A bucket's purchases paired with its key. */
  function Pairs(k: string, ps: seq<PurchaseRec>): (r: seq<(string, PurchaseRec)>)
    ensures |r| == |ps|
  {
    if |ps| == 0 then [] else Pairs(k, ps[..|ps| - 1]) + [(k, ps[|ps| - 1])]
  }

  /** Every stored purchase with its bucket's key, buckets in table order and purchases in bucket order. */
  function Stored(d: Dict<string, seq<PurchaseRec>>): seq<(string, PurchaseRec)>
  {
    if |d| == 0 then [] else Pairs(d[0].0, d[0].1) + Stored(d[1..])
  }

  /** `d[k] = v` swaps the pairs of k's old bucket for those of v. */
  lemma {:induction false} StoredPut(d: Dict<string, seq<PurchaseRec>>, k: string, v: seq<PurchaseRec>)
    ensures multiset(Stored(Put(d, k, v))) + multiset(Pairs(k, Lookup(d, k).GetOr([]))) ==
      multiset(Stored(d)) + multiset(Pairs(k, v))
    decreases |d|
  {
    var old_ := Lookup(d, k).GetOr([]);
    if |d| > 0 && d[0].0 != k {
      StoredPut(d[1..], k, v);
      StoredPutPastFirst(d, k, v);
    } else if |d| > 0 {
      var r := Put(d, k, v);
      assert r == [(k, v)] + d[1..];
      assert r[1..] == d[1..];
      assert Stored(r) == Pairs(k, v) + Stored(d[1..]);
      assert Stored(d) == Pairs(k, old_) + Stored(d[1..]);
    } else {
      assert Put(d, k, v) == [(k, v)];
      assert Stored([(k, v)]) == Pairs(k, v) + Stored([]);
    }
  }

  /** The step of `StoredPut` past a first bucket whose key is not k. */
  lemma StoredPutPastFirst(d: Dict<string, seq<PurchaseRec>>, k: string, v: seq<PurchaseRec>)
    requires |d| > 0 && d[0].0 != k
    requires multiset(Stored(Put(d[1..], k, v))) + multiset(Pairs(k, Lookup(d[1..], k).GetOr([]))) ==
      multiset(Stored(d[1..])) + multiset(Pairs(k, v))
    ensures multiset(Stored(Put(d, k, v))) + multiset(Pairs(k, Lookup(d, k).GetOr([]))) ==
      multiset(Stored(d)) + multiset(Pairs(k, v))
  {
    var p0 := Pairs(d[0].0, d[0].1);
    PutPastFirst(d, k, v);
    assert Stored(d) == p0 + Stored(d[1..]);
    MultisetFrame(p0, Stored(Put(d[1..], k, v)), Stored(d[1..]), Pairs(k, Lookup(d, k).GetOr([])), Pairs(k, v));
  }

  lemma PutPastFirst(d: Dict<string, seq<PurchaseRec>>, k: string, v: seq<PurchaseRec>)
    requires |d| > 0 && d[0].0 != k
    ensures Stored(Put(d, k, v)) == Pairs(d[0].0, d[0].1) + Stored(Put(d[1..], k, v))
    ensures Lookup(d, k) == Lookup(d[1..], k)
  {
    var r, rt := Put(d, k, v), Put(d[1..], k, v);
    assert r == [d[0]] + rt;
    assert r[1..] == rt;
  }

  /** Putting the same elements in front of both sides keeps a multiset balance. */
  lemma MultisetFrame<T>(p: seq<T>, x: seq<T>, y: seq<T>, o: seq<T>, z: seq<T>)
    requires multiset(x) + multiset(o) == multiset(y) + multiset(z)
    ensures multiset(p + x) + multiset(o) == multiset(p + y) + multiset(z)
  {
    calc {
      multiset(p + x) + multiset(o);
      multiset(p) + (multiset(x) + multiset(o));
      multiset(p) + (multiset(y) + multiset(z));
      multiset(p + y) + multiset(z);
    }
  }

  lemma MultisetCancel<T>(a: multiset<T>, b: multiset<T>, x: multiset<T>)
    requires a + x == b + x
    ensures a == b
  {
    forall y ensures a[y] == b[y] {
      assert (a + x)[y] == (b + x)[y];
    }
  }

  /** The stored purchases are the purchase entries, regrouped by key. */
  lemma {:induction false} StoredBuckets(es: seq<(string, PurchaseRec)>)
    ensures multiset(Stored(Buckets(es))) == multiset(es)
    decreases |es|
  {
    if |es| > 0 {
      var q := es[..|es| - 1];
      StoredBuckets(q);
      assert es == q + [es[|es| - 1]];
      StoredBucketsStep(q, es[|es| - 1]);
    }
  }

  lemma StoredBucketsStep(q: seq<(string, PurchaseRec)>, e: (string, PurchaseRec))
    requires multiset(Stored(Buckets(q))) == multiset(q)
    ensures multiset(Stored(Buckets(q + [e]))) == multiset(q + [e])
  {
    var es := q + [e];
    var b := Buckets(q);
    var old_ := Lookup(b, e.0).GetOr([]);
    assert es[..|es| - 1] == q;
    assert Buckets(es) == Put(b, e.0, old_ + [e.1]);
    StoredPut(b, e.0, old_ + [e.1]);
    assert (old_ + [e.1])[..|old_|] == old_;
    assert Pairs(e.0, old_ + [e.1]) == Pairs(e.0, old_) + [e];
    calc {
      multiset(Stored(Buckets(es))) + multiset(Pairs(e.0, old_));
      multiset(Stored(b)) + multiset(Pairs(e.0, old_ + [e.1]));
      multiset(q) + (multiset(Pairs(e.0, old_)) + multiset([e]));
      multiset(es) + multiset(Pairs(e.0, old_));
    }
    MultisetCancel(multiset(Stored(Buckets(es))), multiset(es), multiset(Pairs(e.0, old_)));
  }


  // ---------------------------------------------------------------------------
  // The join and the statistics
  // ---------------------------------------------------------------------------

  /** One ENRICHED output record. */
  datatype Enriched = Enriched(
    customerId: string, customerName: string, customerEmail: string, customerTier: string,
    customerRegistrationDate: string,
    transactionId: string, purchaseDate: string, quantity: int, unitPrice: real, lineTotal: real,
    paymentMethod: string, orderStatus: string,
    productId: string, productName: string, productCategory: string, productBrand: string,
    productCost: real, productMarginPercent: real,
    profit: real, isHighValueCustomer: bool, isPremiumProduct: bool)

  /**
   The enriched record of one stored purchase: a left-outer join, so a
   missing customer or product gives empty texts, zero numbers and false
   flags instead of dropping the purchase.
   */
  function Enrich(k: string, cs: map<string, CustomerRec>, ps: map<string, ProductRec>, p: PurchaseRec): (e: Enriched)
    ensures e.customerId == k && e.transactionId == p.transactionId && e.productId == p.productId &&
            e.quantity == p.quantity && e.lineTotal == p.lineTotal
    ensures e.isHighValueCustomer <==> k in cs && (cs[k].tier == "Gold" || cs[k].tier == "Platinum")
    ensures e.isPremiumProduct <==> p.productId in ps && ps[p.productId].price > 100.0
    ensures p.productId in ps ==> e.profit == p.lineTotal - ps[p.productId].cost * p.quantity as real
    ensures p.productId !in ps ==> e.profit == p.lineTotal && e.productName == "" && e.productCost == 0.0
    ensures k !in cs ==> e.customerName == "" && e.customerEmail == "" && e.customerTier == ""
  {
    var c := if k in cs then Some(cs[k]) else None;
    var pr := if p.productId in ps then Some(ps[p.productId]) else None;
    var cost := match pr case Some(x) => x.cost case None => 0.0;
    Enriched(
      k,
      match c case Some(x) => x.fullName case None => "",
      match c case Some(x) => x.email case None => "",
      match c case Some(x) => x.tier case None => "",
      match c case Some(x) => x.registrationDate case None => "",
      p.transactionId, p.purchaseDate, p.quantity, p.unitPrice, p.lineTotal, p.paymentMethod, p.orderStatus,
      p.productId,
      match pr case Some(x) => x.name case None => "",
      match pr case Some(x) => x.category case None => "",
      match pr case Some(x) => x.brand case None => "",
      cost,
      match pr case Some(x) => x.marginPercent case None => 0.0,
      p.lineTotal - cost * p.quantity as real,
      match c case Some(x) => x.tier == "Gold" || x.tier == "Platinum" case None => false,
      match pr case Some(x) => x.price > 100.0 case None => false)
  }

  /** `generate_enriched_records`: buckets in table order, each bucket's purchases in order. */
  function EnrichedRecords(s: EtlState): (r: seq<Enriched>)
  {
    var st := Stored(s.purchases);
    seq(|st|, i requires 0 <= i < |st| => Enrich(st[i].0, s.customers, s.products, st[i].1))
  }

  /**
   Exactly one enriched record per well-formed purchase line: the joined
   (customer id, purchase) pairs are the purchase entries regrouped by
   customer id, and each record joins its pair with the last customer and
   product stored under the matching keys.
   */
  lemma JoinOfLoad(lines: seq<string>)
    ensures var s := Load(lines);
      var st := Stored(s.purchases);
      && |EnrichedRecords(s)| == |st| == s.counters.purchasesProcessed
      && multiset(st) == multiset(PurchaseEntries(lines))
      && forall i :: 0 <= i < |st| ==>
           EnrichedRecords(s)[i] == Enrich(st[i].0, MapOf(CustomerEntries(lines)), MapOf(ProductEntries(lines)), st[i].1)
  {
    LoadCustomers(lines);
    LoadProducts(lines);
    LoadPurchases(lines);
    StoredBuckets(PurchaseEntries(lines));
    assert |Stored(Load(lines).purchases)| == |multiset(PurchaseEntries(lines))|;
  }

  datatype Statistics = Statistics(
    customersProcessed: nat, productsProcessed: nat, purchasesProcessed: nat, dataQualityIssues: nat,
    enrichedRecordsCreated: nat, uniqueCustomersWithPurchases: nat,
    customerMatchRate: real, averagePurchasesPerCustomer: real)

  /** `max(n, 1)`. */
  function AtLeastOne(n: nat): (m: nat)
    ensures m >= 1 && m >= n && (n >= 1 ==> m == n)
  {
    if n > 1 then n else 1
  }

  /** `sum(len(ps) for ps in self.purchases.values())`. */
  function TotalSize(d: Dict<string, seq<PurchaseRec>>): nat
  {
    if |d| == 0 then 0 else |d[0].1| + TotalSize(d[1..])
  }

  /** `generate_statistics`: both divisions are guarded by `max(·, 1)`. */
  function MakeStatistics(s: EtlState): Statistics
  {
    var n := s.counters;
    var created := TotalSize(s.purchases);
    Statistics(n.customersProcessed, n.productsProcessed, n.purchasesProcessed, n.dataQualityIssues,
               created, |s.purchases|,
               |s.purchases| as real / AtLeastOne(n.customersProcessed) as real * 100.0,
               created as real / AtLeastOne(|s.purchases|) as real)
  }

  lemma {:induction false} TotalSizeStored(d: Dict<string, seq<PurchaseRec>>)
    ensures TotalSize(d) == |Stored(d)|
    decreases |d|
  {
    if |d| > 0 {
      TotalSizeStored(d[1..]);
    }
  }

  /** With no empty bucket, there are at least as many purchases as buckets. */
  lemma {:induction false} TotalSizeAtLeast(d: Dict<string, seq<PurchaseRec>>)
    requires forall i :: 0 <= i < |d| ==> |d[i].1| > 0
    ensures TotalSize(d) >= |d|
    decreases |d|
  {
    if |d| > 0 {
      assert forall i :: 0 <= i < |d[1..]| ==> d[1..][i] == d[i + 1];
      TotalSizeAtLeast(d[1..]);
    }
  }

  /** Distinct keys: the key set has one element per entry. */
  lemma {:induction false} UniqueKeysCount<V>(d: Dict<string, V>)
    requires UniqueKeys(d)
    ensures |Keys(d)| == |d|
    decreases |d|
  {
    if |d| > 0 {
      var p := d[..|d| - 1];
      UniqueKeysCount(p);
      assert Keys(d) == Keys(p) + {d[|d| - 1].0} by {
        forall q | 0 <= q < |p| ensures p[q] == d[q] { }
      }
      assert d[|d| - 1].0 !in Keys(p);
    }
  }

  /** The ids that own a bucket are the ids of the purchase entries. */
  lemma BucketsKeys(es: seq<(string, PurchaseRec)>)
    ensures Keys(Buckets(es)) == Keys(es)
  {
    var d := Buckets(es);
    forall k ensures k in Keys(d) <==> k in Keys(es) {
      LookupSpec(d, k);
      BucketsLookup(es, k);
      ValuesOfKey(es, k);
    }
  }

  /** Every bucket holds at least one purchase. */
  lemma BucketsNonEmpty(es: seq<(string, PurchaseRec)>)
    ensures forall i :: 0 <= i < |Buckets(es)| ==> |Buckets(es)[i].1| > 0
  {
    var d := Buckets(es);
    BucketsUnique(es);
    forall i | 0 <= i < |d| ensures |d[i].1| > 0 {
      LookupAt(d, i);
      BucketsLookup(es, d[i].0);
    }
  }

  /**
   The statistics after the pass: enriched_records_created equals
   purchases_processed; unique_customers_with_purchases is the number of
   distinct customer ids with a well-formed purchase line and never exceeds
   it; data_quality_issues never exceeds customers_processed; with no
   purchases both ratios are 0, and otherwise each customer with purchases
   has at least one on average.
   */
  lemma StatisticsOfLoad(lines: seq<string>)
    ensures var st := MakeStatistics(Load(lines));
      var es := PurchaseEntries(lines);
      && st.enrichedRecordsCreated == st.purchasesProcessed == |EnrichedRecords(Load(lines))|
      && st.uniqueCustomersWithPurchases == |Keys(es)| <= st.purchasesProcessed
      && st.dataQualityIssues <= st.customersProcessed
      && (st.purchasesProcessed == 0 ==> st.customerMatchRate == 0.0 && st.averagePurchasesPerCustomer == 0.0)
      && (st.purchasesProcessed > 0 ==> st.averagePurchasesPerCustomer >= 1.0)
  {
    LoadCustomers(lines);
    LoadPurchases(lines);
    JoinOfLoad(lines);
    StatisticsOfTable(Load(lines), PurchaseEntries(lines));
  }

  lemma StatisticsOfTable(s: EtlState, es: seq<(string, PurchaseRec)>)
    requires s.purchases == Buckets(es) && s.counters.purchasesProcessed == |es|
    ensures var st := MakeStatistics(s);
      && st.enrichedRecordsCreated == st.purchasesProcessed
      && st.uniqueCustomersWithPurchases == |Keys(es)| <= st.purchasesProcessed
      && (st.purchasesProcessed == 0 ==> st.customerMatchRate == 0.0 && st.averagePurchasesPerCustomer == 0.0)
      && (st.purchasesProcessed > 0 ==> st.averagePurchasesPerCustomer >= 1.0)
  {
    BucketTable(es);
    if |es| > 0 {
      DivAtLeastOne(TotalSize(s.purchases) as real, |s.purchases| as real);
    }
  }

  /** The bucket table of the entries: one bucket per distinct id, one stored purchase per entry. */
  lemma BucketTable(es: seq<(string, PurchaseRec)>)
    ensures TotalSize(Buckets(es)) == |es|
    ensures |Buckets(es)| == |Keys(es)| <= |es|
    ensures |es| > 0 ==> |Buckets(es)| > 0
  {
    var d := Buckets(es);
    StoredBuckets(es);
    TotalSizeStored(d);
    assert |Stored(d)| == |multiset(es)|;
    BucketsUnique(es);
    UniqueKeysCount(d);
    BucketsKeys(es);
    BucketsNonEmpty(es);
    TotalSizeAtLeast(d);
    if |es| > 0 {
      assert es[0].0 in Keys(es);
    }
  }

  lemma DivAtLeastOne(t: real, n: real)
    requires 0.0 < n <= t
    ensures t / n >= 1.0
  {
  }

  // ---------------------------------------------------------------------------
  // From the mapper to the reducer
  // ---------------------------------------------------------------------------

  /** No field of the customer record carries a tab, so the written line splits back into its fields. */
  predicate TabFree(c: EtlMapper.Customer)
  {
    && '\t' !in c.customerId && '\t' !in c.fullName && '\t' !in EtlMapper.ShowOption(c.email)
    && '\t' !in c.phone && '\t' !in EtlMapper.ShowOption(c.birthDate) && '\t' !in c.gender
    && '\t' !in c.address && '\t' !in EtlMapper.ShowOption(c.registrationDate) && '\t' !in c.tier
  }

  lemma {:induction false} JoinSnoc(parts: seq<string>, sep: char)
    requires |parts| >= 2
    ensures Join(parts, sep) == Join(parts[..|parts| - 1], sep) + [sep] + parts[|parts| - 1]
    decreases |parts|
  {
    if |parts| > 2 {
      JoinSnoc(parts[1..], sep);
      assert parts[1..][..|parts| - 2] == parts[..|parts| - 1][1..];
    } else {
      assert parts[..1][1..] == [];
      assert parts[1..] == [parts[1]];
    }
  }

  /**
   The reducer reads a customer line the mapper writes back as that
   customer's id, fields and quality score. The mapper writes only scores of
   at least 60, so such a line is stored under the customer id and never
   counts as a data-quality issue.
   */
  lemma MapperCustomerRead(c: EtlMapper.Customer, s: EtlState)
    requires EtlMapper.CustomerLine(c).Some? && TabFree(c)
    ensures var line := EtlMapper.CustomerLine(c).value;
      && CustomerEntry(line).Some?
      && var (k, r) := CustomerEntry(line).value;
      && k == c.customerId && r.customerId == c.customerId && r.fullName == c.fullName
      && r.email == EtlMapper.ShowOption(c.email) && r.tier == c.tier
      && r.score == EtlMapper.QualityScore(c) >= 60
      && Step(s, line).customers == s.customers[k := r]
      && Step(s, line).counters.customersProcessed == s.counters.customersProcessed + 1
      && Step(s, line).counters.dataQualityIssues == s.counters.dataQualityIssues
  {
    var score := EtlMapper.QualityScore(c);
    var vs := EtlMapper.CustomerValues(c, score);
    var line := EtlMapper.CustomerLine(c).value;
    CustomerLineFields(c);
    assert ParseLine(line) == Some(Tagged("CUSTOMER", c.customerId, vs)) by {
      assert (["CUSTOMER", c.customerId] + vs)[2..] == vs;
    }
    ParseIntToString(score);
    assert IntField(vs[10]) == Some(score);
    StepCustomers(s, line);
  }

  /** The fields of a written customer line: the tag, the key and the eleven values. */
  lemma CustomerLineFields(c: EtlMapper.Customer)
    requires EtlMapper.CustomerLine(c).Some? && TabFree(c)
    ensures Fields(EtlMapper.CustomerLine(c).value) ==
      ["CUSTOMER", c.customerId] + EtlMapper.CustomerValues(c, EtlMapper.QualityScore(c))
  {
    var parts := ["CUSTOMER", c.customerId] + EtlMapper.CustomerValues(c, EtlMapper.QualityScore(c));
    CustomerLineJoin(c);
    CustomerPartsClean(c);
    JoinedFields(parts);
  }

  /** A written customer line is its tag, key and values joined by tabs. */
  lemma CustomerLineJoin(c: EtlMapper.Customer)
    requires EtlMapper.CustomerLine(c).Some?
    ensures EtlMapper.CustomerLine(c).value ==
      Join(["CUSTOMER", c.customerId] + EtlMapper.CustomerValues(c, EtlMapper.QualityScore(c)), '\t')
  {
    var vs := EtlMapper.CustomerValues(c, EtlMapper.QualityScore(c));
    var parts := ["CUSTOMER", c.customerId] + vs;
    assert EtlMapper.CustomerLine(c).value == "CUSTOMER\t" + c.customerId + "\t" + Join(vs, '\t');
    assert parts[1..] == [c.customerId] + vs;
    assert ([c.customerId] + vs)[1..] == vs;
  }

  /** The parts of a customer line are tab-free, the first starts with a capital and the last is a numeral. */
  lemma CustomerPartsClean(c: EtlMapper.Customer)
    requires TabFree(c)
    ensures var parts := ["CUSTOMER", c.customerId] + EtlMapper.CustomerValues(c, EtlMapper.QualityScore(c));
      && |parts| >= 2 && |parts[0]| > 0 && IsUpper(parts[0][0])
      && |parts[|parts| - 1]| > 0 && AllDigits(parts[|parts| - 1])
      && forall i :: 0 <= i < |parts| ==> '\t' !in parts[i]
  {
    var score := EtlMapper.QualityScore(c);
    var vs := EtlMapper.CustomerValues(c, score);
    var parts := ["CUSTOMER", c.customerId] + vs;
    assert AllDigits(vs[10]) by {
      assert AllDigits(NatToString(score));
    }
    assert forall i :: 0 <= i < |parts| ==> '\t' !in parts[i] by {
      assert parts[2..] == vs;
    }
    assert parts[|parts| - 1] == vs[10] && |vs[10]| > 0;
    assert IsUpper(parts[0][0]);
  }

  /**
   Tab-free fields, the first starting with a capital letter and the last a numeral,
   joined by tabs are left alone by `strip()` and split back into themselves.
   */
  lemma JoinedFields(parts: seq<string>)
    requires |parts| >= 2 && |parts[0]| > 0 && IsUpper(parts[0][0])
    requires |parts[|parts| - 1]| > 0 && AllDigits(parts[|parts| - 1])
    requires forall i :: 0 <= i < |parts| ==> '\t' !in parts[i]
    ensures Fields(Join(parts, '\t')) == parts
  {
    var line := Join(parts, '\t');
    var last := parts[|parts| - 1];
    assert |line| > 0 && !IsSpace(line[|line| - 1]) by {
      JoinSnoc(parts, '\t');
      assert IsDigit(last[|last| - 1]);
    }
    assert !IsSpace(line[0]) by {
      JoinFirst(parts, '\t');
    }
    StripClean(line);
    SplitJoin(parts, '\t');
  }
}

=== FILE: iot_alerts.dfy ===
/**
 The operations alerts and the battery tally of the IoT analysis script
 (lab4, 4.3). The reducer's anomaly, battery and device records are turned
 into alerts by three threshold rules; the alerts are then ordered by
 severity, HIGH first, with Python's stable sort. The battery tally adds up
 the battery-record counts per location.

 The JSON decoding is not modelled: a record is its key and the number the
 rule looks at. Alert messages and actions are text built from the same
 fields and are not modelled.
 */
module IotAlerts {
  import opened Wrappers
  import opened Text
  import opened Dicts

  // ---------------------------------------------------------------------------
  // Records and alerts
  // ---------------------------------------------------------------------------

  /** An anomaly or battery record of the reducer: its key and count. */
  datatype Group = Group(key: string, count: int)

  /** A device performance record; `healthScore` is None when the record has no such field. */
  datatype Device = Device(key: string, healthScore: Option<real>)

  datatype Severity = High | Medium | Low

  function Rank(s: Severity): nat
  {
    match s
    case High => 3
    case Medium => 2
    case Low => 1
  }

  datatype Alert =
    | AnomalyCluster(deviceType: string, location: string, count: int)
    | BatteryMaintenance(location: string, count: int)
    | DeviceFailure(deviceId: string, healthScore: real)

  function SeverityOf(a: Alert): Severity
  {
    match a
    case AnomalyCluster(_, _, _) => High
    case BatteryMaintenance(_, _) => Medium
    case DeviceFailure(_, _) => High
  }

  /** What a missing key field reads as. */
  const Unknown: string := "Unknown"

  /** The i-th '_'-separated field of a key, or `Unknown` when the key has too few fields. */
  function KeyField(key: string, i: nat): (f: string)
    ensures f == Unknown <==> (|Split(key, '_')| <= i || Split(key, '_')[i] == Unknown)
    ensures f != Unknown ==> '_' !in f
  {
    var parts := Split(key, '_');
    if |parts| > i then parts[i] else Unknown
  }

  // ---------------------------------------------------------------------------
  // The three rules
  // ---------------------------------------------------------------------------

  predicate ClusterFires(g: Group) { g.count > 10 }

  function ClusterAlert(g: Group): Alert
  {
    AnomalyCluster(KeyField(g.key, 1), KeyField(g.key, 2), g.count)
  }

  predicate BatteryFires(g: Group) { g.count > 5 }

  function BatteryAlert(g: Group): Alert
  {
    BatteryMaintenance(KeyField(g.key, 2), g.count)
  }

  /** `device.get('health_score', 100) < 30`. */
  predicate DeviceFires(d: Device) { d.healthScore.GetOr(100.0) < 30.0 }

  function DeviceAlert(d: Device): Alert
  {
    DeviceFailure(KeyField(d.key, 2), d.healthScore.GetOr(100.0))
  }

  /** The alerts of the records a rule fires on, in record order. */
  function Alerts<R>(rs: seq<R>, fires: R -> bool, make: R -> Alert): (xs: seq<Alert>)
    ensures |xs| <= |rs|
  {
    if |rs| == 0 then []
    else
      var p := Alerts(rs[..|rs| - 1], fires, make);
      if fires(rs[|rs| - 1]) then p + [make(rs[|rs| - 1])] else p
  }

  lemma {:induction false} AlertsConcat<R>(a: seq<R>, b: seq<R>, fires: R -> bool, make: R -> Alert)
    ensures Alerts(a + b, fires, make) == Alerts(a, fires, make) + Alerts(b, fires, make)
    decreases |b|
  {
    if |b| == 0 {
      assert a + b == a;
    } else {
      assert (a + b)[..|a + b| - 1] == a + b[..|b| - 1];
      AlertsConcat(a, b[..|b| - 1], fires, make);
    }
  }

  /** A record yields an alert exactly when its rule fires on it. */
  lemma {:induction false} AlertsHas<R>(rs: seq<R>, fires: R -> bool, make: R -> Alert, a: Alert)
    ensures a in Alerts(rs, fires, make) <==> exists i :: 0 <= i < |rs| && fires(rs[i]) && a == make(rs[i])
    decreases |rs|
  {
    if |rs| > 0 {
      var p := rs[..|rs| - 1];
      AlertsHas(p, fires, make, a);
      if exists i :: 0 <= i < |rs| && fires(rs[i]) && a == make(rs[i]) {
        var i :| 0 <= i < |rs| && fires(rs[i]) && a == make(rs[i]);
        if i < |p| {
          assert p[i] == rs[i];
        }
      }
      if a in Alerts(p, fires, make) {
        var i :| 0 <= i < |p| && fires(p[i]) && a == make(p[i]);
        assert rs[i] == p[i];
      }
    }
  }

  /** Every alert made by a rule whose alerts all have one severity has that severity. */
  lemma {:induction false} AlertsOfOneSeverity<R>(rs: seq<R>, fires: R -> bool, make: R -> Alert, s: Severity)
    requires forall r :: SeverityOf(make(r)) == s
    ensures forall i :: 0 <= i < |Alerts(rs, fires, make)| ==> SeverityOf(Alerts(rs, fires, make)[i]) == s
    decreases |rs|
  {
    if |rs| > 0 {
      AlertsOfOneSeverity(rs[..|rs| - 1], fires, make, s);
    }
  }

  function ClusterAlerts(anomalies: seq<Group>): seq<Alert>
  {
    Alerts(anomalies, ClusterFires, ClusterAlert)
  }

  function BatteryAlerts(batteries: seq<Group>): seq<Alert>
  {
    Alerts(batteries, BatteryFires, BatteryAlert)
  }

  function DeviceAlerts(devices: seq<Device>): seq<Alert>
  {
    Alerts(devices, DeviceFires, DeviceAlert)
  }

  /** The alerts in the order the rules collect them, before sorting. */
  function Collected(anomalies: seq<Group>, batteries: seq<Group>, devices: seq<Device>): seq<Alert>
  {
    ClusterAlerts(anomalies) + BatteryAlerts(batteries) + DeviceAlerts(devices)
  }

  /**
   The three rules: an anomaly record makes a HIGH cluster alert iff its count
   exceeds 10, a battery record a MEDIUM maintenance alert iff its count
   exceeds 5, a device a HIGH failure alert iff its health score is below 30;
   a device without a score counts as 100 and never alerts.
   */
  lemma RuleAlerts(anomalies: seq<Group>, batteries: seq<Group>, devices: seq<Device>, a: Alert)
    ensures a.AnomalyCluster? ==> (a in Collected(anomalies, batteries, devices) <==>
      exists i :: 0 <= i < |anomalies| && anomalies[i].count > 10 &&
        a == AnomalyCluster(KeyField(anomalies[i].key, 1), KeyField(anomalies[i].key, 2), anomalies[i].count))
    ensures a.BatteryMaintenance? ==> (a in Collected(anomalies, batteries, devices) <==>
      exists i :: 0 <= i < |batteries| && batteries[i].count > 5 &&
        a == BatteryMaintenance(KeyField(batteries[i].key, 2), batteries[i].count))
    ensures a.DeviceFailure? ==> (a in Collected(anomalies, batteries, devices) <==>
      exists i :: 0 <= i < |devices| && devices[i].healthScore.Some? && devices[i].healthScore.value < 30.0 &&
        a == DeviceFailure(KeyField(devices[i].key, 2), devices[i].healthScore.value))
  {
    AlertsHas(anomalies, ClusterFires, ClusterAlert, a);
    AlertsHas(batteries, BatteryFires, BatteryAlert, a);
    AlertsHas(devices, DeviceFires, DeviceAlert, a);
  }

  // ---------------------------------------------------------------------------
  // sorted(alerts, key=rank, reverse=True)
  // ---------------------------------------------------------------------------

  /** The alerts of one severity, in their original order. */
  function OfSeverity(xs: seq<Alert>, s: Severity): (r: seq<Alert>)
    ensures |r| <= |xs|
    ensures forall i :: 0 <= i < |r| ==> SeverityOf(r[i]) == s
  {
    if |xs| == 0 then []
    else
      var p := OfSeverity(xs[..|xs| - 1], s);
      if SeverityOf(xs[|xs| - 1]) == s then p + [xs[|xs| - 1]] else p
  }

  lemma {:induction false} OfSeverityConcat(a: seq<Alert>, b: seq<Alert>, s: Severity)
    ensures OfSeverity(a + b, s) == OfSeverity(a, s) + OfSeverity(b, s)
    decreases |b|
  {
    if |b| == 0 {
      assert a + b == a;
    } else {
      assert (a + b)[..|a + b| - 1] == a + b[..|b| - 1];
      OfSeverityConcat(a, b[..|b| - 1], s);
    }
  }

  /** Filtering three blocks of HIGH, MEDIUM and LOW alerts picks out one block. */
  lemma OfSeverityBlocks(h: seq<Alert>, m: seq<Alert>, l: seq<Alert>, s: Severity)
    requires forall i :: 0 <= i < |h| ==> SeverityOf(h[i]) == High
    requires forall i :: 0 <= i < |m| ==> SeverityOf(m[i]) == Medium
    requires forall i :: 0 <= i < |l| ==> SeverityOf(l[i]) == Low
    ensures OfSeverity(h + m + l, s) == match s case High => h case Medium => m case Low => l
  {
    assert OfSeverity(h + m + l, s) == OfSeverity(h, s) + OfSeverity(m, s) + OfSeverity(l, s) by {
      OfSeverityConcat(h + m, l, s);
      OfSeverityConcat(h, m, s);
    }
    OfSeverityOf(h, High, s);
    OfSeverityOf(m, Medium, s);
    OfSeverityOf(l, Low, s);
    match s
    case High => assert h + [] + [] == h;
    case Medium => assert [] + m + [] == m;
    case Low => assert [] + [] + l == l;
  }

  /** Filtering a block whose alerts all have severity `s` for severity `t`. */
  lemma OfSeverityOf(xs: seq<Alert>, s: Severity, t: Severity)
    requires forall i :: 0 <= i < |xs| ==> SeverityOf(xs[i]) == s
    ensures OfSeverity(xs, t) == if t == s then xs else []
  {
    OfSeverityAll(xs, s);
  }

  /**
   One step of the stable descending sort: `x` goes after every element whose
   rank is at least its own, so it follows the equal-ranked elements already
   placed.
   */
  function Insert(t: seq<Alert>, x: Alert): seq<Alert>
  {
    if |t| == 0 then [x]
    else if Rank(SeverityOf(t[|t| - 1])) >= Rank(SeverityOf(x)) then t + [x]
    else Insert(t[..|t| - 1], x) + [t[|t| - 1]]
  }

  /** Inserting adds exactly the new alert. */
  lemma {:induction false} InsertPermutation(t: seq<Alert>, x: Alert)
    ensures multiset(Insert(t, x)) == multiset(t) + multiset{x}
    decreases |t|
  {
    if |t| > 0 && Rank(SeverityOf(t[|t| - 1])) < Rank(SeverityOf(x)) {
      var init, last := t[..|t| - 1], t[|t| - 1];
      assert t == init + [last];
      InsertPermutation(init, x);
    }
  }

  /** `sorted(alerts, key=lambda x: rank[x['severity']], reverse=True)`. */
  function SortBySeverity(xs: seq<Alert>): seq<Alert>
  {
    if |xs| == 0 then []
    else Insert(SortBySeverity(xs[..|xs| - 1]), xs[|xs| - 1])
  }

  /** The sorted alerts are a permutation of the input. */
  lemma {:induction false} SortPermutation(xs: seq<Alert>)
    ensures multiset(SortBySeverity(xs)) == multiset(xs)
    decreases |xs|
  {
    if |xs| > 0 {
      var init, last := xs[..|xs| - 1], xs[|xs| - 1];
      assert xs == init + [last];
      SortPermutation(init);
      InsertPermutation(SortBySeverity(init), last);
    }
  }

  /** Inserting into a block of higher-or-equal ranks followed by a block of lower ranks. */
  lemma {:induction false} InsertPastLower(hi: seq<Alert>, lo: seq<Alert>, x: Alert)
    requires forall i :: 0 <= i < |hi| ==> Rank(SeverityOf(hi[i])) >= Rank(SeverityOf(x))
    requires forall i :: 0 <= i < |lo| ==> Rank(SeverityOf(lo[i])) < Rank(SeverityOf(x))
    ensures Insert(hi + lo, x) == hi + [x] + lo
    decreases |lo|
  {
    if |lo| == 0 {
      assert hi + lo == hi;
      if |hi| > 0 {
        assert hi[|hi| - 1] in hi;
      }
    } else {
      var lo', last := lo[..|lo| - 1], lo[|lo| - 1];
      assert hi + lo == (hi + lo') + [last];
      InsertSnocLower(hi + lo', last, x);
      InsertPastLower(hi, lo', x);
      assert hi + [x] + lo == (hi + [x] + lo') + [last];
    }
  }

  lemma InsertSnocLower(u: seq<Alert>, last: Alert, x: Alert)
    requires Rank(SeverityOf(last)) < Rank(SeverityOf(x))
    ensures Insert(u + [last], x) == Insert(u, x) + [last]
  {
    assert (u + [last])[..|u|] == u;
  }

  /**
   The sorted alerts are the HIGH alerts, then the MEDIUM ones, then the LOW
   ones, each block in the order the alerts were collected.
   */
  lemma {:induction false} SortBlocks(xs: seq<Alert>)
    ensures SortBySeverity(xs) == OfSeverity(xs, High) + OfSeverity(xs, Medium) + OfSeverity(xs, Low)
    decreases |xs|
  {
    if |xs| > 0 {
      var p, x := xs[..|xs| - 1], xs[|xs| - 1];
      assert xs == p + [x];
      SortBlocks(p);
      SortBlocksStep(p, x);
    }
  }

  lemma SortBlocksStep(p: seq<Alert>, x: Alert)
    requires SortBySeverity(p) == OfSeverity(p, High) + OfSeverity(p, Medium) + OfSeverity(p, Low)
    ensures SortBySeverity(p + [x]) == OfSeverity(p + [x], High) + OfSeverity(p + [x], Medium) + OfSeverity(p + [x], Low)
  {
    assert (p + [x])[..|p + [x]| - 1] == p;
    var h, m, l := OfSeverity(p, High), OfSeverity(p, Medium), OfSeverity(p, Low);
    assert SortBySeverity(p + [x]) == Insert(h + m + l, x);
    InsertIntoBlocks(h, m, l, x);
  }

  /** Inserting an alert into three severity blocks appends it to its own block. */
  lemma InsertIntoBlocks(h: seq<Alert>, m: seq<Alert>, l: seq<Alert>, x: Alert)
    requires forall i :: 0 <= i < |h| ==> SeverityOf(h[i]) == High
    requires forall i :: 0 <= i < |m| ==> SeverityOf(m[i]) == Medium
    requires forall i :: 0 <= i < |l| ==> SeverityOf(l[i]) == Low
    ensures Insert(h + m + l, x) == match SeverityOf(x)
      case High => (h + [x]) + m + l
      case Medium => h + (m + [x]) + l
      case Low => h + m + (l + [x])
  {
    match SeverityOf(x)
    case High => InsertHigh(h, m, l, x);
    case Medium => InsertMedium(h, m, l, x);
  }

  lemma InsertHigh(h: seq<Alert>, m: seq<Alert>, l: seq<Alert>, x: Alert)
    requires forall i :: 0 <= i < |h| ==> SeverityOf(h[i]) == High
    requires forall i :: 0 <= i < |m| ==> SeverityOf(m[i]) == Medium
    requires forall i :: 0 <= i < |l| ==> SeverityOf(l[i]) == Low
    requires SeverityOf(x) == High
    ensures Insert(h + m + l, x) == (h + [x]) + m + l
  {
    var lo := m + l;
    forall i | 0 <= i < |lo| ensures Rank(SeverityOf(lo[i])) < Rank(SeverityOf(x)) {
      if i < |m| {
        assert lo[i] == m[i];
      } else {
        assert lo[i] == l[i - |m|];
      }
    }
    assert h + m + l == h + lo;
    InsertPastLower(h, lo, x);
    assert h + [x] + lo == (h + [x]) + m + l;
  }

  lemma InsertMedium(h: seq<Alert>, m: seq<Alert>, l: seq<Alert>, x: Alert)
    requires forall i :: 0 <= i < |h| ==> SeverityOf(h[i]) == High
    requires forall i :: 0 <= i < |m| ==> SeverityOf(m[i]) == Medium
    requires forall i :: 0 <= i < |l| ==> SeverityOf(l[i]) == Low
    requires SeverityOf(x) == Medium
    ensures Insert(h + m + l, x) == h + (m + [x]) + l
  {
    var hi := h + m;
    forall i | 0 <= i < |hi| ensures Rank(SeverityOf(hi[i])) >= Rank(SeverityOf(x)) {
      if i < |h| {
        assert hi[i] == h[i];
      } else {
        assert hi[i] == m[i - |h|];
      }
    }
    InsertPastLower(hi, l, x);
    assert hi + [x] + l == h + (m + [x]) + l;
  }

  /** The rank of a position in three blocks of HIGH, MEDIUM and LOW alerts. */
  lemma BlockRank(h: seq<Alert>, m: seq<Alert>, l: seq<Alert>, k: nat)
    requires forall i :: 0 <= i < |h| ==> SeverityOf(h[i]) == High
    requires forall i :: 0 <= i < |m| ==> SeverityOf(m[i]) == Medium
    requires forall i :: 0 <= i < |l| ==> SeverityOf(l[i]) == Low
    requires k < |h + m + l|
    ensures Rank(SeverityOf((h + m + l)[k])) == if k < |h| then 3 else if k < |h| + |m| then 2 else 1
  {
    if k < |h| {
      assert (h + m + l)[k] == h[k];
    } else if k < |h| + |m| {
      assert (h + m + l)[k] == m[k - |h|];
    } else {
      assert (h + m + l)[k] == l[k - |h| - |m|];
    }
  }

  /** An alert's rank never increases along the sorted list. */
  lemma SortOrdered(xs: seq<Alert>, i: nat, j: nat)
    requires i <= j < |SortBySeverity(xs)|
    ensures Rank(SeverityOf(SortBySeverity(xs)[i])) >= Rank(SeverityOf(SortBySeverity(xs)[j]))
  {
    SortBlocks(xs);
    var h, m, l := OfSeverity(xs, High), OfSeverity(xs, Medium), OfSeverity(xs, Low);
    BlockRank(h, m, l, i);
    BlockRank(h, m, l, j);
  }

  /** The sort is stable: the alerts of each severity keep their collected order. */
  lemma SortStable(xs: seq<Alert>, s: Severity)
    ensures OfSeverity(SortBySeverity(xs), s) == OfSeverity(xs, s)
  {
    SortBlocks(xs);
    OfSeverityBlocks(OfSeverity(xs, High), OfSeverity(xs, Medium), OfSeverity(xs, Low), s);
  }

  /** Filtering a list whose alerts all have severity `s`. */
  lemma {:induction false} OfSeverityAll(xs: seq<Alert>, s: Severity)
    requires forall i :: 0 <= i < |xs| ==> SeverityOf(xs[i]) == s
    ensures OfSeverity(xs, s) == xs
    ensures forall t :: t != s ==> OfSeverity(xs, t) == []
    decreases |xs|
  {
    if |xs| > 0 {
      OfSeverityAll(xs[..|xs| - 1], s);
      assert xs == xs[..|xs| - 1] + [xs[|xs| - 1]];
    }
  }

  /**
   `generate_alerts`: the collected alerts, ordered by severity. The result is
   a permutation of the collected alerts: the anomaly clusters, then the device
   failures (both HIGH), then the battery maintenance alerts (MEDIUM).
   */
  function GenerateAlerts(anomalies: seq<Group>, batteries: seq<Group>, devices: seq<Device>): (r: seq<Alert>)
    ensures multiset(r) == multiset(Collected(anomalies, batteries, devices))
  {
    SortPermutation(Collected(anomalies, batteries, devices));
    SortBySeverity(Collected(anomalies, batteries, devices))
  }

  lemma GenerateAlertsOrder(anomalies: seq<Group>, batteries: seq<Group>, devices: seq<Device>)
    ensures GenerateAlerts(anomalies, batteries, devices) ==
      ClusterAlerts(anomalies) + DeviceAlerts(devices) + BatteryAlerts(batteries)
  {
    var c, b, d := ClusterAlerts(anomalies), BatteryAlerts(batteries), DeviceAlerts(devices);
    AlertsOfOneSeverity(anomalies, ClusterFires, ClusterAlert, High);
    AlertsOfOneSeverity(batteries, BatteryFires, BatteryAlert, Medium);
    AlertsOfOneSeverity(devices, DeviceFires, DeviceAlert, High);
    SortBlocks(c + b + d);
    CollectedBlock(c, b, d, High);
    CollectedBlock(c, b, d, Medium);
    CollectedBlock(c, b, d, Low);
  }

  lemma CollectedBlock(c: seq<Alert>, b: seq<Alert>, d: seq<Alert>, s: Severity)
    requires forall i :: 0 <= i < |c| ==> SeverityOf(c[i]) == High
    requires forall i :: 0 <= i < |b| ==> SeverityOf(b[i]) == Medium
    requires forall i :: 0 <= i < |d| ==> SeverityOf(d[i]) == High
    ensures OfSeverity(c + b + d, s) == if s == High then c + d else if s == Medium then b else []
  {
    OfSeverityConcat3(c, b, d, s);
    OfSeverityOf(c, High, s);
    OfSeverityOf(b, Medium, s);
    OfSeverityOf(d, High, s);
    Assemble(OfSeverity(c, s), OfSeverity(b, s), OfSeverity(d, s), c, b, d, s);
  }

  /** Three filtered blocks put back together. */
  lemma Assemble(oc: seq<Alert>, ob: seq<Alert>, od: seq<Alert>, c: seq<Alert>, b: seq<Alert>, d: seq<Alert>, s: Severity)
    requires oc == (if s == High then c else []) && od == (if s == High then d else [])
    requires ob == (if s == Medium then b else [])
    ensures oc + ob + od == if s == High then c + d else if s == Medium then b else []
  {
    match s
    case High => assert c + [] + d == c + d;
    case Medium => assert [] + b + [] == b;
    case Low =>
  }

  lemma OfSeverityConcat3(c: seq<Alert>, b: seq<Alert>, d: seq<Alert>, s: Severity)
    ensures OfSeverity(c + b + d, s) == OfSeverity(c, s) + OfSeverity(b, s) + OfSeverity(d, s)
  {
    OfSeverityConcat(c + b, d, s);
    OfSeverityConcat(c, b, s);
  }

  // ---------------------------------------------------------------------------
  // The per-location battery tally
  // ---------------------------------------------------------------------------

  /** The third '_' field of a battery key, the location it names. */
  function LocationOf(g: Group): string
  {
    KeyField(g.key, 2)
  }

  /** `location_battery_issues[location] = location_battery_issues.get(location, 0) + alert['count']`. */
  function Tally(batteries: seq<Group>): Dict<string, int>
  {
    if |batteries| == 0 then []
    else
      var t := Tally(batteries[..|batteries| - 1]);
      var g := batteries[|batteries| - 1];
      Put(t, LocationOf(g), Lookup(t, LocationOf(g)).GetOr(0) + g.count)
  }

  /** The total count of the battery records at one location. */
  function CountAt(batteries: seq<Group>, location: string): int
  {
    if |batteries| == 0 then 0
    else
      var g := batteries[|batteries| - 1];
      CountAt(batteries[..|batteries| - 1], location) + (if LocationOf(g) == location then g.count else 0)
  }

  /** Some battery record names the location. */
  predicate Names(batteries: seq<Group>, location: string)
  {
    exists i :: 0 <= i < |batteries| && LocationOf(batteries[i]) == location
  }

  /**
   A location is in the tally exactly when some battery record names it, and
   its entry is the sum of the counts of those records.
   */
  lemma {:induction false} TallyLookup(batteries: seq<Group>, location: string)
    ensures Lookup(Tally(batteries), location) ==
      if Names(batteries, location) then Some(CountAt(batteries, location)) else None
    decreases |batteries|
  {
    if |batteries| > 0 {
      var p, g := batteries[..|batteries| - 1], batteries[|batteries| - 1];
      assert batteries == p + [g];
      TallyLookup(p, location);
      TallyStep(p, g, location);
    }
  }

  lemma TallyStep(p: seq<Group>, g: Group, location: string)
    requires Lookup(Tally(p), location) == if Names(p, location) then Some(CountAt(p, location)) else None
    ensures Lookup(Tally(p + [g]), location) ==
      if Names(p + [g], location) then Some(CountAt(p + [g], location)) else None
  {
    var t, k := Tally(p), LocationOf(g);
    TallySnoc(p, g);
    CountAtSnoc(p, g, location);
    NamesSnoc(p, g, location);
    if !Names(p, location) {
      CountAtAbsent(p, location);
    }
    TallyPut(t, k, g.count, location, CountAt(p, location), Names(p, location),
             Tally(p + [g]), CountAt(p + [g], location), Names(p + [g], location));
  }

  lemma TallySnoc(p: seq<Group>, g: Group)
    ensures Tally(p + [g]) == Put(Tally(p), LocationOf(g), Lookup(Tally(p), LocationOf(g)).GetOr(0) + g.count)
  {
    var bs := p + [g];
    assert bs[..|bs| - 1] == p && bs[|bs| - 1] == g;
  }

  lemma CountAtSnoc(p: seq<Group>, g: Group, location: string)
    ensures CountAt(p + [g], location) == CountAt(p, location) + (if LocationOf(g) == location then g.count else 0)
  {
    var bs := p + [g];
    assert bs[..|bs| - 1] == p && bs[|bs| - 1] == g;
  }

  /** Adding c under k to a tally entry that agrees with the records so far. */
  lemma TallyPut(t: Dict<string, int>, k: string, c: int, location: string, n: int, named: bool,
                 t': Dict<string, int>, n': int, named': bool)
    requires Lookup(t, location) == if named then Some(n) else None
    requires !named ==> n == 0
    requires t' == Put(t, k, Lookup(t, k).GetOr(0) + c)
    requires n' == n + (if k == location then c else 0)
    requires named' <==> named || k == location
    ensures Lookup(t', location) == if named' then Some(n') else None
  {
    LookupPut(t, k, Lookup(t, k).GetOr(0) + c, location);
  }

  lemma NamesSnoc(p: seq<Group>, g: Group, location: string)
    ensures Names(p + [g], location) <==> Names(p, location) || LocationOf(g) == location
  {
    var bs := p + [g];
    if Names(p, location) {
      var i :| 0 <= i < |p| && LocationOf(p[i]) == location;
      assert bs[i] == p[i];
    }
    if LocationOf(g) == location {
      assert bs[|p|] == g;
    }
    if Names(bs, location) {
      var i :| 0 <= i < |bs| && LocationOf(bs[i]) == location;
      if i < |p| {
        assert bs[i] == p[i];
      }
    }
  }

  lemma {:induction false} CountAtAbsent(batteries: seq<Group>, location: string)
    requires !Names(batteries, location)
    ensures CountAt(batteries, location) == 0
    decreases |batteries|
  {
    if |batteries| > 0 {
      var p := batteries[..|batteries| - 1];
      CountAtAbsent(p, location);
    }
  }

  /** The tally holds each location once, so its entries are exactly the per-location totals. */
  lemma {:induction false} TallyUnique(batteries: seq<Group>)
    ensures UniqueKeys(Tally(batteries))
    decreases |batteries|
  {
    if |batteries| > 0 {
      var p := batteries[..|batteries| - 1];
      var g := batteries[|batteries| - 1];
      TallyUnique(p);
      PutUnique(Tally(p), LocationOf(g), Lookup(Tally(p), LocationOf(g)).GetOr(0) + g.count);
    }
  }
}

=== FILE: iot_mapper.dfy ===
/**
 The mapper of the IoT sensor pipeline (lab4, 4.3): per-device-type range
 anomaly detection and the keys each sensor reading is written under.

 The JSON decoder, `datetime.fromisoformat`/`strftime` and Python's float
 formatting are not modelled: a reading arrives as its decoded object (field
 name to text), the time stamp's hour and day come from a parameter, and the
 text a number is printed as is another parameter.
 */
module IotMapper {
  import opened Wrappers
  import opened Text

  // ---------------------------------------------------------------------------
  // Anomaly detection
  // ---------------------------------------------------------------------------

  /** A device type's normal range, both ends included. */
  datatype Range = Range(lo: real, hi: real)

  const KnownTypes: set<string> := {"Temperature", "Humidity", "Pressure", "Vibration", "Light"}

  /** The threshold table of `detect_anomaly`. */
  function Thresholds(deviceType: string): (r: Option<Range>)
    ensures r.Some? <==> deviceType in KnownTypes
    ensures r.Some? ==> r.value.lo < r.value.hi
  {
    if deviceType == "Temperature" then Some(Range(10.0, 35.0))
    else if deviceType == "Humidity" then Some(Range(20.0, 80.0))
    else if deviceType == "Pressure" then Some(Range(1000.0, 1040.0))
    else if deviceType == "Vibration" then Some(Range(0.0, 10.0))
    else if deviceType == "Light" then Some(Range(100.0, 1000.0))
    else None
  }

  /**
   `detect_anomaly`: a value of a known device type is anomalous when it lies
   outside the type's range; a type outside the table is never anomalous.
   */
  function DetectAnomaly(deviceType: string, value: real): (b: bool)
    ensures b ==> deviceType in KnownTypes
  {
    match Thresholds(deviceType)
    case None => false
    case Some(t) => value < t.lo || value > t.hi
  }

  /** The table's entries. */
  lemma ThresholdTable(v: real)
    ensures DetectAnomaly("Temperature", v) <==> v < 10.0 || v > 35.0
    ensures DetectAnomaly("Humidity", v) <==> v < 20.0 || v > 80.0
    ensures DetectAnomaly("Pressure", v) <==> v < 1000.0 || v > 1040.0
    ensures DetectAnomaly("Vibration", v) <==> v < 0.0 || v > 10.0
    ensures DetectAnomaly("Light", v) <==> v < 100.0 || v > 1000.0
  {
  }

  /**
   For a known type, both ends of the range are normal and every value
   beyond either end is anomalous.
   */
  lemma RangeEnds(deviceType: string, d: real)
    requires deviceType in KnownTypes && d > 0.0
    ensures var t := Thresholds(deviceType).value;
      && !DetectAnomaly(deviceType, t.lo) && !DetectAnomaly(deviceType, t.hi)
      && DetectAnomaly(deviceType, t.lo - d) && DetectAnomaly(deviceType, t.hi + d)
  {
  }

  /** The normal values of a type form an interval: between two normal values every value is normal. */
  lemma NormalBetween(deviceType: string, a: real, b: real, v: real)
    requires !DetectAnomaly(deviceType, a) && !DetectAnomaly(deviceType, b) && a <= v <= b
    ensures !DetectAnomaly(deviceType, v)
  {
  }

  // ---------------------------------------------------------------------------
  // Keys
  // ---------------------------------------------------------------------------

  /** The analysis the reducer applies to a key, chosen by the key's prefix. */
  datatype Kind = Statistics | Anomalies | BatteryAlerts | DeviceStats | Unrecognised

  /** The prefix tests of `process_group`, in its order. */
  function KindOf(key: string): Kind
  {
    if IsPrefix("hourly_", key) || IsPrefix("daily_", key) || IsPrefix("location_summary_", key) then Statistics
    else if IsPrefix("anomaly_", key) then Anomalies
    else if IsPrefix("low_battery_", key) then BatteryAlerts
    else if IsPrefix("device_stats_", key) then DeviceStats
    else Unrecognised
  }

  lemma PrefixOf(p: string, x: string)
    ensures IsPrefix(p, p + x)
  {
    assert (p + x)[..|p|] == p;
  }

  /** A text that starts with q does not start with a p that differs from q at position i. */
  lemma NotPrefix(p: string, q: string, x: string, i: nat)
    requires i < |p| && i < |q| && p[i] != q[i]
    ensures !IsPrefix(p, q + x)
  {
    if |p| <= |q + x| {
      assert (q + x)[..|p|][i] == q[i];
    }
  }

  // ---------------------------------------------------------------------------
  // Readings and what is written for them
  // ---------------------------------------------------------------------------

  datatype Reading = Reading(deviceId: string, deviceType: string, location: string, timestamp: string,
                             value: real, batteryLevel: real)

  const Required: set<string> := {"device_id", "device_type", "location", "timestamp", "value", "battery_level"}

  /**
   The field lookups and the two `float` conversions: None where a field is
   missing (KeyError) or a number does not convert (ValueError).
   */
  function ParseReading(obj: map<string, string>): (r: Option<Reading>)
    ensures r.Some? <==> (Required <= obj.Keys && ParseDecimal(obj["value"]).Some? &&
                          ParseDecimal(obj["battery_level"]).Some?)
    ensures r.Some? ==> (r.value.deviceType == obj["device_type"] && r.value.location == obj["location"] &&
                         r.value.value == ParseDecimal(obj["value"]).value &&
                         r.value.batteryLevel == ParseDecimal(obj["battery_level"]).value)
  {
    if !(Required <= obj.Keys) then None
    else
      match (ParseDecimal(obj["value"]), ParseDecimal(obj["battery_level"]))
      case (Some(v), Some(b)) =>
        Some(Reading(obj["device_id"], obj["device_type"], obj["location"], obj["timestamp"], v, b))
      case _ => None
  }

  /** The lines written for one reading, in order, given the hour and day of its time stamp. */
  function Emissions(r: Reading, hour: string, day: string, show: real -> string): seq<(string, string)>
  {
    [("hourly_" + r.location + "_" + r.deviceType + "_" + hour, show(r.value)),
     ("daily_" + r.deviceId + "_" + day, show(r.value))] +
    (if DetectAnomaly(r.deviceType, r.value)
     then [("anomaly_" + r.deviceType + "_" + r.location, r.deviceId + "|" + show(r.value) + "|" + r.timestamp)]
     else []) +
    (if r.batteryLevel < 20.0
     then [("low_battery_" + r.location, r.deviceId + "|" + show(r.batteryLevel) + "|" + r.timestamp)]
     else []) +
    [("device_stats_" + r.deviceId, show(r.value) + "|" + show(r.batteryLevel)),
     ("location_summary_" + r.location + "_" + r.deviceType, show(r.value))]
  }

  /**
   One input line: the decoded object (None where the JSON does not decode)
   and `stamp`, the hour and day of a time stamp (None where it does not
   parse). Every lookup and conversion happens before the first line is
   written, so a bad record writes nothing at all.
   */
  function MapLine(obj: Option<map<string, string>>, stamp: string -> Option<(string, string)>,
                   show: real -> string): (out: seq<(string, string)>)
    ensures out == [] <==>
      obj.None? || ParseReading(obj.value).None? || stamp(ParseReading(obj.value).value.timestamp).None?
  {
    match obj
    case None => []
    case Some(o) =>
      match ParseReading(o)
      case None => []
      case Some(r) =>
        match stamp(r.timestamp)
        case None => []
        case Some((hour, day)) => Emissions(r, hour, day, show)
  }

  /** The analysis each written key is routed to. */
  function Kinds(out: seq<(string, string)>): (ks: seq<Kind>)
    ensures |ks| == |out|
  {
    if |out| == 0 then [] else [KindOf(out[0].0)] + Kinds(out[1..])
  }

  lemma {:induction false} KindsConcat(a: seq<(string, string)>, b: seq<(string, string)>)
    ensures Kinds(a + b) == Kinds(a) + Kinds(b)
    decreases |a|
  {
    if |a| > 0 {
      KindsConcat(a[1..], b);
      assert (a + b)[1..] == a[1..] + b;
    } else {
      assert a + b == b;
    }
  }

  lemma KindHourly(x: string)
    ensures KindOf("hourly_" + x) == Statistics
  {
    PrefixOf("hourly_", x);
  }

  lemma KindDaily(x: string)
    ensures KindOf("daily_" + x) == Statistics
  {
    PrefixOf("daily_", x);
  }

  lemma KindLocationSummary(x: string)
    ensures KindOf("location_summary_" + x) == Statistics
  {
    PrefixOf("location_summary_", x);
  }

  lemma KindAnomaly(x: string)
    ensures KindOf("anomaly_" + x) == Anomalies
  {
    NotPrefix("hourly_", "anomaly_", x, 0);
    NotPrefix("daily_", "anomaly_", x, 0);
    NotPrefix("location_summary_", "anomaly_", x, 0);
    PrefixOf("anomaly_", x);
  }

  lemma KindLowBattery(x: string)
    ensures KindOf("low_battery_" + x) == BatteryAlerts
  {
    NotPrefix("hourly_", "low_battery_", x, 0);
    NotPrefix("daily_", "low_battery_", x, 0);
    NotPrefix("location_summary_", "low_battery_", x, 2);
    NotPrefix("anomaly_", "low_battery_", x, 0);
    PrefixOf("low_battery_", x);
  }

  lemma KindDeviceStats(x: string)
    ensures KindOf("device_stats_" + x) == DeviceStats
  {
    NotPrefix("hourly_", "device_stats_", x, 0);
    NotPrefix("daily_", "device_stats_", x, 1);
    NotPrefix("location_summary_", "device_stats_", x, 0);
    NotPrefix("anomaly_", "device_stats_", x, 0);
    NotPrefix("low_battery_", "device_stats_", x, 0);
    PrefixOf("device_stats_", x);
  }

  /**
   Every valid reading feeds three statistics keys (hourly, daily, location)
   and one device key; it feeds an anomaly key exactly when its value is
   anomalous for its type, and a battery key exactly when its battery level
   is below 20.
   */
  lemma EmissionKinds(r: Reading, hour: string, day: string, show: real -> string)
    ensures Kinds(Emissions(r, hour, day, show)) ==
      [Statistics, Statistics] +
      (if DetectAnomaly(r.deviceType, r.value) then [Anomalies] else []) +
      (if r.batteryLevel < 20.0 then [BatteryAlerts] else []) +
      [DeviceStats, Statistics]
  {
    var h := ("hourly_" + r.location + "_" + r.deviceType + "_" + hour, show(r.value));
    var d := ("daily_" + r.deviceId + "_" + day, show(r.value));
    var a: seq<(string, string)> :=
      if DetectAnomaly(r.deviceType, r.value)
      then [("anomaly_" + r.deviceType + "_" + r.location, r.deviceId + "|" + show(r.value) + "|" + r.timestamp)]
      else [];
    var b: seq<(string, string)> :=
      if r.batteryLevel < 20.0
      then [("low_battery_" + r.location, r.deviceId + "|" + show(r.batteryLevel) + "|" + r.timestamp)]
      else [];
    var s := ("device_stats_" + r.deviceId, show(r.value) + "|" + show(r.batteryLevel));
    var l := ("location_summary_" + r.location + "_" + r.deviceType, show(r.value));
    assert Emissions(r, hour, day, show) == [h, d] + a + b + [s, l];
    StatisticsKinds(r.location, r.deviceType, hour, r.deviceId, day);
    AlertKinds(r.deviceType, r.location);
    OptionalKinds("anomaly_" + r.deviceType + "_" + r.location, a, Anomalies);
    OptionalKinds("low_battery_" + r.location, b, BatteryAlerts);
    KindsOfPieces(h, d, a, b, s, l);
  }

  /** The hourly, daily, device and location keys of one reading, by kind. */
  lemma StatisticsKinds(location: string, deviceType: string, hour: string, deviceId: string, day: string)
    ensures KindOf("hourly_" + location + "_" + deviceType + "_" + hour) == Statistics
    ensures KindOf("daily_" + deviceId + "_" + day) == Statistics
    ensures KindOf("device_stats_" + deviceId) == DeviceStats
    ensures KindOf("location_summary_" + location + "_" + deviceType) == Statistics
  {
    KindHourly(location + "_" + deviceType + "_" + hour);
    assert "hourly_" + location + "_" + deviceType + "_" + hour == "hourly_" + (location + "_" + deviceType + "_" + hour);
    KindDaily(deviceId + "_" + day);
    assert "daily_" + deviceId + "_" + day == "daily_" + (deviceId + "_" + day);
    KindDeviceStats(deviceId);
    KindLocationSummary(location + "_" + deviceType);
    assert "location_summary_" + location + "_" + deviceType == "location_summary_" + (location + "_" + deviceType);
  }

  /** The anomaly and low-battery keys of one reading, by kind. */
  lemma AlertKinds(deviceType: string, location: string)
    ensures KindOf("anomaly_" + deviceType + "_" + location) == Anomalies
    ensures KindOf("low_battery_" + location) == BatteryAlerts
  {
    KindAnomaly(deviceType + "_" + location);
    assert "anomaly_" + deviceType + "_" + location == "anomaly_" + (deviceType + "_" + location);
    KindLowBattery(location);
  }

  /** An emission that is written or not: its kinds are its key's kind or nothing. */
  lemma OptionalKinds(key: string, a: seq<(string, string)>, k: Kind)
    requires |a| <= 1 && (|a| == 1 ==> a[0].0 == key)
    requires KindOf(key) == k
    ensures Kinds(a) == if |a| == 1 then [k] else []
  {
  }

  lemma KindsOfPieces(h: (string, string), d: (string, string), a: seq<(string, string)>,
                      b: seq<(string, string)>, s: (string, string), l: (string, string))
    ensures Kinds([h, d] + a + b + [s, l]) == [KindOf(h.0), KindOf(d.0)] + Kinds(a) + Kinds(b) + [KindOf(s.0), KindOf(l.0)]
  {
    KindsConcat([h, d] + a + b, [s, l]);
    KindsConcat([h, d] + a, b);
    KindsConcat([h, d], a);
    assert Kinds([h, d]) == [KindOf(h.0), KindOf(d.0)];
    assert Kinds([s, l]) == [KindOf(s.0), KindOf(l.0)];
  }
}

=== FILE: iot_reducer.dfy ===
/**
 The reducer of the IoT sensor pipeline (lab4, 4.3). It reads the mapper's
 `key<TAB>value` lines in key order and, for each run of equal keys, chooses
 the analysis from the key's prefix: summary statistics of the numeric values
 (hourly_, daily_, location_summary_), a count and a preview of the anomaly
 payloads (anomaly_), the list of low-battery payloads (low_battery_), or the
 statistics and a health score of a device's sensor and battery readings
 (device_stats_).

 A run is opened as soon as a line with a new key is read, before its value
 is looked at, so the kernel groups (key, raw value) records and every
 analysis picks the values it can use from its run.

 `math.sqrt` is a parameter; `round` and the JSON output are not modelled.
 */
module IotReducer {
  import opened Wrappers
  import opened Text
  import opened Numbers
  import opened Runs
  import opened Lines
  import opened IotMapper

  // ---------------------------------------------------------------------------
  // calculate_statistics
  // ---------------------------------------------------------------------------

  datatype Stats = Stats(count: nat, mean: real, median: real, variance: real, stdDev: real,
                         min: real, max: real)

  /** The squared distance from m. */
  function Deviation(m: real): real -> real
  {
    x => (x - m) * (x - m)
  }

  /** The middle element of a sorted list, or the average of the two middle ones. */
  function Median(sorted: seq<real>): real
    requires |sorted| > 0
  {
    var n := |sorted|;
    if n % 2 == 1 then sorted[n / 2] else (sorted[n / 2 - 1] + sorted[n / 2]) / 2.0
  }

  /**
   `calculate_statistics`: nothing for an empty list; otherwise the count,
   the mean, the median of the sorted values, the population variance
   (dividing by n), its square root, and the extremes.
   */
  function CalculateStatistics(vs: seq<real>, sqrt: real -> real): (r: Option<Stats>)
    ensures r.None? <==> |vs| == 0
    ensures r.Some? ==> Summarises(r.value, vs, sqrt)
  {
    if |vs| == 0 then None else Some(Summary(vs, sqrt))
  }

  /** What the statistics of a non-empty list promise about it. */
  predicate Summarises(st: Stats, vs: seq<real>, sqrt: real -> real)
  {
    && st.count == |vs| && st.min in vs && st.max in vs
    && (forall i :: 0 <= i < |vs| ==> st.min <= vs[i] <= st.max)
    && st.min <= st.mean <= st.max && st.mean == RSum(vs) / |vs| as real
    && st.min <= st.median <= st.max && st.median == Median(SortReals(vs))
    && st.variance >= 0.0 && st.variance == RSum(Project(Deviation(st.mean), vs)) / |vs| as real
    && st.stdDev == sqrt(st.variance)
  }

  function Summary(vs: seq<real>, sqrt: real -> real): (st: Stats)
    requires |vs| > 0
    ensures Summarises(st, vs, sqrt)
  {
    var mean := Mean(vs);
    var variance := RSum(Project(Deviation(mean), vs)) / |vs| as real;
    var sorted := SortReals(vs);
    MedianBetween(vs, sorted);
    VarianceNonNegative(mean, vs);
    Stats(|vs|, mean, Median(sorted), variance, sqrt(variance), RMin(vs), RMax(vs))
  }

  /** The median of the sorted values lies between the extremes of the original ones. */
  lemma MedianBetween(vs: seq<real>, sorted: seq<real>)
    requires |vs| > 0 && multiset(sorted) == multiset(vs)
    ensures |sorted| == |vs|
    ensures RMin(vs) <= Median(sorted) <= RMax(vs)
  {
    assert |sorted| == |vs| by {
      assert |multiset(sorted)| == |multiset(vs)|;
    }
    var n := |sorted|;
    assert sorted[n / 2] in multiset(vs);
    if n % 2 == 0 {
      assert sorted[n / 2 - 1] in multiset(vs);
    }
  }

  /**
   The median does not depend on how the values were sorted: any ordering of
   them gives the middle element for an odd count and the average of the two
   middle elements for an even one.
   */
  lemma MedianOfSorted(vs: seq<real>, sorted: seq<real>, sqrt: real -> real)
    requires |vs| > 0 && Sorted(sorted) && multiset(sorted) == multiset(vs)
    ensures |sorted| == |vs|
    ensures var n := |vs|;
      Summary(vs, sqrt).median ==
        if n % 2 == 1 then sorted[n / 2] else (sorted[n / 2 - 1] + sorted[n / 2]) / 2.0
  {
    assert |sorted| == |vs| by {
      assert |multiset(sorted)| == |multiset(vs)|;
    }
    SortedUnique(SortReals(vs), sorted);
  }

  /** The mean squared distance from any point is never negative. */
  lemma VarianceNonNegative(m: real, vs: seq<real>)
    requires |vs| > 0
    ensures RSum(Project(Deviation(m), vs)) / |vs| as real >= 0.0
  {
    var ds := Project(Deviation(m), vs);
    forall i | 0 <= i < |ds| ensures ds[i] >= 0.0 {
      SquareNonNegative(vs[i] - m);
    }
    MeanWithin(ds, 0.0, RMax(ds));
  }

  lemma SquareNonNegative(x: real)
    ensures x * x >= 0.0
  {
    if x < 0.0 {
      assert x * x == (-x) * (-x);
    }
  }

  /** The statistics of a list depend only on its values, not on their order. */
  lemma StatisticsPermutation(a: seq<real>, b: seq<real>, sqrt: real -> real)
    requires multiset(a) == multiset(b)
    ensures CalculateStatistics(a, sqrt) == CalculateStatistics(b, sqrt)
  {
    assert |a| == |b| by {
      assert |multiset(a)| == |multiset(b)|;
    }
    if |a| > 0 {
      RSumPermutation(a, b);
      RMinPermutation(a, b);
      RMaxPermutation(a, b);
      SortedUnique(SortReals(a), SortReals(b));
      var m := Mean(a);
      ProjectPermutation(Deviation(m), a, b);
      RSumPermutation(Project(Deviation(m), a), Project(Deviation(m), b));
    }
  }

  // ---------------------------------------------------------------------------
  // calculate_health_score
  // ---------------------------------------------------------------------------

  function RealMax(a: real, b: real): real { if a >= b then a else b }

  function RealMin(a: real, b: real): real { if a <= b then a else b }

  /**
   `calculate_health_score`: 0 when either list is empty; otherwise 40% of
   the mean battery level plus 60% of the sensor stability (100 minus the
   standard deviation, at least 0), clamped into [0, 100].
   */
  function HealthScore(sensor: seq<real>, battery: seq<real>, sqrt: real -> real): (h: real)
    ensures 0.0 <= h <= 100.0
    ensures |sensor| == 0 || |battery| == 0 ==> h == 0.0
  {
    if |sensor| == 0 || |battery| == 0 then 0.0
    else
      var stability := 100.0 - sqrt(RSum(Project(Deviation(Mean(sensor)), sensor)) / |sensor| as real);
      RealMin(100.0, RealMax(0.0, Mean(battery) * 0.4 + RealMax(0.0, stability) * 0.6))
  }

  /**
   The stability term is 100 minus the standard deviation that the sensor
   statistics report, and a raw score already inside [0, 100] is kept as it is.
   */
  lemma HealthFromStatistics(sensor: seq<real>, battery: seq<real>, sqrt: real -> real)
    requires |sensor| > 0 && |battery| > 0
    ensures var raw := Mean(battery) * 0.4 + RealMax(0.0, 100.0 - CalculateStatistics(sensor, sqrt).value.stdDev) * 0.6;
      && (0.0 <= raw <= 100.0 ==> HealthScore(sensor, battery, sqrt) == raw)
      && (raw < 0.0 ==> HealthScore(sensor, battery, sqrt) == 0.0)
      && (raw > 100.0 ==> HealthScore(sensor, battery, sqrt) == 100.0)
  {
  }

  // ---------------------------------------------------------------------------
  // process_group
  // ---------------------------------------------------------------------------

  datatype Output =
    | StatisticsOut(key: string, stats: Stats)
    | AnomaliesOut(key: string, count: nat, anomalies: seq<string>)
    | BatteryOut(key: string, count: nat, alerts: seq<string>)
    | PerformanceOut(key: string, sensorStats: Option<Stats>, batteryStats: Option<Stats>, healthScore: real)

  /** The values of a statistics run that `float` accepts, in order; the others are skipped. */
  function Numeric(vs: seq<string>): seq<real>
  {
    Somes(Project(ParseDecimal, vs))
  }

  /** A device metric `sensor|battery`: used only when it splits into exactly two parts. */
  function Metric(m: string): Option<(real, real)>
  {
    var parts := Split(m, '|');
    if |parts| != 2 then None
    else Some((ParseDecimal(parts[0]).GetOr(0.0), ParseDecimal(parts[1]).GetOr(0.0)))
  }

  /** A metric whose two parts `float` does not accept raises inside `process_group`. */
  predicate MetricConverts(m: string)
  {
    var parts := Split(m, '|');
    |parts| != 2 || (ParseDecimal(parts[0]).Some? && ParseDecimal(parts[1]).Some?)
  }

  predicate Flushable(r: Run<string, string>)
  {
    KindOf(r.key) == DeviceStats ==> forall i :: 0 <= i < |r.values| ==> MetricConverts(r.values[i])
  }

  function Sensor(ms: seq<(real, real)>): (xs: seq<real>)
    ensures |xs| == |ms|
    ensures forall i :: 0 <= i < |ms| ==> xs[i] == ms[i].0
  {
    if |ms| == 0 then [] else Sensor(ms[..|ms| - 1]) + [ms[|ms| - 1].0]
  }

  function Battery(ms: seq<(real, real)>): (xs: seq<real>)
    ensures |xs| == |ms|
    ensures forall i :: 0 <= i < |ms| ==> xs[i] == ms[i].1
  {
    if |ms| == 0 then [] else Battery(ms[..|ms| - 1]) + [ms[|ms| - 1].1]
  }

  /** The anomaly preview: the first ten payloads. */
  function Preview(vs: seq<string>): seq<string>
  {
    if |vs| <= 10 then vs else vs[..10]
  }

  /**
   `process_group` for one run. A run whose key has no recognised prefix
   (the empty key included, which the source never flushes) writes nothing;
   a device run with a metric that does not convert raises and writes nothing.
   */
  function Flush(r: Run<string, string>, sqrt: real -> real): seq<Output>
  {
    match KindOf(r.key)
    case Statistics =>
      var xs := Numeric(r.values);
      if |xs| == 0 then [] else [StatisticsOut(r.key, CalculateStatistics(xs, sqrt).value)]
    case Anomalies =>
      if |r.values| == 0 then [] else [AnomaliesOut(r.key, |r.values|, Preview(r.values))]
    case BatteryAlerts =>
      if |r.values| == 0 then [] else [BatteryOut(r.key, |r.values|, r.values)]
    case DeviceStats => FlushDevice(r, sqrt)
    case Unrecognised => []
  }

  /** A device-statistics run: one performance record unless the run is empty or its report would raise. */
  function FlushDevice(r: Run<string, string>, sqrt: real -> real): seq<Output>
  {
    if |r.values| == 0 || !Flushable(r) then []
    else
      var ms := Somes(Project(Metric, r.values));
      var sensor, battery := Sensor(ms), Battery(ms);
      [PerformanceOut(r.key, CalculateStatistics(sensor, sqrt), CalculateStatistics(battery, sqrt),
                      HealthScore(sensor, battery, sqrt))]
  }

  function FlushWith(sqrt: real -> real): Run<string, string> -> seq<Output>
  {
    r => Flush(r, sqrt)
  }

  /** The reducer over all input lines; `key, value = line.split('\t', 1)` skips lines without a tab. */
  function ReduceLines(lines: seq<string>, sqrt: real -> real): seq<Output>
  {
    Reduce(lines, KeyAndRest, FlushWith(sqrt))
  }

  // ---------------------------------------------------------------------------
  // What each analysis writes
  // ---------------------------------------------------------------------------

  /**
   A statistics run writes one record exactly when at least one of its values
   converts, and that record summarises exactly the converting values.
   */
  lemma StatisticsRun(k: string, vs: seq<string>, sqrt: real -> real)
    requires KindOf(k) == Statistics
    ensures |Flush(Run(k, vs), sqrt)| == if |Numeric(vs)| == 0 then 0 else 1
    ensures |Numeric(vs)| == 0 <==> forall i :: 0 <= i < |vs| ==> ParseDecimal(vs[i]).None?
    ensures |Numeric(vs)| > 0 ==>
      Flush(Run(k, vs), sqrt) == [StatisticsOut(k, CalculateStatistics(Numeric(vs), sqrt).value)]
  {
    NumericEmpty(vs);
  }

  /** No value converts exactly when the converted values are none. */
  lemma NumericEmpty(vs: seq<string>)
    ensures |Numeric(vs)| == 0 <==> forall i :: 0 <= i < |vs| ==> ParseDecimal(vs[i]).None?
  {
    var os := Project(ParseDecimal, vs);
    if |Numeric(vs)| == 0 {
      forall i | 0 <= i < |vs| ensures ParseDecimal(vs[i]).None? {
        if ParseDecimal(vs[i]).Some? {
          SomesHas(os, ParseDecimal(vs[i]).value);
        }
      }
    } else {
      var x := Numeric(vs)[0];
      SomesHas(os, x);
    }
  }

  /**
   An anomaly run writes its full count but previews only the first ten
   payloads, in order.
   */
  lemma AnomalyRun(k: string, vs: seq<string>, sqrt: real -> real)
    requires KindOf(k) == Anomalies && |vs| > 0
    ensures |Flush(Run(k, vs), sqrt)| == 1
    ensures var o := Flush(Run(k, vs), sqrt)[0];
      && o.AnomaliesOut? && o.key == k && o.count == |vs|
      && |o.anomalies| == (if |vs| < 10 then |vs| else 10)
      && o.anomalies == vs[..|o.anomalies|]
  {
  }

  /** A battery run writes every payload, with a count equal to their number. */
  lemma BatteryRun(k: string, vs: seq<string>, sqrt: real -> real)
    requires KindOf(k) == BatteryAlerts && |vs| > 0
    ensures Flush(Run(k, vs), sqrt) == [BatteryOut(k, |vs|, vs)]
  {
  }

  /**
   A device run writes the statistics of the sensor and battery parts of its
   two-part metrics, and a health score that is 0 unless some metric has two
   parts.
   */
  lemma DeviceRun(k: string, vs: seq<string>, sqrt: real -> real)
    requires KindOf(k) == DeviceStats && |vs| > 0 && Flushable(Run(k, vs))
    ensures |Flush(Run(k, vs), sqrt)| == 1
    ensures var o := Flush(Run(k, vs), sqrt)[0];
      var ms := Somes(Project(Metric, vs));
      && o.PerformanceOut? && o.key == k
      && o.sensorStats == CalculateStatistics(Sensor(ms), sqrt)
      && o.batteryStats == CalculateStatistics(Battery(ms), sqrt)
      && 0.0 <= o.healthScore <= 100.0
      && ((forall i :: 0 <= i < |vs| ==> Metric(vs[i]).None?) ==> o.healthScore == 0.0)
  {
    var ms := Somes(Project(Metric, vs));
    if forall i :: 0 <= i < |vs| ==> Metric(vs[i]).None? {
      SomesNone(Project(Metric, vs));
    }
  }

  /** A key with none of the recognised prefixes writes nothing. */
  lemma UnrecognisedSilent(k: string, vs: seq<string>, sqrt: real -> real)
    requires KindOf(k) == Unrecognised
    ensures Flush(Run(k, vs), sqrt) == []
  {
  }

  /**
   The buffers are reset at every key change: with equal keys adjacent, a
   record is written exactly when it is the record of one key's values, and
   it carries that key. A device metric that `float` rejects aborts the
   source's job: a flush at a key change raises inside the loop's `try`, but
   the current key stays on the bad group, so every later line raises again
   and the final flush, outside the `try`, raises once more. The
   characterisation assumes every device run converts.
   */
  lemma Outputs(lines: seq<string>, sqrt: real -> real, o: Output)
    requires Grouped(Parsed(lines, KeyAndRest))
    requires DeviceMetricsConvert(Parsed(lines, KeyAndRest))
    ensures o in ReduceLines(lines, sqrt) <==>
      exists k :: k in Keys(Parsed(lines, KeyAndRest)) && o in Flush(Run(k, ValuesOf(Parsed(lines, KeyAndRest), k)), sqrt)
    ensures o in ReduceLines(lines, sqrt) ==> o.key in Keys(Parsed(lines, KeyAndRest))
  {
    var rs, flush := Parsed(lines, KeyAndRest), FlushWith(sqrt);
    ReduceMember(lines, KeyAndRest, flush, o);
    if o in ReduceLines(lines, sqrt) {
      var k :| k in Keys(rs) && o in flush(Run(k, ValuesOf(rs, k)));
      FlushKey(Run(k, ValuesOf(rs, k)), sqrt, o);
    }
  }

  /** Every value read under a device_stats_ key is a metric `float` accepts. */
  predicate DeviceMetricsConvert(rs: seq<(string, string)>)
  {
    forall i :: 0 <= i < |rs| && KindOf(rs[i].0) == DeviceStats ==> MetricConverts(rs[i].1)
  }

  /** When every device metric converts, each device key of the input writes exactly one record. */
  lemma DeviceKeysReported(rs: seq<(string, string)>, k: string, sqrt: real -> real)
    requires DeviceMetricsConvert(rs) && k in Keys(rs) && KindOf(k) == DeviceStats
    ensures |Flush(Run(k, ValuesOf(rs, k)), sqrt)| == 1
  {
    var vs := ValuesOf(rs, k);
    ValuesOfKey(rs, k);
    forall i | 0 <= i < |vs| ensures MetricConverts(vs[i]) {
      assert (k, vs[i]) in rs;
    }
  }

  /** Every record a run writes carries the run's key. */
  lemma FlushKey(r: Run<string, string>, sqrt: real -> real, o: Output)
    requires o in Flush(r, sqrt)
    ensures o.key == r.key
  {
    match KindOf(r.key)
    case Statistics =>
    case Anomalies =>
    case BatteryAlerts =>
    case DeviceStats => assert o in FlushDevice(r, sqrt);
    case Unrecognised =>
  }

  /** Blank lines and lines without a tab are skipped and leave the open run as it is. */
  lemma MalformedLineSkipped(a: seq<string>, line: string, b: seq<string>, sqrt: real -> real)
    requires KeyAndRest(line).None?
    ensures ReduceLines(a + [line] + b, sqrt) == ReduceLines(a + b, sqrt)
  {
    SkippedLine(a, line, b, KeyAndRest, FlushWith(sqrt));
  }
}

=== FILE: ip_count.dfy ===
/**
 Counting requests per client address (lab1): the mapper keys every
 non-blank log line by its first space-separated token with count 1; the
 reducer sums the counts of each run of equal addresses.
 */
module IpCount {
  import opened Wrappers
  import opened Text
  import opened Numbers
  import opened Runs
  import opened Lines

  // ---------------------------------------------------------------------------
  // Mapper
  // ---------------------------------------------------------------------------

  /** The address a log line is counted under; None for a blank or whitespace-only line. */
  function AddressOf(line: string): (ip: Option<string>)
    ensures ip.None? <==> Strip(line) == ""
    ensures ip.Some? ==> |ip.value| > 0 && ' ' !in ip.value
    ensures ip.Some? ==> ip.value == Strip(line) || ip.value + " " <= Strip(line)
  {
    var t := Strip(line);
    if t == "" then None
    else
      Some(BeforeFirst(t, ' '))
  }

  function MapRecord(line: string): Option<(string, int)>
  {
    match AddressOf(line)
    case None => None
    case Some(ip) => Some((ip, 1))
  }

  /** The mapper's output: one `(address, 1)` per non-blank line, in input order. */
  function MapLines(lines: seq<string>): (out: seq<(string, int)>)
    ensures forall i :: 0 <= i < |out| ==> out[i].1 == 1 && |out[i].0| > 0 && ' ' !in out[i].0
  {
    ParsedValues(lines);
    Parsed(lines, MapRecord)
  }

  lemma {:induction false} ParsedValues(lines: seq<string>)
    ensures forall i :: 0 <= i < |Parsed(lines, MapRecord)| ==>
      Parsed(lines, MapRecord)[i].1 == 1 && |Parsed(lines, MapRecord)[i].0| > 0 && ' ' !in Parsed(lines, MapRecord)[i].0
    decreases |lines|
  {
    if |lines| > 0 {
      ParsedValues(lines[..|lines| - 1]);
    }
  }

  /** A blank line adds nothing to the mapper's output; any other line adds exactly one pair. */
  lemma MapOneLine(lines: seq<string>, line: string)
    ensures Strip(line) == "" ==> MapLines(lines + [line]) == MapLines(lines)
    ensures Strip(line) != "" ==> MapLines(lines + [line]) == MapLines(lines) + [(AddressOf(line).value, 1)]
  {
    ParsedConcat(lines, [line], MapRecord);
    assert [line][..0] == [];
  }

  // ---------------------------------------------------------------------------
  // Reducer
  // ---------------------------------------------------------------------------

  /** `ip, count = line.strip().split('\t', 1); count = int(count)`; None where either raises ValueError. */
  function ParseCount(line: string): (r: Option<(string, int)>)
    ensures r.Some? ==> KeyAndRest(line).Some? && r.value.0 == KeyAndRest(line).value.0
    ensures r.Some? ==> ParseInt(KeyAndRest(line).value.1) == Some(r.value.1)
    ensures KeyAndRest(line).Some? && ParseInt(KeyAndRest(line).value.1).Some? ==> r.Some?
  {
    match KeyAndRest(line)
    case None => None
    case Some((ip, count)) =>
      match ParseInt(count)
      case None => None
      case Some(n) => Some((ip, n))
  }

  /** One output line per run: the run's address and the sum of its counts; the empty address is never written. */
  function Flush(r: Run<string, int>): seq<(string, int)>
  {
    if r.key == "" then [] else [(r.key, Sum(r.values))]
  }

  /** The reducer's output for its input lines. */
  function ReduceLines(lines: seq<string>): seq<(string, int)>
  {
    Reduce(lines, ParseCount, Flush)
  }

  /** A line the mapper writes reads back as the same address and count. */
  lemma CountLineRoundTrip(ip: string, n: int)
    requires |ip| > 0 && !IsSpace(ip[0]) && '\t' !in ip
    ensures ParseCount(TabLine(ip, IntToString(n))) == Some((ip, n))
  {
    var t := IntToString(n);
    assert IsDigit(t[|t| - 1]);
    KeyAndRestRoundTrip(ip, t);
    ParseIntToString(n);
  }

  /** A line with no tab or a non-integer count is skipped and leaves the open run as it was. */
  lemma MalformedLineSkipped(a: seq<string>, line: string, b: seq<string>)
    requires ParseCount(line).None?
    ensures ReduceLines(a + [line] + b) == ReduceLines(a + b)
  {
    SkippedLine(a, line, b, ParseCount, Flush);
  }

  /**
   With equal addresses adjacent, an output line `(ip, n)` is written exactly
   when ip is a non-empty address of the input and n is the sum of all its counts.
   */
  lemma Totals(lines: seq<string>, ip: string, n: int)
    requires Grouped(Parsed(lines, ParseCount))
    ensures (ip, n) in ReduceLines(lines) <==>
      ip != "" && ip in Keys(Parsed(lines, ParseCount)) && n == Sum(ValuesOf(Parsed(lines, ParseCount), ip))
  {
    var rs := Parsed(lines, ParseCount);
    ReduceMember(lines, ParseCount, Flush, (ip, n));
    FlushHas(ip, ValuesOf(rs, ip), (ip, n));
    if (ip, n) in ReduceLines(lines) {
      var k :| k in Keys(rs) && (ip, n) in Flush(Run(k, ValuesOf(rs, k)));
      FlushHas(k, ValuesOf(rs, k), (ip, n));
    }
  }

  /** A run writes o exactly when o is its non-empty address with the sum of its counts. */
  lemma FlushHas(k: string, counts: seq<int>, o: (string, int))
    ensures o in Flush(Run(k, counts)) <==> k != "" && o == (k, Sum(counts))
  {
  }
}

=== FILE: lines.dfy ===
/**
 The tab-separated line formats shared by the mappers and reducers: a
 mapper writes `key<TAB>value`, the reducer reads the line back after
 `strip()`, either as exactly two fields (`k, v = line.split('\t')`) or as
 a key and everything after the first tab (`k, v = line.split('\t', 1)`).
 */
module Lines {
  import opened Wrappers
  import opened Text

  /** The fields of a stripped line. */
  function Fields(line: string): (fs: seq<string>)
    ensures |fs| >= 1
    ensures Join(fs, '\t') == Strip(line)
  {
    Split(Strip(line), '\t')
  }

  /** `k, v = line.strip().split('\t')`: None where the unpacking raises ValueError. */
  function TwoFields(line: string): (r: Option<(string, string)>)
    ensures r.Some? <==> Count(Strip(line), '\t') == 1
    ensures r.Some? ==> Strip(line) == r.value.0 + "\t" + r.value.1
    ensures r.Some? ==> '\t' !in r.value.0 && '\t' !in r.value.1
  {
    var fs := Fields(line);
    SplitCount(Strip(line), '\t');
    if |fs| == 2 then
      assert Join(fs, '\t') == fs[0] + "\t" + fs[1] by {
        assert fs[1..] == [fs[1]];
      }
      assert '\t' !in fs[0] && '\t' !in fs[1];
      Some((fs[0], fs[1]))
    else None
  }

  /** `k, v = line.strip().split('\t', 1)`: None where the line has no tab. */
  function KeyAndRest(line: string): (r: Option<(string, string)>)
    ensures r.None? <==> '\t' !in Strip(line)
    ensures r.Some? ==> '\t' !in r.value.0 && Strip(line) == r.value.0 + "\t" + r.value.1
  {
    SplitAtFirst(Strip(line), '\t')
  }

  /** The line a mapper prints for a key and a value. */
  function TabLine(k: string, v: string): (line: string)
    ensures |line| == |k| + 1 + |v|
  {
    k + "\t" + v
  }

  /** A string that neither starts nor ends with whitespace is left alone by `strip()`. */
  lemma StripClean(s: string)
    requires |s| > 0 && !IsSpace(s[0]) && !IsSpace(s[|s| - 1])
    ensures Strip(s) == s
  {
    assert Span(s, true) == 0;
    assert TrailingSpace(s) == 0;
  }

  /** A key that starts with a non-blank character and a value that ends with one survive `strip()`. */
  predicate Printable(k: string, v: string)
  {
    |k| > 0 && !IsSpace(k[0]) && |v| > 0 && !IsSpace(v[|v| - 1])
  }

  /** Reading back a printed line with `split('\t', 1)` gives the key and the value. */
  lemma KeyAndRestRoundTrip(k: string, v: string)
    requires Printable(k, v) && '\t' !in k
    ensures KeyAndRest(TabLine(k, v)) == Some((k, v))
  {
    var line := TabLine(k, v);
    StripClean(line);
    SplitAtFirstOf(k, '\t', v);
  }

  /** Reading back a printed line with `split('\t')` gives the key and the value. */
  lemma TwoFieldsRoundTrip(k: string, v: string)
    requires Printable(k, v) && '\t' !in k && '\t' !in v
    ensures TwoFields(TabLine(k, v)) == Some((k, v))
  {
    var line := TabLine(k, v);
    StripClean(line);
    SplitJoin([k, v], '\t');
    assert Join([k, v], '\t') == line by {
      assert [k, v][1..] == [v];
    }
  }
}

=== FILE: maintenance.dfy ===
/**
 Maintenance log analysis (lab2). The mapper parses each maintenance log
 entry, classifies its severity by keywords, and emits tagged keys
 `analysis<TAB>identifier<TAB>value` for nine analyses; the reducer groups the
 sorted lines by `analysis<TAB>identifier` and writes one report per group,
 choosing the accumulator from the analysis tag.

 The JSON decoder and `datetime.fromisoformat` are not modelled: the mapper
 receives the decoder's entry for a line that starts with '{', and the time
 components of the entry's timestamp (or the defaults the source falls back
 to). JSON output formatting is not modelled: a report is a datatype.
 */
module Maintenance {
  import opened Wrappers
  import opened Text
  import opened Numbers
  import opened Runs
  import opened Lines

  // ---------------------------------------------------------------------------
  // Severity classification
  // ---------------------------------------------------------------------------

  const CriticalWords: seq<string> := ["critical", "fatal", "emergency", "severe"]
  const WarningWords: seq<string> := ["warning", "warn", "caution", "alert"]
  const InfoWords: seq<string> := ["info", "normal", "routine", "scheduled"]
  const ErrorWords: seq<string> := ["error", "fail", "fault", "malfunction"]

  /** `error_patterns`, in the dictionary's iteration order. */
  const Categories: seq<(string, seq<string>)> :=
    [("CRITICAL", CriticalWords), ("WARNING", WarningWords), ("INFO", InfoWords), ("ERROR", ErrorWords)]

  /** `any(keyword in text for keyword in keywords)`. */
  predicate AnyKeyword(text: string, keywords: seq<string>)
  {
    exists i :: 0 <= i < |keywords| && Contains(text, keywords[i])
  }

  /** The first category, in table order, with a keyword in text; "UNKNOWN" when none has one. */
  function FirstCategory(text: string, table: seq<(string, seq<string>)>): string
  {
    if |table| == 0 then "UNKNOWN"
    else if AnyKeyword(text, table[0].1) then table[0].0
    else FirstCategory(text, table[1..])
  }

  /**
   `categorize_severity`: the keywords are looked for in the lower-cased
   description and severity, and the categories are tried in the order
   CRITICAL, WARNING, INFO, ERROR.
   */
  function Categorize(description: string, severity: string): (c: string)
    ensures c in {"CRITICAL", "WARNING", "INFO", "ERROR", "UNKNOWN"}
    ensures var text := Lower(description + " " + severity);
      && (c == "CRITICAL" <==> AnyKeyword(text, CriticalWords))
      && (c == "WARNING" <==> !AnyKeyword(text, CriticalWords) && AnyKeyword(text, WarningWords))
      && (c == "INFO" <==> !AnyKeyword(text, CriticalWords) && !AnyKeyword(text, WarningWords) &&
                           AnyKeyword(text, InfoWords))
      && (c == "ERROR" <==> !AnyKeyword(text, CriticalWords) && !AnyKeyword(text, WarningWords) &&
                            !AnyKeyword(text, InfoWords) && AnyKeyword(text, ErrorWords))
      && (c == "UNKNOWN" <==> !AnyKeyword(text, CriticalWords) && !AnyKeyword(text, WarningWords) &&
                              !AnyKeyword(text, InfoWords) && !AnyKeyword(text, ErrorWords))
  {
    var text := Lower(description + " " + severity);
    var t1, t2, t3 := Categories[1..], Categories[2..], Categories[3..];
    assert t1[1..] == t2 && t2[1..] == t3 && t3[1..] == [];
    assert FirstCategory(text, t3) == if AnyKeyword(text, ErrorWords) then "ERROR" else "UNKNOWN";
    assert FirstCategory(text, t2) == if AnyKeyword(text, InfoWords) then "INFO" else FirstCategory(text, t3);
    assert FirstCategory(text, t1) == if AnyKeyword(text, WarningWords) then "WARNING" else FirstCategory(text, t2);
    FirstCategory(text, Categories)
  }

  /** The classification does not depend on the case of its inputs. */
  lemma CategorizeIgnoresCase(description: string, severity: string)
    ensures Categorize(description, severity) == Categorize(Lower(description), Lower(severity))
  {
    LowerConcat(description, " " + severity);
    LowerConcat(" ", severity);
    LowerConcat(Lower(description), " " + Lower(severity));
    LowerConcat(" ", Lower(severity));
    LowerIdempotent(description);
    LowerIdempotent(severity);
    assert Lower(" ") == " ";
    assert description + " " + severity == description + (" " + severity);
    assert Lower(description) + " " + Lower(severity) == Lower(description) + (" " + Lower(severity));
  }

  /** A CRITICAL keyword wins over an ERROR keyword: "fatal" with "fail" is CRITICAL. */
  lemma CriticalBeforeError(before: string, between: string, after: string)
    ensures Categorize(before + "fatal" + between + "fail" + after, "") == "CRITICAL"
  {
    var d := before + "fatal" + between + "fail" + after;
    LowerConcat(before, "fatal" + between + "fail" + after + " ");
    assert d + " " + "" == before + ("fatal" + between + "fail" + after + " ");
    LowerConcat("fatal", between + "fail" + after + " ");
    assert "fatal" + between + "fail" + after + " " == "fatal" + (between + "fail" + after + " ");
    assert Lower("fatal") == "fatal";
    var text := Lower(d + " " + "");
    assert text == Lower(before) + "fatal" + Lower(between + "fail" + after + " ");
    ContainsOf(Lower(before), "fatal", Lower(between + "fail" + after + " "));
    assert CriticalWords[1] == "fatal";
  }

  // ---------------------------------------------------------------------------
  // Parsing an entry
  // ---------------------------------------------------------------------------

  /** The fields of a parsed entry. */
  datatype Entry = Entry(timestamp: string, machine: string, component: string, action: string,
                         severity: string, duration: real, technician: string, description: string)

  /** `s.replace('.', '')`. */
  function RemoveDots(s: string): string
  {
    if |s| == 0 then "" else (if s[0] == '.' then "" else [s[0]]) + RemoveDots(s[1..])
  }

  /** When the dots removed leave only digits, the text is digits and dots. */
  lemma {:induction false} DigitsOrDots(s: string)
    requires AllDigits(RemoveDots(s))
    ensures forall k :: 0 <= k < |s| ==> IsDigit(s[k]) || s[k] == '.'
    decreases |s|
  {
    if |s| > 0 {
      var r := RemoveDots(s[1..]);
      assert RemoveDots(s) == (if s[0] == '.' then "" else [s[0]]) + r;
      assert AllDigits(r) by {
        forall k | 0 <= k < |r| ensures IsDigit(r[k]) {
          assert r[k] == RemoveDots(s)[k + |RemoveDots(s)| - |r|];
        }
      }
      DigitsOrDots(s[1..]);
      assert s[0] != '.' ==> RemoveDots(s)[0] == s[0];
      assert forall k :: 0 < k < |s| ==> s[k] == s[1..][k - 1];
    }
  }

  /** `str.isdigit()` on ASCII text: non-empty and all digits. */
  predicate IsDigitString(s: string)
  {
    |s| > 0 && AllDigits(s)
  }

  /**
   `float(f) if f.replace('.', '').isdigit() else 0`; None where `float`
   raises (the whole entry is then dropped).
   */
  function ParseDuration(f: string): (r: Option<real>)
    ensures !IsDigitString(RemoveDots(f)) ==> r == Some(0.0)
    ensures r.Some? ==> r.value >= 0.0
  {
    if IsDigitString(RemoveDots(f)) then
      DigitsAndDotsUnsigned(f);
      ParseDecimal(f)
    else Some(0.0)
  }

  /** A field of digits and dots is read as an unsigned numeral. */
  lemma DigitsAndDotsUnsigned(f: string)
    requires IsDigitString(RemoveDots(f))
    ensures ParseDecimal(f) == ParseUnsignedDecimal(f)
  {
    DigitsOrDots(f);
    StripNoSpace(f);
    assert f != [] ==> f[0] != '-' && f[0] != '+';
  }

  /** A whole number of hours is read as its value. */
  lemma DigitsDuration(f: string)
    requires IsDigitString(f)
    ensures ParseDuration(f) == Some(DigitsValue(f) as real)
  {
    DigitsKeepDots(f);
    DigitsAndDotsUnsigned(f);
  }

  /** A field with two dots passes the digit test but not `float`: the entry is dropped. */
  lemma TwoDotsDropped(a: string, b: string, c: string)
    requires AllDigits(a) && AllDigits(b) && AllDigits(c) && |a + b + c| > 0
    ensures ParseDuration(a + "." + b + "." + c) == None
  {
    var f := a + "." + b + "." + c;
    var rest := b + "." + c;
    assert IsDigitString(RemoveDots(f)) by {
      RemoveTwoDots(a, b, c);
    }
    assert ParseUnsignedDecimal(f) == None by {
      assert f == a + ['.'] + rest;
      SplitAtFirstOf(a, '.', rest);
      assert rest[|b|] == '.';
    }
    DigitsAndDotsUnsigned(f);
  }

  lemma RemoveTwoDots(a: string, b: string, c: string)
    requires AllDigits(a) && AllDigits(b) && AllDigits(c)
    ensures RemoveDots(a + "." + b + "." + c) == a + b + c
  {
    assert a + "." + b + "." + c == a + "." + (b + "." + c);
    RemoveDigitsDot(a, b + "." + c);
    RemoveDigitsDot(b, c);
    DigitsKeepDots(c);
  }

  /** Removing the dots after a run of digits and one dot. */
  lemma RemoveDigitsDot(a: string, t: string)
    requires AllDigits(a)
    ensures RemoveDots(a + "." + t) == a + RemoveDots(t)
  {
    assert a + "." + t == a + ("." + t);
    RemoveDotsConcat(a, "." + t);
    DigitsKeepDots(a);
    RemoveLeadingDot(t);
  }

  lemma RemoveLeadingDot(t: string)
    ensures RemoveDots("." + t) == RemoveDots(t)
  {
    assert ("." + t)[1..] == t;
  }

  lemma {:induction false} DigitsKeepDots(s: string)
    requires AllDigits(s)
    ensures RemoveDots(s) == s
    decreases |s|
  {
    if |s| > 0 {
      DigitsKeepDots(s[1..]);
    }
  }

  lemma {:induction false} RemoveDotsConcat(a: string, b: string)
    ensures RemoveDots(a + b) == RemoveDots(a) + RemoveDots(b)
    decreases |a|
  {
    if |a| > 0 {
      assert (a + b)[1..] == a[1..] + b;
      RemoveDotsConcat(a[1..], b);
    } else {
      assert a + b == b;
    }
  }

  /**
   The pipe branch of `parse_log_entry`: at least six '|' fields, the
   duration read as above, technician and description '' when absent.
   */
  function ParsePipe(line: string): (r: Option<Entry>)
    ensures var parts := Split(Strip(line), '|');
      r.Some? <==> |parts| >= 6 && ParseDuration(parts[5]).Some?
    ensures r.Some? ==> var parts := Split(Strip(line), '|');
      && [r.value.timestamp, r.value.machine, r.value.component, r.value.action, r.value.severity] == parts[..5]
      && r.value.duration == ParseDuration(parts[5]).value
      && (r.value.technician == if |parts| > 6 then parts[6] else "")
      && (r.value.description == if |parts| > 7 then parts[7] else "")
  {
    PipeFields(Split(Strip(line), '|'))
  }

  /** The pipe branch once the line is split into its fields. */
  function PipeFields(parts: seq<string>): (r: Option<Entry>)
    ensures r.Some? <==> |parts| >= 6 && ParseDuration(parts[5]).Some?
    ensures r.Some? ==>
      && [r.value.timestamp, r.value.machine, r.value.component, r.value.action, r.value.severity] == parts[..5]
      && r.value.duration == ParseDuration(parts[5]).value
      && (r.value.technician == if |parts| > 6 then parts[6] else "")
      && (r.value.description == if |parts| > 7 then parts[7] else "")
  {
    if |parts| < 6 then None
    else
      match ParseDuration(parts[5])
      case None => None
      case Some(d) =>
        assert parts[..5] == [parts[0], parts[1], parts[2], parts[3], parts[4]];
        Some(Entry(parts[0], parts[1], parts[2], parts[3], parts[4], d,
                   if |parts| > 6 then parts[6] else "", if |parts| > 7 then parts[7] else ""))
  }

  /** `parse_log_entry`: a line starting with '{' is the JSON decoder's entry, any other line a pipe record. */
  function ParseLogEntry(line: string, decoded: Option<Entry>): (r: Option<Entry>)
    ensures IsPrefix("{", Strip(line)) ==> r == decoded
    ensures !IsPrefix("{", Strip(line)) ==> r == ParsePipe(line)
  {
    if IsPrefix("{", Strip(line)) then decoded else ParsePipe(line)
  }

  // ---------------------------------------------------------------------------
  // Emission
  // ---------------------------------------------------------------------------

  /** What `extract_time_components` returns; `{'hour': 0, 'day_of_week': 0, 'month': 1, 'year': 2024}` when it fails. */
  datatype TimeInfo = TimeInfo(hour: nat, dayOfWeek: nat, month: nat, year: int)

  const DefaultTime := TimeInfo(0, 0, 1, 2024)

  /** The nine analyses, each printed under its tag. */
  datatype Analysis =
    | ComponentFailure | MachineDowntime | SeverityDist | HourlyPattern | MonthlyTrend
    | TechnicianLoad | ActionType | MachineComponent | CriticalDowntime
  {
    /** The tag written in front of the identifier. */
    function Tag(): string
    {
      match this
      case ComponentFailure => "component_failure"
      case MachineDowntime => "machine_downtime"
      case SeverityDist => "severity_dist"
      case HourlyPattern => "hourly_pattern"
      case MonthlyTrend => "monthly_trend"
      case TechnicianLoad => "technician_load"
      case ActionType => "action_type"
      case MachineComponent => "machine_component"
      case CriticalDowntime => "critical_downtime"
    }

    /** The analyses whose values are counts; the other two carry hours. */
    predicate Counting()
    {
      !(this == MachineDowntime || this == CriticalDowntime)
    }
  }

  /**
   The reducer's `if analysis_type == ...` chain: which analysis a tag names,
   if any. The chain tests the tags in print order, so it is the first
   analysis of that order whose tag matches.
   */
  function AnalysisOf(tag: string): (a: Option<Analysis>)
    ensures a.Some? ==> a.value.Tag() == tag
    ensures a.None? <==> forall i :: 0 <= i < |PrintOrder| ==> PrintOrder[i].Tag() != tag
  {
    FirstTagged(PrintOrder, tag)
  }

  /** The first analysis of the list whose tag is the given one. */
  function FirstTagged(xs: seq<Analysis>, tag: string): (a: Option<Analysis>)
    ensures a.Some? ==> a.value.Tag() == tag
    ensures a.None? <==> forall i :: 0 <= i < |xs| ==> xs[i].Tag() != tag
  {
    if |xs| == 0 then None
    else if xs[0].Tag() == tag then Some(xs[0])
    else
      var r := FirstTagged(xs[1..], tag);
      assert forall i :: 0 < i < |xs| ==> xs[i] == xs[1..][i - 1];
      r
  }

  /** No two analyses share a tag. */
  lemma TagInjective(a: Analysis, b: Analysis)
    requires a.Tag() == b.Tag()
    ensures a == b
  {
  }

  /** Every tag the mapper writes is one the reducer recognises, as the same analysis. */
  lemma AnalysisOfTag(a: Analysis)
    ensures AnalysisOf(a.Tag()) == Some(a)
  {
    InPrintOrder(a);
    var r := AnalysisOf(a.Tag());
    assert r.Some?;
    TagInjective(r.value, a);
  }

  /** An emitted value: the count 1 or a number of hours (printed with `str(float)`). */
  datatype Value = One | Hours(hours: real)

  /** One mapper output line `tag<TAB>identifier<TAB>value`. */
  datatype Emission = Emission(analysis: Analysis, id: string, value: Value)

  /** Downtime longer than 240 (hours, by the source's comment, 4) is reported as critical. */
  const CriticalDuration: real := 240.0

  /** The analyses in the order `map` prints them. */
  const PrintOrder: seq<Analysis> := [ComponentFailure, MachineDowntime, SeverityDist, HourlyPattern, MonthlyTrend,
                                      TechnicianLoad, ActionType, MachineComponent, CriticalDowntime]

  /**
   The line `map` prints for one analysis of an entry, if any: downtime only
   for a positive duration, a technician's load only for a named technician,
   critical downtime only above 240; the other six always.
   */
  function EmissionFor(e: Entry, time: TimeInfo, a: Analysis): (r: Option<Emission>)
    ensures r.Some? ==> r.value.analysis == a && (r.value.value == One <==> a.Counting())
    ensures r.None? <==> (a == MachineDowntime && e.duration <= 0.0) || (a == TechnicianLoad && e.technician == "") ||
                         (a == CriticalDowntime && e.duration <= CriticalDuration)
  {
    match a
    case ComponentFailure => Some(Emission(a, e.component, One))
    case MachineDowntime => if e.duration > 0.0 then Some(Emission(a, e.machine, Hours(e.duration))) else None
    case SeverityDist => Some(Emission(a, Categorize(e.description, e.severity), One))
    case HourlyPattern => Some(Emission(a, IntToString(time.hour), One))
    case MonthlyTrend => Some(Emission(a, IntToString(time.year) + "-" + Pad2(time.month), One))
    case TechnicianLoad => if e.technician != "" then Some(Emission(a, e.technician, One)) else None
    case ActionType => Some(Emission(a, e.action, One))
    case MachineComponent => Some(Emission(a, e.machine + ":" + e.component, One))
    case CriticalDowntime =>
      if e.duration > CriticalDuration then Some(Emission(a, e.machine, Hours(e.duration))) else None
  }

  /** The lines printed for the analyses in order, skipping those that print nothing. */
  function Collect(e: Entry, time: TimeInfo, order: seq<Analysis>): seq<Emission>
  {
    if |order| == 0 then []
    else
      var rest := Collect(e, time, order[1..]);
      match EmissionFor(e, time, order[0])
      case None => rest
      case Some(x) => [x] + rest
  }

  /** A line is collected exactly when it is the line of one of the listed analyses, each at most once. */
  lemma {:induction false} CollectSpec(e: Entry, time: TimeInfo, order: seq<Analysis>)
    requires forall i, j :: 0 <= i < j < |order| ==> order[i] != order[j]
    ensures var out := Collect(e, time, order);
      && (forall x :: x in out <==> x.analysis in order && EmissionFor(e, time, x.analysis) == Some(x))
      && (forall i, j :: 0 <= i < j < |out| ==> out[i].analysis != out[j].analysis)
    decreases |order|
  {
    if |order| > 0 {
      var rest := order[1..];
      CollectSpec(e, time, rest);
      assert forall a :: a in order <==> a == order[0] || a in rest;
      assert order[0] !in rest;
      var r := Collect(e, time, rest);
      match EmissionFor(e, time, order[0])
      case None =>
        assert Collect(e, time, order) == r;
      case Some(x) =>
        assert Collect(e, time, order) == [x] + r;
        assert forall y :: y in r ==> y.analysis != x.analysis;
        ConsDistinct(x, r);
    }
  }

  /** Putting a line in front of lines of other analyses keeps the analyses distinct. */
  lemma ConsDistinct(x: Emission, r: seq<Emission>)
    requires forall i, j :: 0 <= i < j < |r| ==> r[i].analysis != r[j].analysis
    requires forall y :: y in r ==> y.analysis != x.analysis
    ensures var out := [x] + r; forall i, j :: 0 <= i < j < |out| ==> out[i].analysis != out[j].analysis
  {
    var out := [x] + r;
    forall i, j | 0 <= i < j < |out| ensures out[i].analysis != out[j].analysis {
      if i == 0 {
        assert out[j] in r;
      } else {
        assert out[i] == r[i - 1] && out[j] == r[j - 1];
      }
    }
  }

  /** `map` for a parsed entry: the line of every analysis that prints one, each analysis once. */
  function MapEntry(e: Entry, time: TimeInfo): (out: seq<Emission>)
    ensures forall x :: x in out <==> EmissionFor(e, time, x.analysis) == Some(x)
    ensures forall i, j :: 0 <= i < j < |out| ==> out[i].analysis != out[j].analysis
  {
    CollectSpec(e, time, PrintOrder);
    forall a: Analysis ensures a in PrintOrder {
      InPrintOrder(a);
    }
    Collect(e, time, PrintOrder)
  }

  lemma InPrintOrder(a: Analysis)
    ensures a in PrintOrder
  {
    match a
    case ComponentFailure => assert PrintOrder[0] == a;
    case MachineDowntime => assert PrintOrder[1] == a;
    case SeverityDist => assert PrintOrder[2] == a;
    case HourlyPattern => assert PrintOrder[3] == a;
    case MonthlyTrend => assert PrintOrder[4] == a;
    case TechnicianLoad => assert PrintOrder[5] == a;
    case ActionType => assert PrintOrder[6] == a;
    case MachineComponent => assert PrintOrder[7] == a;
    case CriticalDowntime => assert PrintOrder[8] == a;
  }

  /** The emission rules of `map`, analysis by analysis. */
  lemma EmissionRules(e: Entry, time: TimeInfo)
    ensures var out := MapEntry(e, time);
      && Emission(ComponentFailure, e.component, One) in out
      && Emission(SeverityDist, Categorize(e.description, e.severity), One) in out
      && Emission(HourlyPattern, IntToString(time.hour), One) in out
      && Emission(MonthlyTrend, IntToString(time.year) + "-" + Pad2(time.month), One) in out
      && Emission(ActionType, e.action, One) in out
      && Emission(MachineComponent, e.machine + ":" + e.component, One) in out
      && (Emission(MachineDowntime, e.machine, Hours(e.duration)) in out <==> e.duration > 0.0)
      && (Emission(TechnicianLoad, e.technician, One) in out <==> e.technician != "")
      && (Emission(CriticalDowntime, e.machine, Hours(e.duration)) in out <==> e.duration > CriticalDuration)
  {
    Emitted(e, time, Emission(ComponentFailure, e.component, One));
    Emitted(e, time, Emission(SeverityDist, Categorize(e.description, e.severity), One));
    Emitted(e, time, Emission(HourlyPattern, IntToString(time.hour), One));
    Emitted(e, time, Emission(MonthlyTrend, IntToString(time.year) + "-" + Pad2(time.month), One));
    Emitted(e, time, Emission(ActionType, e.action, One));
    Emitted(e, time, Emission(MachineComponent, e.machine + ":" + e.component, One));
    Emitted(e, time, Emission(MachineDowntime, e.machine, Hours(e.duration)));
    Emitted(e, time, Emission(TechnicianLoad, e.technician, One));
    Emitted(e, time, Emission(CriticalDowntime, e.machine, Hours(e.duration)));
  }

  /** One line is among `map`'s output exactly when it is its analysis's line. */
  lemma Emitted(e: Entry, time: TimeInfo, x: Emission)
    ensures x in MapEntry(e, time) <==> EmissionFor(e, time, x.analysis) == Some(x)
  {
  }

  /** `map` on a line: nothing where the entry does not parse. */
  function MapLine(line: string, decoded: Option<Entry>, time: TimeInfo): (out: seq<Emission>)
    ensures ParseLogEntry(line, decoded).None? <==> out == []
  {
    match ParseLogEntry(line, decoded)
    case None => []
    case Some(e) => MapEntry(e, time)
  }

  // ---------------------------------------------------------------------------
  // Reducer
  // ---------------------------------------------------------------------------

  /**
   `parts = line.strip().split('\t')` with at least two parts: the key is
   every part but the last, rejoined with tabs, and the value is the last.
   Blank lines and lines without a tab give None.
   */
  function ParseKeyValue(line: string): (r: Option<(string, string)>)
    ensures r.Some? <==> '\t' in Strip(line)
    ensures r.Some? ==> r.value.0 + "\t" + r.value.1 == Strip(line) && '\t' !in r.value.1
  {
    var parts := Fields(line);
    SplitCount(Strip(line), '\t');
    if |parts| < 2 then None
    else
      JoinLast(parts, '\t');
      Some((Join(parts[..|parts| - 1], '\t'), parts[|parts| - 1]))
  }

  lemma {:induction false} JoinLast(parts: seq<string>, sep: char)
    requires |parts| >= 2
    ensures Join(parts, sep) == Join(parts[..|parts| - 1], sep) + [sep] + parts[|parts| - 1]
    decreases |parts|
  {
    if |parts| > 2 {
      JoinLast(parts[1..], sep);
      assert parts[1..][..|parts| - 2] == parts[..|parts| - 1][1..];
    } else {
      assert parts[..1][1..] == [];
    }
  }

  /** `key_parts[0]`: the analysis tag of a key. */
  function TagOfKey(key: string): string
  {
    Split(key, '\t')[0]
  }

  /** `key_parts[1] if len(key_parts) > 1 else 'unknown'`. */
  function IdentOfKey(key: string): string
  {
    var parts := Split(key, '\t');
    if |parts| > 1 then parts[1] else "unknown"
  }

  /** The key the mapper's line for an emission is grouped under reads back as its analysis and identifier. */
  lemma KeyRoundTrip(x: Emission)
    requires '\t' !in x.id
    ensures var key := x.analysis.Tag() + "\t" + x.id;
      AnalysisOf(TagOfKey(key)) == Some(x.analysis) && IdentOfKey(key) == x.id
  {
    TagNoTab(x.analysis);
    KeyParts(x.analysis.Tag(), x.id);
    AnalysisOfTag(x.analysis);
  }

  lemma TagNoTab(a: Analysis)
    ensures '\t' !in a.Tag()
  {
    match a
    case _ =>
  }

  /** A tag and an identifier joined by a tab, neither holding one, split back into both. */
  lemma KeyParts(tag: string, id: string)
    requires '\t' !in tag && '\t' !in id
    ensures TagOfKey(tag + "\t" + id) == tag && IdentOfKey(tag + "\t" + id) == id
  {
    assert tag + "\t" + id == tag + ['\t'] + id;
    SplitOf(tag, '\t', id);
    assert Find(id, '\t') == |id|;
  }

  /** One report, as `emit_result` prints it (the JSON keys are noted per constructor). */
  datatype Report =
      /** component_failure_frequency: component, failure_count */
    | ComponentFailureFrequency(component: string, count: int)
      /** machine_downtime_stats: machine_id, total, average and max downtime hours, incident_count */
    | MachineDowntimeStats(machine: string, totalHours: real, averageHours: real, maxHours: real, incidents: nat)
      /** severity_distribution: severity, count */
    | SeverityDistribution(severity: string, count: int)
      /** hourly_maintenance_pattern: hour, maintenance_count */
    | HourlyMaintenancePattern(hour: int, count: int)
      /** monthly_maintenance_trend: month, maintenance_count */
    | MonthlyMaintenanceTrend(month: string, count: int)
      /** technician_workload: technician, task_count */
    | TechnicianWorkload(technician: string, count: int)
      /** action_type_frequency: action, count */
    | ActionTypeFrequency(action: string, count: int)
      /** machine_component_correlation: machine_id, component, failure_count */
    | MachineComponentCorrelation(machine: string, component: string, count: int)
      /** critical_downtime_incidents: machine_id, total_critical_hours, incident_count, max_critical_hours */
    | CriticalDowntimeIncidents(machine: string, totalHours: real, incidents: nat, maxHours: real)
  {
    predicate HasCount()
    {
      !(MachineDowntimeStats? || CriticalDowntimeIncidents?)
    }
  }

  /** `int(v)`; 0 where that would raise (excluded by Flushable). */
  function IntOr0(v: string): int
  {
    ParseInt(v).GetOr(0)
  }

  /** `float(v)`; 0.0 where that would raise (excluded by Flushable). */
  function RealOr0(v: string): real
  {
    ParseDecimal(v).GetOr(0.0)
  }

  function Counts(vs: seq<string>): seq<int>
  {
    Project(IntOr0, vs)
  }

  function Downtimes(vs: seq<string>): seq<real>
  {
    Project(RealOr0, vs)
  }

  /**
   A group whose report does not raise: every count is an integer, every
   downtime a number (and there is one), an hour identifier is an integer,
   and a machine-component identifier has a ':'.
   */
  predicate Flushable(a: Analysis, ident: string, vs: seq<string>)
  {
    if a.Counting() then
      && (forall v :: v in vs ==> ParseInt(v).Some?)
      && (a == HourlyPattern ==> ParseInt(ident).Some?)
      && (a == MachineComponent ==> ':' in ident)
    else
      |vs| > 0 && forall v :: v in vs ==> ParseDecimal(v).Some?
  }

  /** The report of a counting analysis with the given total. */
  function CountReport(a: Analysis, ident: string, n: int): (r: Report)
    requires a.Counting() && (a == MachineComponent ==> ':' in ident)
    ensures r.HasCount() && r.count == n
  {
    match a
    case ComponentFailure => ComponentFailureFrequency(ident, n)
    case SeverityDist => SeverityDistribution(ident, n)
    case HourlyPattern => HourlyMaintenancePattern(IntOr0(ident), n)
    case MonthlyTrend => MonthlyMaintenanceTrend(ident, n)
    case TechnicianLoad => TechnicianWorkload(ident, n)
    case ActionType => ActionTypeFrequency(ident, n)
    case MachineComponent =>
      var (machine, component) := SplitAtFirst(ident, ':').value;
      MachineComponentCorrelation(machine, component, n)
  }

  /** The report of one group of the given analysis; nothing where `emit_result` would raise. */
  function AnalysisReport(a: Analysis, ident: string, vs: seq<string>): seq<Report>
  {
    if !Flushable(a, ident, vs) then []
    else if a.Counting() then [CountReport(a, ident, Sum(Counts(vs)))]
    else
      var hours := Downtimes(vs);
      if a == MachineDowntime then
        [MachineDowntimeStats(ident, RSum(hours), Mean(hours), RMax(hours), |hours|)]
      else
        [CriticalDowntimeIncidents(ident, RSum(hours), |hours|, RMax(hours))]
  }

  /** `emit_result`: the report of one group, chosen by its analysis tag; nothing for an unknown tag. */
  function Flush(r: Run<string, string>): seq<Report>
  {
    match AnalysisOf(TagOfKey(r.key))
    case None => []
    case Some(a) => AnalysisReport(a, IdentOfKey(r.key), r.values)
  }

  /** `reduce`: the groups of equal keys, each reported once. */
  function ReduceLines(lines: seq<string>): seq<Report>
  {
    Reduce(lines, ParseKeyValue, Flush)
  }

  /** A counting analysis reports the sum of its group's integer values. */
  lemma CountingReport(key: string, vs: seq<string>)
    requires AnalysisOf(TagOfKey(key)).Some? && AnalysisOf(TagOfKey(key)).value.Counting()
    requires Flushable(AnalysisOf(TagOfKey(key)).value, IdentOfKey(key), vs)
    ensures var out := Flush(Run(key, vs));
      |out| == 1 && out[0].HasCount() && out[0].count == Sum(Counts(vs))
  {
  }

  /** Machine downtime: the incidents are the group's size, and the average lies between the least and the greatest. */
  lemma DowntimeReport(key: string, vs: seq<string>)
    requires AnalysisOf(TagOfKey(key)) == Some(MachineDowntime)
    requires Flushable(MachineDowntime, IdentOfKey(key), vs)
    ensures var out := Flush(Run(key, vs));
      && |out| == 1 && out[0].MachineDowntimeStats?
      && out[0].machine == IdentOfKey(key)
      && out[0].incidents == |vs|
      && out[0].totalHours == RSum(Downtimes(vs))
      && out[0].averageHours == Mean(Downtimes(vs))
      && out[0].maxHours in Downtimes(vs)
      && (forall i :: 0 <= i < |vs| ==> RealOr0(vs[i]) <= out[0].maxHours)
      && RMin(Downtimes(vs)) <= out[0].averageHours <= out[0].maxHours
  {
    var hours := Downtimes(vs);
    var ident := IdentOfKey(key);
    assert Flush(Run(key, vs)) == AnalysisReport(MachineDowntime, ident, vs);
    assert AnalysisReport(MachineDowntime, ident, vs) ==
      [MachineDowntimeStats(ident, RSum(hours), Mean(hours), RMax(hours), |hours|)];
    DowntimeBounds(vs);
  }

  /** The greatest downtime of a group bounds every value's downtime, and the mean lies between the extremes. */
  lemma DowntimeBounds(vs: seq<string>)
    requires |vs| > 0
    ensures var hours := Downtimes(vs);
      && RMax(hours) in hours
      && (forall i :: 0 <= i < |vs| ==> RealOr0(vs[i]) <= RMax(hours))
      && RMin(hours) <= Mean(hours) <= RMax(hours)
  {
    var hours := Downtimes(vs);
    forall i | 0 <= i < |vs| ensures RealOr0(vs[i]) <= RMax(hours) {
      assert hours[i] == RealOr0(vs[i]);
    }
  }

  /** Critical downtime: the incidents are the group's size, the maximum one of its durations. */
  lemma CriticalReport(key: string, vs: seq<string>)
    requires AnalysisOf(TagOfKey(key)) == Some(CriticalDowntime)
    requires Flushable(CriticalDowntime, IdentOfKey(key), vs)
    ensures var out := Flush(Run(key, vs));
      && |out| == 1 && out[0].CriticalDowntimeIncidents?
      && out[0].machine == IdentOfKey(key)
      && out[0].incidents == |vs|
      && out[0].totalHours == RSum(Downtimes(vs))
      && out[0].maxHours in Downtimes(vs)
      && (forall i :: 0 <= i < |vs| ==> RealOr0(vs[i]) <= out[0].maxHours)
  {
    assert Flush(Run(key, vs)) == AnalysisReport(CriticalDowntime, IdentOfKey(key), vs);
    DowntimeBounds(vs);
  }

  /** A machine-component identifier is split at its first ':' only: the component keeps any later ':'. */
  lemma MachineComponentReport(key: string, vs: seq<string>)
    requires AnalysisOf(TagOfKey(key)) == Some(MachineComponent)
    requires Flushable(MachineComponent, IdentOfKey(key), vs)
    ensures var out := Flush(Run(key, vs));
      && |out| == 1 && out[0].MachineComponentCorrelation?
      && ':' !in out[0].machine
      && out[0].machine + ":" + out[0].component == IdentOfKey(key)
  {
  }

  /** What the mapper joins, the reducer splits back, whatever ':' the component holds. */
  lemma MachineComponentRoundTrip(machine: string, component: string, vs: seq<string>)
    requires ':' !in machine && '\t' !in machine + ":" + component
    requires forall v :: v in vs ==> ParseInt(v).Some?
    ensures var key := MachineComponent.Tag() + "\t" + (machine + ":" + component);
      Flush(Run(key, vs)) == [MachineComponentCorrelation(machine, component, Sum(Counts(vs)))]
  {
    var id := machine + ":" + component;
    KeyRoundTrip(Emission(MachineComponent, id, One));
    MachineComponentFlush(MachineComponent.Tag() + "\t" + id, machine, component, vs);
  }

  lemma MachineComponentFlush(key: string, machine: string, component: string, vs: seq<string>)
    requires AnalysisOf(TagOfKey(key)) == Some(MachineComponent) && IdentOfKey(key) == machine + ":" + component
    requires ':' !in machine
    requires forall v :: v in vs ==> ParseInt(v).Some?
    ensures Flush(Run(key, vs)) == [MachineComponentCorrelation(machine, component, Sum(Counts(vs)))]
  {
    var id := machine + ":" + component;
    assert id == machine + [':'] + component;
    SplitAtFirstOf(machine, ':', component);
    assert ':' in id by {
      assert id[|machine|] == ':';
    }
    assert Flushable(MachineComponent, id, vs);
  }

  /** An hour written by the mapper reads back as the same hour. */
  lemma HourRoundTrip(hour: nat, vs: seq<string>)
    requires forall v :: v in vs ==> ParseInt(v).Some?
    ensures Flush(Run(HourlyPattern.Tag() + "\t" + IntToString(hour), vs)) ==
      [HourlyMaintenancePattern(hour, Sum(Counts(vs)))]
  {
    var id := IntToString(hour);
    DigitsNoTab(hour);
    KeyRoundTrip(Emission(HourlyPattern, id, One));
    HourFlush(HourlyPattern.Tag() + "\t" + id, hour, vs);
  }

  lemma HourFlush(key: string, hour: nat, vs: seq<string>)
    requires AnalysisOf(TagOfKey(key)) == Some(HourlyPattern) && IdentOfKey(key) == IntToString(hour)
    requires forall v :: v in vs ==> ParseInt(v).Some?
    ensures Flush(Run(key, vs)) == [HourlyMaintenancePattern(hour, Sum(Counts(vs)))]
  {
    var id := IntToString(hour);
    ParseIntToString(hour);
    assert Flushable(HourlyPattern, id, vs);
    assert Flush(Run(key, vs)) == AnalysisReport(HourlyPattern, id, vs);
  }

  lemma DigitsNoTab(n: nat)
    ensures '\t' !in IntToString(n)
  {
    var s := NatToString(n);
    assert AllDigits(s);
    assert IntToString(n) == s;
  }

  /** A key whose tag names none of the nine analyses reports nothing. */
  lemma UnknownTagSilent(key: string, vs: seq<string>)
    requires AnalysisOf(TagOfKey(key)).None?
    ensures Flush(Run(key, vs)) == []
  {
  }

  /** The report of a group does not depend on the order of its values. */
  lemma FlushPermutation(key: string, a: seq<string>, b: seq<string>)
    requires multiset(a) == multiset(b)
    ensures Flush(Run(key, a)) == Flush(Run(key, b))
  {
    assert forall v :: v in a <==> v in b by {
      assert forall v :: v in a <==> v in multiset(a);
      assert forall v :: v in b <==> v in multiset(b);
    }
    assert |a| == |b| by {
      assert |multiset(a)| == |multiset(b)|;
    }
    assert Sum(Counts(a)) == Sum(Counts(b)) by {
      ProjectPermutation(IntOr0, a, b);
      SumPermutation(Counts(a), Counts(b));
    }
    assert RSum(Downtimes(a)) == RSum(Downtimes(b)) && (|a| > 0 ==> RMax(Downtimes(a)) == RMax(Downtimes(b))) by {
      ProjectPermutation(RealOr0, a, b);
      RSumPermutation(Downtimes(a), Downtimes(b));
      if |a| > 0 {
        RMaxPermutation(Downtimes(a), Downtimes(b));
      }
    }
    match AnalysisOf(TagOfKey(key))
    case None =>
    case Some(an) => SameSummaries(an, IdentOfKey(key), a, b);
  }

  /** Two groups with the same members, size, sums and maximum give the same report. */
  lemma SameSummaries(an: Analysis, ident: string, a: seq<string>, b: seq<string>)
    requires (forall v :: v in a <==> v in b) && |a| == |b|
    requires Sum(Counts(a)) == Sum(Counts(b)) && RSum(Downtimes(a)) == RSum(Downtimes(b))
    requires |a| > 0 ==> RMax(Downtimes(a)) == RMax(Downtimes(b))
    ensures AnalysisReport(an, ident, a) == AnalysisReport(an, ident, b)
  {
    SameFlushable(an, ident, a, b);
    assert |Downtimes(a)| == |Downtimes(b)|;
  }

  lemma SameFlushable(an: Analysis, ident: string, a: seq<string>, b: seq<string>)
    requires (forall v :: v in a <==> v in b) && |a| == |b|
    ensures Flushable(an, ident, a) == Flushable(an, ident, b)
  {
  }

  /**
   With equal keys adjacent, a report is written exactly when it is the
   report of one of the input's keys.
   */
  lemma Reports(lines: seq<string>, r: Report)
    requires Grouped(Parsed(lines, ParseKeyValue))
    ensures r in ReduceLines(lines) <==>
      exists k :: k in Keys(Parsed(lines, ParseKeyValue)) && r in Flush(Run(k, ValuesOf(Parsed(lines, ParseKeyValue), k)))
  {
    ReduceMember(lines, ParseKeyValue, Flush, r);
  }

  /** A blank line, or one without a tab, is skipped: removing it changes nothing in the output. */
  lemma MalformedLineSkipped(a: seq<string>, line: string, b: seq<string>)
    requires '\t' !in Strip(line)
    ensures ReduceLines(a + [line] + b) == ReduceLines(a + b)
  {
    SkippedLine(a, line, b, ParseKeyValue, Flush);
  }
}

=== FILE: ngrams.dfy ===
/**
 N-gram counting (lab3, 3.8 `tfidf_mapper2` and 3.7 reducer): the mapper
 cleans each line, splits it into words and emits every trigram with count 1;
 the reducer sums each run of equal n-grams and writes only those seen at
 least MIN_FREQUENCY times.
 */
module Ngrams {
  import opened Wrappers
  import opened Text
  import opened Numbers
  import opened Runs
  import opened Lines

  /** The n-gram size the mapper is configured with. */
  const N: nat := 3

  /** The reducer's frequency threshold. */
  const MinFrequency: int := 5

  // ---------------------------------------------------------------------------
  // Mapper
  // ---------------------------------------------------------------------------

  predicate WordOrSpace(c: char) { IsWordChar(c) || IsSpace(c) }

  /** `clean_text`: lower-case, then drop every character that is neither a word character nor whitespace. */
  function CleanText(text: string): (r: string)
    ensures forall i :: 0 <= i < |r| ==> WordOrSpace(r[i]) && !IsUpper(r[i])
    ensures forall c :: c in r <==> c in Lower(text) && WordOrSpace(c)
  {
    KeepCharsLower(text, WordOrSpace);
    KeepChars(Lower(text), WordOrSpace)
  }

  lemma CleanTextIdempotent(text: string)
    ensures CleanText(CleanText(text)) == CleanText(text)
  {
    var r := CleanText(text);
    assert Lower(r) == r;
    KeepCharsIdempotent(Lower(text), WordOrSpace);
  }

  /**
   Cleaning works character by character and in place, so the words of the
   cleaned text, and hence its n-grams, keep the input's order.
   */
  lemma CleanTextConcat(a: string, b: string)
    ensures CleanText(a + b) == CleanText(a) + CleanText(b)
  {
    LowerConcat(a, b);
    KeepCharsConcat(Lower(a), Lower(b), WordOrSpace);
  }

  lemma CleanTextOne(c: char)
    ensures CleanText([c]) == if WordOrSpace(LowerChar(c)) then [LowerChar(c)] else ""
  {
    assert Lower([c]) == [LowerChar(c)];
    KeepCharsOne(LowerChar(c), WordOrSpace);
  }

  /** Lower-case text of words and whitespace is its own cleaning. */
  lemma CleanTextKeepsClean(text: string)
    requires forall i :: 0 <= i < |text| ==> WordOrSpace(text[i]) && !IsUpper(text[i])
    ensures CleanText(text) == text
  {
    LowerNoUpper(text);
    KeepCharsAll(text, WordOrSpace);
  }

  /** `generate_ngrams(words, n)`: the n-word windows of words, in order, each joined by single spaces. */
  function Ngrams(words: seq<string>, n: nat): (grams: seq<string>)
    ensures |grams| == if |words| + 1 >= n then |words| + 1 - n else 0
    decreases |words|
  {
    if |words| < n then []
    else if |words| == 0 then [""]
    else [Join(words[..n], ' ')] + Ngrams(words[1..], n)
  }

  /** The i-th n-gram is the window of n words starting at word i. */
  lemma {:induction false} NgramAt(words: seq<string>, n: nat, i: nat)
    requires i < |Ngrams(words, n)|
    ensures Ngrams(words, n)[i] == Join(words[i..i + n], ' ')
    decreases |words|
  {
    if i > 0 {
      assert i + n <= |words|;
      NgramAt(words[1..], n, i - 1);
      assert words[1..][i - 1..i - 1 + n] == words[i..i + n];
    }
  }

  /** Splitting an n-gram on whitespace gives back its n words. */
  lemma NgramWords(words: seq<string>, n: nat, i: nat)
    requires forall j :: 0 <= j < |words| ==> |words[j]| > 0 && NoSpace(words[j])
    requires i < |Ngrams(words, n)|
    ensures Words(Ngrams(words, n)[i]) == words[i..i + n]
  {
    NgramAt(words, n, i);
    WordsJoin(words[i..i + n]);
  }

  /** The n-grams one input line emits: none for a blank line or a line of fewer than N words. */
  function LineNgrams(line: string): (grams: seq<string>)
  {
    var t := Strip(line);
    if t == "" then []
    else
      var words := Words(CleanText(t));
      if |words| >= N then Ngrams(words, N) else []
  }

  /** The guard on the number of words only states what the window count already gives. */
  lemma LineNgramsCount(line: string)
    ensures LineNgrams(line) == Ngrams(Words(CleanText(Strip(line))), N)
    ensures |LineNgrams(line)| == if |Words(CleanText(Strip(line)))| >= N then |Words(CleanText(Strip(line)))| - 2 else 0
  {
    var t := Strip(line);
    if t == "" {
      assert CleanText(t) == "";
      assert Words("") == [];
    }
  }

  /** Every pair the mapper emits for a line carries count 1. */
  function MapLine(line: string): (out: seq<(string, int)>)
    ensures |out| == |LineNgrams(line)|
    ensures forall i :: 0 <= i < |out| ==> out[i] == (LineNgrams(line)[i], 1)
  {
    var grams := LineNgrams(line);
    seq(|grams|, i requires 0 <= i < |grams| => (grams[i], 1))
  }

  // ---------------------------------------------------------------------------
  // Reducer
  // ---------------------------------------------------------------------------

  function ParseNgramCount(line: string): (r: Option<(string, int)>)
    ensures r.Some? <==> TwoFields(line).Some? && ParseInt(TwoFields(line).value.1).Some?
    ensures r.Some? ==> r.value == (TwoFields(line).value.0, ParseInt(TwoFields(line).value.1).value)
  {
    match TwoFields(line)
    case None => None
    case Some((ngram, count)) =>
      match ParseInt(count)
      case None => None
      case Some(c) => Some((ngram, c))
  }

  /** A run is written only when its n-gram is non-empty and its total reaches MinFrequency. */
  function Flush(r: Run<string, int>): seq<(string, int)>
  {
    if r.key != "" && Sum(r.values) >= MinFrequency then [(r.key, Sum(r.values))] else []
  }

  function ReduceLines(lines: seq<string>): seq<(string, int)>
  {
    Reduce(lines, ParseNgramCount, Flush)
  }

  /** A run totalling 4 is dropped and one totalling 5 is written. */
  lemma ThresholdExamples()
    ensures Flush(Run("big data is", [1, 1, 1, 1])) == []
    ensures Flush(Run("big data is", [1, 1, 1, 1, 1])) == [("big data is", 5)]
  {
    assert [1, 1, 1, 1][..3] == [1, 1, 1];
    assert [1, 1, 1][..2] == [1, 1];
    assert [1, 1][..1] == [1];
    assert [1][..0] == [];
    assert [1, 1, 1, 1, 1][..4] == [1, 1, 1, 1];
  }

  /**
   With equal n-grams adjacent, `(g, n)` is written exactly when g is a
   non-empty n-gram of the input whose counts sum to n and n >= MinFrequency.
   */
  lemma Frequent(lines: seq<string>, g: string, n: int)
    requires Grouped(Parsed(lines, ParseNgramCount))
    ensures (g, n) in ReduceLines(lines) <==>
      g != "" && g in Keys(Parsed(lines, ParseNgramCount)) &&
      n == Sum(ValuesOf(Parsed(lines, ParseNgramCount), g)) && n >= MinFrequency
  {
    var rs := Parsed(lines, ParseNgramCount);
    ReduceMember(lines, ParseNgramCount, Flush, (g, n));
    FlushHas(g, ValuesOf(rs, g), (g, n));
    if (g, n) in ReduceLines(lines) {
      var k :| k in Keys(rs) && (g, n) in Flush(Run(k, ValuesOf(rs, k)));
      FlushHas(k, ValuesOf(rs, k), (g, n));
    }
  }

  /** A run writes o exactly when o is its non-empty n-gram with a total of at least MinFrequency. */
  lemma FlushHas(k: string, counts: seq<int>, o: (string, int))
    ensures o in Flush(Run(k, counts)) <==> k != "" && o == (k, Sum(counts)) && Sum(counts) >= MinFrequency
  {
  }

  lemma MalformedLineSkipped(a: seq<string>, line: string, b: seq<string>)
    requires ParseNgramCount(line).None?
    ensures ReduceLines(a + [line] + b) == ReduceLines(a + b)
  {
    SkippedLine(a, line, b, ParseNgramCount, Flush);
  }
}

=== FILE: numbers.dfy ===
/**
 Aggregates over the numeric values of one group: running sums, running
 maxima and minima (folded left to right, as the reducers fold their groups),
 and the sort that `calculate_statistics` applies before taking a median.
 */
module Numbers {

  // ---------------------------------------------------------------------------
  // Sums
  // ---------------------------------------------------------------------------

  /** Sum of integers, folded left to right (`total += v`). */
  function Sum(s: seq<int>): int
  {
    if |s| == 0 then 0 else Sum(s[..|s| - 1]) + s[|s| - 1]
  }

  /** Sum of reals, folded left to right. */
  function RSum(s: seq<real>): real
  {
    if |s| == 0 then 0.0 else RSum(s[..|s| - 1]) + s[|s| - 1]
  }

  lemma {:induction false} SumConcat(a: seq<int>, b: seq<int>)
    ensures Sum(a + b) == Sum(a) + Sum(b)
    decreases |b|
  {
    if |b| > 0 {
      assert (a + b)[..|a + b| - 1] == a + b[..|b| - 1];
      SumConcat(a, b[..|b| - 1]);
    } else {
      assert a + b == a;
    }
  }

  lemma {:induction false} RSumConcat(a: seq<real>, b: seq<real>)
    ensures RSum(a + b) == RSum(a) + RSum(b)
    decreases |b|
  {
    if |b| > 0 {
      assert (a + b)[..|a + b| - 1] == a + b[..|b| - 1];
      RSumConcat(a, b[..|b| - 1]);
    } else {
      assert a + b == a;
    }
  }

  /** Removing the element at j from b leaves the multiset without one b[j]. */
  lemma {:induction false} MultisetRemove<T>(b: seq<T>, j: nat)
    requires j < |b|
    ensures multiset(b[..j] + b[j + 1..]) == multiset(b) - multiset{b[j]}
  {
    assert b == b[..j] + [b[j]] + b[j + 1..];
    assert multiset(b) == multiset(b[..j]) + multiset{b[j]} + multiset(b[j + 1..]);
  }

  /** A sequence is its prefix before j, its j-th element and the rest. */
  lemma SplitAt<T>(b: seq<T>, j: nat)
    requires j < |b|
    ensures b == (b[..j] + [b[j]]) + b[j + 1..]
  {
    assert b[j..] == [b[j]] + b[j + 1..];
    assert b == b[..j] + b[j..];
  }

  lemma {:induction false} SumRemove(b: seq<int>, j: nat)
    requires j < |b|
    ensures Sum(b) == Sum(b[..j] + b[j + 1..]) + b[j]
  {
    var p, x, q := b[..j], b[j], b[j + 1..];
    SplitAt(b, j);
    SumConcat(p + [x], q);
    SumConcat(p, [x]);
    SumConcat(p, q);
    assert Sum([x]) == x by {
      assert [x][..0] == [];
    }
  }

  lemma {:induction false} RSumRemove(b: seq<real>, j: nat)
    requires j < |b|
    ensures RSum(b) == RSum(b[..j] + b[j + 1..]) + b[j]
  {
    var p, x, q := b[..j], b[j], b[j + 1..];
    SplitAt(b, j);
    RSumConcat(p + [x], q);
    RSumConcat(p, [x]);
    RSumConcat(p, q);
    assert RSum([x]) == x by {
      assert [x][..0] == [];
    }
  }

  /** The order in which a group's values arrive does not change their sum. */
  lemma {:induction false} SumPermutation(a: seq<int>, b: seq<int>)
    requires multiset(a) == multiset(b)
    ensures Sum(a) == Sum(b)
    decreases |a|
  {
    if |a| > 0 {
      var x := a[|a| - 1];
      assert x in multiset(b);
      var j :| 0 <= j < |b| && b[j] == x;
      var a', b' := a[..|a| - 1], b[..j] + b[j + 1..];
      PermutationRemove(a, b, j);
      SumPermutation(a', b');
      assert Sum(a) == Sum(a') + x;
      SumRemove(b, j);
    } else {
      assert b == [];
    }
  }

  /** The order in which a group's values arrive does not change their sum. */
  lemma {:induction false} RSumPermutation(a: seq<real>, b: seq<real>)
    requires multiset(a) == multiset(b)
    ensures RSum(a) == RSum(b)
    decreases |a|
  {
    if |a| > 0 {
      var x := a[|a| - 1];
      assert x in multiset(b);
      var j :| 0 <= j < |b| && b[j] == x;
      var a', b' := a[..|a| - 1], b[..j] + b[j + 1..];
      PermutationRemove(a, b, j);
      RSumPermutation(a', b');
      assert RSum(a) == RSum(a') + x;
      RSumRemove(b, j);
    } else {
      assert b == [];
    }
  }

  // ---------------------------------------------------------------------------
  // Extremes
  // ---------------------------------------------------------------------------

  /** Python's `max` over a non-empty list of integers, as a running maximum. */
  function Max(s: seq<int>): (m: int)
    requires |s| > 0
    ensures m in s
    ensures forall i :: 0 <= i < |s| ==> s[i] <= m
  {
    if |s| == 1 then s[0]
    else
      var m := Max(s[..|s| - 1]);
      assert m in s;
      if s[|s| - 1] > m then s[|s| - 1] else m
  }

  /**
   Python's `max` over a non-empty list of reals, as a running maximum. It is
   `Max` again at type `real`: Dafny has no common ordered type for `int` and
   `real`, and the jobs take the maximum of both integer counts and decimal
   durations and prices.
   */
  function RMax(s: seq<real>): (m: real)
    requires |s| > 0
    ensures m in s
    ensures forall i :: 0 <= i < |s| ==> s[i] <= m
  {
    if |s| == 1 then s[0]
    else
      var m := RMax(s[..|s| - 1]);
      assert m in s;
      if s[|s| - 1] > m then s[|s| - 1] else m
  }

  /** Python's `min` over a non-empty list of reals, as a running minimum. */
  function RMin(s: seq<real>): (m: real)
    requires |s| > 0
    ensures m in s
    ensures forall i :: 0 <= i < |s| ==> m <= s[i]
  {
    if |s| == 1 then s[0]
    else
      var m := RMin(s[..|s| - 1]);
      assert m in s;
      if s[|s| - 1] < m then s[|s| - 1] else m
  }

  /** The maximum depends only on which values occur, not on their order. */
  lemma MaxPermutation(a: seq<int>, b: seq<int>)
    requires |a| > 0 && multiset(a) == multiset(b)
    ensures |b| > 0 && Max(a) == Max(b)
  {
    assert a[0] in multiset(b);
    var ma, mb := Max(a), Max(b);
    assert ma in multiset(b);
    assert mb in multiset(a);
  }

  lemma RMaxPermutation(a: seq<real>, b: seq<real>)
    requires |a| > 0 && multiset(a) == multiset(b)
    ensures |b| > 0 && RMax(a) == RMax(b)
  {
    assert a[0] in multiset(b);
    var ma, mb := RMax(a), RMax(b);
    assert ma in multiset(b);
    assert mb in multiset(a);
  }

  lemma RMinPermutation(a: seq<real>, b: seq<real>)
    requires |a| > 0 && multiset(a) == multiset(b)
    ensures |b| > 0 && RMin(a) == RMin(b)
  {
    assert a[0] in multiset(b);
    var ma, mb := RMin(a), RMin(b);
    assert ma in multiset(b);
    assert mb in multiset(a);
  }

  /** n * min <= sum <= n * max: the mean of a group lies between its extremes. */
  lemma {:induction false} RSumBetweenExtremes(s: seq<real>, lo: real, hi: real)
    requires forall i :: 0 <= i < |s| ==> lo <= s[i] <= hi
    ensures |s| as real * lo <= RSum(s) <= |s| as real * hi
    decreases |s|
  {
    if |s| > 0 {
      var n := |s| as real;
      RSumBetweenExtremes(s[..|s| - 1], lo, hi);
      assert RSum(s) == RSum(s[..|s| - 1]) + s[|s| - 1];
      assert (n - 1.0) * lo + lo == n * lo;
      assert (n - 1.0) * hi + hi == n * hi;
    }
  }

  /** `total / count if count > 0 else 0`: the arithmetic mean, 0 for no values. */
  function Mean(s: seq<real>): (m: real)
    ensures |s| > 0 ==> RMin(s) <= m <= RMax(s)
  {
    if |s| == 0 then 0.0
    else
      MeanBetween(s);
      RSum(s) / |s| as real
  }

  lemma MeanBetween(s: seq<real>)
    requires |s| > 0
    ensures RMin(s) <= RSum(s) / |s| as real <= RMax(s)
  {
    MeanWithin(s, RMin(s), RMax(s));
  }

  /** The mean times the number of elements is the sum. */
  lemma MeanTimesCount(s: seq<real>)
    requires |s| > 0
    ensures Mean(s) * |s| as real == RSum(s)
  {
    QuotientTimes(Mean(s), RSum(s), |s| as real);
  }

  lemma QuotientTimes(q: real, t: real, n: real)
    requires n > 0.0 && q == t / n
    ensures q * n == t
  {
  }

  lemma MeanWithin(s: seq<real>, lo: real, hi: real)
    requires |s| > 0
    requires forall i :: 0 <= i < |s| ==> lo <= s[i] <= hi
    ensures lo <= RSum(s) / |s| as real <= hi
  {
    RSumBetweenExtremes(s, lo, hi);
    DivBetween(RSum(s), |s| as real, lo, hi);
  }

  lemma DivBetween(t: real, n: real, lo: real, hi: real)
    requires n > 0.0 && n * lo <= t <= n * hi
    ensures lo <= t / n <= hi
    ensures (t / n) * n == t
  {
    assert t == (t / n) * n;
  }

  // ---------------------------------------------------------------------------
  // Sorting
  // ---------------------------------------------------------------------------

  predicate Sorted(s: seq<real>)
  {
    forall i, j :: 0 <= i < j < |s| ==> s[i] <= s[j]
  }

  function Insert(x: real, s: seq<real>): (r: seq<real>)
    requires Sorted(s)
    ensures Sorted(r)
    ensures |r| == |s| + 1
    ensures r[0] == if |s| == 0 || x <= s[0] then x else s[0]
    ensures multiset(r) == multiset(s) + multiset{x}
  {
    if |s| == 0 || x <= s[0] then [x] + s
    else
      var t := Insert(x, s[1..]);
      assert s == [s[0]] + s[1..];
      assert s[0] <= t[0];
      [s[0]] + t
  }

  /** Python's `sorted` on a list of reals. */
  function SortReals(s: seq<real>): (r: seq<real>)
    ensures Sorted(r)
    ensures multiset(r) == multiset(s)
  {
    if |s| == 0 then []
    else
      assert s == [s[0]] + s[1..];
      Insert(s[0], SortReals(s[1..]))
  }

  /** A sorted arrangement of a multiset is unique. */
  lemma {:induction false} SortedUnique(a: seq<real>, b: seq<real>)
    requires Sorted(a) && Sorted(b)
    requires multiset(a) == multiset(b)
    ensures a == b
    decreases |a|
  {
    if |a| > 0 {
      assert |b| > 0 by {
        assert a[0] in multiset(b);
      }
      assert a[0] in multiset(b);
      assert b[0] in multiset(a);
      assert a[0] == b[0];
      assert a == [a[0]] + a[1..];
      assert b == [b[0]] + b[1..];
      assert multiset(a) == multiset{a[0]} + multiset(a[1..]);
      assert multiset(b) == multiset{b[0]} + multiset(b[1..]);
      assert multiset(a[1..]) == multiset(a) - multiset{a[0]};
      assert multiset(b[1..]) == multiset(b) - multiset{b[0]};
      SortedUnique(a[1..], b[1..]);
    } else {
      assert |multiset(b)| == 0;
    }
  }

  // ---------------------------------------------------------------------------
  // Projections
  // ---------------------------------------------------------------------------

  /** The values of s under f, in order. */
  function Project<T, U>(f: T -> U, s: seq<T>): (r: seq<U>)
    ensures |r| == |s|
    ensures forall i :: 0 <= i < |s| ==> r[i] == f(s[i])
  {
    seq(|s|, i requires 0 <= i < |s| => f(s[i]))
  }

  /** Reordering a sequence reorders its projection. */
  lemma {:induction false} ProjectPermutation<T, U>(f: T -> U, a: seq<T>, b: seq<T>)
    requires multiset(a) == multiset(b)
    ensures multiset(Project(f, a)) == multiset(Project(f, b))
    decreases |a|
  {
    if |a| > 0 {
      var n := |a| - 1;
      assert a[n] in multiset(b);
      var j :| 0 <= j < |b| && b[j] == a[n];
      var b' := b[..j] + b[j + 1..];
      PermutationRemove(a, b, j);
      ProjectPermutation(f, a[..n], b');
      ProjectRemove(f, b, j);
      ProjectRemove(f, a, n);
      assert a[..n] + a[n + 1..] == a[..n];
    } else {
      assert b == [];
    }
  }

  lemma PermutationRemove<T>(a: seq<T>, b: seq<T>, j: nat)
    requires multiset(a) == multiset(b) && |a| > 0 && j < |b| && b[j] == a[|a| - 1]
    ensures multiset(a[..|a| - 1]) == multiset(b[..j] + b[j + 1..])
  {
    MultisetRemove(b, j);
    MultisetRemove(a, |a| - 1);
    assert a[..|a| - 1] + a[|a|..] == a[..|a| - 1];
  }

  /** Dropping the j-th element drops the j-th projection. */
  lemma ProjectRemove<T, U>(f: T -> U, b: seq<T>, j: nat)
    requires j < |b|
    ensures multiset(Project(f, b)) == multiset(Project(f, b[..j] + b[j + 1..])) + multiset{f(b[j])}
  {
    var pb := Project(f, b);
    assert Project(f, b[..j] + b[j + 1..]) == pb[..j] + pb[j + 1..];
    MultisetRemove(pb, j);
  }
}

=== FILE: runs.dfy ===
/**
 The kernel every reducer runs: one left-to-right scan over records already
 sorted by key, cut into maximal runs of equal keys, with exactly one flush
 per run and a final flush at end of input.

 `GroupRuns` is the run decomposition, defined record by record exactly as the
 reducers' loops maintain `current_key` / `current_values`; `ScanLines` is that loop
 itself; `FlatEmit` concatenates what a per-job flush produces for each run.
 */
module Runs {
  import opened Wrappers

  /** One group: a key and the values of its consecutive records, in input order. */
  datatype Run<K, V> = Run(key: K, values: seq<V>)

  /** The records a run stands for. */
  function Records<K, V>(r: Run<K, V>): (rs: seq<(K, V)>)
    ensures |rs| == |r.values|
    ensures forall i :: 0 <= i < |rs| ==> rs[i] == (r.key, r.values[i])
  {
    seq(|r.values|, i requires 0 <= i < |r.values| => (r.key, r.values[i]))
  }

  /** The records of all runs, run after run. */
  function Flatten<K, V>(runs: seq<Run<K, V>>): seq<(K, V)>
  {
    if |runs| == 0 then [] else Flatten(runs[..|runs| - 1]) + Records(runs[|runs| - 1])
  }

  predicate NonEmptyRuns<K, V>(runs: seq<Run<K, V>>)
  {
    forall i :: 0 <= i < |runs| ==> |runs[i].values| > 0
  }

  predicate AdjacentDistinct<K(==), V>(runs: seq<Run<K, V>>)
  {
    forall i :: 0 < i < |runs| ==> runs[i - 1].key != runs[i].key
  }

  /** The keys occurring in a record sequence. */
  function Keys<K, V>(rs: seq<(K, V)>): set<K>
  {
    set p | 0 <= p < |rs| :: rs[p].0
  }

  /**
   The run decomposition: a record whose key equals the open run's key joins
   that run; any other key closes the open run and opens a new one seeded with
   the record's value.
   */
  function GroupRuns<K(==), V>(rs: seq<(K, V)>): (runs: seq<Run<K, V>>)
    ensures |runs| <= |rs|
    ensures |rs| == 0 <==> |runs| == 0
    ensures |rs| > 0 ==> runs[|runs| - 1].key == rs[|rs| - 1].0
  {
    if |rs| == 0 then []
    else
      var g := GroupRuns(rs[..|rs| - 1]);
      var r := rs[|rs| - 1];
      if |g| > 0 && g[|g| - 1].key == r.0 then g[..|g| - 1] + [Run(r.0, g[|g| - 1].values + [r.1])]
      else g + [Run(r.0, [r.1])]
  }

  /** Every run is non-empty and no two neighbouring runs share a key. */
  lemma {:induction false} GroupRunsWellFormed<K, V>(rs: seq<(K, V)>)
    ensures NonEmptyRuns(GroupRuns(rs)) && AdjacentDistinct(GroupRuns(rs))
    decreases |rs|
  {
    if |rs| > 0 {
      var p, x := rs[..|rs| - 1], rs[|rs| - 1];
      assert p + [x] == rs;
      GroupRunsWellFormed(p);
      GroupRunsSnoc(p, x);
      var g := GroupRuns(p);
      if |g| > 0 && g[|g| - 1].key == x.0 {
        WellFormedReplaceLast(g, Run(x.0, g[|g| - 1].values + [x.1]));
      } else {
        WellFormedAppend(g, Run(x.0, [x.1]));
      }
    }
  }

  lemma WellFormedReplaceLast<K, V>(g: seq<Run<K, V>>, r: Run<K, V>)
    requires NonEmptyRuns(g) && AdjacentDistinct(g)
    requires |g| > 0 && r.key == g[|g| - 1].key && |r.values| > 0
    ensures NonEmptyRuns(g[..|g| - 1] + [r]) && AdjacentDistinct(g[..|g| - 1] + [r])
  {
    var g' := g[..|g| - 1] + [r];
    assert forall i :: 0 <= i < |g| - 1 ==> g'[i] == g[i];
  }

  lemma WellFormedAppend<K, V>(g: seq<Run<K, V>>, r: Run<K, V>)
    requires NonEmptyRuns(g) && AdjacentDistinct(g)
    requires |r.values| > 0 && (|g| > 0 ==> g[|g| - 1].key != r.key)
    ensures NonEmptyRuns(g + [r]) && AdjacentDistinct(g + [r])
  {
    var g' := g + [r];
    assert forall i :: 0 <= i < |g| ==> g'[i] == g[i];
  }

  lemma WellFormedPrefix<K, V>(g: seq<Run<K, V>>)
    requires NonEmptyRuns(g) && AdjacentDistinct(g) && |g| > 0
    ensures NonEmptyRuns(g[..|g| - 1]) && AdjacentDistinct(g[..|g| - 1])
  {
  }

  /** Every run is keyed by a key of the input. */
  lemma {:induction false} GroupRunsKeys<K, V>(rs: seq<(K, V)>)
    ensures forall i :: 0 <= i < |GroupRuns(rs)| ==> GroupRuns(rs)[i].key in Keys(rs)
    decreases |rs|
  {
    if |rs| > 0 {
      var prefix := rs[..|rs| - 1];
      GroupRunsKeys(prefix);
      assert Keys(prefix) <= Keys(rs) by {
        forall p | 0 <= p < |prefix| ensures prefix[p].0 in Keys(rs) {
          assert prefix[p] == rs[p];
        }
      }
      assert rs[|rs| - 1].0 in Keys(rs);
    }
  }

  /** One more record either extends the open run or opens a new one. */
  lemma GroupRunsSnoc<K, V>(p: seq<(K, V)>, x: (K, V))
    ensures GroupRuns(p + [x]) ==
      var g := GroupRuns(p);
      if |g| > 0 && g[|g| - 1].key == x.0 then g[..|g| - 1] + [Run(x.0, g[|g| - 1].values + [x.1])]
      else g + [Run(x.0, [x.1])]
  {
    assert (p + [x])[..|p|] == p;
  }

  lemma FlattenSnoc<K, V>(runs: seq<Run<K, V>>, r: Run<K, V>)
    ensures Flatten(runs + [r]) == Flatten(runs) + Records(r)
  {
    assert (runs + [r])[..|runs|] == runs;
  }

  lemma RecordsSnoc<K, V>(k: K, vs: seq<V>, v: V)
    ensures Records(Run(k, vs + [v])) == Records(Run(k, vs)) + [(k, v)]
  {
  }

  lemma FlattenGroupRunsSnoc<K, V>(p: seq<(K, V)>, x: (K, V))
    requires Flatten(GroupRuns(p)) == p
    ensures Flatten(GroupRuns(p + [x])) == p + [x]
  {
    GroupRunsSnoc(p, x);
    var g := GroupRuns(p);
    if |g| > 0 && g[|g| - 1].key == x.0 {
      var init, last := g[..|g| - 1], g[|g| - 1];
      FlattenSnoc(init, Run(x.0, last.values + [x.1]));
      assert g == init + [last];
      FlattenSnoc(init, last);
      RecordsSnoc(x.0, last.values, x.1);
    } else {
      FlattenSnoc(g, Run(x.0, [x.1]));
    }
  }

  /** Concatenating the runs gives back the input, record for record. */
  lemma {:induction false} FlattenGroupRuns<K, V>(rs: seq<(K, V)>)
    ensures Flatten(GroupRuns(rs)) == rs
    decreases |rs|
  {
    if |rs| > 0 {
      var p, x := rs[..|rs| - 1], rs[|rs| - 1];
      assert p + [x] == rs;
      FlattenGroupRuns(p);
      FlattenGroupRunsSnoc(p, x);
    }
  }

  lemma GroupRunsOpens<K, V>(p: seq<(K, V)>, x: (K, V), init: seq<Run<K, V>>)
    requires GroupRuns(p) == init
    requires |init| > 0 ==> init[|init| - 1].key != x.0
    ensures GroupRuns(p + [x]) == init + [Run(x.0, [x.1])]
  {
    GroupRunsSnoc(p, x);
  }

  lemma GroupRunsExtends<K, V>(p: seq<(K, V)>, x: (K, V), init: seq<Run<K, V>>, vs: seq<V>)
    requires GroupRuns(p) == init + [Run(x.0, vs)]
    ensures GroupRuns(p + [x]) == init + [Run(x.0, vs + [x.1])]
  {
    GroupRunsSnoc(p, x);
    assert (init + [Run(x.0, vs)])[..|init|] == init;
  }

  /**
   GroupRuns is the only decomposition into non-empty runs with adjacent
   distinct keys that concatenates back to the input.
   */
  lemma {:induction false} GroupRunsUnique<K, V>(rs: seq<(K, V)>, runs: seq<Run<K, V>>)
    requires NonEmptyRuns(runs) && AdjacentDistinct(runs)
    requires Flatten(runs) == rs
    ensures runs == GroupRuns(rs)
    decreases |rs|
  {
    if |runs| > 0 {
      var n := |runs|;
      var init, last := runs[..n - 1], runs[n - 1];
      var k, vs := last.key, last.values;
      var p, x := rs[..|rs| - 1], rs[|rs| - 1];
      assert p + [x] == rs;
      assert p + [x] == Flatten(init) + Records(last) by {
        assert runs == init + [last];
        FlattenSnoc(init, last);
      }
      var shorter := vs[..|vs| - 1];
      assert x == (k, vs[|vs| - 1]) && vs == shorter + [x.1];
      if |vs| == 1 {
        assert p == Flatten(init);
        WellFormedPrefix(runs);
        GroupRunsUnique(p, init);
        GroupRunsOpens(p, x, init);
      } else {
        var runs' := init + [Run(k, shorter)];
        assert p == Flatten(runs') by {
          FlattenSnoc(init, Run(k, shorter));
          RecordsSnoc(k, shorter, x.1);
        }
        WellFormedReplaceLast(runs, Run(k, shorter));
        GroupRunsUnique(p, runs');
        GroupRunsExtends(p, x, init, shorter);
      }
    } else {
      assert rs == [];
    }
  }

  // ---------------------------------------------------------------------------
  // The ordering contract of the shuffle
  // ---------------------------------------------------------------------------

  /** All records sharing a key are consecutive (what the Hadoop sort guarantees). */
  predicate Grouped<K(==), V>(rs: seq<(K, V)>)
  {
    forall i, j, l :: 0 <= i < j < l < |rs| && rs[i].0 == rs[l].0 ==> rs[j].0 == rs[i].0
  }

  predicate DistinctKeys<K(==), V>(runs: seq<Run<K, V>>)
  {
    forall i, j :: 0 <= i < j < |runs| ==> runs[i].key != runs[j].key
  }

  lemma GroupedPrefix<K, V>(rs: seq<(K, V)>)
    requires Grouped(rs) && |rs| > 0
    ensures Grouped(rs[..|rs| - 1])
  {
    var p := rs[..|rs| - 1];
    forall i, j, l | 0 <= i < j < l < |p| && p[i].0 == p[l].0
      ensures p[j].0 == p[i].0
    {
      assert rs[i] == p[i] && rs[j] == p[j] && rs[l] == p[l];
    }
  }

  /** With the ordering contract, a record whose key differs from the one before it opens a key not seen earlier. */
  lemma GroupedNewKey<K, V>(rs: seq<(K, V)>)
    requires Grouped(rs)
    requires |rs| >= 2 && rs[|rs| - 2].0 != rs[|rs| - 1].0
    ensures rs[|rs| - 1].0 !in Keys(rs[..|rs| - 1])
  {
    var n := |rs|;
    forall q | 0 <= q < n - 1 ensures rs[q].0 != rs[n - 1].0 {
    }
    assert forall q :: 0 <= q < n - 1 ==> rs[..n - 1][q] == rs[q];
  }

  /** With the ordering contract, no key is flushed twice. */
  lemma {:induction false} GroupedRunsDistinct<K, V>(rs: seq<(K, V)>)
    requires Grouped(rs)
    ensures DistinctKeys(GroupRuns(rs))
    decreases |rs|
  {
    if |rs| > 0 {
      var p, x := rs[..|rs| - 1], rs[|rs| - 1];
      assert p + [x] == rs;
      GroupedPrefix(rs);
      GroupedRunsDistinct(p);
      if |p| > 0 && p[|p| - 1].0 != x.0 {
        assert p[|p| - 1] == rs[|rs| - 2];
        GroupedNewKey(rs);
      }
      DistinctKeysSnoc(p, x);
    }
  }

  /** A record that continues the last key, or opens a key not seen before, keeps the run keys distinct. */
  lemma {:induction false} DistinctKeysSnoc<K, V>(p: seq<(K, V)>, x: (K, V))
    requires DistinctKeys(GroupRuns(p))
    requires |p| == 0 || p[|p| - 1].0 == x.0 || x.0 !in Keys(p)
    ensures DistinctKeys(GroupRuns(p + [x]))
  {
    GroupRunsSnoc(p, x);
    var g := GroupRuns(p);
    if |p| > 0 && p[|p| - 1].0 == x.0 {
      DistinctKeysReplaceLast(g, Run(x.0, g[|g| - 1].values + [x.1]));
    } else if |p| > 0 {
      assert p[|p| - 1].0 in Keys(p);
      GroupRunsKeys(p);
      DistinctKeysAppend(g, Run(x.0, [x.1]));
    }
  }

  lemma DistinctKeysReplaceLast<K, V>(g: seq<Run<K, V>>, r: Run<K, V>)
    requires DistinctKeys(g) && |g| > 0 && r.key == g[|g| - 1].key
    ensures DistinctKeys(g[..|g| - 1] + [r])
  {
    var g' := g[..|g| - 1] + [r];
    assert forall i :: 0 <= i < |g'| ==> g'[i].key == g[i].key;
  }

  lemma DistinctKeysAppend<K, V>(g: seq<Run<K, V>>, r: Run<K, V>)
    requires DistinctKeys(g)
    requires forall i :: 0 <= i < |g| ==> g[i].key != r.key
    ensures DistinctKeys(g + [r])
  {
    var g' := g + [r];
    assert forall i :: 0 <= i < |g| ==> g'[i] == g[i];
  }

  /** The values of the records with key k, in input order. */
  function ValuesOf<K(==), V>(rs: seq<(K, V)>, k: K): seq<V>
  {
    if |rs| == 0 then []
    else ValuesOf(rs[..|rs| - 1], k) + (if rs[|rs| - 1].0 == k then [rs[|rs| - 1].1] else [])
  }

  /** A key of the input carries at least one value, and every value of a key is a value of some record. */
  lemma {:induction false} ValuesOfKey<K, V>(rs: seq<(K, V)>, k: K)
    ensures k in Keys(rs) <==> |ValuesOf(rs, k)| > 0
    ensures forall v :: v in ValuesOf(rs, k) ==> (k, v) in rs
    decreases |rs|
  {
    if |rs| > 0 {
      var p := rs[..|rs| - 1];
      ValuesOfKey(p, k);
      assert Keys(rs) == Keys(p) + {rs[|rs| - 1].0} by {
        forall q | 0 <= q < |p| ensures p[q] == rs[q] { }
      }
      forall v | v in ValuesOf(rs, k) ensures (k, v) in rs {
        if v in ValuesOf(p, k) {
          assert (k, v) in p;
        }
      }
    }
  }

  lemma {:induction false} ValuesOfConcat<K, V>(a: seq<(K, V)>, b: seq<(K, V)>, k: K)
    ensures ValuesOf(a + b, k) == ValuesOf(a, k) + ValuesOf(b, k)
    decreases |b|
  {
    if |b| > 0 {
      assert (a + b)[..|a + b| - 1] == a + b[..|b| - 1];
      ValuesOfConcat(a, b[..|b| - 1], k);
    } else {
      assert a + b == a;
    }
  }

  lemma {:induction false} ValuesOfRecords<K, V>(r: Run<K, V>, k: K)
    ensures ValuesOf(Records(r), k) == if r.key == k then r.values else []
    decreases |r.values|
  {
    if |r.values| > 0 {
      var rs, n := Records(r), |r.values|;
      var r' := Run(r.key, r.values[..n - 1]);
      assert rs[..n - 1] == Records(r');
      assert rs[n - 1] == (r.key, r.values[n - 1]);
      ValuesOfRecords(r', k);
      assert ValuesOf(rs, k) == ValuesOf(Records(r'), k) + (if r.key == k then [r.values[n - 1]] else []);
      assert r.values == r'.values + [r.values[n - 1]];
    }
  }

  lemma {:induction false} ValuesOfFlatten<K, V>(runs: seq<Run<K, V>>, k: K)
    requires DistinctKeys(runs)
    ensures forall i :: 0 <= i < |runs| && runs[i].key == k ==> ValuesOf(Flatten(runs), k) == runs[i].values
    ensures (forall i :: 0 <= i < |runs| ==> runs[i].key != k) ==> ValuesOf(Flatten(runs), k) == []
    decreases |runs|
  {
    if |runs| > 0 {
      var n := |runs|;
      var prefix, last := runs[..n - 1], runs[n - 1];
      assert DistinctKeys(prefix);
      ValuesOfFlatten(prefix, k);
      ValuesOfConcat(Flatten(prefix), Records(last), k);
      ValuesOfRecords(last, k);
      var vs := ValuesOf(Flatten(runs), k);
      if last.key == k {
        assert forall i :: 0 <= i < |prefix| ==> prefix[i].key != k;
        assert vs == last.values;
        forall i | 0 <= i < n && runs[i].key == k ensures vs == runs[i].values {
          assert i == n - 1;
        }
      } else {
        assert vs == ValuesOf(Flatten(prefix), k);
        forall i | 0 <= i < n && runs[i].key == k ensures vs == runs[i].values {
          assert prefix[i] == runs[i];
        }
      }
    }
  }

  /**
   With the ordering contract, each run holds every value carried by its key
   anywhere in the input: the group is flushed only after the last record
   bearing its key.
   */
  lemma GroupedRunIsWholeKey<K, V>(rs: seq<(K, V)>, i: nat)
    requires Grouped(rs)
    requires i < |GroupRuns(rs)|
    ensures GroupRuns(rs)[i].values == ValuesOf(rs, GroupRuns(rs)[i].key)
  {
    GroupedRunsDistinct(rs);
    FlattenGroupRuns(rs);
    ValuesOfFlatten(GroupRuns(rs), GroupRuns(rs)[i].key);
  }

  // ---------------------------------------------------------------------------
  // Flushing
  // ---------------------------------------------------------------------------

  /** The lines a job writes: what its flush produces for each run, run after run. */
  function FlatEmit<K, V, O>(runs: seq<Run<K, V>>, flush: Run<K, V> -> seq<O>): seq<O>
  {
    if |runs| == 0 then [] else FlatEmit(runs[..|runs| - 1], flush) + flush(runs[|runs| - 1])
  }

  lemma {:induction false} FlatEmitConcat<K, V, O>(a: seq<Run<K, V>>, b: seq<Run<K, V>>, flush: Run<K, V> -> seq<O>)
    ensures FlatEmit(a + b, flush) == FlatEmit(a, flush) + FlatEmit(b, flush)
    decreases |b|
  {
    if |b| > 0 {
      assert (a + b)[..|a + b| - 1] == a + b[..|b| - 1];
      FlatEmitConcat(a, b[..|b| - 1], flush);
    } else {
      assert a + b == a;
    }
  }

  /** An output line comes from exactly the flush of some run. */
  lemma {:induction false} FlatEmitMember<K, V, O>(runs: seq<Run<K, V>>, flush: Run<K, V> -> seq<O>, o: O)
    ensures o in FlatEmit(runs, flush) <==> exists i :: 0 <= i < |runs| && o in flush(runs[i])
    decreases |runs|
  {
    if |runs| > 0 {
      var n := |runs|;
      FlatEmitMember(runs[..n - 1], flush, o);
      if o in FlatEmit(runs[..n - 1], flush) {
        var i :| 0 <= i < n - 1 && o in flush(runs[..n - 1][i]);
        assert o in flush(runs[i]);
      }
      if exists i :: 0 <= i < n && o in flush(runs[i]) {
        var i :| 0 <= i < n && o in flush(runs[i]);
        if i < n - 1 {
          assert o in flush(runs[..n - 1][i]);
        }
      }
    }
  }

  /** Total number of lines when each run flushes a number of lines given by size. */
  lemma {:induction false} FlatEmitLength<K, V, O>(runs: seq<Run<K, V>>, flush: Run<K, V> -> seq<O>, size: Run<K, V> -> nat)
    requires forall r :: |flush(r)| == size(r)
    ensures |FlatEmit(runs, flush)| == SumSizes(runs, size)
    decreases |runs|
  {
    if |runs| > 0 {
      FlatEmitLength(runs[..|runs| - 1], flush, size);
    }
  }

  function SumSizes<K, V>(runs: seq<Run<K, V>>, size: Run<K, V> -> nat): nat
  {
    if |runs| == 0 then 0 else SumSizes(runs[..|runs| - 1], size) + size(runs[|runs| - 1])
  }

  // ---------------------------------------------------------------------------
  // Lines in, lines out
  // ---------------------------------------------------------------------------

  /** The records of the lines that parse, in input order; a line that does not parse contributes nothing. */
  function Parsed<L, K, V>(lines: seq<L>, parse: L -> Option<(K, V)>): (rs: seq<(K, V)>)
    ensures |rs| <= |lines|
  {
    if |lines| == 0 then []
    else
      var last := parse(lines[|lines| - 1]);
      Parsed(lines[..|lines| - 1], parse) + (if last.Some? then [last.value] else [])
  }

  lemma {:induction false} ParsedConcat<L, K, V>(a: seq<L>, b: seq<L>, parse: L -> Option<(K, V)>)
    ensures Parsed(a + b, parse) == Parsed(a, parse) + Parsed(b, parse)
    decreases |b|
  {
    if |b| > 0 {
      assert (a + b)[..|a + b| - 1] == a + b[..|b| - 1];
      ParsedConcat(a, b[..|b| - 1], parse);
    } else {
      assert a + b == a;
    }
  }

  lemma ParsedStep<L, K, V>(lines: seq<L>, i: nat, parse: L -> Option<(K, V)>)
    requires i < |lines|
    ensures Parsed(lines[..i + 1], parse) ==
      Parsed(lines[..i], parse) + (if parse(lines[i]).Some? then [parse(lines[i]).value] else [])
  {
    assert lines[..i + 1][..i] == lines[..i];
  }

  /** What a streaming reducer writes for its input lines: one flush per run of the parsed records. */
  function Reduce<L, K(==), V, O>(lines: seq<L>, parse: L -> Option<(K, V)>, flush: Run<K, V> -> seq<O>): seq<O>
  {
    FlatEmit(GroupRuns(Parsed(lines, parse)), flush)
  }

  /** A line that does not parse is skipped: removing it changes nothing in the output. */
  lemma SkippedLine<L, K, V, O>(a: seq<L>, line: L, b: seq<L>, parse: L -> Option<(K, V)>, flush: Run<K, V> -> seq<O>)
    requires parse(line).None?
    ensures Reduce(a + [line] + b, parse, flush) == Reduce(a + b, parse, flush)
  {
    assert Parsed([line], parse) == [] by {
      assert [line][..0] == [];
    }
    ParsedConcat(a, [line], parse);
    assert Parsed(a + [line], parse) == Parsed(a, parse);
    ParsedConcat(a + [line], b, parse);
    ParsedConcat(a, b, parse);
  }

  /** Every record of a run decomposition lies in a run bearing its key. */
  lemma {:induction false} FlattenHasRun<K, V>(runs: seq<Run<K, V>>, p: nat)
    requires p < |Flatten(runs)|
    ensures exists i :: 0 <= i < |runs| && runs[i].key == Flatten(runs)[p].0
    decreases |runs|
  {
    var n := |runs|;
    var init := runs[..n - 1];
    if p < |Flatten(init)| {
      FlattenHasRun(init, p);
      var i :| 0 <= i < |init| && init[i].key == Flatten(init)[p].0;
      assert runs[i].key == Flatten(runs)[p].0;
    } else {
      assert runs[n - 1].key == Flatten(runs)[p].0;
    }
  }

  /** Every key of the input has a run. */
  lemma KeyHasRun<K, V>(rs: seq<(K, V)>, k: K)
    requires k in Keys(rs)
    ensures exists i :: 0 <= i < |GroupRuns(rs)| && GroupRuns(rs)[i].key == k
  {
    var p :| 0 <= p < |rs| && rs[p].0 == k;
    FlattenGroupRuns(rs);
    FlattenHasRun(GroupRuns(rs), p);
  }

  /**
   With the ordering contract, the output is exactly what the flush makes of
   each key of the input together with all of that key's values.
   */
  lemma ReduceGrouped<K, V, O>(rs: seq<(K, V)>, flush: Run<K, V> -> seq<O>, o: O)
    requires Grouped(rs)
    ensures o in FlatEmit(GroupRuns(rs), flush) <==>
            exists k :: k in Keys(rs) && o in flush(Run(k, ValuesOf(rs, k)))
  {
    var runs := GroupRuns(rs);
    FlatEmitMember(runs, flush, o);
    GroupRunsKeys(rs);
    if o in FlatEmit(runs, flush) {
      var i :| 0 <= i < |runs| && o in flush(runs[i]);
      GroupedRunIsWholeKey(rs, i);
      assert runs[i] == Run(runs[i].key, ValuesOf(rs, runs[i].key));
    }
    if exists k :: k in Keys(rs) && o in flush(Run(k, ValuesOf(rs, k))) {
      var k :| k in Keys(rs) && o in flush(Run(k, ValuesOf(rs, k)));
      KeyHasRun(rs, k);
      var i :| 0 <= i < |runs| && runs[i].key == k;
      GroupedRunIsWholeKey(rs, i);
      assert runs[i] == Run(k, ValuesOf(rs, k));
    }
  }

  /** ReduceGrouped, stated over the input lines. */
  lemma ReduceMember<L, K, V, O>(lines: seq<L>, parse: L -> Option<(K, V)>, flush: Run<K, V> -> seq<O>, o: O)
    requires Grouped(Parsed(lines, parse))
    ensures o in Reduce(lines, parse, flush) <==>
            exists k :: k in Keys(Parsed(lines, parse)) && o in flush(Run(k, ValuesOf(Parsed(lines, parse), k)))
  {
    var rs := Parsed(lines, parse);
    assert Reduce(lines, parse, flush) == FlatEmit(GroupRuns(rs), flush);
    ReduceGrouped(rs, flush, o);
  }

  /**
   The reducers' loop: `current_key` / `current_values` are the open run; a
   line that does not parse is skipped and touches nothing; a record with the
   open key is appended; any other key flushes the open run (if there is one)
   and opens a new run seeded with the record; at end of input the open run is
   flushed.
   */
  method ScanLines<L, K(==), V, O>(lines: seq<L>, parse: L -> Option<(K, V)>, flush: Run<K, V> -> seq<O>)
    returns (out: seq<O>)
    ensures out == Reduce(lines, parse, flush)
  {
    out := [];
    var current: Option<K> := None;
    var values: seq<V> := [];
    ghost var closed: seq<Run<K, V>> := [];
    var i := 0;
    while i < |lines|
      invariant 0 <= i <= |lines|
      invariant ScanState(lines, i, parse, flush, current, values, closed, out)
      decreases |lines| - i
    {
      var parsed := parse(lines[i]);
      if parsed.Some? {
        var rec := parsed.value;
        if current == Some(rec.0) {
          ScanExtend(lines, i, parse, flush, current, values, closed, out);
          values := values + [rec.1];
        } else {
          ScanOpen(lines, i, parse, flush, current, values, closed, out);
          if current.Some? {
            out := out + flush(Run(current.value, values));
            closed := closed + [Run(current.value, values)];
          }
          current := Some(rec.0);
          values := [rec.1];
        }
      } else {
        ScanSkip(lines, i, parse, flush, current, values, closed, out);
      }
      i := i + 1;
    }
    ScanEnd(lines, parse, flush, current, values, closed, out);
    if current.Some? {
      out := out + flush(Run(current.value, values));
    }
  }

  /**
   What the loop of `ScanLines` keeps after i lines: the open run is the last
   run of the records so far, the closed runs are the ones before it, and
   the output is their flushes.
   */
  ghost predicate ScanState<L, K, V, O>(lines: seq<L>, i: nat, parse: L -> Option<(K, V)>, flush: Run<K, V> -> seq<O>,
                                        current: Option<K>, values: seq<V>, closed: seq<Run<K, V>>, out: seq<O>)
    requires i <= |lines|
  {
    && (current.None? <==> |Parsed(lines[..i], parse)| == 0)
    && (current.None? ==> closed == [])
    && (current.Some? ==> GroupRuns(Parsed(lines[..i], parse)) == closed + [Run(current.value, values)])
    && out == FlatEmit(closed, flush)
  }

  lemma ScanSkip<L, K, V, O>(lines: seq<L>, i: nat, parse: L -> Option<(K, V)>, flush: Run<K, V> -> seq<O>,
                             current: Option<K>, values: seq<V>, closed: seq<Run<K, V>>, out: seq<O>)
    requires i < |lines| && parse(lines[i]).None?
    requires ScanState(lines, i, parse, flush, current, values, closed, out)
    ensures ScanState(lines, i + 1, parse, flush, current, values, closed, out)
  {
    ParsedStep(lines, i, parse);
    assert Parsed(lines[..i + 1], parse) == Parsed(lines[..i], parse);
  }

  lemma ScanExtend<L, K, V, O>(lines: seq<L>, i: nat, parse: L -> Option<(K, V)>, flush: Run<K, V> -> seq<O>,
                               current: Option<K>, values: seq<V>, closed: seq<Run<K, V>>, out: seq<O>)
    requires i < |lines| && parse(lines[i]).Some? && current == Some(parse(lines[i]).value.0)
    requires ScanState(lines, i, parse, flush, current, values, closed, out)
    ensures ScanState(lines, i + 1, parse, flush, current, values + [parse(lines[i]).value.1], closed, out)
  {
    var rec := parse(lines[i]).value;
    ParsedStep(lines, i, parse);
    GroupRunsExtends(Parsed(lines[..i], parse), rec, closed, values);
  }

  lemma ScanOpen<L, K, V, O>(lines: seq<L>, i: nat, parse: L -> Option<(K, V)>, flush: Run<K, V> -> seq<O>,
                             current: Option<K>, values: seq<V>, closed: seq<Run<K, V>>, out: seq<O>)
    requires i < |lines| && parse(lines[i]).Some? && current != Some(parse(lines[i]).value.0)
    requires ScanState(lines, i, parse, flush, current, values, closed, out)
    ensures var rec := parse(lines[i]).value;
      if current.Some? then
        ScanState(lines, i + 1, parse, flush, Some(rec.0), [rec.1], closed + [Run(current.value, values)],
                  out + flush(Run(current.value, values)))
      else ScanState(lines, i + 1, parse, flush, Some(rec.0), [rec.1], closed, out)
  {
    var rec := parse(lines[i]).value;
    var before := Parsed(lines[..i], parse);
    ParsedStep(lines, i, parse);
    assert Parsed(lines[..i + 1], parse) == before + [rec];
    if current.Some? {
      var open := Run(current.value, values);
      GroupRunsOpens(before, rec, closed + [open]);
      FlatEmitConcat(closed, [open], flush);
      assert FlatEmit([open], flush) == flush(open) by {
        assert [open][..0] == [];
      }
    } else {
      GroupRunsOpens(before, rec, []);
    }
  }

  lemma ScanEnd<L, K, V, O>(lines: seq<L>, parse: L -> Option<(K, V)>, flush: Run<K, V> -> seq<O>,
                            current: Option<K>, values: seq<V>, closed: seq<Run<K, V>>, out: seq<O>)
    requires ScanState(lines, |lines|, parse, flush, current, values, closed, out)
    ensures Reduce(lines, parse, flush) ==
      if current.Some? then out + flush(Run(current.value, values)) else out
  {
    assert lines[..|lines|] == lines;
    if current.Some? {
      var open := Run(current.value, values);
      FlatEmitConcat(closed, [open], flush);
      assert FlatEmit([open], flush) == flush(open) by {
        assert [open][..0] == [];
      }
    }
  }
}

=== FILE: sales.dfy ===
/**
 Sales totals under two keys (lab3, 3.3): the mapper skips the header line,
 computes `quantity * price` for every five-field CSV row and emits it under
 `region_<region>` and `product_<product>`; the reducer sums each run and
 splits its key at the first '_' into category and name.

 The CSV parser is not modelled: each input line arrives as the fields the
 `csv` module reads from it, or None where it raises.
 */
module Sales {
  import opened Wrappers
  import opened Text
  import opened Numbers
  import opened Runs
  import opened Lines

  // ---------------------------------------------------------------------------
  // Mapper
  // ---------------------------------------------------------------------------

  /** The two pairs a data row emits: none unless the row has five fields and integer quantity and price. */
  function MapRow(row: Option<seq<string>>): (out: seq<(string, int)>)
    ensures |out| == 0 || |out| == 2
    ensures |out| == 2 <==>
      row.Some? && |row.value| == 5 && ParseInt(row.value[3]).Some? && ParseInt(row.value[4]).Some?
    ensures |out| == 2 ==>
      var total := ParseInt(row.value[3]).value * ParseInt(row.value[4]).value;
      out[0] == ("region_" + row.value[2], total) && out[1] == ("product_" + row.value[1], total)
  {
    if row.None? || |row.value| != 5 then []
    else
      var product, region := row.value[1], row.value[2];
      match (ParseInt(row.value[3]), ParseInt(row.value[4]))
      case (Some(quantity), Some(price)) =>
        var total := quantity * price;
        [("region_" + region, total), ("product_" + product, total)]
      case _ => []
  }

  /** The mapper's output: the first line is the header and is always skipped. */
  function MapRows(rows: seq<Option<seq<string>>>): seq<(string, int)>
  {
    if |rows| <= 1 then [] else MapData(rows[1..])
  }

  function MapData(rows: seq<Option<seq<string>>>): seq<(string, int)>
  {
    if |rows| == 0 then [] else MapData(rows[..|rows| - 1]) + MapRow(rows[|rows| - 1])
  }

  /** Whatever the first line holds, it contributes nothing. */
  lemma HeaderIgnored(header: Option<seq<string>>, other: Option<seq<string>>, rows: seq<Option<seq<string>>>)
    ensures MapRows([header] + rows) == MapRows([other] + rows)
  {
    assert ([header] + rows)[1..] == rows == ([other] + rows)[1..];
  }

  /** The mapper's region and product keys split back, at the first '_', into category and name. */
  lemma KeySplits(category: string, name: string)
    requires category == "region" || category == "product"
    ensures SplitAtFirst(category + "_" + name, '_') == Some((category, name))
  {
    SplitAtFirstOf(category, '_', name);
  }

  // ---------------------------------------------------------------------------
  // Reducer
  // ---------------------------------------------------------------------------

  /** `key, value = line.strip().split('\t'); value = int(value)`; None where either raises. */
  function ParseSale(line: string): (r: Option<(string, int)>)
    ensures r.Some? <==> TwoFields(line).Some? && ParseInt(TwoFields(line).value.1).Some?
    ensures r.Some? ==> r.value == (TwoFields(line).value.0, ParseInt(TwoFields(line).value.1).value)
  {
    match TwoFields(line)
    case None => None
    case Some((key, value)) =>
      match ParseInt(value)
      case None => None
      case Some(v) => Some((key, v))
  }

  /** `(category, name, total)` for a run with a non-empty key; a key without '_' is excluded by SplittableKeys. */
  function Flush(r: Run<string, int>): seq<(string, string, int)>
  {
    if r.key == "" then []
    else
      match SplitAtFirst(r.key, '_')
      case None => []
      case Some((category, name)) => [(category, name, Sum(r.values))]
  }

  function ReduceLines(lines: seq<string>): seq<(string, string, int)>
  {
    Reduce(lines, ParseSale, Flush)
  }

  /**
   `current_key.split('_', 1)` runs at flush time inside the loop's try: a
   non-empty key without '_' would throw away the following record, and at
   end of input would abort the job. The model assumes every flushed key has one.
   */
  predicate SplittableKeys(lines: seq<string>)
  {
    forall k :: k in Keys(Parsed(lines, ParseSale)) ==> k == "" || '_' in k
  }

  /**
   With equal keys adjacent and every key splittable, `(category, name, n)` is
   written exactly when `category_name` is a key of the input, category has
   no '_', and n is the sum of that key's values.
   */
  lemma Totals(lines: seq<string>, category: string, name: string, n: int)
    requires Grouped(Parsed(lines, ParseSale)) && SplittableKeys(lines)
    ensures (category, name, n) in ReduceLines(lines) <==>
      var key := category + "_" + name;
      '_' !in category && key in Keys(Parsed(lines, ParseSale)) && n == Sum(ValuesOf(Parsed(lines, ParseSale), key))
  {
    var rs := Parsed(lines, ParseSale);
    var key := category + "_" + name;
    ReduceGrouped(rs, Flush, (category, name, n));
    if (category, name, n) in ReduceLines(lines) {
      var k :| k in Keys(rs) && (category, name, n) in Flush(Run(k, ValuesOf(rs, k)));
      FlushHas(k, ValuesOf(rs, k), category, name, n);
    }
    FlushHas(key, ValuesOf(rs, key), category, name, n);
  }

  /** A run writes `(category, name, n)` exactly when its key is `category_name` with no '_' in category and n is its sum. */
  lemma FlushHas(k: string, vs: seq<int>, category: string, name: string, n: int)
    ensures (category, name, n) in Flush(Run(k, vs)) <==>
      k == category + "_" + name && '_' !in category && n == Sum(vs)
  {
    if k == category + "_" + name && '_' !in category {
      SplitAtFirstOf(category, '_', name);
    }
  }

  lemma FlushPermutation(key: string, a: seq<int>, b: seq<int>)
    requires multiset(a) == multiset(b)
    ensures Flush(Run(key, a)) == Flush(Run(key, b))
  {
    SumPermutation(a, b);
  }

  lemma MalformedLineSkipped(a: seq<string>, line: string, b: seq<string>)
    requires ParseSale(line).None?
    ensures ReduceLines(a + [line] + b) == ReduceLines(a + b)
  {
    SkippedLine(a, line, b, ParseSale, Flush);
  }
}

=== FILE: stock_ticks.dfy ===
/**
 Secondary sorting with composite keys (lab3, 3.6). The mapper keys every
 five-field CSV tick by `symbol_date` and passes time, price and volume on;
 the reducer collects each run of equal keys, sorts its ticks by time (a
 stable sort on the time string) and writes the day's open, high, low and
 close prices and its total volume.

 The CSV parser is not modelled: the mapper receives each line's fields.
 */
module StockTicks {
  import opened Wrappers
  import opened Text
  import opened Numbers
  import opened Runs
  import opened Lines

  // ---------------------------------------------------------------------------
  // Mapper
  // ---------------------------------------------------------------------------

  /** `date, symbol, time, price, volume = row` for a five-field non-header row, printed as key, time, price, volume. */
  function MapRow(row: seq<string>): (out: Option<seq<string>>)
    ensures out.Some? <==> |row| == 5 && row[0] != "date"
    ensures out.Some? ==> out.value == [row[1] + "_" + row[0], row[2], row[3], row[4]]
  {
    if |row| == 5 && row[0] != "date" then Some([row[1] + "_" + row[0], row[2], row[3], row[4]]) else None
  }

  /** A composite key splits back into symbol and date when neither contains '_'. */
  lemma CompositeKeySplits(symbol: string, date: string)
    requires '_' !in symbol && '_' !in date
    ensures Split(symbol + "_" + date, '_') == [symbol, date]
  {
    SplitOf(symbol, '_', date);
    assert Find(date, '_') == |date|;
  }

  /** A key that splits into two parts is those parts joined by '_'. */
  lemma KeyOfTwoParts(key: string)
    requires |Split(key, '_')| == 2
    ensures var parts := Split(key, '_');
      key == parts[0] + "_" + parts[1] && '_' !in parts[0] && '_' !in parts[1]
  {
    var parts := Split(key, '_');
    assert parts[1..] == [parts[1]];
    assert Join(parts, '_') == parts[0] + ['_'] + Join(parts[1..], '_');
  }

  // ---------------------------------------------------------------------------
  // Ticks and the stable sort by time
  // ---------------------------------------------------------------------------

  /**
   `(time, price, volume)` as read from a line. The reducer converts price and
   volume only when it flushes the day; the conversions are carried here, None
   where `float(p[1])` or `int(p[2])` would raise.
   */
  datatype Tick = Tick(time: string, price: Option<real>, volume: Option<int>)

  /** `parts = line.strip().split('\t')` with at least four parts; None where an index raises. */
  function ParseTick(line: string): (r: Option<(string, Tick)>)
    ensures r.Some? <==> |Fields(line)| >= 4
    ensures r.Some? ==> var fs := Fields(line);
      r.value == (fs[0], Tick(fs[1], ParseDecimal(fs[2]), ParseInt(fs[3])))
  {
    var fs := Fields(line);
    if |fs| < 4 then None else Some((fs[0], Tick(fs[1], ParseDecimal(fs[2]), ParseInt(fs[3]))))
  }

  lemma StrLeTransitive(a: string, b: string, c: string)
    requires StrLe(a, b) && StrLe(b, c)
    ensures StrLe(a, c)
  {
    if a != b && b != c {
      StrLtTransitive(a, b, c);
    }
  }

  predicate SortedByTime(ts: seq<Tick>)
  {
    forall i, j :: 0 <= i < j < |ts| ==> StrLe(ts[i].time, ts[j].time)
  }

  /** Inserting a tick that came before all of s: it goes in front of the first tick not earlier than it. */
  function InsertTick(x: Tick, s: seq<Tick>): (r: seq<Tick>)
    requires SortedByTime(s)
    ensures SortedByTime(r)
    ensures |r| == |s| + 1
    ensures r[0] == if |s| == 0 || StrLe(x.time, s[0].time) then x else s[0]
  {
    if |s| == 0 || StrLe(x.time, s[0].time) then
      forall j | 0 <= j < |s| ensures StrLe(x.time, s[j].time) {
        if j > 0 {
          StrLeTransitive(x.time, s[0].time, s[j].time);
        }
      }
      [x] + s
    else
      StrLtTotal(x.time, s[0].time);
      var t := InsertTick(x, s[1..]);
      assert s == [s[0]] + s[1..];
      assert StrLe(s[0].time, t[0].time);
      forall j | 0 < j < |t| ensures StrLe(s[0].time, t[j].time) {
        StrLeTransitive(s[0].time, t[0].time, t[j].time);
      }
      [s[0]] + t
  }

  /** `prices.sort(key=lambda x: x[0])`: a stable sort by time. */
  function SortTicks(ts: seq<Tick>): (r: seq<Tick>)
    ensures SortedByTime(r)
    ensures |r| == |ts|
  {
    if |ts| == 0 then [] else InsertTick(ts[0], SortTicks(ts[1..]))
  }

  /** Inserting adds exactly the one tick. */
  lemma {:induction false} InsertTickPermutation(x: Tick, s: seq<Tick>)
    requires SortedByTime(s)
    ensures multiset(InsertTick(x, s)) == multiset(s) + multiset{x}
    decreases |s|
  {
    if |s| > 0 && !StrLe(x.time, s[0].time) {
      InsertTickPermutation(x, s[1..]);
      assert s == [s[0]] + s[1..];
      assert InsertTick(x, s) == [s[0]] + InsertTick(x, s[1..]);
    }
  }

  /** The sorted ticks are a permutation of the input. */
  lemma {:induction false} SortTicksPermutation(ts: seq<Tick>)
    ensures multiset(SortTicks(ts)) == multiset(ts)
    decreases |ts|
  {
    if |ts| > 0 {
      SortTicksPermutation(ts[1..]);
      InsertTickPermutation(ts[0], SortTicks(ts[1..]));
      assert ts == [ts[0]] + ts[1..];
    }
  }

  /** The first tick, in input order, of those with the earliest time. */
  function FirstEarliest(ts: seq<Tick>): Tick
    requires |ts| > 0
  {
    if |ts| == 1 then ts[0]
    else
      var m := FirstEarliest(ts[1..]);
      if StrLe(ts[0].time, m.time) then ts[0] else m
  }

  /** The last tick, in input order, of those with the latest time. */
  function LastLatest(ts: seq<Tick>): Tick
    requires |ts| > 0
  {
    if |ts| == 1 then ts[0]
    else
      var m := LastLatest(ts[1..]);
      if StrLe(ts[0].time, m.time) then m else ts[0]
  }

  /** FirstEarliest has the earliest time, and no tick before it has that time. */
  lemma {:induction false} FirstEarliestSpec(ts: seq<Tick>)
    requires |ts| > 0
    ensures exists i :: (0 <= i < |ts| && ts[i] == FirstEarliest(ts) &&
      (forall j :: 0 <= j < |ts| ==> StrLe(ts[i].time, ts[j].time)) &&
      (forall j :: 0 <= j < i ==> ts[j].time != ts[i].time))
    decreases |ts|
  {
    if |ts| > 1 {
      var rest := ts[1..];
      FirstEarliestSpec(rest);
      var k :| 0 <= k < |rest| && rest[k] == FirstEarliest(rest) &&
        (forall j :: 0 <= j < |rest| ==> StrLe(rest[k].time, rest[j].time)) &&
        (forall j :: 0 <= j < k ==> rest[j].time != rest[k].time);
      var m := rest[k];
      if StrLe(ts[0].time, m.time) {
        forall j | 0 < j < |ts| ensures StrLe(ts[0].time, ts[j].time) {
          assert ts[j] == rest[j - 1];
          StrLeTransitive(ts[0].time, m.time, ts[j].time);
        }
        assert ts[0] == FirstEarliest(ts);
      } else {
        StrLtTotal(ts[0].time, m.time);
        assert ts[k + 1] == m;
        forall j | 0 <= j < k + 1 ensures ts[j].time != m.time {
          if j > 0 {
            assert ts[j] == rest[j - 1];
          }
        }
        assert StrLe(m.time, ts[0].time);
        forall j | 0 <= j < |ts| ensures StrLe(m.time, ts[j].time) {
          if j > 0 {
            assert ts[j] == rest[j - 1];
          }
        }
        assert ts[k + 1] == FirstEarliest(ts);
      }
    } else {
      assert StrLe(ts[0].time, ts[0].time);
    }
  }

  /** LastLatest has the latest time, and no tick after it has that time. */
  lemma {:induction false} LastLatestSpec(ts: seq<Tick>)
    requires |ts| > 0
    ensures exists i :: (0 <= i < |ts| && ts[i] == LastLatest(ts) &&
      (forall j :: 0 <= j < |ts| ==> StrLe(ts[j].time, ts[i].time)) &&
      (forall j :: i < j < |ts| ==> ts[j].time != ts[i].time))
    decreases |ts|
  {
    if |ts| > 1 {
      var rest := ts[1..];
      LastLatestSpec(rest);
      var k :| 0 <= k < |rest| && rest[k] == LastLatest(rest) &&
        (forall j :: 0 <= j < |rest| ==> StrLe(rest[j].time, rest[k].time)) &&
        (forall j :: k < j < |rest| ==> rest[j].time != rest[k].time);
      var m := rest[k];
      assert ts[k + 1] == m;
      if StrLe(ts[0].time, m.time) {
        forall j | k + 1 < j < |ts| ensures ts[j].time != m.time {
          assert ts[j] == rest[j - 1];
        }
        forall j | 0 <= j < |ts| ensures StrLe(ts[j].time, m.time) {
          if j > 0 {
            assert ts[j] == rest[j - 1];
          }
        }
        assert ts[k + 1] == LastLatest(ts);
      } else {
        StrLtTotal(ts[0].time, m.time);
        forall j | 0 < j < |ts| ensures StrLe(ts[j].time, ts[0].time) && ts[j].time != ts[0].time {
          assert ts[j] == rest[j - 1];
          StrLeTransitive(ts[j].time, m.time, ts[0].time);
        }
        assert ts[0] == LastLatest(ts);
      }
    } else {
      assert StrLe(ts[0].time, ts[0].time);
    }
  }

  /** The open price comes from the first of the earliest ticks, since the sort is stable. */
  lemma {:induction false} SortedFirst(ts: seq<Tick>)
    requires |ts| > 0
    ensures SortTicks(ts)[0] == FirstEarliest(ts)
    decreases |ts|
  {
    if |ts| > 1 {
      SortedFirst(ts[1..]);
    }
  }

  /** Where an inserted tick leaves the last position. */
  lemma {:induction false} InsertTickLast(x: Tick, s: seq<Tick>)
    requires SortedByTime(s)
    ensures var r := InsertTick(x, s);
      r[|r| - 1] == if |s| > 0 && StrLe(x.time, s[|s| - 1].time) then s[|s| - 1] else x
    decreases |s|
  {
    if |s| > 0 && !StrLe(x.time, s[0].time) {
      InsertTickLast(x, s[1..]);
      StrLtTotal(x.time, s[0].time);
      if |s| > 1 && !StrLe(x.time, s[|s| - 1].time) {
        StrLtTotal(x.time, s[|s| - 1].time);
      }
    } else if |s| > 0 {
      StrLeTransitive(x.time, s[0].time, s[|s| - 1].time);
    }
  }

  /** The close price comes from the last of the latest ticks, since the sort is stable. */
  lemma {:induction false} SortedLast(ts: seq<Tick>)
    requires |ts| > 0
    ensures SortTicks(ts)[|ts| - 1] == LastLatest(ts)
    decreases |ts|
  {
    InsertTickLast(ts[0], SortTicks(ts[1..]));
    if |ts| > 1 {
      SortedLast(ts[1..]);
    }
  }

  // ---------------------------------------------------------------------------
  // The daily bar
  // ---------------------------------------------------------------------------

  /** One output line: symbol, date, open, high, low, close, total volume. */
  datatype Bar = Bar(symbol: string, date: string, open: real, high: real, low: real, close: real, volume: int)

  /** `float(p[1])`; 0.0 where that would raise (excluded by Flushable). */
  function PriceOf(t: Tick): real
  {
    t.price.GetOr(0.0)
  }

  /** `int(p[2])`; 0 where that would raise (excluded by Flushable). */
  function VolumeOf(t: Tick): int
  {
    t.volume.GetOr(0)
  }

  function Prices(ts: seq<Tick>): seq<real>
  {
    Project(PriceOf, ts)
  }

  function Volumes(ts: seq<Tick>): seq<int>
  {
    Project(VolumeOf, ts)
  }

  predicate TicksParse(ts: seq<Tick>)
  {
    forall i :: 0 <= i < |ts| ==> ts[i].price.Some? && ts[i].volume.Some?
  }

  /**
   A run whose flush does not raise: a non-empty key splits into exactly a
   symbol and a date, and every price and volume converts.
   */
  predicate Flushable(r: Run<string, Tick>)
  {
    r.key == "" || (|Split(r.key, '_')| == 2 && TicksParse(r.values))
  }

  /** `process_daily_data`, run only for a non-empty key: the bar of the run's ticks after sorting them by time. */
  function Flush(r: Run<string, Tick>): seq<Bar>
  {
    var parts := Split(r.key, '_');
    if r.key == "" || |r.values| == 0 || |parts| != 2 || !TicksParse(r.values) then []
    else
      var prices := Prices(SortTicks(r.values));
      [Bar(parts[0], parts[1], prices[0], RMax(prices), RMin(prices), prices[|prices| - 1],
           Sum(Volumes(SortTicks(r.values))))]
  }

  function ReduceLines(lines: seq<string>): seq<Bar>
  {
    Reduce(lines, ParseTick, Flush)
  }

  /** A flushable run's bar, stated without the sort. */
  lemma FlushBar(k: string, ts: seq<Tick>)
    requires k != "" && |ts| > 0 && |Split(k, '_')| == 2 && TicksParse(ts)
    ensures var parts := Split(k, '_');
      Flush(Run(k, ts)) == [Bar(parts[0], parts[1], PriceOf(FirstEarliest(ts)), RMax(Prices(ts)), RMin(Prices(ts)),
                                PriceOf(LastLatest(ts)), Sum(Volumes(ts)))]
  {
    SortedEnds(ts);
    SortedAggregates(ts);
  }

  /** After the sort, the first and last prices are those of the first earliest and the last latest tick. */
  lemma SortedEnds(ts: seq<Tick>)
    requires |ts| > 0
    ensures var ps := Prices(SortTicks(ts));
      ps[0] == PriceOf(FirstEarliest(ts)) && ps[|ps| - 1] == PriceOf(LastLatest(ts))
  {
    var sorted := SortTicks(ts);
    SortedFirst(ts);
    SortedLast(ts);
    PriceAt(sorted, 0);
    PriceAt(sorted, |ts| - 1);
  }

  lemma PriceAt(ts: seq<Tick>, i: nat)
    requires i < |ts|
    ensures |Prices(ts)| == |ts| && Prices(ts)[i] == PriceOf(ts[i])
  {
  }

  /** High, low and total volume do not depend on the sort. */
  lemma SortedAggregates(ts: seq<Tick>)
    requires |ts| > 0
    ensures var sorted := SortTicks(ts);
      RMax(Prices(sorted)) == RMax(Prices(ts)) && RMin(Prices(sorted)) == RMin(Prices(ts)) &&
      Sum(Volumes(sorted)) == Sum(Volumes(ts))
  {
    var sorted := SortTicks(ts);
    SortTicksPermutation(ts);
    ProjectPermutation(PriceOf, sorted, ts);
    ProjectPermutation(VolumeOf, sorted, ts);
    RMaxPermutation(Prices(sorted), Prices(ts));
    RMinPermutation(Prices(sorted), Prices(ts));
    SumPermutation(Volumes(sorted), Volumes(ts));
  }

  /** A single tick is its own open, close, high and low, and its volume is the bar's. */
  lemma SingleTick(k: string, t: Tick)
    requires k != "" && |Split(k, '_')| == 2 && t.price.Some? && t.volume.Some?
    ensures var parts := Split(k, '_'); var p := t.price.value;
      Flush(Run(k, [t])) == [Bar(parts[0], parts[1], p, p, p, p, t.volume.value)]
  {
    FlushBar(k, [t]);
    assert Prices([t]) == [t.price.value];
    assert Volumes([t]) == [t.volume.value];
  }

  /** What one run writes, stated without the sort: open and close come from the first earliest and the last latest tick. */
  lemma FlushHas(k: string, ts: seq<Tick>, b: Bar)
    ensures b in Flush(Run(k, ts)) <==>
      var parts := Split(k, '_');
      k != "" && |ts| > 0 && |parts| == 2 && b.symbol == parts[0] && b.date == parts[1] && TicksParse(ts) &&
      b.open == PriceOf(FirstEarliest(ts)) && b.close == PriceOf(LastLatest(ts)) &&
      b.high == RMax(Prices(ts)) && b.low == RMin(Prices(ts)) && b.volume == Sum(Volumes(ts))
  {
    var parts := Split(k, '_');
    if k != "" && |ts| > 0 && |parts| == 2 && TicksParse(ts) {
      FlushBar(k, ts);
      var bar := Bar(parts[0], parts[1], PriceOf(FirstEarliest(ts)), RMax(Prices(ts)), RMin(Prices(ts)),
                     PriceOf(LastLatest(ts)), Sum(Volumes(ts)));
      assert Flush(Run(k, ts)) == [bar];
      assert b in [bar] <==> b == bar;
    } else {
      assert Flush(Run(k, ts)) == [];
    }
  }

  /** Every tick's price lies between the run's low and high. */
  lemma PriceWithin(ts: seq<Tick>, i: nat)
    requires i < |ts|
    ensures RMin(Prices(ts)) <= PriceOf(ts[i]) <= RMax(Prices(ts))
  {
    PriceAt(ts, i);
  }

  /**
   With equal keys adjacent and every flush safe, a bar is written exactly
   when its symbol and date, neither containing '_', name a key of the input
   whose ticks open at the first earliest price, close at the last latest one,
   and have the bar's high, low and total volume.
   */
  lemma Bars(lines: seq<string>, b: Bar)
    requires Grouped(Parsed(lines, ParseTick))
    requires forall k :: k in Keys(Parsed(lines, ParseTick)) ==>
      Flushable(Run(k, ValuesOf(Parsed(lines, ParseTick), k)))
    ensures b in ReduceLines(lines) <==>
      var ts := ValuesOf(Parsed(lines, ParseTick), b.symbol + "_" + b.date);
      '_' !in b.symbol && '_' !in b.date && |ts| > 0 &&
      b.open == PriceOf(FirstEarliest(ts)) && b.close == PriceOf(LastLatest(ts)) &&
      b.high == RMax(Prices(ts)) && b.low == RMin(Prices(ts)) && b.volume == Sum(Volumes(ts))
  {
    var rs := Parsed(lines, ParseTick);
    var key := b.symbol + "_" + b.date;
    var ts := ValuesOf(rs, key);
    ReduceGrouped(rs, Flush, b);
    if b in ReduceLines(lines) {
      var k :| k in Keys(rs) && b in Flush(Run(k, ValuesOf(rs, k)));
      FlushHas(k, ValuesOf(rs, k), b);
      KeyOfTwoParts(k);
    }
    if '_' !in b.symbol && '_' !in b.date && |ts| > 0 {
      CompositeKeySplits(b.symbol, b.date);
      ValuesOfKey(rs, key);
    }
    FlushHas(key, ts, b);
  }

  /** Open and close lie between the day's low and high. */
  lemma BarWithinRange(lines: seq<string>, b: Bar)
    requires Grouped(Parsed(lines, ParseTick))
    requires forall k :: k in Keys(Parsed(lines, ParseTick)) ==>
      Flushable(Run(k, ValuesOf(Parsed(lines, ParseTick), k)))
    requires b in ReduceLines(lines)
    ensures b.low <= b.open <= b.high && b.low <= b.close <= b.high
  {
    Bars(lines, b);
    var ts := ValuesOf(Parsed(lines, ParseTick), b.symbol + "_" + b.date);
    FirstEarliestSpec(ts);
    LastLatestSpec(ts);
    var i :| 0 <= i < |ts| && ts[i] == FirstEarliest(ts);
    var j :| 0 <= j < |ts| && ts[j] == LastLatest(ts);
    PriceWithin(ts, i);
    PriceWithin(ts, j);
  }

  lemma MalformedLineSkipped(a: seq<string>, line: string, b: seq<string>)
    requires ParseTick(line).None?
    ensures ReduceLines(a + [line] + b) == ReduceLines(a + b)
  {
    SkippedLine(a, line, b, ParseTick, Flush);
  }
}

=== FILE: temperature.dfy ===
/**
 Yearly maximum temperature (lab3, 3.2): the mapper keys each
 `date<TAB>temperature` line by the year in front of the first '-' of the
 date and passes the temperature text through; the reducer keeps the maximum
 of each run of equal years.
 */
module Temperature {
  import opened Wrappers
  import opened Text
  import opened Numbers
  import opened Runs
  import opened Lines

  // ---------------------------------------------------------------------------
  // Mapper
  // ---------------------------------------------------------------------------

  /** `date, temperature = line.strip().split('\t'); year = date.split('-')[0]`. */
  function MapLine(line: string): (r: Option<(string, string)>)
    ensures r.Some? <==> TwoFields(line).Some?
    ensures r.Some? ==> '-' !in r.value.0
    ensures r.Some? ==> var date := TwoFields(line).value.0;
      r.value.0 == date || r.value.0 + "-" <= date
    ensures r.Some? ==> r.value.1 == TwoFields(line).value.1
  {
    match TwoFields(line)
    case None => None
    case Some((date, temperature)) => Some((BeforeFirst(date, '-'), temperature))
  }

  /** The key of a date `yyyy-mm-dd` is the part before its first '-', the year. */
  lemma YearOfIsoDate(yyyy: string, rest: string)
    requires '-' !in yyyy
    ensures BeforeFirst(yyyy + "-" + rest, '-') == yyyy
  {
    SplitAtFirstOf(yyyy, '-', rest);
    var s := yyyy + "-" + rest;
    assert Find(s, '-') == |yyyy|;
    assert s[..|yyyy|] == yyyy;
  }

  // ---------------------------------------------------------------------------
  // Reducer
  // ---------------------------------------------------------------------------

  /** `year, temp = line.strip().split('\t'); temp = int(temp)`; None where either raises ValueError. */
  function ParseTemperature(line: string): (r: Option<(string, int)>)
    ensures r.Some? <==> TwoFields(line).Some? && ParseInt(TwoFields(line).value.1).Some?
    ensures r.Some? ==> r.value == (TwoFields(line).value.0, ParseInt(TwoFields(line).value.1).value)
  {
    match TwoFields(line)
    case None => None
    case Some((year, temp)) =>
      match ParseInt(temp)
      case None => None
      case Some(t) => Some((year, t))
  }

  /** A year's run writes its maximum; the empty year is never written. Runs are never empty. */
  function Flush(r: Run<string, int>): seq<(string, int)>
  {
    if r.key == "" || |r.values| == 0 then [] else [(r.key, Max(r.values))]
  }

  function ReduceLines(lines: seq<string>): seq<(string, int)>
  {
    Reduce(lines, ParseTemperature, Flush)
  }

  /**
   With equal years adjacent, `(year, m)` is written exactly when the year is
   a non-empty year of the input and m is the largest of its temperatures: m is
   one of them and no temperature of the year exceeds it.
   */
  lemma Maxima(lines: seq<string>, year: string, m: int)
    requires Grouped(Parsed(lines, ParseTemperature))
    ensures (year, m) in ReduceLines(lines) <==>
      var temps := ValuesOf(Parsed(lines, ParseTemperature), year);
      year != "" && |temps| > 0 && m == Max(temps)
    ensures (year, m) in ReduceLines(lines) ==>
      var temps := ValuesOf(Parsed(lines, ParseTemperature), year);
      m in temps && forall i :: 0 <= i < |temps| ==> temps[i] <= m
  {
    var rs := Parsed(lines, ParseTemperature);
    ReduceGrouped(rs, Flush, (year, m));
    ValuesOfKey(rs, year);
    FlushHas(year, ValuesOf(rs, year), (year, m));
    if (year, m) in ReduceLines(lines) {
      var k :| k in Keys(rs) && (year, m) in Flush(Run(k, ValuesOf(rs, k)));
      FlushHas(k, ValuesOf(rs, k), (year, m));
    }
  }

  /** A run writes o exactly when o is its non-empty year with the maximum of its temperatures. */
  lemma FlushHas(k: string, temps: seq<int>, o: (string, int))
    ensures o in Flush(Run(k, temps)) <==> o.0 == k && k != "" && |temps| > 0 && o.1 == Max(temps)
  {
  }

  /** Permuting the temperatures of a run does not change what it writes. */
  lemma FlushPermutation(year: string, a: seq<int>, b: seq<int>)
    requires multiset(a) == multiset(b)
    ensures Flush(Run(year, a)) == Flush(Run(year, b))
  {
    if |a| > 0 {
      MaxPermutation(a, b);
    } else {
      assert |multiset(b)| == 0;
    }
  }

  lemma MalformedLineSkipped(a: seq<string>, line: string, b: seq<string>)
    requires ParseTemperature(line).None?
    ensures ReduceLines(a + [line] + b) == ReduceLines(a + b)
  {
    SkippedLine(a, line, b, ParseTemperature, Flush);
  }
}

=== FILE: text.dfy ===
/**
 The string operations of Python's `str` that every mapper and reducer of the
 jobs relies on: whitespace stripping, splitting on a separator, case mapping,
 substring search, and the `int()`/`float()` conversions of a field.
 Characters are Unicode code points (`char`); case mapping is ASCII only.
 */
module Text {
  import opened Wrappers

  // ---------------------------------------------------------------------------
  // Character classes
  // ---------------------------------------------------------------------------

  /** Python's `str.isspace()`: the characters `strip()` and `split()` treat as whitespace. */
  predicate IsSpace(c: char)
  {
    || ('\t' <= c <= '\r')
    || ('\U{1C}' <= c <= ' ')
    || c == '\U{85}' || c == '\U{A0}' || c == '\U{1680}'
    || ('\U{2000}' <= c <= '\U{200A}')
    || c == '\U{2028}' || c == '\U{2029}' || c == '\U{202F}' || c == '\U{205F}' || c == '\U{3000}'
  }

  predicate IsDigit(c: char) { '0' <= c <= '9' }
  predicate IsUpper(c: char) { 'A' <= c <= 'Z' }
  predicate IsLower(c: char) { 'a' <= c <= 'z' }
  predicate IsCased(c: char) { IsUpper(c) || IsLower(c) }

  /**
   The regular-expression class `\w`, restricted to ASCII: letters, digits and
   underscore. Python's `\w` on `str` also takes the non-ASCII letters and digits.
   */
  predicate IsWordChar(c: char) { IsCased(c) || IsDigit(c) || c == '_' }

  function LowerChar(c: char): (d: char)
    ensures !IsUpper(d)
    ensures IsUpper(c) || d == c
  {
    if IsUpper(c) then (c as int + 32) as char else c
  }

  function UpperChar(c: char): (d: char)
    ensures !IsLower(d)
    ensures IsLower(c) || d == c
  {
    if IsLower(c) then (c as int - 32) as char else c
  }

  // ---------------------------------------------------------------------------
  // Case mapping
  // ---------------------------------------------------------------------------

  /** `str.lower()`. */
  function Lower(s: string): (r: string)
    ensures |r| == |s|
    ensures forall i :: 0 <= i < |s| ==> r[i] == LowerChar(s[i])
  {
    seq(|s|, i requires 0 <= i < |s| => LowerChar(s[i]))
  }

  /** `str.upper()`. */
  function Upper(s: string): (r: string)
    ensures |r| == |s|
    ensures forall i :: 0 <= i < |s| ==> r[i] == UpperChar(s[i])
  {
    seq(|s|, i requires 0 <= i < |s| => UpperChar(s[i]))
  }

  /** `str.title()`: a letter is upper-cased when the character before it is not a letter. */
  function Title(s: string): (r: string)
    ensures |r| == |s|
  {
    seq(|s|, i requires 0 <= i < |s| =>
      if i > 0 && IsCased(s[i - 1]) then LowerChar(s[i]) else UpperChar(s[i]))
  }

  lemma LowerIdempotent(s: string)
    ensures Lower(Lower(s)) == Lower(s)
  {
  }

  lemma LowerConcat(a: string, b: string)
    ensures Lower(a + b) == Lower(a) + Lower(b)
  {
    assert forall i :: 0 <= i < |a + b| ==> Lower(a + b)[i] == (Lower(a) + Lower(b))[i];
  }

  // ---------------------------------------------------------------------------
  // Whitespace
  // ---------------------------------------------------------------------------

  /** Length of the longest prefix of s whose characters are all whitespace (spaces == true) or all not. */
  function Span(s: string, spaces: bool): (n: nat)
    ensures n <= |s|
    ensures forall k :: 0 <= k < n ==> IsSpace(s[k]) == spaces
    ensures n < |s| ==> IsSpace(s[n]) != spaces
  {
    if |s| > 0 && IsSpace(s[0]) == spaces then 1 + Span(s[1..], spaces) else 0
  }

  /** Number of whitespace characters at the end of s. */
  function TrailingSpace(s: string): (n: nat)
    ensures n <= |s|
    ensures forall k :: |s| - n <= k < |s| ==> IsSpace(s[k])
    ensures n < |s| ==> !IsSpace(s[|s| - n - 1])
  {
    if |s| > 0 && IsSpace(s[|s| - 1]) then 1 + TrailingSpace(s[..|s| - 1]) else 0
  }

  /** `str.strip()` with no argument: leading and trailing whitespace removed. */
  function Strip(s: string): (r: string)
    ensures |r| <= |s|
    ensures |r| > 0 ==> !IsSpace(r[0]) && !IsSpace(r[|r| - 1])
    ensures Span(s, true) + |r| <= |s|
    ensures r == s[Span(s, true)..Span(s, true) + |r|]
    ensures forall k :: Span(s, true) + |r| <= k < |s| ==> IsSpace(s[k])
  {
    var t := s[Span(s, true)..];
    t[..|t| - TrailingSpace(t)]
  }

  lemma StripIdempotent(s: string)
    ensures Strip(Strip(s)) == Strip(s)
  {
    var r := Strip(s);
    assert Span(r, true) == 0;
  }

  // ---------------------------------------------------------------------------
  // Splitting and joining
  // ---------------------------------------------------------------------------

  /** Index of the first occurrence of c in s, or |s| when there is none. */
  function Find(s: string, c: char): (i: nat)
    ensures i <= |s|
    ensures forall k :: 0 <= k < i ==> s[k] != c
    ensures i < |s| ==> s[i] == c
  {
    if |s| == 0 || s[0] == c then 0 else 1 + Find(s[1..], c)
  }

  /** `sep.join(parts)`. */
  function Join(parts: seq<string>, sep: char): string
  {
    if |parts| == 0 then ""
    else if |parts| == 1 then parts[0]
    else parts[0] + [sep] + Join(parts[1..], sep)
  }

  /** `s.split(sep)` for a one-character separator: the fields between the occurrences of sep. */
  function Split(s: string, sep: char): (parts: seq<string>)
    ensures |parts| >= 1
    ensures forall i :: 0 <= i < |parts| ==> sep !in parts[i]
    ensures Join(parts, sep) == s
    decreases |s|
  {
    var i := Find(s, sep);
    if i == |s| then [s]
    else
      assert s == s[..i] + [sep] + s[i + 1..];
      [s[..i]] + Split(s[i + 1..], sep)
  }

  /** Splitting the join of separator-free fields gives the fields back. */
  lemma {:induction false} SplitJoin(parts: seq<string>, sep: char)
    requires |parts| >= 1
    requires forall i :: 0 <= i < |parts| ==> sep !in parts[i]
    ensures Split(Join(parts, sep), sep) == parts
  {
    if |parts| > 1 {
      var s := Join(parts, sep);
      var p, rest := parts[0], Join(parts[1..], sep);
      assert s == p + [sep] + rest;
      assert Split(s, sep) == [p] + Split(rest, sep) by {
        SplitOf(p, sep, rest);
      }
      assert Split(rest, sep) == parts[1..] by {
        SplitJoin(parts[1..], sep);
      }
      assert parts == [p] + parts[1..];
    } else {
      assert Join(parts, sep) == parts[0];
    }
  }

  /** `s.split(c, 1)` unpacked into two names: None when c does not occur (Python raises ValueError). */
  function SplitAtFirst(s: string, c: char): (r: Option<(string, string)>)
    ensures r.None? <==> c !in s
    ensures r.Some? ==> c !in r.value.0 && r.value.0 + [c] + r.value.1 == s
  {
    var i := Find(s, c);
    if i == |s| then None
    else
      assert s == s[..i] + [c] + s[i + 1..];
      Some((s[..i], s[i + 1..]))
  }

  /** The split at the first c of a text whose first c follows a. */
  lemma SplitAtFirstOf(a: string, c: char, b: string)
    requires c !in a
    ensures SplitAtFirst(a + [c] + b, c) == Some((a, b))
  {
    var s := a + [c] + b;
    assert s[|a|] == c;
    assert forall k :: 0 <= k < |a| ==> s[k] == a[k];
    assert Find(s, c) == |a|;
    assert s[..|a|] == a && s[|a| + 1..] == b;
  }

  /** Splitting at a first separator peels off the part in front of it. */
  lemma SplitOf(a: string, c: char, b: string)
    requires c !in a
    ensures Split(a + [c] + b, c) == [a] + Split(b, c)
  {
    var s := a + [c] + b;
    assert s[|a|] == c;
    assert forall k :: 0 <= k < |a| ==> s[k] == a[k];
    assert Find(s, c) == |a|;
    assert s[..|a|] == a && s[|a| + 1..] == b;
  }

  /** `s.split(c)` has one field more than s has occurrences of c. */
  lemma {:induction false} SplitCount(s: string, c: char)
    ensures |Split(s, c)| == Count(s, c) + 1
    decreases |s|
  {
    var i := Find(s, c);
    if i < |s| {
      var p, rest := s[..i], s[i + 1..];
      assert s == p + [c] + rest;
      assert c !in p by {
        assert forall k :: 0 <= k < |p| ==> p[k] == s[k];
      }
      assert Count(s, c) == 1 + Count(rest, c) by {
        assert s == p + ([c] + rest);
        CountConcat(p, [c] + rest, c);
        CountCons(c, rest, c);
      }
      assert |Split(s, c)| == 1 + |Split(rest, c)| by {
        SplitOf(p, c, rest);
      }
      SplitCount(rest, c);
    } else {
      assert c !in s;
    }
  }

  lemma CountCons(d: char, rest: string, c: char)
    ensures Count([d] + rest, c) == (if d == c then 1 else 0) + Count(rest, c)
  {
    assert ([d] + rest)[1..] == rest;
  }

  lemma {:induction false} CountConcat(a: string, b: string, c: char)
    ensures Count(a + b, c) == Count(a, c) + Count(b, c)
    decreases |a|
  {
    if |a| > 0 {
      assert (a + b)[1..] == a[1..] + b;
      CountConcat(a[1..], b, c);
    } else {
      assert a + b == b;
    }
  }

  /** The text before the first c (all of s when c does not occur): `s.split(c)[0]`. */
  function BeforeFirst(s: string, c: char): (r: string)
    ensures c !in r
    ensures r == s || r + [c] <= s
  {
    Split(s, c)[0]
  }

  /** `str.split()` with no argument: the maximal runs of non-whitespace characters. */
  function Words(s: string): (ws: seq<string>)
    ensures forall i :: 0 <= i < |ws| ==> |ws[i]| > 0 && NoSpace(ws[i])
    decreases |s|
  {
    var a := Span(s, true);
    if a == |s| then []
    else
      var t := s[a..];
      var n := Span(t, false);
      [t[..n]] + Words(t[n..])
  }

  predicate NoSpace(w: string) { forall k :: 0 <= k < |w| ==> !IsSpace(w[k]) }

  /** `str.split()` gives back words joined by single spaces. */
  lemma {:induction false} WordsJoin(ws: seq<string>)
    requires forall i :: 0 <= i < |ws| ==> |ws[i]| > 0 && NoSpace(ws[i])
    ensures Words(Join(ws, ' ')) == ws
    decreases |ws|
  {
    if |ws| == 1 {
      WordsSingle(ws[0]);
    } else if |ws| > 1 {
      var rest := Join(ws[1..], ' ');
      assert Join(ws, ' ') == ws[0] + " " + rest;
      assert |rest| > 0 && !IsSpace(rest[0]) by {
        JoinFirst(ws[1..], ' ');
      }
      assert Words(Join(ws, ' ')) == [ws[0]] + Words(rest) by {
        WordsCons(ws[0], rest);
      }
      assert Words(rest) == ws[1..] by {
        WordsJoin(ws[1..]);
      }
      assert ws == [ws[0]] + ws[1..];
    }
  }

  /** A join starts with the first character of its first part. */
  lemma JoinFirst(parts: seq<string>, sep: char)
    requires |parts| > 0 && |parts[0]| > 0
    ensures |Join(parts, sep)| > 0 && Join(parts, sep)[0] == parts[0][0]
  {
    if |parts| > 1 {
      var s := Join(parts, sep);
      assert s == parts[0] + ([sep] + Join(parts[1..], sep));
    }
  }

  lemma WordsSingle(w: string)
    requires |w| > 0 && NoSpace(w)
    ensures Words(w) == [w]
  {
    assert Span(w, true) == 0;
    var t := w[0..];
    assert t == w;
    SpanAll(w);
    var n := Span(t, false);
    assert t[..n] == w;
    assert Words(t[n..]) == [] by {
      assert t[n..] == [];
    }
    assert Words(w) == [t[..n]] + Words(t[n..]);
  }

  lemma {:induction false} SpanAll(w: string)
    requires NoSpace(w)
    ensures Span(w, false) == |w|
    decreases |w|
  {
    if |w| > 0 {
      SpanAll(w[1..]);
    }
  }

  lemma WordsCons(w: string, rest: string)
    requires |w| > 0 && NoSpace(w)
    requires |rest| > 0 && !IsSpace(rest[0])
    ensures Words(w + " " + rest) == [w] + Words(rest)
  {
    var s := w + " " + rest;
    assert s == w + (" " + rest);
    WordsFirst(w, " " + rest);
    assert (" " + rest)[1..] == rest;
    WordsLeadingSpace(" " + rest);
  }

  lemma WordsFirst(w: string, u: string)
    requires |w| > 0 && NoSpace(w)
    requires |u| > 0 && IsSpace(u[0])
    ensures Words(w + u) == [w] + Words(u)
  {
    var s := w + u;
    assert Span(s, true) == 0;
    assert s[0..] == s;
    SpanPrefix(w, u);
    assert s[..|w|] == w;
    assert s[|w|..] == u;
  }

  lemma WordsLeadingSpace(u: string)
    requires |u| > 0 && IsSpace(u[0])
    ensures Words(u) == Words(u[1..])
  {
    var a := Span(u, true);
    assert a == 1 + Span(u[1..], true);
    if a < |u| {
      var t, t' := u[a..], u[1..][a - 1..];
      assert t == t';
      assert Words(u) == [t[..Span(t, false)]] + Words(t[Span(t, false)..]);
    }
  }

  /** The leading run of non-whitespace of w + t is w when w has no whitespace and t starts with some. */
  lemma {:induction false} SpanPrefix(w: string, t: string)
    requires NoSpace(w)
    requires |t| > 0 && IsSpace(t[0])
    ensures Span(w + t, false) == |w|
    decreases |w|
  {
    if |w| > 0 {
      assert (w + t)[1..] == w[1..] + t;
      SpanPrefix(w[1..], t);
    } else {
      assert w + t == t;
    }
  }

  /** The characters of s for which keep holds, in order (`re.sub` with a negated character class). */
  function KeepChars(s: string, keep: char -> bool): (r: string)
    ensures |r| <= |s|
    ensures forall i :: 0 <= i < |r| ==> keep(r[i])
    ensures forall c :: c in r <==> c in s && keep(c)
  {
    if |s| == 0 then ""
    else
      var rest := KeepChars(s[1..], keep);
      assert forall c :: c in s <==> c == s[0] || c in s[1..];
      if keep(s[0]) then [s[0]] + rest else rest
  }

  lemma {:induction false} KeepCharsIdempotent(s: string, keep: char -> bool)
    ensures KeepChars(KeepChars(s, keep), keep) == KeepChars(s, keep)
    decreases |s|
  {
    if |s| > 0 {
      KeepCharsIdempotent(s[1..], keep);
      var rest := KeepChars(s[1..], keep);
      if keep(s[0]) {
        assert ([s[0]] + rest)[1..] == rest;
      }
    }
  }

  lemma {:induction false} KeepCharsLower(s: string, keep: char -> bool)
    ensures forall i :: 0 <= i < |KeepChars(Lower(s), keep)| ==> !IsUpper(KeepChars(Lower(s), keep)[i])
  {
    assert forall c :: c in Lower(s) ==> !IsUpper(c);
  }

  /**
   Filtering distributes over concatenation. With KeepCharsOne this fixes the
   filter exactly: every character is kept or dropped on its own, in place.
   */
  lemma {:induction false} KeepCharsConcat(a: string, b: string, keep: char -> bool)
    ensures KeepChars(a + b, keep) == KeepChars(a, keep) + KeepChars(b, keep)
    decreases |a|
  {
    if |a| > 0 {
      assert (a + b)[1..] == a[1..] + b;
      KeepCharsConcat(a[1..], b, keep);
    } else {
      assert a + b == b;
    }
  }

  /** A single character is kept iff it passes the test. */
  lemma KeepCharsOne(c: char, keep: char -> bool)
    ensures KeepChars([c], keep) == if keep(c) then [c] else ""
  {
    assert [c][1..] == "";
  }

  /** Text whose every character passes the test is kept whole. */
  lemma {:induction false} KeepCharsAll(s: string, keep: char -> bool)
    requires forall k :: 0 <= k < |s| ==> keep(s[k])
    ensures KeepChars(s, keep) == s
    decreases |s|
  {
    if |s| > 0 {
      KeepCharsAll(s[1..], keep);
    }
  }

  /** Text none of whose characters passes the test is dropped entirely. */
  lemma {:induction false} KeepCharsNone(s: string, keep: char -> bool)
    requires forall k :: 0 <= k < |s| ==> !keep(s[k])
    ensures KeepChars(s, keep) == ""
    decreases |s|
  {
    if |s| > 0 {
      KeepCharsNone(s[1..], keep);
    }
  }

  /** Number of occurrences of c in s (`s.count(c)`). */
  function Count(s: string, c: char): (n: nat)
    ensures n <= |s|
    ensures n == 0 <==> c !in s
  {
    if |s| == 0 then 0 else (if s[0] == c then 1 else 0) + Count(s[1..], c)
  }

  // ---------------------------------------------------------------------------
  // Substrings
  // ---------------------------------------------------------------------------

  predicate IsPrefix(p: string, s: string) { |p| <= |s| && s[..|p|] == p }

  /** Python's `p in s` for strings. */
  predicate Contains(s: string, p: string)
    decreases |s|
  {
    IsPrefix(p, s) || (|s| > 0 && Contains(s[1..], p))
  }

  /** p occurs in any text that has p in it. */
  lemma {:induction false} ContainsOf(a: string, p: string, b: string)
    ensures Contains(a + p + b, p)
    decreases |a|
  {
    if |a| == 0 {
      assert (a + p + b)[..|p|] == p;
    } else {
      ContainsOf(a[1..], p, b);
      assert (a + p + b)[1..] == a[1..] + p + b;
    }
  }

  /** Text without upper-case letters is its own lower case. */
  lemma LowerNoUpper(s: string)
    requires forall k :: 0 <= k < |s| ==> !IsUpper(s[k])
    ensures Lower(s) == s
  {
  }

  /** Text without whitespace is its own strip. */
  lemma StripNoSpace(s: string)
    requires forall k :: 0 <= k < |s| ==> !IsSpace(s[k])
    ensures Strip(s) == s
  {
    assert Span(s, true) == 0;
  }

  // ---------------------------------------------------------------------------
  // Numbers
  // ---------------------------------------------------------------------------

  predicate AllDigits(s: string) { forall k :: 0 <= k < |s| ==> IsDigit(s[k]) }

  function DigitValue(c: char): nat
    requires IsDigit(c)
  {
    c as int - '0' as int
  }

  function DigitChar(d: nat): (c: char)
    requires d < 10
    ensures IsDigit(c) && DigitValue(c) == d
  {
    ('0' as int + d) as char
  }

  /** Decimal value of a digit string. */
  function DigitsValue(s: string): nat
    requires AllDigits(s)
  {
    if |s| == 0 then 0 else 10 * DigitsValue(s[..|s| - 1]) + DigitValue(s[|s| - 1])
  }

  /** `str(n)` for a natural number. */
  function NatToString(n: nat): (s: string)
    ensures |s| > 0 && AllDigits(s)
    ensures DigitsValue(s) == n
    ensures |s| > 1 ==> s[0] != '0'
  {
    if n < 10 then [DigitChar(n)]
    else
      var s := NatToString(n / 10) + [DigitChar(n % 10)];
      assert s[..|s| - 1] == NatToString(n / 10);
      s
  }

  /** `str(i)` for an integer. */
  function IntToString(i: int): string
  {
    if i < 0 then "-" + NatToString(-i) else NatToString(i)
  }

  /** `f"{n:02d}"`: at least two digits, zero-padded. */
  function Pad2(n: nat): (s: string)
    ensures |s| >= 2 && AllDigits(s) && DigitsValue(s) == n
  {
    var d := NatToString(n);
    if n < 10 then
      var s := "0" + d;
      assert s[..|s| - 1] == "0";
      s
    else d
  }

  /** A non-empty digit string. */
  function ParseNat(s: string): (r: Option<nat>)
    ensures r.Some? <==> |s| > 0 && AllDigits(s)
    ensures r.Some? ==> r.value == DigitsValue(s)
  {
    if |s| > 0 && AllDigits(s) then Some(DigitsValue(s)) else None
  }

  /** Splits an optional leading sign off a stripped numeral: (negative, rest). */
  function Sign(t: string): (r: (bool, string))
    ensures r.1 == t || (|t| > 0 && (t[0] == '+' || t[0] == '-') && r.1 == t[1..])
  {
    if |t| > 0 && t[0] == '-' then (true, t[1..])
    else if |t| > 0 && t[0] == '+' then (false, t[1..])
    else (false, t)
  }

  /**
   Python's `int(s)` on a string: surrounding whitespace, an optional sign, and
   one or more decimal digits; None where Python raises ValueError.
   */
  function ParseInt(s: string): (r: Option<int>)
  {
    var (neg, body) := Sign(Strip(s));
    match ParseNat(body)
    case None => None
    case Some(n) =>
      var v: int := if neg then 0 - n as int else n as int;
      Some(v)
  }

  /** `int(str(i)) == i`. */
  lemma ParseIntToString(i: int)
    ensures ParseInt(IntToString(i)) == Some(i)
  {
    if i < 0 {
      ParseNegative(i);
    } else {
      ParseNonNegative(i);
    }
  }

  lemma ParseNonNegative(i: int)
    requires i >= 0
    ensures ParseInt(IntToString(i)) == Some(i)
  {
    var n: nat := i;
    var d := NatToString(n);
    assert IntToString(i) == d;
    assert Strip(d) == d by {
      assert forall k :: 0 <= k < |d| ==> !IsSpace(d[k]);
      StripNoSpace(d);
    }
    assert Sign(d) == (false, d) by {
      assert IsDigit(d[0]);
    }
    assert ParseNat(d) == Some(n);
  }

  lemma ParseNegative(i: int)
    requires i < 0
    ensures ParseInt(IntToString(i)) == Some(i)
  {
    var n: nat := -i;
    var d := NatToString(n);
    var s := IntToString(i);
    assert s == "-" + d;
    SignedNumeral(d);
    assert ParseNat(d) == Some(n);
  }

  /** A minus sign before a numeral survives `strip()` and is read as the sign. */
  lemma SignedNumeral(d: string)
    requires |d| > 0 && AllDigits(d)
    ensures Strip("-" + d) == "-" + d && Sign("-" + d) == (true, d)
  {
    var s := "-" + d;
    assert s[0] == '-' && s[1..] == d;
    assert forall k :: 0 <= k < |s| ==> !IsSpace(s[k]) by {
      assert forall k :: 1 <= k < |s| ==> s[k] == d[k - 1];
    }
    StripNoSpace(s);
  }

  function Pow10(k: nat): (p: nat)
    ensures p >= 1
  {
    if k == 0 then 1 else 10 * Pow10(k - 1)
  }

  /** The unsigned decimal numeral `digits[.digits]` with at least one digit. */
  function ParseUnsignedDecimal(body: string): (r: Option<real>)
    ensures r.Some? ==> r.value >= 0.0
  {
    match SplitAtFirst(body, '.')
    case None =>
      if |body| > 0 && AllDigits(body) then Some(DigitsValue(body) as real) else None
    case Some((whole, frac)) =>
      if |whole| + |frac| > 0 && AllDigits(whole) && AllDigits(frac)
      then Some(DigitsValue(whole) as real + DigitsValue(frac) as real / Pow10(|frac|) as real)
      else None
  }

  /**
   Python's `float(s)` on plain decimal notation: surrounding whitespace, an
   optional sign, digits with at most one decimal point; None where Python
   raises ValueError.
   */
  function ParseDecimal(s: string): (r: Option<real>)
  {
    var (neg, body) := Sign(Strip(s));
    match ParseUnsignedDecimal(body)
    case None => None
    case Some(x) => Some(if neg then -x else x)
  }

  /** Every string `int()` accepts, `float()` accepts with the same value. */
  lemma ParseIntIsDecimal(s: string)
    requires ParseInt(s).Some?
    ensures ParseDecimal(s) == Some(ParseInt(s).value as real)
  {
    var (neg, body) := Sign(Strip(s));
    assert '.' !in body by {
      assert AllDigits(body);
    }
  }

  // ---------------------------------------------------------------------------
  // Lexicographic order (Python's `<` on str: code point by code point)
  // ---------------------------------------------------------------------------

  predicate StrLt(a: string, b: string)
    decreases |a|
  {
    if |a| == 0 then |b| > 0
    else if |b| == 0 then false
    else a[0] < b[0] || (a[0] == b[0] && StrLt(a[1..], b[1..]))
  }

  predicate StrLe(a: string, b: string) { a == b || StrLt(a, b) }

  lemma {:induction false} StrLtIrreflexive(a: string)
    ensures !StrLt(a, a)
  {
    if |a| > 0 {
      StrLtIrreflexive(a[1..]);
    }
  }

  lemma {:induction false} StrLtTransitive(a: string, b: string, c: string)
    requires StrLt(a, b) && StrLt(b, c)
    ensures StrLt(a, c)
    decreases |a|
  {
    if |a| > 0 && a[0] == b[0] && b[0] == c[0] {
      StrLtTransitive(a[1..], b[1..], c[1..]);
    }
  }

  lemma {:induction false} StrLtTotal(a: string, b: string)
    ensures a == b || StrLt(a, b) || StrLt(b, a)
    decreases |a|
  {
    if |a| > 0 && |b| > 0 && a[0] == b[0] {
      StrLtTotal(a[1..], b[1..]);
      if a[1..] == b[1..] {
        assert a == [a[0]] + a[1..] && b == [b[0]] + b[1..];
      }
    }
  }

  lemma {:induction false} StrLtAsymmetric(a: string, b: string)
    requires StrLt(a, b)
    ensures !StrLt(b, a)
    decreases |a|
  {
    if |a| > 0 && a[0] == b[0] {
      StrLtAsymmetric(a[1..], b[1..]);
    }
  }
}

=== FILE: tfidf.dfy ===
/**
 Document frequencies for TF-IDF (lab3, 3.8 `tfidf_reducer1`): every input
 line is `word<TAB>doc_id<TAB>tf<TAB>count`; for each run of equal words the
 reducer writes one line per (doc_id, tf) of the run, each carrying the run's
 total count.

 As written, the flush loop `for doc_id, tf_val in docs_tf` reuses the name
 `doc_id` of the line just read, so the next run is seeded with the previous
 run's last document instead of its own. `ReduceLines` models the intended
 reducer; `ReduceRecordsAsWritten` the loop as written.
 */
module Tfidf {
  import opened Wrappers
  import opened Text
  import opened Numbers
  import opened Runs
  import opened Lines

  /** What a line carries besides its word: the document, the term frequency and the count. */
  type Posting = (string, real, int)

  /** One output line: word, document, term frequency, document count of the word. */
  type Out = (string, string, real, int)

  /** `word, doc_id, tf, count = line.strip().split('\t'); float(tf); int(count)`; None where any step raises. */
  function ParseTf(line: string): (r: Option<(string, Posting)>)
    ensures r.Some? <==> |Fields(line)| == 4 && ParseDecimal(Fields(line)[2]).Some? && ParseInt(Fields(line)[3]).Some?
    ensures r.Some? ==>
      var fs := Fields(line);
      r.value == (fs[0], (fs[1], ParseDecimal(fs[2]).value, ParseInt(fs[3]).value))
  {
    var fs := Fields(line);
    if |fs| != 4 then None
    else
      match (ParseDecimal(fs[2]), ParseInt(fs[3]))
      case (Some(tf), Some(count)) => Some((fs[0], (fs[1], tf, count)))
      case _ => None
  }

  /** `doc_count`: the sum of a run's counts. */
  function DocCount(ps: seq<Posting>): int
  {
    Sum(Project(CountOf, ps))
  }

  function CountOf(p: Posting): int { p.2 }

  /** The (doc_id, tf) pairs of a run, in input order. */
  function Docs(ps: seq<Posting>): (ds: seq<(string, real)>)
    ensures |ds| == |ps|
    ensures forall i :: 0 <= i < |ps| ==> ds[i] == (ps[i].0, ps[i].1)
  {
    seq(|ps|, i requires 0 <= i < |ps| => (ps[i].0, ps[i].1))
  }

  /** The lines a run writes: none for the empty word, otherwise one per posting. */
  function Flush(r: Run<string, Posting>): seq<Out>
  {
    if r.key == "" then []
    else
      var n := DocCount(r.values);
      seq(|r.values|, i requires 0 <= i < |r.values| => (r.key, r.values[i].0, r.values[i].1, n))
  }

  function ReduceLines(lines: seq<string>): seq<Out>
  {
    Reduce(lines, ParseTf, Flush)
  }

  /** A run writes o exactly when o names the run's non-empty word, one of its postings, and the run's count total. */
  lemma FlushHas(k: string, ps: seq<Posting>, o: Out)
    ensures o in Flush(Run(k, ps)) <==> k != "" && o.0 == k && (o.1, o.2) in Docs(ps) && o.3 == DocCount(ps)
    ensures k != "" ==> |Flush(Run(k, ps))| == |ps|
  {
    if k != "" && o.0 == k && (o.1, o.2) in Docs(ps) && o.3 == DocCount(ps) {
      var i :| 0 <= i < |ps| && Docs(ps)[i] == (o.1, o.2);
      assert Flush(Run(k, ps))[i] == o;
    }
  }

  /**
   With equal words adjacent, `(w, d, tf, n)` is written exactly when w is a
   non-empty word of the input, (d, tf) is one of its postings and n is the
   sum of its counts.
   */
  lemma Postings(lines: seq<string>, o: Out)
    requires Grouped(Parsed(lines, ParseTf))
    ensures o in ReduceLines(lines) <==>
      var ps := ValuesOf(Parsed(lines, ParseTf), o.0);
      o.0 != "" && (o.1, o.2) in Docs(ps) && o.3 == DocCount(ps)
  {
    var rs := Parsed(lines, ParseTf);
    ReduceGrouped(rs, Flush, o);
    if o in ReduceLines(lines) {
      var k :| k in Keys(rs) && o in Flush(Run(k, ValuesOf(rs, k)));
      FlushHas(k, ValuesOf(rs, k), o);
    }
    FlushHas(o.0, ValuesOf(rs, o.0), o);
    ValuesOfKey(rs, o.0);
  }

  /** Permuting the postings of a run does not change its count total. */
  lemma DocCountPermutation(a: seq<Posting>, b: seq<Posting>)
    requires multiset(a) == multiset(b)
    ensures DocCount(a) == DocCount(b)
  {
    ProjectPermutation(CountOf, a, b);
    SumPermutation(Project(CountOf, a), Project(CountOf, b));
  }

  lemma MalformedLineSkipped(a: seq<string>, line: string, b: seq<string>)
    requires ParseTf(line).None?
    ensures ReduceLines(a + [line] + b) == ReduceLines(a + b)
  {
    SkippedLine(a, line, b, ParseTf, Flush);
  }

  // ---------------------------------------------------------------------------
  // As written
  // ---------------------------------------------------------------------------

  /** The loop variables: `current_word`, `docs_tf`, `doc_count`, and what has been printed. */
  datatype State = State(current: Option<string>, docs: seq<(string, real)>, docCount: int, out: seq<Out>)

  /** What `if current_word:` prints for the open run. */
  function Print(s: State): seq<Out>
  {
    if s.current.Some? && s.current.value != "" then
      seq(|s.docs|, i requires 0 <= i < |s.docs| => (s.current.value, s.docs[i].0, s.docs[i].1, s.docCount))
    else []
  }

  /**
   One parsed line. On a word change the flush loop runs only for a non-empty
   open word, and leaves `doc_id` bound to the last document it printed; the
   new run is seeded with that document.
   */
  function StepAsWritten(s: State, r: (string, Posting)): State
  {
    var (word, (doc, tf, count)) := r;
    if s.current == Some(word) then
      s.(docs := s.docs + [(doc, tf)], docCount := s.docCount + count)
    else
      var printed := Print(s);
      var seed := if |printed| > 0 then s.docs[|s.docs| - 1].0 else doc;
      State(Some(word), [(seed, tf)], count, s.out + printed)
  }

  function RunAsWritten(rs: seq<(string, Posting)>): State
  {
    if |rs| == 0 then State(None, [], 0, [])
    else StepAsWritten(RunAsWritten(rs[..|rs| - 1]), rs[|rs| - 1])
  }

  /** The reducer as written: the loop, then the final `if current_word:` flush. */
  function ReduceRecordsAsWritten(rs: seq<(string, Posting)>): seq<Out>
  {
    var s := RunAsWritten(rs);
    s.out + Print(s)
  }

  /** The two records of the lines `w1 d1 0.5 1` and `w2 d2 0.3 1`. */
  function ExampleRecords(): seq<(string, Posting)>
  {
    [("w1", ("d1", 0.5, 1)), ("w2", ("d2", 0.3, 1))]
  }

  /** As written, the second word of the example is reported for document d1. */
  lemma ShadowedDocCounterexample()
    ensures ReduceRecordsAsWritten(ExampleRecords()) == [("w1", "d1", 0.5, 1), ("w2", "d1", 0.3, 1)]
  {
    var rs := ExampleRecords();
    var s0 := State(None, [], 0, []);
    assert rs[..1][..0] == [];
    assert RunAsWritten(rs[..1]) == StepAsWritten(s0, rs[0]);
    var s1 := State(Some("w1"), [("d1", 0.5)], 1, []);
    assert StepAsWritten(s0, rs[0]) == s1;
    assert Print(s1) == [("w1", "d1", 0.5, 1)];
    var s2 := State(Some("w2"), [("d1", 0.3)], 1, [("w1", "d1", 0.5, 1)]);
    assert RunAsWritten(rs) == StepAsWritten(s1, rs[1]) == s2;
    assert Print(s2) == [("w2", "d1", 0.3, 1)];
  }

  /** The intended reducer reports the second word for its own document d2. */
  lemma ShadowedDocCorrected()
    ensures FlatEmit(GroupRuns(ExampleRecords()), Flush) == [("w1", "d1", 0.5, 1), ("w2", "d2", 0.3, 1)]
  {
    TwoWords("w1", ("d1", 0.5, 1), "w2", ("d2", 0.3, 1));
  }

  /** Two records of different non-empty words are each reported with their own posting. */
  lemma TwoWords(w1: string, p1: Posting, w2: string, p2: Posting)
    requires w1 != w2 && w1 != "" && w2 != ""
    ensures FlatEmit(GroupRuns([(w1, p1), (w2, p2)]), Flush) == [(w1, p1.0, p1.1, p1.2), (w2, p2.0, p2.1, p2.2)]
  {
    var rs := [(w1, p1), (w2, p2)];
    var g1 := [Run(w1, [p1])];
    assert GroupRuns(rs[..1]) == g1 by {
      assert rs[..1][..0] == [];
    }
    var g := g1 + [Run(w2, [p2])];
    assert GroupRuns(rs) == g by {
      assert rs[..|rs| - 1] == rs[..1] && rs[|rs| - 1] == (w2, p2);
    }
    assert FlatEmit(g1, Flush) == [(w1, p1.0, p1.1, p1.2)] by {
      assert g1[..0] == [];
      SingleFlush(w1, p1);
    }
    assert FlatEmit(g, Flush) == FlatEmit(g1, Flush) + Flush(Run(w2, [p2])) by {
      assert g[..|g| - 1] == g1 && g[|g| - 1] == Run(w2, [p2]);
    }
    SingleFlush(w2, p2);
  }

  lemma SingleFlush(w: string, p: Posting)
    requires w != ""
    ensures Flush(Run(w, [p])) == [(w, p.0, p.1, p.2)]
  {
    assert Project(CountOf, [p]) == [p.2];
    assert Sum([p.2]) == p.2 by {
      assert [p.2][..0] == [];
    }
  }
}

=== FILE: word_count.dfy ===
/**
 Word count with file processing (lab3, part 1). The mapper splits every line
 on whitespace, lower-cases each word and deletes every non-word character,
 and emits `word<TAB>1` for each non-empty result. The reducer does not rely
 on the shuffle order: it adds every count into a `defaultdict(int)` and at
 end of input writes the words in ascending order with their totals.
 */
module WordCount {
  import opened Wrappers
  import opened Text
  import opened Numbers
  import opened Runs
  import opened Lines
  import opened Dicts

  // ---------------------------------------------------------------------------
  // Mapper
  // ---------------------------------------------------------------------------

  /** `clean_word`: lower-case, then delete every character that is not a word character. */
  function CleanWord(word: string): (r: string)
    ensures |r| <= |word|
    ensures forall i :: 0 <= i < |r| ==> IsWordChar(r[i]) && !IsUpper(r[i])
  {
    KeepCharsLower(word, IsWordChar);
    KeepChars(Lower(word), IsWordChar)
  }

  /** Cleaning a cleaned word changes nothing. */
  lemma CleanWordIdempotent(word: string)
    ensures CleanWord(CleanWord(word)) == CleanWord(word)
  {
    var r := CleanWord(word);
    assert Lower(r) == r;
    KeepCharsIdempotent(Lower(word), IsWordChar);
  }

  /**
   Cleaning works character by character: the cleaning of joined text is the
   joined cleanings, and one character is kept, lower-cased, iff it is a word
   character. Together these fix every character of the result and its place.
   */
  lemma CleanWordConcat(a: string, b: string)
    ensures CleanWord(a + b) == CleanWord(a) + CleanWord(b)
  {
    LowerConcat(a, b);
    KeepCharsConcat(Lower(a), Lower(b), IsWordChar);
  }

  lemma CleanWordOne(c: char)
    ensures CleanWord([c]) == if IsWordChar(LowerChar(c)) then [LowerChar(c)] else ""
  {
    assert Lower([c]) == [LowerChar(c)];
    KeepCharsOne(LowerChar(c), IsWordChar);
  }

  /** A word of lower-case word characters is its own cleaning. */
  lemma CleanWordKeepsClean(word: string)
    requires forall i :: 0 <= i < |word| ==> IsWordChar(word[i]) && !IsUpper(word[i])
    ensures CleanWord(word) == word
  {
    LowerNoUpper(word);
    KeepCharsAll(word, IsWordChar);
  }

  /** The cleaned words of a line's words, dropping those that clean to nothing. */
  function CleanWords(words: seq<string>): (out: seq<string>)
    ensures |out| <= |words|
  {
    if |words| == 0 then []
    else
      var c := CleanWord(words[|words| - 1]);
      CleanWords(words[..|words| - 1]) + (if c != "" then [c] else [])
  }

  /** The words a line contributes, each emitted with count 1. */
  function MapLine(line: string): seq<string>
  {
    CleanWords(Words(Strip(line)))
  }

  /** Every emitted word is non-empty, lower-case, made of word characters only, and cleans to itself. */
  lemma {:induction false} CleanWordsClean(words: seq<string>)
    ensures forall i :: 0 <= i < |CleanWords(words)| ==>
      CleanWords(words)[i] != "" && CleanWord(CleanWords(words)[i]) == CleanWords(words)[i]
    decreases |words|
  {
    if |words| > 0 {
      CleanWordsClean(words[..|words| - 1]);
      CleanWordIdempotent(words[|words| - 1]);
    }
  }

  /** Words that are already clean pass through unchanged and in order. */
  lemma {:induction false} CleanWordsOfClean(words: seq<string>)
    requires forall i :: 0 <= i < |words| ==> words[i] != "" && CleanWord(words[i]) == words[i]
    ensures CleanWords(words) == words
    decreases |words|
  {
    if |words| > 0 {
      CleanWordsOfClean(words[..|words| - 1]);
      assert words[..|words| - 1] + [words[|words| - 1]] == words;
    }
  }

  // ---------------------------------------------------------------------------
  // Reducer
  // ---------------------------------------------------------------------------

  /**
   `word, count = line.split('\t')` on the stripped line, with `int(count)`
   where it parses; None where the unpacking raises.
   */
  function ParseEntry(line: string): (r: Option<(string, Option<int>)>)
    ensures r.Some? <==> TwoFields(line).Some?
    ensures r.Some? ==> r.value == (TwoFields(line).value.0, ParseInt(TwoFields(line).value.1))
  {
    match TwoFields(line)
    case None => None
    case Some((word, count)) => Some((word, ParseInt(count)))
  }

  /** A line the intended reducer adds in: two fields and an integer count. */
  function ParseWordCount(line: string): (r: Option<(string, int)>)
    ensures r.Some? <==> ParseEntry(line).Some? && ParseEntry(line).value.1.Some?
    ensures r.Some? ==> r.value == (ParseEntry(line).value.0, ParseEntry(line).value.1.value)
  {
    match ParseEntry(line)
    case Some((word, Some(n))) => Some((word, n))
    case _ => None
  }

  /** The records of the entries whose count parsed. */
  function Counted(es: seq<(string, Option<int>)>): seq<(string, int)>
  {
    if |es| == 0 then []
    else
      var e := es[|es| - 1];
      Counted(es[..|es| - 1]) + (if e.1.Some? then [(e.0, e.1.value)] else [])
  }

  lemma {:induction false} ParsedCounted(lines: seq<string>)
    ensures Parsed(lines, ParseWordCount) == Counted(Parsed(lines, ParseEntry))
    decreases |lines|
  {
    if |lines| > 0 {
      var p := lines[..|lines| - 1];
      ParsedCounted(p);
      var es := Parsed(p, ParseEntry);
      var e := ParseEntry(lines[|lines| - 1]);
      if e.Some? {
        var es' := es + [e.value];
        assert Parsed(lines, ParseEntry) == es';
        assert es'[..|es|] == es;
        assert Counted(es') == Counted(es) + (if e.value.1.Some? then [(e.value.0, e.value.1.value)] else []);
      } else {
        assert Parsed(lines, ParseEntry) == es;
      }
    }
  }

  /** `word_counts[word]` of a `defaultdict(int)`. */
  function Get(d: Dict<string, int>, word: string): int
  {
    Lookup(d, word).GetOr(0)
  }

  /** `word_counts[word] += n` when n parsed. */
  function Add(d: Dict<string, int>, word: string, n: int): Dict<string, int>
  {
    Put(d, word, Get(d, word) + n)
  }

  /** The dictionary after the intended loop over the well-formed records. */
  function Tally(rs: seq<(string, int)>): Dict<string, int>
  {
    if |rs| == 0 then [] else Add(Tally(rs[..|rs| - 1]), rs[|rs| - 1].0, rs[|rs| - 1].1)
  }

  /**
   The tally holds exactly the words of the records, each with the sum of its
   counts, and never the same word twice.
   */
  lemma {:induction false} TallySums(rs: seq<(string, int)>, word: string)
    ensures UniqueKeys(Tally(rs))
    ensures Lookup(Tally(rs), word).Some? <==> |ValuesOf(rs, word)| > 0
    ensures Get(Tally(rs), word) == Sum(ValuesOf(rs, word))
    decreases |rs|
  {
    if |rs| > 0 {
      var p, x := rs[..|rs| - 1], rs[|rs| - 1];
      TallySums(p, word);
      var d := Tally(p);
      assert Tally(rs) == Put(d, x.0, Get(d, x.0) + x.1);
      LookupPut(d, x.0, Get(d, x.0) + x.1, word);
      PutUnique(d, x.0, Get(d, x.0) + x.1);
      var vs := ValuesOf(p, word);
      if x.0 == word {
        assert ValuesOf(rs, word) == vs + [x.1];
        assert (vs + [x.1])[..|vs|] == vs;
        assert Sum(vs + [x.1]) == Sum(vs) + x.1;
      } else {
        assert ValuesOf(rs, word) == vs;
      }
    }
  }

  // ---------------------------------------------------------------------------
  // Sorted output
  // ---------------------------------------------------------------------------

  /** Entries in strictly ascending word order. */
  predicate SortedByWord(d: Dict<string, int>)
  {
    forall i, j :: 0 <= i < j < |d| ==> StrLt(d[i].0, d[j].0)
  }

  function InsertByWord(e: (string, int), d: Dict<string, int>): (r: Dict<string, int>)
    requires SortedByWord(d)
    requires forall i :: 0 <= i < |d| ==> d[i].0 != e.0
    ensures SortedByWord(r)
    ensures |r| == |d| + 1
    ensures forall x :: x in r <==> x == e || x in d
  {
    if |d| == 0 || StrLt(e.0, d[0].0) then
      forall i | 0 < i < |d| ensures StrLt(e.0, d[i].0) {
        StrLtTransitive(e.0, d[0].0, d[i].0);
      }
      [e] + d
    else
      StrLtTotal(e.0, d[0].0);
      var t := InsertByWord(e, d[1..]);
      assert forall x :: x in d <==> x == d[0] || x in d[1..];
      forall j | 0 <= j < |t| ensures StrLt(d[0].0, t[j].0) {
        if t[j] != e {
          assert t[j] in t;
          assert t[j] in d[1..];
          var k :| 0 <= k < |d[1..]| && d[1..][k] == t[j];
          assert d[k + 1] == t[j];
        }
      }
      [d[0]] + t
  }

  /** `sorted(word_counts.keys())`, each with its count. */
  function SortByWord(d: Dict<string, int>): (r: Dict<string, int>)
    requires UniqueKeys(d)
    ensures SortedByWord(r)
    ensures |r| == |d|
    ensures forall x :: x in r <==> x in d
  {
    if |d| == 0 then []
    else
      var t := SortByWord(d[1..]);
      assert forall x :: x in d <==> x == d[0] || x in d[1..];
      assert forall i :: 0 <= i < |t| ==> t[i].0 != d[0].0 by {
        forall i | 0 <= i < |t| ensures t[i].0 != d[0].0 {
          assert t[i] in d[1..];
        }
      }
      InsertByWord(d[0], t)
  }

  /** The reducer's output with the intended step. */
  function ReduceLines(lines: seq<string>): (out: Dict<string, int>)
    ensures SortedByWord(out)
  {
    TallySums(Parsed(lines, ParseWordCount), "");
    SortByWord(Tally(Parsed(lines, ParseWordCount)))
  }

  /**
   `(word, n)` is written exactly when word occurs in a well-formed input line
   and n is the sum of its counts; the output is in ascending word order.
   */
  lemma Counts(lines: seq<string>, word: string, n: int)
    ensures (word, n) in ReduceLines(lines) <==>
      word in Keys(Parsed(lines, ParseWordCount)) && n == Sum(ValuesOf(Parsed(lines, ParseWordCount), word))
  {
    var rs := Parsed(lines, ParseWordCount);
    var d := Tally(rs);
    TallySums(rs, word);
    ValuesOfKey(rs, word);
    LookupEntry(d, word, n);
  }

  // ---------------------------------------------------------------------------
  // As written
  // ---------------------------------------------------------------------------

  /**
   The step as written: `word_counts[word] += int(count)` reads
   `word_counts[word]` before `int(count)` runs, and the read of a missing key
   stores 0 for it. When the count does not parse the ValueError is caught,
   but the word stays in the dictionary with 0.
   */
  function StepAsWritten(d: Dict<string, int>, e: (string, Option<int>)): Dict<string, int>
  {
    var d' := Put(d, e.0, Get(d, e.0));
    if e.1.Some? then Add(d', e.0, e.1.value) else d'
  }

  function TallyAsWritten(es: seq<(string, Option<int>)>): Dict<string, int>
  {
    if |es| == 0 then [] else StepAsWritten(TallyAsWritten(es[..|es| - 1]), es[|es| - 1])
  }

  function ReduceLinesAsWritten(lines: seq<string>): (out: Dict<string, int>)
    ensures SortedByWord(out)
  {
    TallyAsWrittenUnique(Parsed(lines, ParseEntry));
    SortByWord(TallyAsWritten(Parsed(lines, ParseEntry)))
  }

  lemma {:induction false} TallyAsWrittenUnique(es: seq<(string, Option<int>)>)
    ensures UniqueKeys(TallyAsWritten(es))
    decreases |es|
  {
    if |es| > 0 {
      var d, e := TallyAsWritten(es[..|es| - 1]), es[|es| - 1];
      TallyAsWrittenUnique(es[..|es| - 1]);
      PutUnique(d, e.0, Get(d, e.0));
      var d' := Put(d, e.0, Get(d, e.0));
      PutUnique(d', e.0, Get(d', e.0) + e.1.GetOr(0));
    }
  }

  /**
   As written and as intended agree on every word's count; the only
   difference is the extra words, counted 0, that occur only on lines with a
   malformed count.
   */
  lemma {:induction false} AsWrittenAgrees(es: seq<(string, Option<int>)>, word: string)
    ensures Get(TallyAsWritten(es), word) == Get(Tally(Counted(es)), word)
    ensures Lookup(Tally(Counted(es)), word).Some? ==> Lookup(TallyAsWritten(es), word).Some?
    decreases |es|
  {
    if |es| > 0 {
      var p, e := es[..|es| - 1], es[|es| - 1];
      AsWrittenAgrees(p, word);
      AsWrittenAgrees(p, e.0);
      var a, d := TallyAsWritten(p), Tally(Counted(p));
      assert TallyAsWritten(es) == StepAsWritten(a, e);
      if e.1.Some? {
        var c := Counted(p) + [(e.0, e.1.value)];
        assert Counted(es) == c;
        assert c[..|c| - 1] == Counted(p);
        assert Tally(Counted(es)) == Add(d, e.0, e.1.value);
      } else {
        assert Counted(es) == Counted(p);
      }
      StepAgrees(a, d, e, word);
    }
  }

  /** One step of each keeps the two tallies in agreement on a word. */
  lemma StepAgrees(a: Dict<string, int>, d: Dict<string, int>, e: (string, Option<int>), word: string)
    requires Get(a, word) == Get(d, word) && Get(a, e.0) == Get(d, e.0)
    requires Lookup(d, word).Some? ==> Lookup(a, word).Some?
    ensures var d' := if e.1.Some? then Add(d, e.0, e.1.value) else d;
      Get(StepAsWritten(a, e), word) == Get(d', word) &&
      (Lookup(d', word).Some? ==> Lookup(StepAsWritten(a, e), word).Some?)
  {
    LookupPut(a, e.0, Get(a, e.0), word);
    var a' := Put(a, e.0, Get(a, e.0));
    if e.1.Some? {
      var n := e.1.value;
      LookupPut(a, e.0, Get(a, e.0), e.0);
      LookupPut(a', e.0, Get(a', e.0) + n, word);
      LookupPut(d, e.0, Get(d, e.0) + n, word);
    }
  }

  /** A printed word/count line parses back to the word and `int()` of the count. */
  lemma EntryOfTabLine(w: string, c: string)
    requires Printable(w, c) && '\t' !in w && '\t' !in c
    ensures ParseEntry(TabLine(w, c)) == Some((w, ParseInt(c)))
  {
    TwoFieldsRoundTrip(w, c);
  }

  /**
   A line whose word is fine but whose count `int()` rejects: as written the
   word is printed with 0, while the intended reducer prints nothing.
   */
  lemma MalformedCountLine(w: string, c: string)
    requires Printable(w, c) && '\t' !in w && '\t' !in c
    requires ParseInt(c).None?
    ensures ReduceLinesAsWritten([TabLine(w, c)]) == [(w, 0)]
    ensures ReduceLines([TabLine(w, c)]) == []
  {
    var line := TabLine(w, c);
    var es: seq<(string, Option<int>)> := [(w, None)];
    assert Parsed([line], ParseEntry) == es by {
      EntryOfTabLine(w, c);
      assert [line][..0] == [];
    }
    assert TallyAsWritten(es) == [(w, 0)] by {
      assert es[..0] == [];
      assert TallyAsWritten(es) == StepAsWritten([], (w, None));
    }
    var r := SortByWord([(w, 0)]);
    assert r == [(w, 0)] by {
      assert |r| == 1 && r[0] in [(w, 0)];
    }
    assert Parsed([line], ParseWordCount) == [] by {
      ParsedCounted([line]);
      assert es[..0] == [];
      assert Counted(es) == [];
    }
  }

  /** On the line `hello<TAB>abc` the reducer as written prints `hello 0`; the intended reducer prints nothing. */
  lemma MalformedCountCounterexample()
    ensures ReduceLinesAsWritten([TabLine("hello", "abc")]) == [("hello", 0)]
    ensures ReduceLines([TabLine("hello", "abc")]) == []
  {
    HelloAbc();
    MalformedCountLine("hello", "abc");
  }

  lemma HelloAbc()
    ensures Printable("hello", "abc") && '\t' !in "hello" && '\t' !in "abc"
    ensures ParseInt("abc") == None
  {
    StripNoSpace("abc");
  }
}

=== FILE: wrappers.dfy ===
/** Partial results: a line that does not parse, a lookup that misses. */
module Wrappers {

  datatype Option<+T> = None | Some(value: T) {

    /** The carried value, or the given default when there is none (Python's `x if x is not None else d`). */
    function GetOr(default: T): T
    {
      match this
      case Some(v) => v
      case None => default
    }
  }

  /** The present values of xs, in order. */
  function Somes<T>(xs: seq<Option<T>>): (ys: seq<T>)
    ensures |ys| <= |xs|
  {
    if |xs| == 0 then []
    else Somes(xs[..|xs| - 1]) + (match xs[|xs| - 1] case Some(y) => [y] case None => [])
  }

  /** y is kept exactly when some entry of xs carries it. */
  lemma {:induction false} SomesHas<T>(xs: seq<Option<T>>, y: T)
    ensures y in Somes(xs) <==> exists i :: 0 <= i < |xs| && xs[i] == Some(y)
    decreases |xs|
  {
    if |xs| > 0 {
      var p := xs[..|xs| - 1];
      SomesHas(p, y);
      assert forall i :: 0 <= i < |p| ==> p[i] == xs[i];
    }
  }

  /** Only absent entries give nothing. */
  lemma {:induction false} SomesNone<T>(xs: seq<Option<T>>)
    requires forall i :: 0 <= i < |xs| ==> xs[i].None?
    ensures Somes(xs) == []
    decreases |xs|
  {
    if |xs| > 0 {
      SomesNone(xs[..|xs| - 1]);
    }
  }
}
